=== FILE: README.md ===
# A verified model of the Bottled AI core

Bottled AI is a Slay the Spire bot. This project is a Dafny model of the parts of it that decide things and remember them. The model is pure: every effect is a value.

- **The cache layer.** The per-type configuration with its load/store toggles, share groups and TTL overrides. The storage algorithm every cache type shares: entry paths, plain and zip-compressed variants, and load, store, invalidate, exists, is_valid and clear. The registry of cache types. The concrete types for agents, LLM queries, diffs, the Git API, web results, decompilation output and IDA databases.
- **The file helpers those caches go through.** The allowed-directory guard, guarded removal, clearing, renaming and copying, file validity by age, and identifier formatting. Locked reads and writes of text, JSON, JSON Lines and zipped JSON.
- **The LLM advice pipeline.** The command validator, the base advisor agent (parse, then normalise), the orchestrator (retries, token budget, confidence gate, validation, telemetry) and the decision-telemetry row. The three LLM providers, the event advisor and its built-in rules, and the llm_utils helpers (token limits, truncation, response parsing, the batched `ask_llm_multi`).
- **Game-side helpers.** The game-state queries, the common grid-select handler, the card-reward context builder and the general helpers of `common_utils`.
- **Configuration and installation.** The `.env` and YAML configuration loader, and the installer that writes CommunicationMod's `config.properties`.

The modelling conventions are these:

- The file system is a map from paths (sequences of components) to nodes.
- The operating system appears as a parameter. It resolves paths (symbolic links, `..`) and names the paths it refuses to delete or write.
- Foreign functions appear as one uninterpreted record, `JsonValues.Ffi`: SHA-256, `json.dumps`/`json.loads`, `str()` and the canonical JSON of the hash helpers. Where a proof needs them, their laws are stated as the predicate `JsonValues.Lawful`.
- Python exceptions that the code does not catch are `Failure`/`None` results.
- Clocks, file ages, the language model, the cache lookups and the tokenizer are inputs.

## Model

| member | source | states |
|---|---|---|
| CacheConfig.Default | rs/cache/config.py:27-40 | a fresh configuration has profile "default", the current directory and no toggles, sharing settings or TTL overrides |
| CacheConfig.Normalize | rs/cache/config.py:232-233 | the normalised cache type keeps its length and contains no '-' and no upper-case letter |
| CacheConfig.NormalizeIdempotent | rs/cache/config.py:232-233 | normalising an already normalised type id changes nothing |
| CacheConfig.ShareKey | rs/cache/config.py:63-84 | a type listed in the share-key table is looked up under its group's key; any other type under its own normalised id |
| CacheConfig.TogglesAreLookups | rs/cache/config.py:222-261 | load and store are enabled unless the normalised id is configured false, and the deprecated combined toggle holds exactly when both do |
| CacheConfig.DefaultsToEnabled | rs/cache/config.py:222-246 | with nothing configured, every cache type may be loaded and stored |
| CacheConfig.IsShared | rs/cache/config.py:263-276 | the sharing flag is the configured value under the type's share key, else the caller's default |
| CacheConfig.GetTtl | rs/cache/config.py:278-290 | a TTL override for the normalised id (even None) wins; otherwise the default is returned |
| CacheConfig.LookupsIgnoreSpelling | rs/cache/config.py:232-289 | two spellings that normalise alike get the same load, store, sharing and TTL answers |
| CacheConfig.ShareGroupsAgree | rs/cache/config.py:63-84 | types mapped to one share key agree on sharing under every configuration |
| CacheConfig.GetCacheDir | rs/cache/config.py:292-307 | the cache directory is the dataset directory's child when shared, and that child's profile subdirectory when isolated |
| CacheConfig.ProfilesIsolated | rs/cache/config.py:292-307 | two profiles get one directory for a shared cache and different directories for an isolated one |
| CacheConfig.GetBoolean | rs/cache/config.py:111-113 | a boolean option is true exactly for 1/yes/true/on and false exactly for 0/no/false/off, case-insensitively; any other word raises |
| CacheConfig.SectionToggles | rs/cache/config.py:109-113 | a section's toggles exist exactly when every value is a boolean word, with the same options and the parsed values |
| CacheConfig.LoadSection | rs/cache/config.py:107 | load toggles come from [LoadCacheOptions] when it exists, else from the legacy [CacheOptions] |
| CacheConfig.FromConfigParser | rs/cache/config.py:87-137 | the parsed configuration keeps the profile, takes its load, store and sharing toggles from their sections, and has the current directory when no dataset directory is given |
| CacheConfig.LegacyLoadSection | rs/cache/config.py:107-113 | without [LoadCacheOptions], the legacy [CacheOptions] section supplies the load toggles |
| CacheConfig.Toggles | rs/cache/config.py:198-213 | an options object gives one toggle per key with Python truthiness of its value; a non-dict gives none |
| CacheConfig.FromRsConfig | rs/cache/config.py:189-220 | the profile defaults to "default" and the dataset directory to "."; the three toggle maps come from the application's options; there are no TTL overrides |
| CacheBase.WithDefaults | rs/cache/base.py:68-72 | a cache type that overrides nothing has a 21-day TTL, is shared by default, uses ".json" and no compression |
| CacheBase.RootDir | rs/cache/base.py:150-159 | the base-directory override wins over the type's own base directory |
| CacheBase.CacheDir | rs/cache/base.py:150-161 | the cache directory lies under the root and gains the profile segment exactly when the type is profile-isolated |
| CacheBase.CanonicalPath | rs/cache/base.py:163-183 | the canonical entry path is the key plus the file extension under the cache directory, whatever the compression setting |
| CacheBase.CompressedPath | rs/cache/base.py:185-187 | the compressed companion is a sibling whose name is the canonical name plus ".zip", and neither path contains the other |
| CacheBase.ResolveVariant | rs/cache/base.py:189-207 | the resolved path is None exactly when neither variant is a file; otherwise it is an existing variant, the compressed one first |
| CacheBase.EffectiveTtl | rs/cache/base.py:233 | an explicit age limit (zero included) wins over the type's default TTL |
| CacheBase.Load | rs/cache/base.py:209-253 | a load returns nothing when loading is disabled or no variant exists; a returned value comes from a variant that passes the TTL check, whose non-null content the deserialiser accepted |
| CacheBase.LoadNeedsValidEntry | rs/cache/base.py:209-253 | a load succeeds only for an entry that is_valid and exists, and for an enabled valid entry it returns what the resolved variant deserialises to (see also lines 384-411) |
| CacheBase.Stale | rs/cache/base.py:294-308 | the variant a store cleans up is the one of the two it does not write |
| CacheBase.WriteVariant | rs/cache/base.py:296-306 | a write succeeds exactly when the target is writable, and then leaves a fresh file there and changes nothing else |
| CacheBase.Cleanup | rs/cache/base.py:297-306 | cleaning up only removes nodes under both the stale variant and the dataset directory |
| CacheBase.StoreNew | rs/cache/base.py:288-311 | a store succeeds exactly when serialisation succeeds and the target is writable, returns the target, and removes nothing outside the stale variant |
| CacheBase.Store | rs/cache/base.py:255-311 | a disabled store changes nothing; with override off an existing variant is returned untouched; a failed store changes nothing |
| CacheBase.Invalidate | rs/cache/base.py:313-337 | invalidating a missing entry succeeds and changes nothing; otherwise only nodes under the two variants and the dataset directory are removed |
| CacheBase.RemoveVariantsResult | rs/cache/base.py:330-337 | for variants none of which lies inside another, the cleanup reports success exactly when every variant it tried to remove lay in the allowed directory and is gone afterwards |
| CacheBase.IsEntryValid | rs/cache/base.py:384-411 | a valid entry exists, and an existing entry with no TTL is always valid |
| CacheBase.StoreLeavesOneVariant | rs/cache/base.py:288-308 | after a successful store only the written variant is left, and resolution picks it |
| CacheBase.StoredReadsBack | rs/cache/base.py:244-248 | the variant a store writes reads back as the serialised data (see also lines 294-308) |
| CacheBase.StoreThenLoad | rs/cache/base.py:209-311 | store then load gives back the type's deserialisation of the serialised data, for either compression setting |
| CacheBase.StoreKeepsExisting | rs/cache/base.py:284-287 | with override off an existing entry is neither rewritten nor replaced, and its path is returned |
| CacheBase.InvalidateRemovesEntry | rs/cache/base.py:313-337 | when both variants can be removed, invalidate reports success, no variant is left, and a later load misses |
| CacheBase.InvalidateResult | rs/cache/base.py:330-337 | invalidate returns true exactly when each variant that was a file lay in the dataset directory and is gone afterwards |
| CacheBase.InvalidateFailsOnUndeletable | rs/cache/base.py:331-336 | a variant file the system refuses to delete makes invalidate return false |
| CacheBase.ClearPass | rs/cache/base.py:357-365 | one glob pass counts at most one removal per matched name and removes only under the matched entries and the dataset directory |
| CacheBase.ClearPassRemovesAll | rs/cache/base.py:357-365 | without an age limit every removable matched entry goes and each counts once |
| CacheBase.ClearPassKeepsValid | rs/cache/base.py:359-362 | with an age limit an entry that passes the TTL check is kept unchanged |
| CacheBase.ClearPassRemovesExpired | rs/cache/base.py:359-365 | with an age limit a removable matched entry that fails the TTL check is gone |
| CacheBase.Matching | rs/cache/base.py:358 | the glob "*"+ext matches exactly the listed names ending in ext |
| CacheBase.Clear | rs/cache/base.py:339-366 | the listing names every entry of the cache directory once; clearing a missing directory removes nothing and returns 0; otherwise at most two removals per entry, all under the dataset directory |
| CacheBase.TwoPasses | rs/cache/base.py:356-366 | the two extension passes together count at most two removals per listed name and stay under the allowed directory |
| CacheBase.ClearFirstPass | rs/cache/base.py:357-365 | the first pass removes every entry ending in the extension and leaves every other listed entry |
| CacheBase.TwoPassesRemoveAll | rs/cache/base.py:356-366 | both passes without an age remove every entry ending in ext or ext+".zip", each counted once |
| CacheBase.ClearRemovesAll | rs/cache/base.py:339-366 | clear without an age leaves no entry of the cache directory ending in the extension or the extension plus ".zip", when each entry can be removed, and returns their number |
| CacheBase.ClearKeepsValid | rs/cache/base.py:339-366 | clear with an age keeps every entry that passes the TTL check, when no link redirects a removal |
| CacheBase.ClearRemovesExpired | rs/cache/base.py:339-366 | clear with an age removes every removable entry of the cache directory that matches a pattern and fails the TTL check |
| CacheBase.TwoPassesRemoveExpired | rs/cache/base.py:356-366 | either extension pass removes a removable expired entry that it matches |
| FileUtils.IsPathAllowed | rs/utils/file_utils.py:28-52 | a target is allowed exactly when some allowed entry admits it: a directory by containment, anything else by equality |
| FileUtils.SafeRemove | rs/utils/file_utils.py:55-100 | a target outside the resolved allowed directory is refused and nothing changes; success means nothing is left at the resolved path; only nodes under both the target and the allowed directory are removed; a missing target succeeds unchanged; an undeletable one fails unchanged |
| FileUtils.SafeRemoveIdempotent | rs/utils/file_utils.py:83-97 | removing again what a successful removal removed succeeds and changes nothing |
| FileUtils.SafeRemoveRemovable | rs/utils/file_utils.py:55-100 | a removable target is gone afterwards and the removal reports success |
| FileUtils.ShrinkPreserves | rs/utils/file_utils.py:55-100 | removals never create a path or a valid file, and never make a removable target unremovable |
| FileUtils.SafeClearDir | rs/utils/file_utils.py:103-132 | a cleared directory exists afterwards with nothing beneath it; a non-directory is refused unchanged; nothing outside the directory changes |
| FileUtils.MoveDir | rs/utils/file_utils.py:173 | moving a missing source fails unchanged; a directory moved onto itself stays as it is and the move succeeds; moving onto an existing directory relocates the source to a child named after it |
| FileUtils.SafeCopy | rs/utils/file_utils.py:181-235 | a copy succeeds only when both ends lie in the allowed directory, is refused when the destination exists without override, leaves everything outside the destination as it was, and on success into a fresh destination every node under the source is found at the same relative place under it |
| FileUtils.CopyStep | rs/utils/file_utils.py:220-231 | a successful copy reproduces a file at the target, or a tree under the destination; a file copy into a missing directory fails unchanged; a tree copy to a fresh destination outside the source succeeds; nothing outside the destination changes |
| FileUtils.SafeCopyReplaces | rs/utils/file_utils.py:209-231 | with override, a successful copy over an existing removable destination beside the source leaves the source's contents at the destination |
| FileUtils.SafeRenameDirAsWritten | rs/utils/file_utils.py:135-178 | as written, the rename succeeds only inside the allowed directory, and refuses a non-directory source and an existing destination without override |
| FileUtils.RenameOverrideNestsSource | rs/utils/file_utils.py:164-173 | as written, renaming with override onto an existing directory puts the source inside the destination instead of in its place |
| FileUtils.RenameOntoItselfEmpties | rs/utils/file_utils.py:164-173 | as written, renaming a removable directory onto itself with override reports success and leaves it empty |
| FileUtils.SafeRenameDir | rs/utils/file_utils.py:135-178 | the corrected rename has the same refusals, and on success every node under the source reappears at the same relative place under the destination |
| FileUtils.RenameOntoItselfKeeps | rs/utils/file_utils.py:164-173 | the corrected rename of a directory onto itself changes nothing, and succeeds exactly when override is set |
| FileUtils.IsFileValid | rs/utils/file_utils.py:238-273 | a valid file exists; with no limit every file is valid; with a limit a file is valid exactly when its age is at most the limit |
| FileUtils.ValidityMonotone | rs/utils/file_utils.py:262-270 | a longer limit, or none, never rejects a file a shorter limit accepts |
| FileUtils.FormatId | rs/utils/file_utils.py:276-293 | the loop writes one character per input character, and every output character is a letter, a digit, '-' or '#' |
| FileUtils.FormatIdIdempotent | rs/utils/file_utils.py:276-293 | formatting an already formatted identifier changes nothing |
| FileLock.DefaultSerializer | rs/utils/file_lock_utils.py:93-100 | with no serializer given, dicts and lists are written with json.dumps, strings as they are, and anything else with str() |
| FileLock.ReadText | rs/utils/file_lock_utils.py:43-70 | a read gives text exactly when the path is a text file, and then gives its content |
| FileLock.ExistingData | rs/utils/file_lock_utils.py:113-127 | for a custom serializer the merge sees the raw file text; with no file there is nothing to merge |
| FileLock.WriteWithLock | rs/utils/file_lock_utils.py:73-148 | a write is atomic: on failure nothing changes; on success only the target changes and it holds a fresh text file, which without a merge is the serialised data; a target that is refused, is a directory or lies below a file fails unchanged |
| FileLock.JsonWriteReadRoundTrip | rs/utils/file_lock_utils.py:151-183 | what write_json_with_lock writes, read_json_with_lock reads back unchanged |
| FileLock.JsonMergeSeesRawText | rs/utils/file_lock_utils.py:116-125 | write_json_with_lock's lambda serializer is neither a bound method nor json.dumps, so its merge function receives the raw file text (see also lines 181-182) |
| FileLock.DumpAll | rs/utils/file_lock_utils.py:205-215 | the JSONL writer dumps each item separately, in order |
| FileLock.ParseDumped | rs/utils/file_lock_utils.py:186-202 | parsing the dumped lines gives the items back |
| FileLock.JsonlRoundTrip | rs/utils/file_lock_utils.py:186-215 | deserialising serialised JSONL gives the original items |
| FileLock.JsonlAppendLosesOldLines | rs/utils/file_lock_utils.py:116-129 | as written, an append merge on a JSONL file gets the raw text, fails, and the file ends up holding only the new items (see also lines 231-248) |
| FileLock.JsonlAppendKeepsOldLines | rs/utils/file_lock_utils.py:231-248 | with the existing lines parsed before merging, an append keeps the old items in front of the new ones |
| FileLock.ZipMemberName | rs/utils/file_lock_utils.py:284-287 | the zip member is named after the archive's stem and always ends in ".json" |
| FileLock.WriteJsonAsZip | rs/utils/file_lock_utils.py:275-311 | a zip write succeeds exactly when the target is writable (not refused, not a directory, not below a file), and then replaces only the target by an archive with one member holding the indented JSON |
| FileLock.ReadJsonFromZip | rs/utils/file_lock_utils.py:251-272 | a zip read gives a value only from a file that is an archive with at least one member |
| FileLock.ZipRoundTrip | rs/utils/file_lock_utils.py:251-311 | what is written as a zip reads back unchanged |
| FileLock.CacheMemberName | rs/utils/file_lock_utils.py:284-287 | a cache entry "key.json.zip" stores its JSON as member "key.json" |
| CacheRegistry.Keys | rs/cache/registry.py:131-138 | the registered ids are listed one per binding, in insertion order |
| CacheRegistry.Lookup | rs/cache/registry.py:118-125 | looking up an id finds nothing exactly when the id was never registered |
| CacheRegistry.LookupFinds | rs/cache/registry.py:93 | with distinct ids, looking up an id finds the class bound to it (see also line 125) |
| CacheRegistry.Put | rs/cache/registry.py:93 | assigning a new id appends it to the key order; rebinding an existing id keeps the order |
| CacheRegistry.PutLookup | rs/cache/registry.py:93 | after binding, the id gives the new class, every other id what it gave before, and ids stay distinct |
| CacheRegistry.Fresh | rs/cache/registry.py:46-50 | at import time the registry is uninitialised and has no registered types |
| CacheRegistry.Initialize | rs/cache/registry.py:58-79 | initialising sets the configuration, marks the registry initialised and drops every built instance while keeping the registrations |
| CacheRegistry.Register | rs/cache/registry.py:82-94 | registering binds the id to the class, leaves every other binding, appends a new id to the type list, and keeps built instances, configuration and initialisation |
| CacheRegistry.Get | rs/cache/registry.py:97-128 | get raises when uninitialised and for an unregistered id; a built instance is returned as is; otherwise a new instance of the registered class is built with the current configuration and memoised |
| CacheRegistry.Clear | rs/cache/registry.py:161-168 | clearing drops the built instances and keeps registrations, configuration and initialisation |
| CacheRegistry.Reset | rs/cache/registry.py:171-182 | resetting leaves an uninitialised registry with no types, no configuration and no instances |
| CacheRegistry.RegisterAll | rs/cache/registry.py:219-239 | registering the built-in list keeps instances and configuration and does not touch ids outside the list |
| CacheRegistry.AutoRegister | rs/cache/registry.py:185-245 | when an import fails, auto-registration registers nothing at all |
| CacheRegistry.GetMemoises | rs/cache/registry.py:118-128 | a second get of the same id returns the same instance and changes nothing |
| CacheRegistry.InitializeRebuilds | rs/cache/registry.py:73-75 | after initialize a registered id is served by a new instance of its class built with the new configuration (see also lines 118-128) |
| CacheRegistry.RegisterKeepsInstance | rs/cache/registry.py:93 | rebinding an id keeps serving the already built instance until the registry is cleared, after which the new class is used (see also lines 118-128, lines 161-168) |
| CacheRegistry.ResetForgets | rs/cache/registry.py:113-116 | after reset every get raises, and after re-initialising nothing is registered (see also lines 171-182) |
| CacheRegistry.RegisterAllBindsEach | rs/cache/registry.py:219-239 | registering pairs with distinct ids binds each id to its own class |
| CacheRegistry.RegisterAllOrder | rs/cache/registry.py:131-138 | registering new ids lists them after the existing ones, in the order given (see also lines 219-239) |
| CacheRegistry.ModelledBuiltinIdsDistinct | rs/cache/registry.py:219-239 | the built-in types whose classes are modelled have distinct ids, so none replaces another |
| AgentCaches.PrefixedKey | rs/cache/types/agent.py:73-77 | a task-state key always starts with the agent's prefix; it is the id itself exactly when the id already carries the prefix, and the prefixed id otherwise (see also lines 140-144, lines 173-177) |
| AgentCaches.PrefixedKeyIdempotent | rs/cache/types/agent.py:73-77 | keying an already derived key changes nothing |
| AgentCaches.PrefixAbsorbed | rs/cache/types/agent.py:73-77 | an id and the same id with the prefix written out share one entry |
| AgentCaches.PrefixedKeyCollisions | rs/cache/types/agent.py:73-77 | two different ids share a key exactly when one is the other with the prefix added |
| AgentCaches.AgentDirsDisjoint | rs/cache/types/agent.py:33-34 | the five agent caches live in directories none of which contains another (see also lines 70-71, lines 100-101, lines 137-138, lines 170-171) |
| AgentCaches.AgentEntriesPerProfile | rs/cache/types/agent.py:29-31 | an agent cache with no sharing configured keeps its entries under the profile's own directory, and they never expire (see also lines 66-68) |
| AgentCaches.TaskStateRoundTrip | rs/cache/types/agent.py:73-85 | a task state stored under an agent id loads back unchanged through the prefixed key |
| AgentCaches.CheckResultRoundTrip | rs/cache/types/agent.py:36-52 | a check result stored as a dictionary loads back unchanged |
| LlmCache.ToolNames | rs/cache/types/llm.py:73-78 | tool names are collected only from tools that carry one, so there are never more names than tools |
| LlmCache.Key | rs/cache/types/llm.py:37-92 | a non-empty namespace is the key's leading path segment |
| LlmCache.ToolNamesAppend | rs/cache/types/llm.py:73-78 | the names of two tool lists together are the names of each, in order |
| LlmCache.ToolNamesPermute | rs/cache/types/llm.py:73-78 | reordering the tools reorders their names and nothing else |
| LlmCache.ToolOrderIrrelevant | rs/cache/types/llm.py:71-82 | tool lists holding the same tools in any order give the same cache key, because the names are sorted |
| LlmCache.EmptyToolsHashedApart | rs/cache/types/llm.py:69-82 | an empty tool list adds "##" to the hashed input, so it is keyed apart from passing no tools |
| LlmCache.NamespaceIsSubdirectory | rs/cache/types/llm.py:84-92 | a namespaced entry is stored under a subdirectory named after the namespace, an un-namespaced one directly in the cache directory |
| LlmCache.Serialize | rs/cache/types/llm.py:94-129 | every response serialises to a dictionary |
| LlmCache.Deserialize | rs/cache/types/llm.py:131-174 | deserialising always gives a value, and a non-dictionary or an untagged dictionary is returned unchanged |
| LlmCache.SerializeRoundTrip | rs/cache/types/llm.py:94-174 | messages, untagged dictionaries and strings survive a round trip; pydantic models come back as their dumped dictionary, and other objects as their text |
| LlmCache.DictResponseRoundTrip | rs/cache/types/llm.py:121-122 | an untagged dictionary response stored in the cache loads back unchanged (see also line 174) |
| LlmCache.MessageRoundTrip | rs/cache/types/llm.py:104-110 | a chat message stored in the cache loads back as the same message (see also lines 143-150) |
| DiffCaches.OutOfFuncKeyInputs | rs/cache/types/diff.py:71-86 | the key depends on the prompt only through its hash, and a change without path attributes is keyed like one with empty paths |
| DiffCaches.ChangeRoundTrip | rs/cache/types/diff.py:38-50 | a change stored as a dictionary in either diff cache loads back unchanged (see also lines 88-100) |
| DiffCaches.ChangeEntriesExpire | rs/cache/types/diff.py:27-29 | with no explicit age limit, a diff entry older than 21 days is neither loaded nor valid (see also lines 64-66) |
| GitApiCache.KeyNormalises | rs/cache/types/git_api.py:39-54 | URLs equal up to surrounding whitespace, with parameters equal after defaulting, give one key |
| GitApiCache.LoadResponse | rs/cache/types/git_api.py:105-133 | a response is only returned when the underlying load finds an entry |
| GitApiCache.MetadataRoundTrip | rs/cache/types/git_api.py:72-133 | a response stored with metadata is loaded back unchanged, under the same request or any equivalent spelling of it |
| WebCache.Serialize | rs/cache/types/web.py:38-57 | every web handler result serialises to a dictionary |
| WebCache.SerializeRoundTrip | rs/cache/types/web.py:38-77 | a validating TryHandleResult and a string survive a round trip; any other non-dictionary comes back as its text |
| WebCache.ResultRoundTrip | rs/cache/types/web.py:27-77 | a TryHandleResult stored under a URL's hash loads back as the same result |
| DecompileCaches.DecompileResult | rs/cache/types/decompile.py:35-40 | decompilation results never expire, are shared, and are stored uncompressed as JSON |
| DecompileCaches.SplitFirst | rs/cache/types/decompile.py:60-67 | a key splits exactly when it holds a slash, into a slash-free head and the rest, which rejoin to the key |
| DecompileCaches.DecompilePathIsCanonical | rs/cache/types/decompile.py:52-67 | the overriding path names the same file as the shared canonical path, for keys with and without a slash |
| DecompileCaches.CanonicalAtSlash | rs/cache/types/decompile.py:60-64 | a key with a slash names a file inside the subdirectory named by the part before the slash |
| DecompileCaches.ResultInDecompileDir | rs/cache/types/decompile.py:42-50 | every result of an agent and project lies in that pair's decompile directory, named after the binary with "_result" (see also lines 83-94) |
| DecompileCaches.KeyJoinsWithoutSeparator | rs/cache/types/decompile.py:49-50 | agent and project ids are concatenated before hashing, so ("ab","c") and ("a","bc") share a key |
| DecompileCaches.DecompileResultRoundTrip | rs/cache/types/decompile.py:69-81 | a stored decompilation record is written at the overriding path and loads back unchanged |
| DecompileCaches.ToDict | rs/cache/types/decompile.py:126-128 | only a domain record has a dictionary form |
| DecompileCaches.IdaIndex | rs/cache/types/decompile.py:109-114 | IDA indexes never expire, are shared and are stored uncompressed as JSON |
| DecompileCaches.IdaIndexRoundTrip | rs/cache/types/decompile.py:116-133 | an index record stored under a binary hash loads back unchanged; any other value is not stored and the file system is untouched |
| DecompileCaches.IdaDatabase | rs/cache/types/decompile.py:151-160 | IDA databases never expire, are shared, use ".i64" as the canonical name and are compressed by default |
| DecompileCaches.Variant | rs/cache/types/decompile.py:186-189 | a variant sits beside the canonical path and is named by its stem plus the extension |
| DecompileCaches.Variants | rs/cache/types/decompile.py:157 | there is one variant per database extension, in the lookup order (see also lines 186-189) |
| DecompileCaches.VariantsSideBySide | rs/cache/types/decompile.py:186-189 | one variant lies on or above another only when the extensions are equal |
| DecompileCaches.FirstFile | rs/cache/types/decompile.py:188-192 | the index found is a file and every earlier one is not; none is found exactly when no path is a file |
| DecompileCaches.IdaResolve | rs/cache/types/decompile.py:180-192 | the resolved path is an existing variant; none exactly when no variant exists; ".i64" wins, then ".i64.zip" |
| DecompileCaches.IdaLoad | rs/cache/types/decompile.py:194-221 | a load gives nothing when disabled, and otherwise the resolved variant exactly when it passes the TTL check |
| DecompileCaches.SourceExt | rs/cache/types/decompile.py:263-266 | a stored database keeps the source's lower-cased ".i64" or ".idb" extension and falls back to the canonical one |
| DecompileCaches.ZipFile | rs/cache/types/decompile.py:276-279 | zipping succeeds exactly when the archive is writable, then holds the source under its own name; nothing else changes |
| DecompileCaches.Transfer | rs/cache/types/decompile.py:287-290 | a copy or move places the source's file at the destination and changes nothing else, removing only the moved source |
| CacheBase.RemoveVariants | rs/cache/types/decompile.py:280-284 | the stale-variant cleanup removes only under the dataset directory and only files of other variants (see also lines 291-294) |
| CacheBase.RemoveVariantsClears | rs/cache/types/decompile.py:280-284 | when every stale variant may be removed, the cleanup succeeds and leaves no variant but the kept one |
| DecompileCaches.ZipInto | rs/cache/types/decompile.py:273-285 | the archiving branch fails untouched on an unwritable destination, returns only the destination, and removes only under the dataset directory or the moved source |
| DecompileCaches.TransferInto | rs/cache/types/decompile.py:286-295 | the copying branch leaves the file system untouched on failure and returns only the destination |
| DecompileCaches.IdaStore | rs/cache/types/decompile.py:223-301 | a store does nothing when disabled, returns an existing variant when override is off, and otherwise writes only the variant for the source's extension |
| DecompileCaches.ZippedIsVariant | rs/cache/types/decompile.py:157 | the compressed destination is one of the looked-up variants (see also lines 273-276) |
| DecompileCaches.IdaDestIsVariant | rs/cache/types/decompile.py:263-276 | every store destination is one of the looked-up variants (see also line 287) |
| DecompileCaches.ZipIntoLeavesDest | rs/cache/types/decompile.py:273-284 | after a successful archive only the destination variant remains |
| DecompileCaches.IdaStoreThenLoad | rs/cache/types/decompile.py:194-301 | a database stored with override (or into an empty entry) is what the next load returns |
| DecompileCaches.OnlyVariantResolves | rs/cache/types/decompile.py:180-192 | when one variant alone exists, it is the one resolved |
| DecompileCaches.IdaInvalidate | rs/cache/types/decompile.py:303-316 | invalidating an absent entry succeeds untouched, and removal stays under the dataset directory |
| DecompileCaches.IdaInvalidateRemovesAll | rs/cache/types/decompile.py:303-316 | when every variant may be removed, invalidation succeeds and the next load misses |
| DecompileCaches.IdaInvalidateResult | rs/cache/types/decompile.py:303-316 | invalidate returns true exactly when each of the four variants that was a file lay in the dataset directory and is gone afterwards |
| DecompileCaches.IdaInvalidateFailsOnUndeletable | rs/cache/types/decompile.py:310-316 | a variant file the system refuses to delete makes invalidate return false |
| DecompileCaches.Passes | rs/cache/types/decompile.py:324-333 | the clearing passes count at most one removal per pattern and entry, and remove only under the dataset directory |
| DecompileCaches.IdaClear | rs/cache/types/decompile.py:318-334 | the listing names every entry of the cache directory once; clearing a missing directory removes nothing; at most four removals per entry, all under the dataset directory |
| DecompileCaches.PassesRemoveAll | rs/cache/types/decompile.py:324-333 | with no age limit every entry matching a pattern is gone afterwards |
| DecompileCaches.IdaClearRemovesAll | rs/cache/types/decompile.py:318-334 | with no age limit no entry of the cache directory ending in a database extension is left, when each entry can be removed |
| DecompileCaches.Into | rs/cache/types/decompile.py:287-290 | a copied or moved file lands at or below the destination |
| DecompileCaches.VariantsSideBySideAll | rs/cache/types/decompile.py:186-189 | no variant of an entry lies above another, so removing stale variants never touches the one just written (see also lines 280-284) |
| CommandValidator.Required | rs/llm/validator.py:136-140 | "return" is offered by "leave" or "cancel", "proceed" by "proceed" or "confirm", every other name by itself |
| CommandValidator.ValidateChoose | rs/llm/validator.py:18-40 | bad syntax exactly for other than one argument; out of range exactly for an integer outside the choice list; not found exactly for a label not in it |
| CommandValidator.ValidateWait | rs/llm/validator.py:43-56 | a wait is valid exactly for one non-negative integer argument, and is otherwise bad syntax |
| CommandValidator.ValidatePlay | rs/llm/validator.py:59-87 | a play is valid exactly when it has one or two integer arguments, an integer hand size that is not positive or bounds the card index, and, with a target, an integer living monster count that is not positive or exceeds the target; a non-integer bound raises |
| CommandValidator.ValidatePotion | rs/llm/validator.py:90-115 | a potion command is valid exactly when it is use or discard with an integer slot, an optional integer target, and an integer slot count that is not positive or exceeds the slot; a non-integer bound raises |
| CommandValidator.KindOf | rs/llm/validator.py:144-161 | a name is bare exactly when it is one of the seven argument-free commands, and unknown exactly when it is none of those and none of choose, wait, play, potion |
| CommandValidator.Tokens | rs/llm/validator.py:128-134 | a command splits into no words exactly when it is blank |
| CommandValidator.ValidateCommand | rs/llm/validator.py:118-161 | the empty-command code is given exactly for a blank command |
| CommandValidator.ValidateTokens | rs/llm/validator.py:140-161 | "not available" is given exactly when no alias of the name is offered, and is checked before syntax |
| CommandValidator.TokensOfCommand | rs/llm/validator.py:128-134 | words joined by spaces split back into the same words |
| CommandValidator.IntWordValue | rs/llm/validator.py:32-33 | a written integer is an integer string whose value is that integer |
| CommandValidator.ValidateWords | rs/llm/validator.py:118-161 | validating a command built from words is validating those words |
| CommandValidator.AvailabilityFirst | rs/llm/validator.py:140-142 | a command whose name is not offered is rejected as not available, whatever its arguments |
| CommandValidator.Aliases | rs/llm/validator.py:136-141 | availability of "return" and "proceed" is decided by their aliases, of any other name by itself |
| CommandValidator.BareCommand | rs/llm/validator.py:144-147 | an offered argument-free command is accepted exactly when it has no arguments, and is otherwise bad syntax |
| CommandValidator.ChooseIndex | rs/llm/validator.py:32-36 | "choose i" is accepted exactly when i indexes the choice list |
| CommandValidator.ChooseLabel | rs/llm/validator.py:38-40 | "choose w" for a non-integer w is accepted exactly when w is one of the choices |
| CommandValidator.WaitDuration | rs/llm/validator.py:52-56 | "wait n" is accepted exactly when n is non-negative |
| CommandValidator.PlayCard | rs/llm/validator.py:74-77 | "play c" is accepted exactly when the hand size is not positive or c lies between 0 and the hand size inclusive |
| CommandValidator.PlayTarget | rs/llm/validator.py:79-85 | "play c t" with no hand size is accepted exactly when the living monster count is not positive or t is below it |
| CommandValidator.PotionSlot | rs/llm/validator.py:107-110 | "potion use/discard i" is accepted exactly when the slot count is not positive or i is below it |
| CommandValidator.PlayAcceptedExactly | rs/llm/validator.py:118-161 | an offered "play" command is accepted exactly when its arguments are a valid play |
| CommandValidator.PotionAcceptedExactly | rs/llm/validator.py:118-161 | an offered "potion" command is accepted exactly when its arguments are a valid potion use |
| CommandValidator.UnknownName | rs/llm/validator.py:161 | an offered name that no rule knows is rejected as unknown, naming the command |
| AdvisorAgent.NewAgent | rs/llm/agents/base_agent.py:64-67 | a new agent keeps its name and timeout and has no tools |
| AdvisorAgent.RegisterTool | rs/llm/agents/base_agent.py:69-89 | a registered tool is present under its name; every other tool and the agent's name and timeout are unchanged |
| AdvisorAgent.CallTool | rs/llm/agents/base_agent.py:91-104 | a call fails exactly when the tool is not registered, with the source's message, and otherwise returns what the tool's run gives |
| AdvisorAgent.RegisterReplaces | rs/llm/agents/base_agent.py:69-78 | registering a name twice keeps only the second tool, and calls reach it (see also lines 91-104) |
| AdvisorAgent.ListOf | rs/llm/agents/base_agent.py:144 | `list()` keeps a list's items and turns a string into its characters |
| AdvisorAgent.ParseDecision | rs/llm/agents/base_agent.py:131-147 | parsing succeeds exactly when every field converts; the explanation and the fallback flag are the converted raw values |
| AdvisorAgent.ParseRaw | rs/llm/agents/base_agent.py:131-147 | a decision written out as a raw dictionary parses back to itself |
| AdvisorAgent.ParseDefaults | rs/llm/agents/base_agent.py:140-147 | an empty raw output parses to no command, confidence 0, empty explanation, no tools, no fallback, no metadata |
| AdvisorAgent.Normalize | rs/llm/agents/base_agent.py:149-171 | the confidence is clamped into [0, 1]; no command records "empty_command" and recommends fallback; otherwise normalising fails exactly when validation raises |
| AdvisorAgent.NormalizeRecords | rs/llm/agents/base_agent.py:166-171 | the validation code is recorded; an invalid command adds its message and recommends fallback, a valid one keeps the flag |
| AdvisorAgent.NormalizeIdempotent | rs/llm/agents/base_agent.py:149-171 | normalising a normalised decision changes nothing |
| AdvisorAgent.Decide | rs/llm/agents/base_agent.py:106-117 | a decision has its confidence in [0, 1] and a validation code; a proposed command is either accepted by the validator or flagged for fallback |
| AdvisorAgent.UnavailableFallsBack | rs/llm/agents/base_agent.py:106-117 | a command the game does not offer gives a decision that recommends fallback with "command_not_available" (see also rs/llm/validator.py:140-142) |
| Orchestrator.RegisterAgent | rs/llm/orchestrator.py:29-50 | a registered advisor is present under its handler; every other handler and the configuration are unchanged |
| Orchestrator.Fallback | rs/llm/orchestrator.py:52-59 | a fallback proposes nothing, has confidence 0, recommends fallback and records exactly the handler and the reason |
| Orchestrator.Retry | rs/llm/orchestrator.py:91-109 | the attempts stop at the first answer, every earlier attempt failed, and when all fail the last failure's fallback is kept after the full count |
| Orchestrator.Attempts | rs/llm/orchestrator.py:89-109 | with a negative retry count no attempt is made and the "uninitialized" fallback stays; otherwise between one and retries+1 attempts are made |
| Orchestrator.AllFailed | rs/llm/orchestrator.py:91-107 | when every attempt fails, all retries+1 are made and the result is a fallback recording "timeout" or "agent_error" by the last failure |
| Orchestrator.AllFailedFrom | rs/llm/orchestrator.py:96-107 | from any attempt on, failures all the way give the fallback of the last failure |
| Orchestrator.FirstAnswerWins | rs/llm/orchestrator.py:92-95 | the first answered attempt is the decision, after exactly that many calls |
| Orchestrator.Gate | rs/llm/orchestrator.py:111-137 | an over-budget answer becomes a "token_budget_exceeded" fallback recording the total; a low-confidence one a "low_confidence" fallback recording its confidence; a confident answer with no command or an accepted one is returned unchanged, a rejected command becomes a fallback recording the validator's code and message, and a raising validator makes the gate raise; any proposed command that survives is accepted by the validator |
| Orchestrator.GateAsWritten | rs/llm/orchestrator.py:111-137 | as written: the same budget fallback with its total and the same validator step (unchanged pass, code and message on rejection, raising with the validator), while the low-confidence fallback records 0.0; a changed decision is always a fallback with no command |
| Orchestrator.LowConfidenceRecordsZero | rs/llm/orchestrator.py:121-127 | as written, a low-confidence answer always records confidence 0.0 |
| Orchestrator.LowConfidenceExample | rs/llm/orchestrator.py:121-127 | an answer of confidence 0.3 under threshold 0.4 records 0.0 as written and 0.3 when corrected |
| Orchestrator.GatesAgree | rs/llm/orchestrator.py:111-137 | the written and corrected gates succeed together, give the same decision apart from metadata, the same metadata keys, and the same value under every key other than "confidence" |
| Orchestrator.Decide | rs/llm/orchestrator.py:70-147 | as written: no advisor is consulted exactly when the handler is disabled or has none; when the attempts end in an answer that is within budget, confident, and has an accepted command or none, that answer is what is returned (without telemetry, exactly `Advised(answer, None)`); any command returned is accepted by the validator; telemetry is logged only when enabled and the write succeeds |
| Orchestrator.Logged | rs/llm/orchestrator.py:139-147 | a raising advisor pipeline raises; a returned decision is the gated one; a row is logged only when enabled and the write succeeds |
| Orchestrator.DecideIntended | rs/llm/orchestrator.py:70-147 | with the corrected gate: the same guarantees as the written pipeline, including that a good answer is returned unchanged |
| Orchestrator.DecideAgreesWithIntended | rs/llm/orchestrator.py:111-137 | without telemetry, the written and corrected pipelines give the same kind of outcome, the same decision apart from metadata, the same metadata keys, and the same value under every key other than "confidence" |
| Orchestrator.GoodAnswerReturned | rs/llm/orchestrator.py:88-137 | when the advisor answers at attempt k after k failures, within budget, confidently and with an accepted command or none, both pipelines return exactly that answer (telemetry off) |
| Orchestrator.LoggedRowDescribesDecision | rs/llm/orchestrator.py:139-145 | a logged row records the returned decision's command, confidence and fallback flag, the handler, the latency, the timestamp and the validation code |
| Orchestrator.WriteErrorsSwallowed | rs/llm/orchestrator.py:139-145 | a failing telemetry write changes nothing but the log |
| Orchestrator.ExplodingAdvisor | rs/llm/orchestrator.py:102-107 | an advisor that always raises gives an "agent_error" fallback with no command |
| LlmProviders.ValidateSchema | rs/llm/providers/event_llm_provider.py:25-28 | a validated dictionary keeps its string explanation (empty by default), and a command that is neither a string nor null fails validation (see also lines 63-67) |
| LlmProviders.CleanCommand | rs/llm/providers/event_llm_provider.py:77-81 | a cleaned command is the trimmed command, and is none exactly when the command was none or blank |
| LlmProviders.Propose | rs/llm/providers/event_llm_provider.py:42-102 | a proposal's confidence is in [0, 1] and its command trimmed and non-empty; a failed import gives "llm_utils_unavailable", a non-schema answer "llm_non_schema_response", and a schema answer its clamped fields with the provider's default explanation when empty (see also rs/llm/providers/card_reward_llm_provider.py:37-93, rs/llm/providers/shop_purchase_llm_provider.py:37-93) |
| LlmProviders.ProposeIdempotent | rs/llm/providers/event_llm_provider.py:77-102 | answering with the schema a proposal stands for gives the same proposal back |
| LlmProviders.CleanAnswerKept | rs/llm/providers/event_llm_provider.py:77-90 | a trimmed command, an in-range confidence and a non-empty explanation pass through unchanged |
| LlmProviders.DictAnswer | rs/llm/providers/event_llm_provider.py:63-67 | a well-typed dictionary answer is read exactly like the schema it validates into |
| LlmProviders.BlankAnswer | rs/llm/providers/event_llm_provider.py:78-81 | a blank command becomes none and an empty explanation the provider's default (see also line 90) |
| LlmProviders.EventProposeAsWritten | rs/llm/providers/event_llm_provider.py:54-61 | as written, once the import succeeds the event provider's call raises on the extra keyword; when the import fails it answers "llm_utils_unavailable" as before (see also rs/utils/llm_utils.py:298-303) |
| LlmProviders.EventKeywordRaises | rs/llm/providers/event_llm_provider.py:54-61 | for a clean answer the corrected provider proposes the model's command while the provider as written raises |
| EventAdvisor.Proposed | rs/llm/agents/event_advisor_agent.py:36-67 | a model command is taken with the model's confidence and explanation, the model tool and no fallback; otherwise the rule's answer is used, at 0.65 when it has a command and 0 with fallback when not |
| EventAdvisor.EventDecide | rs/llm/agents/event_advisor_agent.py:36-67 | the advisor's turn fails exactly when the rules raise, and otherwise is the base pipeline's normalisation of its raw answer (see also rs/llm/agents/base_agent.py:106-117) |
| EventAdvisor.LlmCommandWins | rs/llm/agents/event_advisor_agent.py:37-51 | a model command the validator accepts is the answer whatever the rules say, with clamped confidence, the model tool and no fallback |
| EventAdvisor.NoDecisionFallsBack | rs/llm/agents/event_advisor_agent.py:53-67 | with neither a model command nor a rule, the answer recommends fallback at zero confidence with "no_rule_match" |
| EventAdvisor.ProviderMetadataWins | rs/llm/agents/event_advisor_agent.py:43 | every metadata key the provider sets overrides the advisor's own (see also line 59) |
| EventAdvisor.EventTurnAsWritten | rs/llm/agents/event_advisor_agent.py:36-37 | as written, with the helper module importable every turn raises; without it the turn is the corrected one (see also rs/llm/providers/event_llm_provider.py:54-61) |
| EventAdvisor.RulesReachedOnlyWhenCorrected | rs/llm/agents/event_advisor_agent.py:53-67 | with no usable model answer and no matching rule, the corrected turn recommends fallback while the written turn raises (see also rs/llm/providers/event_llm_provider.py:54-61) |
| EventAdvisor.LoweredChoices | rs/llm/agents/event_advisor_agent.py:83 | the lowered choices are the choice labels one for one, lower-cased |
| EventAdvisor.HpPercent | rs/llm/agents/event_advisor_agent.py:88 | a non-positive maximum reads as zero health |
| EventAdvisor.ClericChoice | rs/llm/agents/event_advisor_agent.py:85-96 | the cleric's answer is one of heal, purify, leave or the first option |
| EventAdvisor.DefaultRule | rs/llm/agents/event_advisor_agent.py:70-101 | the rules answer only on the common event handler for a named event: the cleric by its table, the four first-option events with "choose 0", nothing otherwise; only the cleric's figures can raise |
| EventAdvisor.ClericOrder | rs/llm/agents/event_advisor_agent.py:85-96 | healing at most 65% health beats purifying, which beats leaving at 90% or more, and the first option is taken otherwise |
| EventAdvisor.ClericZeroMaxHeals | rs/llm/agents/event_advisor_agent.py:88-91 | with a non-positive maximum the cleric heals whenever healing is offered |
| EventAdvisor.LabelsCompareLowercased | rs/llm/agents/event_advisor_agent.py:83 | an offered "Heal" label counts as "heal" (see also lines 90-91) |
| EventAdvisor.RulesOnlyForCommonHandler | rs/llm/agents/event_advisor_agent.py:76-81 | a rule answers only on the common event handler and only for a non-empty event name |
| EventAdvisor.HealCommandAccepted | rs/llm/agents/event_advisor_agent.py:90-91 | the validator accepts "choose heal" exactly when "heal" itself is offered (see also rs/llm/validator.py:38-40) |
| EventAdvisor.FirstOptionAccepted | rs/llm/agents/event_advisor_agent.py:96-99 | the validator accepts "choose 0" exactly when there is at least one choice (see also rs/llm/validator.py:32-36) |
| DecisionTelemetry.OptInt | rs/llm/telemetry.py:83 | a missing figure stays missing, and a present one converts exactly when `int()` accepts it |
| DecisionTelemetry.OptReal | rs/llm/telemetry.py:82 | a missing cost stays missing, and a present one converts exactly when the number reading accepts it: numbers, booleans and decimal strings |
| DecisionTelemetry.BuildTelemetry | rs/llm/telemetry.py:51-87 | a row is built exactly when the token and cost figures convert; its metadata is the decision's less the three popped keys, and its validation result the recorded code or "ok" |
| DecisionTelemetry.ValidationErrorKept | rs/llm/telemetry.py:66-70 | a recorded validation code appears both as the row's result and in its metadata |
| DecisionTelemetry.RowRecordsDecision | rs/llm/telemetry.py:51-87 | with well-formed figures a row is always built; it records the decision's command, confidence, tools and fallback flag, and the popped figures put back into its metadata give the decision's metadata |
| DecisionTelemetry.DecimalCostRead | rs/llm/telemetry.py:82 | a cost written as the string "0.85" is read as 0.85 |
| LlmUtils.TokenLimit | rs/utils/llm_utils.py:28-31 | the two listed models get the large window and every other model the default (see also lines 88-97) |
| LlmUtils.OpenRouterKey | rs/utils/llm_utils.py:45 | the OpenRouter key is used when set, else the OpenAI key |
| LlmUtils.CompletionKwargs | rs/utils/llm_utils.py:38-47 | the request carries the model and temperature, and an endpoint and key exactly for an OpenRouter model; nothing else |
| LlmUtils.EffectiveTemperature | rs/utils/llm_utils.py:327-329 | the listed models are always sent temperature 1.0, every other model the caller's |
| LlmUtils.SliceTo | rs/utils/llm_utils.py:158 | a slice to k keeps the first k items, and a negative k counts from the end |
| LlmUtils.TruncateMessage | rs/utils/llm_utils.py:126-163 | a message within budget is kept with the unused tokens left over; a longer one is cut to exactly the budget, leaving nothing over |
| LlmUtils.TruncateFits | rs/utils/llm_utils.py:126-163 | with a tokenizer that reads its own output back, a truncated message fits its budget and truncating again changes nothing |
| LlmUtils.ExtractContent | rs/utils/llm_utils.py:224-242 | a non-dictionary or a response without choices has no content; extraction raises only on a malformed choice list |
| LlmUtils.Coerce | rs/utils/llm_utils.py:245-275 | for a model an instance is kept and a dictionary is kept exactly when it validates; for a dictionary type only dictionaries come back |
| LlmUtils.TotalTokens | rs/utils/llm_utils.py:288 | a missing or falsy total counts as 0, and an integer total is taken as is |
| LlmUtils.ParseResponse | rs/utils/llm_utils.py:278-295 | a non-dictionary response gives nothing and 0 tokens; with no structure the whole dictionary comes back; the token count is the usage's total |
| LlmUtils.ExtractCompletion | rs/utils/llm_utils.py:224-242 | the content of a well-formed completion is what extraction finds |
| LlmUtils.ParseDictCompletion | rs/utils/llm_utils.py:278-295 | a dictionary sent back as JSON text is parsed to that dictionary, with the usage's token count (see also lines 265-275) |
| LlmUtils.ParsedPreferred | rs/utils/llm_utils.py:240-242 | a parsed answer in the message wins over its text content |
| LlmUtils.Pending | rs/utils/llm_utils.py:413-434 | no more prompts are sent than there are messages |
| LlmUtils.Gather | rs/utils/llm_utils.py:413-434 | cache hits fill their slots; exactly the present misses are listed, in increasing slot order, each with its own message |
| LlmUtils.AnswerAll | rs/utils/llm_utils.py:443-462 | one answer per pending prompt, in order, with their token costs summed; the batch succeeds exactly when no prompt raises |
| LlmUtils.Scatter | rs/utils/llm_utils.py:465-468 | each answer lands in the slot its prompt came from, and every other slot is unchanged |
| LlmUtils.AskMulti | rs/utils/llm_utils.py:376-479 | without a key, or when answering a missed prompt raises, every slot is empty at zero cost; otherwise a hole stays empty, a cache hit keeps the cached answer and a miss gets the model's, and only the misses cost tokens |
| GameStateView.HasCommandListed | rs/machine/state.py:49-53 | with a list of offered commands, a command is offered exactly when it is one of them |
| GameStateView.NoListNoCommand | rs/machine/state.py:50-52 | without a list of offered commands, no command is offered |
| GameStateView.StrippedName | rs/machine/state.py:163-164 | a stripped card name holds no '+' |
| GameStateView.DeckById | rs/machine/state.py:150-158 | each lowercased id is counted as often as it occurs in the deck, once per key, adding up to the deck size |
| GameStateView.DeckByStrippedName | rs/machine/state.py:160-169 | each stripped name is counted as often as it occurs in the deck, once per key, adding up to the deck size |
| GameStateView.UpgradedCountsWithBase | rs/machine/state.py:160-169 | an upgraded card and its base card are counted under one name, at least twice |
| GameStateView.UpgradeStripped | rs/machine/state.py:69-73 | every choice label loses its '+' marks, one for one |
| GameStateView.UpgradeStrippedIdempotent | rs/machine/state.py:69-73 | stripping twice is stripping once, and labels without '+' are kept |
| GameStateView.PotionsFull | rs/machine/state.py:108-112 | the potions are full exactly when none is an empty slot |
| GameStateView.HeldPotionNames | rs/machine/state.py:93-98 | the held potion names are the potions' names lower-cased, in order |
| GameStateView.RelicCounter | rs/machine/state.py:84-88 | the counter is that of the first relic with exactly that name, and 0 when none has it |
| GameStateView.CounterImpliesHeld | rs/machine/state.py:78-88 | a relic with a non-zero counter is held |
| GameStateView.CaseMatters | rs/machine/state.py:78-88 | "Pen Nib" is held as "pen nib" while its counter under that name is 0 |
| GameStateView.PlayerOrbs | rs/machine/state.py:183-191 | never more orbs than entries; with no real orb the list is empty; it is produced whenever every real orb's evoke amount converts |
| GameStateView.PlayerOrbsFilterMap | rs/machine/state.py:183-191 | the orbs are listed exactly when every real orb's evoke amount converts, and then they are the real orbs in order, each as its id and converted amount |
| GameStateView.OrbSlots | rs/machine/state.py:193-197 | every orb entry is a slot, so there are never fewer slots than real orbs |
| GameStateView.AfterLose | rs/machine/state.py:202-206 | text follows "Lose" exactly when the text contains it, and is a suffix of the text |
| GameStateView.OptionCard | rs/machine/state.py:213-215 | an option's card name holds no '+' |
| GameStateView.FallingEventOptions | rs/machine/state.py:199-216 | there are never more cards than options, and none holds a '+' |
| GameStateView.FallingEventFilterMap | rs/machine/state.py:199-216 | the cards are, in order, one per enabled option containing "Lose", each the card named after "Lose" in that option |
| GameStateView.FallingEventCount | rs/machine/state.py:208-213 | every enabled option containing "Lose" yields exactly one card, the others none |
| GameStateView.LoseStrike | rs/machine/state.py:199-216 | an enabled "Lose Strike+" gives "strike" and a disabled "Lose Defend" gives nothing |
| GridSelect.CanHandle | rs/common/handlers/common_grid_select_handler.py:18-26 | without an offered choose the handler never applies, and it applies only to a GRID screen of a game state |
| GridSelect.CanHandleGrid | rs/common/handlers/common_grid_select_handler.py:18-26 | on an offered GRID screen with an integer card count, the handler applies exactly when the count is positive |
| GridSelect.FirstPref | rs/common/handlers/common_grid_select_handler.py:42-45 | the position found is a preference the card matches, case-insensitively, and no earlier one matches |
| GridSelect.Hits | rs/common/handlers/common_grid_select_handler.py:42-44 | the table marks a card under a preference exactly when the lower-cased preference occurs in the lower-cased card |
| GridSelect.FirstHit | rs/common/handlers/common_grid_select_handler.py:42-45 | the row found marks the card and no earlier row does |
| GridSelect.Select | rs/common/handlers/common_grid_select_handler.py:43-45 | one preference's pass appends exactly the marked cards not yet ordered, ascending |
| GridSelect.Rest | rs/common/handlers/common_grid_select_handler.py:48-50 | the second pass appends exactly the cards not yet ordered, ascending |
| GridSelect.PrefPassSpec | rs/common/handlers/common_grid_select_handler.py:42-45 | after some preferences the order holds exactly the cards first matched by one of them, sorted by first match and then index |
| GridSelect.OrderOfSpec | rs/common/handlers/common_grid_select_handler.py:41-50 | the whole order holds every card, sorted by first match with unmatched cards last |
| GridSelect.CoversRange | rs/common/handlers/common_grid_select_handler.py:41-50 | an order that holds each card exactly once is as long as the choice list |
| GridSelect.FirstHitIsFirstPref | rs/common/handlers/common_grid_select_handler.py:42-45 | a card's first marking row is its first matching preference |
| GridSelect.OrderSpec | rs/common/handlers/common_grid_select_handler.py:41-50 | the order is a permutation of the card indices, sorted by first matching preference, ties and unmatched cards in screen order |
| GridSelect.ChooseSteps | rs/common/handlers/common_grid_select_handler.py:54-56 | each chosen index becomes a choose command followed by a wait |
| GridSelect.Steps | rs/common/handlers/common_grid_select_handler.py:53-60 | the commands start with a wait, alternate choose and wait, and end with confirm and wait |
| GridSelect.Handle | rs/common/handlers/common_grid_select_handler.py:28-62 | with nothing left to select only wait, confirm, wait; otherwise the first min(left, cards) of the order are chosen, each followed by a wait, between the opening wait and the closing confirm |
| GridSelect.SelectionCounts | rs/common/handlers/common_grid_select_handler.py:30-33 | the counts are read exactly when `num_cards`, if present, is an integer and `selected_cards`, if present, is a list; they are `num_cards` (default 1) and the number of selected cards (default 0) |
| GridSelect.HandleScreen | rs/common/handlers/common_grid_select_handler.py:28-62 | `handle` on a screen state raises exactly when the counts cannot be read; with as many selected as asked only wait, confirm, wait; otherwise min(left, cards) cards are chosen |
| GridSelect.DefaultScreenPicksOne | rs/common/handlers/common_grid_select_handler.py:30-60 | a screen state naming neither count chooses the first card of the order and confirms |
| GridSelect.AllSelectedConfirms | rs/common/handlers/common_grid_select_handler.py:34-38 | once as many cards are selected as asked for, the handler only confirms |
| CardRewardContext.CardKeys | rs/llm/integration/card_reward_context.py:7-20 | each card's key is its trimmed lower-cased name and its upgrade count, one for one |
| CardRewardContext.CardTally | rs/llm/integration/card_reward_context.py:7-20 | each key is counted as often as it occurs in the deck, once per entry, adding up to the deck size |
| CardRewardContext.Entry | rs/llm/integration/card_reward_context.py:13-18 | an entry has exactly the name, upgrade_times and count fields |
| CardRewardContext.CardEntries | rs/llm/integration/card_reward_context.py:7-20 | there is one entry per distinct key, in tally order |
| CardRewardContext.EveryCardCounted | rs/llm/integration/card_reward_context.py:7-20 | every card of the deck is counted under its own key |
| CardRewardContext.EntriesSplitUpgrades | rs/llm/integration/card_reward_context.py:7-20 | a Strike and a Strike+ are two entries but one stripped name counted twice (see also rs/machine/state.py:160-169) |
| CardRewardContext.CountsObject | rs/llm/integration/card_reward_context.py:47 | the counts dictionary holds every tallied name with its count |
| CardRewardContext.CommandTexts | rs/llm/integration/card_reward_context.py:30 | offered commands are listed one for one as text, and none when they are not a list |
| CardRewardContext.RelicNames | rs/llm/integration/card_reward_context.py:46 | the relic names are read exactly when every relic is a dictionary with a name, one for one |
| CardRewardContext.BuildContext | rs/llm/integration/card_reward_context.py:23-51 | a context needs a game state dictionary; it carries the handler, the screen type, the offered commands, floor, gold, act, room phase and hit points, the choice labels one for one, the deck size, the card entries and the relic names one per relic in order |
| CardRewardContext.ReadableBuilds | rs/llm/integration/card_reward_context.py:23-51 | a readable state always builds, and its choices are the game's own labels |
| CardRewardContext.NameCountsMatchSize | rs/llm/integration/card_reward_context.py:44-48 | the name counts and the entries both add up to the deck size, and each name count is that name's occurrences |
| Installer.LastColon | install_bottled_ai.py:8-9 | the index found is a colon with no colon after it; none exactly when there is no colon |
| Installer.ValidateListen | install_bottled_ai.py:7-29 | an accepted endpoint is returned unchanged; a refusal is one of the three messages, and an empty host is refused |
| Installer.LastColonBefore | install_bottled_ai.py:9 | the colon before a colon-free tail is the last one |
| Installer.PortAlone | install_bottled_ai.py:14-29 | a bare port is accepted exactly when it is in 1..65535, and is otherwise refused with the range message |
| Installer.HostAndPort | install_bottled_ai.py:8-29 | host:port with a non-empty host is accepted exactly when the port is in range |
| Installer.EmptyHostRefused | install_bottled_ai.py:10-13 | an endpoint with an empty host is refused before its port is read |
| Installer.BuildCommand | install_bottled_ai.py:140-148 | the command starts with the interpreter and a space and ends with a space and the entry point |
| Installer.CommandWords | install_bottled_ai.py:140-148 | with whitespace-free paths and endpoint, the command splits into exactly the interpreter, the debugpy arguments in debugpy mode (the wait flag exactly when asked for) and the entry point |
| Installer.DefaultPythonPath | install_bottled_ai.py:125-137 | Windows uses the Scripts interpreter and other systems the bin one; it is resolved when present, and the lookup fails exactly when it is absent |
| Installer.PlatformNames | install_bottled_ai.py:126 | only "Windows" of the names the platform reports selects the Scripts interpreter |
| Installer.ReplaceCommands | install_bottled_ai.py:157-162 | every line setting the command is replaced by the new setting and every other line kept, one for one |
| Installer.UpdatedLines | install_bottled_ai.py:151-167 | with a command line present each is replaced; otherwise the command is appended after the existing lines, with a blank line first when the last line is not blank |
| Installer.WriteProperties | install_bottled_ai.py:151-170 | the file text is the updated lines joined by newlines, with a final newline |
| Installer.WrittenLines | install_bottled_ai.py:152-170 | the written file reads back as the updated lines |
| Installer.CommandSet | install_bottled_ai.py:151-170 | after the write the file has a command line and every command line sets the new command |
| Installer.WriteIdempotent | install_bottled_ai.py:151-170 | writing the same command a second time changes nothing |
| Installer.OtherLinesKept | install_bottled_ai.py:161-162 | a line that does not set the command keeps its place and text |
| Installer.Dedupe | install_bottled_ai.py:86-93 | deduplication keeps the same paths, each once, never more than before, with the first path first |
| Installer.DedupeDistinct | install_bottled_ai.py:86-93 | a list without repeats is its own deduplication |
| Installer.DedupeIdempotent | install_bottled_ai.py:86-93 | deduplicating twice is deduplicating once |
| Installer.DefaultRoots | install_bottled_ai.py:72-93 | the macOS and Linux preference folders are always searched; a set LOCALAPPDATA comes first and a set APPDATA is searched |
| Installer.SharedAppDataOnce | install_bottled_ai.py:75-93 | when LOCALAPPDATA and APPDATA name the same folder it is searched once |
| Installer.Candidates | install_bottled_ai.py:98-105 | no roots give no candidates, and every existing direct config file is a candidate |
| Installer.Discover | install_bottled_ai.py:96-122 | nothing is found exactly when there are no candidates; a single answer is what every candidate resolves to; an ambiguity lists more than one distinct path, sorted |
| Installer.SameFileTwice | install_bottled_ai.py:113-122 | candidates that all resolve to one file give that file, not an ambiguity |
| CommonUtils.FormatName | rs/utils/common_utils.py:193-200 | the result holds only identifier characters and never starts with a digit; alphanumerics are kept in place, every other character becomes '_', and a leading digit gains one '_' in front |
| CommonUtils.FormatNameIdempotent | rs/utils/common_utils.py:193-200 | formatting a formatted name changes nothing |
| CommonUtils.LegalNameKept | rs/utils/common_utils.py:193-200 | a legal identifier that does not start with a digit is kept as is |
| CommonUtils.LevSymmetric | rs/utils/common_utils.py:322-327 | the edit distance does not depend on the order of the strings |
| CommonUtils.LevSelf | rs/utils/common_utils.py:322-327 | a string is at distance zero from itself |
| CommonUtils.LevToEmpty | rs/utils/common_utils.py:341-342 | the distance to the empty string is the length, either way round |
| CommonUtils.LevBounds | rs/utils/common_utils.py:322-327 | the distance lies between the difference of the lengths and the longer length |
| CommonUtils.Levenshtein | rs/utils/common_utils.py:322-353 | the row-by-row computation returns the edit distance defined by its recurrence |
| CommonUtils.NextRow | rs/utils/common_utils.py:345-351 | from the distances of one prefix of the longer string to every prefix of the other, the next row holds those of the prefix one longer |
| CommonUtils.LevStep | rs/utils/common_utils.py:347-350 | each cell is the least of an insertion, a deletion and a substitution from its neighbours |
| CommonUtils.ConvertPathsToStr | rs/utils/common_utils.py:106-119 | every path becomes its text and every other item is kept, in order and one for one |
| CommonUtils.ConvertIdempotent | rs/utils/common_utils.py:106-119 | converting twice is converting once |
| CommonUtils.SetEnv | rs/utils/common_utils.py:237-251 | the variable takes the value unless it is set and overriding is off, in which case nothing changes; no other variable changes |
| CommonUtils.FirstValueStays | rs/utils/common_utils.py:250-251 | without overriding, a variable already set keeps its value |
| CommonUtils.LastValueWins | rs/utils/common_utils.py:250-251 | with overriding, the last value set wins |
| UtilsConfig.FirstEquals | rs/utils/config.py:20 | the index found is an '=' with none before it; none exactly when there is no '=' |
| UtilsConfig.CleanValue | rs/utils/config.py:21 | a cleaned value neither starts nor ends with a single quote |
| UtilsConfig.ParseLine | rs/utils/config.py:16-21 | blank lines, comments and lines without '=' set nothing; a setting's key holds no '=' |
| UtilsConfig.StripKeepsOut | rs/utils/config.py:20-21 | trimming adds no character |
| UtilsConfig.Parsed | rs/utils/config.py:16-17 | each line is parsed on its own, in order |
| UtilsConfig.Apply | rs/utils/config.py:15-22 | every key some line sets is present |
| UtilsConfig.LoadDotenv | rs/utils/config.py:11-22 | a missing file sets nothing, and every key a line sets is present |
| UtilsConfig.ApplyKeys | rs/utils/config.py:15-22 | a key is set exactly when some line sets it |
| UtilsConfig.LastLineWins | rs/utils/config.py:21 | a key takes the value of the last line that sets it |
| UtilsConfig.SkippedLinesIgnored | rs/utils/config.py:18-19 | a line that sets nothing changes nothing |
| UtilsConfig.QuotedValue | rs/utils/config.py:14-21 | a line `KEY ="value"` whose key has no whitespace or '=' sets that key, without the space before '=', to the value without its double quotes, for any value not itself ending in a quote |
| UtilsConfig.FirstEqualsAt | rs/utils/config.py:20 | the split is at the '=' with no '=' before it |
| UtilsConfig.LoadCacheOption | rs/utils/config.py:34-35 | a namespace not listed is not read from the cache, a listed one by its value's truth |
| UtilsConfig.StoreCacheOption | rs/utils/config.py:37-38 | a namespace not listed is not written to the cache, a listed one by its value's truth |
| UtilsConfig.ApiKey | rs/utils/config.py:49-50 | a non-empty environment variable wins, then the .env value, then empty |
| UtilsConfig.LoadConfig | rs/utils/config.py:41-63 | the API keys come from ApiKey; without a cache section the defaults apply and loading cannot fail; the model and dataset directory default to gpt-5-mini and dataset |
| UtilsConfig.DefaultCachesLlmQueries | rs/utils/config.py:31-32 | without a cache section only the LLM query namespace is read and written (see also lines 52-54) |
| UtilsConfig.EnvironmentFirst | rs/utils/config.py:49-50 | an environment variable hides the .env one unless it is empty |
| AgentData.Clamp | rs/llm/agents/base_agent.py:159 | a clamped confidence lies in [0, 1], values inside are kept and values outside go to the nearer end |
| JsonValues.Trunc | rs/llm/validator.py:74 | `int()` of a number truncates toward zero |
| JsonValues.DictOf | rs/llm/agents/base_agent.py:146 | `dict()` copies a dictionary, reads a list as pairs, and raises on anything else |
| JsonValues.PairsDict | rs/utils/config.py:53 | a list gives a dictionary exactly when every item is a pair, and its keys are exactly the pairs' keys |
| JsonValues.PairsDictLastWins | rs/utils/config.py:53 | a key takes the value of the last pair naming it |
| Strs.ParseShownInt | rs/llm/validator.py:32-33 | a written integer parses back to itself |
| Strs.ParseFloat | rs/llm/telemetry.py:82 | a string read as a number is not blank |
| Strs.FloatReadsInts | rs/llm/agents/base_agent.py:142 | every integer string is read as the same number |
| Strs.FloatReadsDecimals | rs/llm/agents/base_agent.py:142 | digits, a point and digits are read as the decimal number they write |
| Strs.SplitJoinedWords | rs/llm/validator.py:132 | words without whitespace joined by spaces split back into the same words |
| Strs.SplitTerminated | install_bottled_ai.py:153 | lines written each with a newline read back as the same lines (see also line 170) |
| Seqs.Sort | install_bottled_ai.py:113 | the sorted list is ordered and holds the same paths |
| Seqs.SortIgnoresOrder | install_bottled_ai.py:113 | sorting depends only on which paths there are, not their order |
| Seqs.Count | rs/machine/state.py:150-158 | each key is counted as often as it occurs, once per entry, adding up to the number of keys |

## Left out

- Locks, fsync, temporary files and concurrency (the file locks, the orchestrator's thread-pool timeout): a write either happens whole or leaves the file system as it was, and a timeout is one of the attempt outcomes given to the orchestrator.
- Floating point: confidences, thresholds, file ages and health figures are mathematical reals; file ages are given as inputs instead of being computed from a clock.
- Foreign libraries (litellm, tiktoken, pydantic, langchain, hashlib, json): uninterpreted functions passed as parameters. Pydantic validation is approximated by the field types the schemas declare.
- Logging, `print`, argument parsing (`_parse_args`) and `main` of the installer: pure I/O.
- The `mkdir` side effects of `get_cache_path` and `get_decompile_dir`: loads and existence checks leave the file system unchanged in the model.
- Path normalisation and `as_posix()`: paths are component sequences, and installer paths are strings joined with "/". `sorted()` over `Path` objects is modelled as string order.
- Text is ASCII for `lower()`, `isalnum()`, `isdigit()` and whitespace; `format_name` in Python also keeps non-ASCII alphanumerics.
- Absolute names under pathlib's `/`: `FileSystem.Child` joins every name under the directory, dropping empty components, whereas pathlib discards the left-hand path when the right-hand name begins with "/". The lines below name the members whose promises rest on this.
- CacheBase.CanonicalPath: a key beginning with "/" is placed under the cache directory; `cache_dir / f"{key}{ext}"` (rs/cache/base.py:181) would give an absolute path outside the cache.
- CacheBase.CacheDir: a profile beginning with "/" is placed under the root; `base_dir / self._config.profile` (rs/cache/base.py:157-160) would replace the root, so the directory need not lie under it.
- CacheConfig.GetCacheDir: a cache name or profile beginning with "/" is placed under the dataset directory; the pathlib joins at rs/cache/config.py:303-306 would replace the left-hand path.
- DecompileCaches.DecompilePathIsCanonical: for a key whose part after the first slash begins with "/" (for example "h//x_result"), the override `subdir / f"{parts[1]}{ext}"` (rs/cache/types/decompile.py:60-64) is absolute while the shared path of rs/cache/base.py:181 stays in the cache; the model proves them equal because it joins both under the directory.
- DecompileCaches.ResultInDecompileDir: a binary name beginning with "/" would put the result outside the decompile directory under pathlib (rs/cache/types/decompile.py:64); the model keeps it inside.
- `is_int_string`/`int()` is modelled as an optional sign followed by decimal digits, with surrounding whitespace stripped; underscores and whitespace between the sign and the digits are not read.
- The vulnerability cache types registered by `_auto_register` are not part of this model; the registration loop is modelled over the types that are.
- `remove_symlinks` (the model has no symbolic-link nodes, only a resolver) and `invalidate_cache` (it is `safe_remove` with the default allowed directory).
- The order in which the IDA database cache looks for variants follows the code (`.i64`, `.i64.zip`, `.idb`, `.idb.zip`); the docstring of `_resolve_actual_path` says compressed variants come first.
- `zip_file` is modelled as writing an archive that holds the source under its own name; a failure after the archive is written is not separated from a failed archive.
- A cache entry that deserialises to None is a miss, like an absent entry.
- The prompt templates and `_build_prompt` of the providers: the prompt text only reaches the language model, which is a parameter.
- `ask_llm_once`'s cache round trip and its API-key setup: the key check is the `keyOk` input of `LlmUtils.AskMulti`, and cache lookups are the `cached` input. The batch call's sequential fallback gives the same answers in the model, so both are one `answer` function.
- `count_tokens`'s fallback to a character estimate: the tokenizer's encoding is used for counting as well as for cutting.
- `GameState`'s constructor, `get_event` (the `Event` enum) and the `Orb` enum: orbs keep their raw id. Queries that only index into the JSON (`floor`, `screen_type`, `get_map`, …) are not modelled.
- The event and shop-purchase context builders, the placeholder agents and the langgraph agent base are not part of this model.
- `load_yaml_mapping` is given as the resulting mapping, and the environment as a map. The OpenRouter settings read by `llm_utils` are parameters, because the configuration class does not declare them.
- `write_decision_telemetry`'s file append and `compute_state_snapshot_hash`'s digest: the row is modelled, and the hash is a parameter.
- EventAdvisor.HpPercent: states only the non-positive-maximum case, because the percentage itself is a real-number division whose value no rule depends on beyond its comparisons.
- LlmUtils.Pending: states only a length bound; which prompts are pending is stated by `LlmUtils.Gather` and `LlmUtils.AskMulti`.
- Installer.CommandWords: holds only for paths and endpoints without whitespace, because the command is a single string with spaces between its words.
- CardRewardContext.BuildContext: requires the screen type and choice labels to be strings, because the model's context record holds text where the source would carry any value along.
- Orchestrator.Attempts: a negative retry count makes no attempt and keeps the "uninitialized" fallback, as `range()` does; the model states that case rather than excluding it.
- WriteWithLock: the parent `mkdir` sits outside the `try` at rs/utils/file_lock_utils.py:102, so a parent below a file raises instead of returning False, and a failed write can leave a created parent directory behind; the model refuses such a target and leaves the file system unchanged.
- SafeCopy: a tree copy into a deeper path of the source whose first new component already exists is modelled as a refusal with no partial copy, and an override whose destination lies inside the source copies the already cleared tree; the content promise is stated for a fresh destination and, by `FileUtils.SafeCopyReplaces`, for a destination beside the source.
- AskMulti: `raises` stands for every exception of the batch call, its sequential fallback and the cache store; a cache load that raises is not modelled.
- JsonValues.DictOf: `dict()` of a string (pairs of characters) and of pairs with non-text keys is not modelled; both give None.
- AdvisorAgent.ListOf: `list()` of a dictionary gives its keys in insertion order, which a Dafny map does not keep; the model gives None.
- The `ImportError` fallbacks of the cache types' deserialisers (for example rs/cache/types/decompile.py:77-81), which return the raw dictionary when the record class cannot be imported: the record classes live outside this repository, so the model has one deserialiser per type and no import step.
- Strs.ParseFloat: `float()` also accepts "inf", "nan" and digits with underscores, which the model does not read.
- GameStateView.PlayerOrbs: takes the player's orb list as given, so a player state without an `orbs` key, where `get_player_orbs` raises a KeyError (rs/machine/state.py:184), is not modelled.
- GridSelect.SelectionCounts: a `selected_cards` string or dictionary, whose `len()` Python takes, and a non-integer `num_cards` are read as raising.
- Some tests in the repository disagree with the code, for example `tests/llm/test_utils_config.py:38-39`; the model follows the code.

## Findings

| source | as written | input that shows it | evidently intended | confidence | as-written member | corrected member |
|---|---|---|---|---|---|---|
| rs/utils/file_utils.py:164-173 | with override set and an existing destination, `safe_rename_dir` clears the destination, leaving an empty directory, and then `shutil.move` moves the source into that directory | directories `w/a` (holding `f`) and `w/b`, rename `w/a` to `w/b` with override: the file ends at `w/b/a/f` | the source takes the destination's place, so the file ends at `w/b/f` | not executed | FileUtils.RenameOverrideNestsSource | FileUtils.SafeRenameDir |
| rs/utils/file_lock_utils.py:231-248 | `write_jsonl_with_lock` passes the plain function `_serialize_jsonl` as serializer, so the merge input chosen at lines 116-129 of the same file is the old file's raw text; the documented append merge computes `str + list`, which raises, the merge is skipped and only the new records are written | a file holding one record, then `write_jsonl_with_lock(path, [r], merge_fn=lambda new, old: old + new)`: the file afterwards holds only `r` | the old records followed by the new ones | not executed | FileLock.JsonlAppendLosesOldLines | FileLock.JsonlAppendKeepsOldLines |
| rs/llm/orchestrator.py:121-127 | the low-confidence branch replaces the decision by the fallback and then records `decision.confidence`, the fallback's 0.0 | an answer of confidence 0.3 under threshold 0.4 records `"confidence": 0.0` | the rejected answer's confidence, 0.3 | not executed | Orchestrator.LowConfidenceExample | Orchestrator.Gate |
| rs/llm/providers/event_llm_provider.py:54-61 | the event provider passes `two_layer_struct_convert=False`, a keyword `ask_llm_once` does not accept (rs/utils/llm_utils.py:298-303), so every call raises a TypeError; `BaseAgent.decide` (rs/llm/agents/base_agent.py:106-117) does not catch it, and the orchestrator's `decide` turns it into an "agent_error" fallback once the retries are spent (rs/llm/orchestrator.py:102-107) | any event context with the helper module importable | the model's proposal, or the event rules when it proposes nothing | not executed | LlmProviders.EventKeywordRaises | LlmProviders.Propose |
| rs/utils/file_utils.py:164-173 | with override and the destination equal to the source, `safe_rename_dir` first clears the destination, which is the source, and `shutil.move` then renames the empty directory onto itself and returns; the function reports True | a directory `w/a` holding `f`, rename `w/a` to `w/a` with override: `f` is gone and the result is True | renaming a directory onto itself changes nothing | not executed | FileUtils.RenameOntoItselfEmpties | FileUtils.RenameOntoItselfKeeps |

=== FILE: agent_data.dfy ===
/**
 * The records the advisor pipeline passes around: what a handler shows its
 * advisor, and what the advisor answers.
 */
module AgentData {
  import opened Wrappers
  import opened JsonValues

  /**
   * `AgentContext`: the handler's name, the screen, the commands the game
   * offers, the labels of the current choices, and free-form state and extras.
   */
  datatype AgentContext = AgentContext(
    handlerName: string,
    screenType: string,
    availableCommands: seq<string>,
    choiceList: seq<string>,
    gameState: map<string, Json>,
    extras: map<string, Json>)

  /**
   * `AgentDecision`: a proposed command (or none), a confidence, an
   * explanation, the tools the advisor used, whether the deterministic
   * handler should take over, and free-form metadata.
   */
  datatype AgentDecision = AgentDecision(
    proposedCommand: Option<string>,
    confidence: real,
    explanation: string,
    toolsUsed: seq<Json>,
    fallbackRecommended: bool,
    metadata: map<string, Json>)

  /** `min(1.0, max(0.0, x))`. */
  function Clamp(x: real): (r: real)
    ensures 0.0 <= r <= 1.0
    ensures 0.0 <= x <= 1.0 ==> r == x
    ensures x < 0.0 ==> r == 0.0
    ensures x > 1.0 ==> r == 1.0
  {
    if x < 0.0 then 0.0 else if x > 1.0 then 1.0 else x
  }
}

=== FILE: base_agent.dfy ===
/**
 * The advisor base class: a named tool registry, and the fixed pipeline
 * every advisor's raw answer goes through (parse, clamp, validate).
 */
module AdvisorAgent {
  import opened Wrappers
  import opened Strs
  import opened JsonValues
  import opened AgentData
  import opened CommandValidator

  /** `BaseAgent`: a name, a timeout, and the tools registered under their names. */
  datatype Agent<T> = Agent(name: string, timeoutMs: int, tools: map<string, T>)

  /** A freshly constructed agent has no tools. */
  function NewAgent<T>(name: string, timeoutMs: int): (r: Agent<T>)
    ensures r.name == name && r.timeoutMs == timeoutMs
    ensures forall n :: !HasTool(r, n)
  {
    Agent(name, timeoutMs, map[])
  }

  /** `has_tool`. */
  predicate HasTool<T>(a: Agent<T>, toolName: string) {
    toolName in a.tools
  }

  /** `register_tool`: binds the tool under its name, replacing any tool of that name. */
  function RegisterTool<T>(a: Agent<T>, toolName: string, tool: T): (r: Agent<T>)
    ensures HasTool(r, toolName) && r.tools[toolName] == tool
    ensures forall n :: n != toolName ==> (HasTool(r, n) <==> HasTool(a, n))
    ensures forall n :: n != toolName && HasTool(a, n) ==> n in r.tools && r.tools[n] == a.tools[n]
    ensures r.name == a.name && r.timeoutMs == a.timeoutMs
  {
    a.(tools := a.tools[toolName := tool])
  }

  /**
   * `call_tool`: runs the tool registered under the name; an unregistered
   * name raises `KeyError`. `run` is the tool's own `run` method.
   */
  function CallTool<T>(a: Agent<T>, toolName: string, ctx: AgentContext, payload: map<string, Json>,
                       run: (T, AgentContext, map<string, Json>) -> map<string, Json>): (r: Result<map<string, Json>>)
    ensures r.Failure? <==> !HasTool(a, toolName)
    ensures r.Failure? ==> r.error == "Tool '" + toolName + "' is not registered for agent '" + a.name + "'"
    ensures r.Success? ==> r.value == run(a.tools[toolName], ctx, payload)
  {
    if toolName !in a.tools then Failure("Tool '" + toolName + "' is not registered for agent '" + a.name + "'")
    else Success(run(a.tools[toolName], ctx, payload))
  }

  /** Registering a tool twice under one name keeps only the second. */
  lemma RegisterReplaces<T>(a: Agent<T>, toolName: string, first: T, second: T,
                            ctx: AgentContext, payload: map<string, Json>,
                            run: (T, AgentContext, map<string, Json>) -> map<string, Json>)
    ensures RegisterTool(RegisterTool(a, toolName, first), toolName, second) == RegisterTool(a, toolName, second)
    ensures CallTool(RegisterTool(RegisterTool(a, toolName, first), toolName, second), toolName, ctx, payload, run)
              == Success(run(second, ctx, payload))
  {
    assert a.tools[toolName := first][toolName := second] == a.tools[toolName := second];
  }

  // ----- parsing -----

  /** `list(x)`: an array's items, a string's characters; None where it raises or is not modelled. */
  function ListOf(j: Json): (r: Option<seq<Json>>)
    ensures j.JArr? ==> r == Some(j.items)
    ensures j.JStr? ==> r.Some? && |r.value| == |j.s|
  {
    match j
    case JArr(items) => Some(items)
    case JStr(s) => Some(seq(|s|, i requires 0 <= i < |s| => JStr([s[i]])))
    case _ => None
  }

  /** The proposed command: absent or null is none, a string is itself; anything else fails at `.strip()`. */
  function CommandOf(j: Json): Option<Option<string>> {
    match j
    case JNull => Some(None)
    case JStr(s) => Some(Some(s))
    case _ => None
  }

  /**
   * `_parse_decision`: each field read from the raw dictionary with its
   * default. None stands for the exception a field's conversion raises.
   */
  function ParseDecision(ffi: Ffi, raw: map<string, Json>): (r: Option<AgentDecision>)
    ensures r.Some? ==> r.value.explanation == PyStr(ffi, Get(raw, "explanation", JStr("")))
    ensures r.Some? ==> r.value.fallbackRecommended == Truthy(Get(raw, "fallback_recommended", JBool(false)))
    ensures r.Some? <==>
              && CommandOf(Get(raw, "proposed_command", JNull)).Some?
              && FloatOf(Get(raw, "confidence", JReal(0.0))).Some?
              && ListOf(Get(raw, "required_tools_used", JArr([]))).Some?
              && DictOf(Get(raw, "metadata", JObj(map[]))).Some?
  {
    var command := CommandOf(Get(raw, "proposed_command", JNull));
    var confidence := FloatOf(Get(raw, "confidence", JReal(0.0)));
    var tools := ListOf(Get(raw, "required_tools_used", JArr([])));
    var metadata := DictOf(Get(raw, "metadata", JObj(map[])));
    if command.None? || confidence.None? || tools.None? || metadata.None? then None
    else
      Some(AgentDecision(
        command.value,
        confidence.value,
        PyStr(ffi, Get(raw, "explanation", JStr(""))),
        tools.value,
        Truthy(Get(raw, "fallback_recommended", JBool(false))),
        metadata.value))
  }

  /** The raw dictionary an advisor would write for a decision. */
  function RawOf(d: AgentDecision): map<string, Json> {
    map[
      "proposed_command" := (if d.proposedCommand.Some? then JStr(d.proposedCommand.value) else JNull),
      "confidence" := JReal(d.confidence),
      "explanation" := JStr(d.explanation),
      "required_tools_used" := JArr(d.toolsUsed),
      "fallback_recommended" := JBool(d.fallbackRecommended),
      "metadata" := JObj(d.metadata)]
  }

  /** Parsing the dictionary written for a decision gives the decision back. */
  lemma ParseRaw(ffi: Ffi, d: AgentDecision)
    ensures ParseDecision(ffi, RawOf(d)) == Some(d)
  {
    var raw := RawOf(d);
    assert Get(raw, "proposed_command", JNull) == (if d.proposedCommand.Some? then JStr(d.proposedCommand.value) else JNull);
    assert Get(raw, "confidence", JReal(0.0)) == JReal(d.confidence);
    assert Get(raw, "explanation", JStr("")) == JStr(d.explanation);
    assert Get(raw, "required_tools_used", JArr([])) == JArr(d.toolsUsed);
    assert Get(raw, "fallback_recommended", JBool(false)) == JBool(d.fallbackRecommended);
    assert Get(raw, "metadata", JObj(map[])) == JObj(d.metadata);
  }

  /** An empty dictionary parses to the defaults. */
  lemma ParseDefaults(ffi: Ffi)
    ensures ParseDecision(ffi, map[]) == Some(AgentDecision(None, 0.0, "", [], false, map[]))
  {
  }

  // ----- normalisation -----

  /**
   * `_normalize_decision`: clamps the confidence, then records the
   * validator's verdict in the metadata; no command or an invalid one
   * recommends the fallback. Failure is an exception from the validator.
   */
  function Normalize(d: AgentDecision, ctx: AgentContext): (r: Result<AgentDecision>)
    ensures r.Success? ==>
              && r.value.confidence == Clamp(d.confidence)
              && r.value.proposedCommand == d.proposedCommand
              && r.value.explanation == d.explanation
              && r.value.toolsUsed == d.toolsUsed
              && "validation_error" in r.value.metadata
    ensures d.proposedCommand.None? ==>
              && r.Success?
              && r.value.metadata == d.metadata["validation_error" := JStr(EmptyCommand.Text())]
              && r.value.fallbackRecommended
    ensures d.proposedCommand.Some? ==>
              (r.Success? <==> ValidateCommand(ctx, d.proposedCommand.value).Success?)
  {
    match d.proposedCommand
    case None =>
      Success(d.(confidence := Clamp(d.confidence),
                 metadata := d.metadata["validation_error" := JStr(EmptyCommand.Text())],
                 fallbackRecommended := true))
    case Some(command) =>
      match ValidateCommand(ctx, command)
      case Failure(e) => Failure(e)
      case Success(v) => Success(Recorded(d, v))
  }

  /** A judged command's decision: the confidence clamped, the code recorded, and for an invalid command the message and the fallback. */
  function Recorded(d: AgentDecision, v: ValidationResult): (r: AgentDecision)
    ensures r.confidence == Clamp(d.confidence)
    ensures r.proposedCommand == d.proposedCommand && r.explanation == d.explanation && r.toolsUsed == d.toolsUsed
    ensures "validation_error" in r.metadata && r.metadata["validation_error"] == JStr(v.code.Text())
    ensures r.fallbackRecommended == (d.fallbackRecommended || !v.IsValid())
    ensures v.IsValid() ==> r.metadata == d.metadata["validation_error" := JStr(v.code.Text())]
    ensures !v.IsValid() ==>
              r.metadata == d.metadata["validation_error" := JStr(v.code.Text())]["validation_message" := JStr(v.message)]
  {
    var recorded := d.metadata["validation_error" := JStr(v.code.Text())];
    if v.IsValid() then d.(confidence := Clamp(d.confidence), metadata := recorded)
    else
      d.(confidence := Clamp(d.confidence),
         metadata := recorded["validation_message" := JStr(v.message)],
         fallbackRecommended := true)
  }

  /**
   * What normalisation records for a command the validator could judge: its
   * code, and for an invalid command its message and the fallback; a valid
   * command keeps the advisor's own fallback flag and all other metadata.
   */
  lemma NormalizeRecords(d: AgentDecision, ctx: AgentContext)
    requires d.proposedCommand.Some? && ValidateCommand(ctx, d.proposedCommand.value).Success?
    ensures var v := ValidateCommand(ctx, d.proposedCommand.value).value;
            var r := Normalize(d, ctx).value;
            && r.metadata["validation_error"] == JStr(v.code.Text())
            && r.fallbackRecommended == (d.fallbackRecommended || !v.IsValid())
            && (v.IsValid() ==> r.metadata == d.metadata["validation_error" := JStr(v.code.Text())])
            && (!v.IsValid() ==>
                  r.metadata == d.metadata["validation_error" := JStr(v.code.Text())]["validation_message" := JStr(v.message)])
  {
    var v := ValidateCommand(ctx, d.proposedCommand.value).value;
    assert Normalize(d, ctx).value == Recorded(d, v);
  }

  /** Normalising a normalised decision changes nothing. */
  lemma NormalizeIdempotent(d: AgentDecision, ctx: AgentContext)
    requires Normalize(d, ctx).Success?
    ensures Normalize(Normalize(d, ctx).value, ctx) == Normalize(d, ctx)
  {
    var n := Normalize(d, ctx).value;
    assert Clamp(Clamp(d.confidence)) == Clamp(d.confidence);
    match d.proposedCommand
    case None =>
      assert n.metadata["validation_error" := JStr(EmptyCommand.Text())] == n.metadata;
    case Some(command) =>
      var v := ValidateCommand(ctx, command).value;
      assert n == Recorded(d, v);
      RecordedTwice(d, v);
  }

  /** Recording a judgement twice records it once. */
  lemma RecordedTwice(d: AgentDecision, v: ValidationResult)
    ensures Recorded(Recorded(d, v), v) == Recorded(d, v)
  {
    assert Clamp(Clamp(d.confidence)) == Clamp(d.confidence);
    var recorded := d.metadata["validation_error" := JStr(v.code.Text())];
    assert recorded["validation_error" := JStr(v.code.Text())] == recorded;
    if !v.IsValid() {
      var m := recorded["validation_message" := JStr(v.message)];
      assert m["validation_error" := JStr(v.code.Text())]["validation_message" := JStr(v.message)] == m;
    }
  }


  /** `decide`: the advisor's raw answer, parsed then normalised. */
  function Decide(ffi: Ffi, raw: map<string, Json>, ctx: AgentContext): (r: Result<AgentDecision>)
    ensures r.Success? ==> 0.0 <= r.value.confidence <= 1.0 && "validation_error" in r.value.metadata
    ensures ParseDecision(ffi, raw).None? ==> r.Failure?
    ensures r.Success? && r.value.proposedCommand.Some? ==>
              Accepts(ctx, r.value.proposedCommand.value) || r.value.fallbackRecommended
  {
    match ParseDecision(ffi, raw)
    case None => Failure("ValueError")
    case Some(d) => Normalize(d, ctx)
  }

  /** An unavailable command recommends the fallback and says why. */
  lemma UnavailableFallsBack(ffi: Ffi, raw: map<string, Json>, ctx: AgentContext, command: string)
    requires ParseDecision(ffi, raw).Some? && ParseDecision(ffi, raw).value.proposedCommand == Some(command)
    requires Strip(command) != [] && !Available(Tokens(command)[0], ctx.availableCommands)
    ensures Decide(ffi, raw, ctx).Success?
    ensures Decide(ffi, raw, ctx).value.fallbackRecommended
    ensures Decide(ffi, raw, ctx).value.metadata["validation_error"] == JStr("command_not_available")
  {
    var v := ValidateTokens(ctx, Tokens(command));
    assert ValidateCommand(ctx, command) == v;
  }
}

=== FILE: cache_agent.dfy ===
/**
 * The agent-side cache types: checker results, branch/tag resolutions and
 * the resumable task states of three agents. All are kept per profile and
 * never expire unless a caller passes an age.
 */
module AgentCaches {
  import opened Wrappers
  import opened Strs
  import opened JsonValues
  import opened FileSystem
  import opened FileUtils
  import opened CacheConfig
  import opened CacheBase
  import opened PyValues

  /** `AgentCheckResultCache`: keyed by agent id, stored through `to_dict`/`from_dict`. */
  function AgentCheckResult(): CacheType<PyValue> {
    CacheType("agent_check_result", None, false, ".json", false, ["agent_cache"], ToDictOrItself, FromDict)
  }

  /**
   * `BranchTagCache`: keyed by the cache id, stored through `model_dump`;
   * `validates` says which stored dictionaries `model_validate` accepts,
   * the others are returned as they are.
   */
  function BranchTag(validates: map<string, Json> -> bool): CacheType<PyValue> {
    CacheType("branch_tag", None, false, ".json", false, ["branch_tag_results"], ModelDumpOrItself,
      (j: Json) => if j.JObj? && validates(j.fields) then Some(Model("BranchTagResult", j.fields)) else Some(Plain(j)))
  }

  /** A task-state type: plain dictionaries, stored and loaded as they are. */
  function TaskState(cacheType: string, subdir: Path): CacheType<Json> {
    CacheType(cacheType, None, false, ".json", false, subdir,
      (j: Json) => if j == JNull then None else Some(j), (j: Json) => Some(j))
  }

  function DiAgentState(): CacheType<Json> { TaskState("di_agent_state", ["true_agent_cache", "di"]) }
  function RoAgentState(): CacheType<Json> { TaskState("ro_agent_state", ["true_agent_cache", "ro"]) }
  function FpcAgentState(): CacheType<Json> { TaskState("fpc_agent_state", ["true_agent_cache", "fpc"]) }

  const DiPrefix := "DI_"
  const RoPrefix := "RO_"
  const FpcPrefix := "FPC_"

  /** The task-state key: the agent id, with the agent's prefix put in front when it is missing. */
  function PrefixedKey(prefix: string, agentId: string): (r: string)
    ensures StartsWith(r, prefix)
    ensures r == agentId || r == prefix + agentId
    ensures StartsWith(agentId, prefix) <==> r == agentId
  {
    if StartsWith(agentId, prefix) then agentId else prefix + agentId
  }

  /** Keying a key again changes nothing. */
  lemma PrefixedKeyIdempotent(prefix: string, agentId: string)
    ensures PrefixedKey(prefix, PrefixedKey(prefix, agentId)) == PrefixedKey(prefix, agentId)
  {
  }

  /** "x" and "DI_x" name the same entry, for an "x" without the prefix. */
  lemma PrefixAbsorbed(prefix: string, agentId: string)
    requires !StartsWith(agentId, prefix)
    ensures PrefixedKey(prefix, prefix + agentId) == PrefixedKey(prefix, agentId)
  {
    assert StartsWith(prefix + agentId, prefix);
  }

  /** Two different ids share an entry only when one is the other with the prefix in front. */
  lemma PrefixedKeyCollisions(prefix: string, a: string, b: string)
    requires a != b
    ensures PrefixedKey(prefix, a) == PrefixedKey(prefix, b) <==>
              (a == prefix + b && !StartsWith(b, prefix)) || (b == prefix + a && !StartsWith(a, prefix))
  {
    if a == prefix + b && !StartsWith(b, prefix) {
      PrefixAbsorbed(prefix, b);
    } else if b == prefix + a && !StartsWith(a, prefix) {
      PrefixAbsorbed(prefix, a);
    } else if !StartsWith(a, prefix) && !StartsWith(b, prefix) {
      assert (prefix + a)[|prefix|..] == a && (prefix + b)[|prefix|..] == b;
    }
  }

  /** The directories of this file's types. */
  function AgentSubdirs(): seq<Path> {
    [AgentCheckResult().subdir, DiAgentState().subdir, BranchTag(_ => true).subdir, RoAgentState().subdir, FpcAgentState().subdir]
  }

  /** No two agent types share a directory, and none lies inside another's. */
  lemma AgentDirsDisjoint(datasetDir: Path)
    ensures forall i, j :: 0 <= i < |AgentSubdirs()| && 0 <= j < |AgentSubdirs()| && i != j ==>
              !(datasetDir + AgentSubdirs()[i] <= datasetDir + AgentSubdirs()[j])
  {
    forall i, j | 0 <= i < |AgentSubdirs()| && 0 <= j < |AgentSubdirs()| && i != j
      ensures !(datasetDir + AgentSubdirs()[i] <= datasetDir + AgentSubdirs()[j])
    {
      PrefixCancel(datasetDir, AgentSubdirs()[i], AgentSubdirs()[j]);
      var d := [["agent_cache"], ["true_agent_cache", "di"], ["branch_tag_results"], ["true_agent_cache", "ro"], ["true_agent_cache", "fpc"]];
      assert AgentSubdirs() == d;
      assert d[i][0] != d[j][0] || d[i][1] != d[j][1];
    }
  }

  /** A common front part does not change whether one path lies inside another. */
  lemma PrefixCancel(a: Path, x: Path, y: Path)
    ensures a + x <= a + y <==> x <= y
  {
    if a + x <= a + y {
      assert x == (a + x)[|a|..] && (a + y)[|a|..|a| + |x|] == x;
    }
  }

  /**
   * An agent-side cache with no share setting keeps its entries under its
   * own directory and the profile, and an entry of any age is valid unless
   * the caller passes an age.
   */
  lemma AgentEntriesPerProfile<V>(fs: Fs, c: Cache<V>, key: string)
    requires !c.t.sharedByDefault && c.t.defaultTtl.None?
    requires ShareKey(c.t.cacheType) !in c.config.sharedCaches
    requires c.baseDirOverride.None?
    ensures CacheDir(c) == Child(c.config.datasetDir + c.t.subdir, c.config.profile)
    ensures IsEntryValid(fs, c, key, None) <==> HasEntry(fs, c, key)
  {
  }

  /** A task state comes back from the cache exactly as it was stored. */
  lemma TaskStateRoundTrip(fs: Fs, os: Os, ffi: Ffi, c: Cache<Json>, prefix: string, agentId: string, state: Json, maxAgeDays: Option<int>)
    requires c.t in {DiAgentState(), RoAgentState(), FpcAgentState()}
    requires Lawful(ffi)
    requires IsEnabled(c.config, c.t.cacheType)
    requires state != JNull
    requires StoreGoesThrough(fs, os, c, PrefixedKey(prefix, agentId))
    requires FreshEnough(EffectiveTtl(c.t, maxAgeDays))
    requires !EndsWith(Name(CanonicalPath(c, PrefixedKey(prefix, agentId))), ".zip")
    ensures var key := PrefixedKey(prefix, agentId);
            var r := Store(fs, os, ffi, c, state, key, true);
            r.value.Some? && Load(r.fs, ffi, c, key, maxAgeDays) == Some(state)
  {
    StoreThenLoad(fs, os, ffi, c, state, PrefixedKey(prefix, agentId), true, maxAgeDays);
  }

  /** A checker result comes back as the record it was stored from. */
  lemma CheckResultRoundTrip(fs: Fs, os: Os, ffi: Ffi, c: Cache<PyValue>, agentId: string, result: map<string, Json>, maxAgeDays: Option<int>)
    requires c.t == AgentCheckResult()
    requires Lawful(ffi)
    requires IsEnabled(c.config, c.t.cacheType)
    requires StoreGoesThrough(fs, os, c, agentId)
    requires FreshEnough(EffectiveTtl(c.t, maxAgeDays))
    requires !EndsWith(Name(CanonicalPath(c, agentId)), ".zip")
    ensures var r := Store(fs, os, ffi, c, Record(result), agentId, true);
            r.value.Some? && Load(r.fs, ffi, c, agentId, maxAgeDays) == Some(Record(result))
  {
    StoreThenLoad(fs, os, ffi, c, Record(result), agentId, true, maxAgeDays);
  }
}

=== FILE: cache_base.dfy ===
/**
 * The storage algorithm every cache type shares: where an entry lives, which
 * of its two variants (plain or zip-compressed) is read, and what `load`,
 * `store`, `invalidate`, `exists`, `is_valid` and `clear` do to the disk.
 * Each operation takes the entry key its type computed; the per-type key
 * functions are modelled with the types.
 */
module CacheBase {
  import opened Wrappers
  import opened Strs
  import opened JsonValues
  import opened FileSystem
  import opened FileUtils
  import opened FileLock
  import opened CacheConfig

  /** The hooks and class-level policy a cache type supplies. */
  datatype CacheType<!V> = CacheType(
    cacheType: string,
    defaultTtl: Option<int>,
    sharedByDefault: bool,
    ext: string,
    useCompression: bool,
    /** `get_base_dir()`: the components it appends to the dataset directory */
    subdir: Path,
    /** None where the hook returns None or raises */
    serialize: V -> Option<Json>,
    deserialize: Json -> Option<V>)

  /** A type that keeps every class default: 21-day TTL, shared, plain `.json`. */
  function WithDefaults<V>(cacheType: string, subdir: Path, serialize: V -> Option<Json>, deserialize: Json -> Option<V>): (t: CacheType<V>)
    ensures t.defaultTtl == Some(21) && t.sharedByDefault && t.ext == ".json" && !t.useCompression
    ensures t.cacheType == cacheType && t.subdir == subdir
  {
    CacheType(cacheType, Some(21), true, ".json", false, subdir, serialize, deserialize)
  }

  /** A cache instance: its type, the configuration and an optional base-directory override. */
  datatype Cache<!V> = Cache(t: CacheType<V>, config: Config, baseDirOverride: Option<Path>)

  /** `get_base_dir()`. */
  function BaseDir<V>(c: Cache<V>): Path {
    c.config.datasetDir + c.t.subdir
  }

  /** `_is_profile_isolated`: not shared, the type's own default deciding when unconfigured. */
  predicate IsProfileIsolated<V>(c: Cache<V>) {
    !IsShared(c.config, c.t.cacheType, c.t.sharedByDefault)
  }

  /** The directory the cache lives in before the profile segment. */
  function RootDir<V>(c: Cache<V>): (r: Path)
    ensures c.baseDirOverride.Some? ==> r == c.baseDirOverride.value
    ensures c.baseDirOverride.None? ==> r == BaseDir(c)
  {
    if c.baseDirOverride.Some? then c.baseDirOverride.value else BaseDir(c)
  }

  /** `get_cache_dir`: a profile segment is appended exactly for an isolated type. */
  function CacheDir<V>(c: Cache<V>): (r: Path)
    ensures RootDir(c) <= r
    ensures IsProfileIsolated(c) ==> r == Child(RootDir(c), c.config.profile)
    ensures !IsProfileIsolated(c) ==> r == RootDir(c)
  {
    if IsProfileIsolated(c) then Child(RootDir(c), c.config.profile) else RootDir(c)
  }

  /** `get_cache_path`: the uncompressed name, whatever the compression setting. */
  function CanonicalPath<V>(c: Cache<V>, key: string): (r: Path)
    ensures CacheDir(c) <= r
    ensures r[|CacheDir(c)|..] == Segments(key + c.t.ext)
  {
    Child(CacheDir(c), key + c.t.ext)
  }

  /** `_get_compressed_path`: the sibling named like the file with ".zip" appended. */
  function CompressedPath(p: Path): (r: Path)
    ensures Parent(r) == Parent(p) && Name(r) == Name(p) + ".zip"
    ensures r != p
    ensures p != [] ==> !(r <= p) && !(p <= r)
  {
    Sibling(p, Name(p) + ".zip")
  }

  /** `_resolve_actual_path`: the compressed variant first, then the plain one. */
  function ResolveVariant(fs: Fs, canonical: Path): (r: Option<Path>)
    ensures r.None? <==> !IsFile(fs, CompressedPath(canonical)) && !IsFile(fs, canonical)
    ensures r.Some? ==> IsFile(fs, r.value) && (r.value == canonical || r.value == CompressedPath(canonical))
    ensures IsFile(fs, CompressedPath(canonical)) ==> r == Some(CompressedPath(canonical))
  {
    var compressed := CompressedPath(canonical);
    if IsFile(fs, compressed) then Some(compressed)
    else if IsFile(fs, canonical) then Some(canonical)
    else None
  }

  /** The TTL a call applies: its own when given (zero included), the type's default otherwise. */
  function EffectiveTtl<V>(t: CacheType<V>, maxAgeDays: Option<int>): (r: Option<int>)
    ensures maxAgeDays.Some? ==> r == maxAgeDays
    ensures maxAgeDays.None? ==> r == t.defaultTtl
  {
    if maxAgeDays.Some? then maxAgeDays else t.defaultTtl
  }

  /** Reads one variant: as a zip when its name ends in ".zip", as JSON text otherwise. */
  function ReadVariant(fs: Fs, ffi: Ffi, p: Path): Option<Json> {
    if EndsWith(Name(p), ".zip") then ReadJsonFromZip(fs, ffi, p) else ReadJsonWithLock(fs, ffi, p)
  }

  /** `load`: the deserialised entry, or None when disabled, missing, expired or unreadable. */
  function Load<V>(fs: Fs, ffi: Ffi, c: Cache<V>, key: string, maxAgeDays: Option<int>): (r: Option<V>)
    ensures !IsLoadEnabled(c.config, c.t.cacheType) ==> r.None?
    ensures ResolveVariant(fs, CanonicalPath(c, key)).None? ==> r.None?
    ensures r.Some? ==> IsFileValid(fs, ResolveVariant(fs, CanonicalPath(c, key)), EffectiveTtl(c.t, maxAgeDays))
    ensures r.Some? ==>
              var data := ReadVariant(fs, ffi, ResolveVariant(fs, CanonicalPath(c, key)).value);
              data.Some? && data.value != JNull && c.t.deserialize(data.value) == r
  {
    if !IsLoadEnabled(c.config, c.t.cacheType) then None
    else
      var actual := ResolveVariant(fs, CanonicalPath(c, key));
      if actual.None? then None
      else if !IsFileValid(fs, actual, EffectiveTtl(c.t, maxAgeDays)) then None
      else match ReadVariant(fs, ffi, actual.value)
        case None => None
        case Some(data) => Decode(c.t, data)
  }

  /** A JSON `null` reads back as Python's None, which `load` treats as a miss. */
  function Decode<V>(t: CacheType<V>, data: Json): Option<V> {
    if data == JNull then None else t.deserialize(data)
  }

  /** The variant a store writes, chosen by the compression flag. */
  function Target<V>(c: Cache<V>, key: string): Path {
    if c.t.useCompression then CompressedPath(CanonicalPath(c, key)) else CanonicalPath(c, key)
  }

  /** The variant a store cleans up: the one it does not write. */
  function Stale<V>(c: Cache<V>, key: string): (p: Path)
    ensures {p, Target(c, key)} == {CanonicalPath(c, key), CompressedPath(CanonicalPath(c, key))}
    ensures p != Target(c, key)
  {
    if c.t.useCompression then CanonicalPath(c, key) else CompressedPath(CanonicalPath(c, key))
  }

  /** Writing a serialised entry to a variant. */
  function WriteVariant<V>(fs: Fs, os: Os, ffi: Ffi, c: Cache<V>, key: string, s: Json): (w: Effect<bool>)
    ensures !w.value ==> w.fs == fs
    ensures w.value <==> Writable(fs, os, Target(c, key))
    ensures w.value ==> IsFile(w.fs, Target(c, key)) && w.fs[Target(c, key)].ageDays == 0.0
    ensures w.value ==> w.fs == fs[Target(c, key) := w.fs[Target(c, key)]]
  {
    if c.t.useCompression then WriteJsonAsZip(fs, os, ffi, Target(c, key), s)
    else WriteJsonWithLock(fs, os, ffi, Target(c, key), s, None)
  }

  /** Whether a new entry is written: always with override, otherwise only when no variant exists. */
  predicate WritesNew<V>(fs: Fs, c: Cache<V>, key: string, override: bool) {
    override || ResolveVariant(fs, CanonicalPath(c, key)).None?
  }

  /** After a successful write: removes the stale variant when it is a file. */
  function Cleanup<V>(fs: Fs, os: Os, c: Cache<V>, key: string): (r: Fs)
    ensures forall q :: q in r ==> q in fs && r[q] == fs[q]
    ensures forall q :: q in fs && q !in r ==> os.resolve(Stale(c, key)) <= q && os.resolve(c.config.datasetDir) <= q
  {
    if IsFile(fs, Stale(c, key)) then SafeRemove(fs, os, Stale(c, key), c.config.datasetDir).fs else fs
  }

  /** The writing part of `store`: serialise, write the selected variant, clean up the other. */
  function StoreNew<V>(fs: Fs, os: Os, ffi: Ffi, c: Cache<V>, data: V, key: string): (r: Effect<Option<Path>>)
    ensures r.value.None? ==> r.fs == fs
    ensures r.value.Some? <==> c.t.serialize(data).Some? && Writable(fs, os, Target(c, key))
    ensures r.value.Some? ==> r.value == Some(Target(c, key))
    ensures r.value.Some? && !(os.resolve(Stale(c, key)) <= Target(c, key)) ==>
              IsFile(r.fs, Target(c, key)) && r.fs[Target(c, key)].ageDays == 0.0
    ensures forall q :: q in r.fs && q != Target(c, key) ==> q in fs && r.fs[q] == fs[q]
    ensures forall q :: q in fs && q !in r.fs ==> os.resolve(Stale(c, key)) <= q && os.resolve(c.config.datasetDir) <= q
  {
    match c.t.serialize(data)
    case None => Effect(fs, None)
    case Some(s) =>
      var w := WriteVariant(fs, os, ffi, c, key, s);
      if !w.value then Effect(fs, None)
      else Effect(Cleanup(w.fs, os, c, key), Some(Target(c, key)))
  }

  /**
   * `store`: writes the selected variant and removes the other one; with
   * `override` off an existing variant is returned untouched.
   */
  function Store<V>(fs: Fs, os: Os, ffi: Ffi, c: Cache<V>, data: V, key: string, override: bool): (r: Effect<Option<Path>>)
    ensures !IsStoreEnabled(c.config, c.t.cacheType) ==> r == Effect(fs, None)
    ensures IsStoreEnabled(c.config, c.t.cacheType) && !WritesNew(fs, c, key, override) ==>
              r == Effect(fs, ResolveVariant(fs, CanonicalPath(c, key)))
    ensures IsStoreEnabled(c.config, c.t.cacheType) && WritesNew(fs, c, key, override) ==>
              r == StoreNew(fs, os, ffi, c, data, key)
    ensures r.value.None? ==> r.fs == fs
  {
    if !IsStoreEnabled(c.config, c.t.cacheType) then Effect(fs, None)
    else if !WritesNew(fs, c, key, override) then Effect(fs, ResolveVariant(fs, CanonicalPath(c, key)))
    else StoreNew(fs, os, ffi, c, data, key)
  }

  /**
   * The cleanup loop of `invalidate` (and of the IDA database's `store`):
   * every path of `ps` that is a file, except `keep`, goes through the
   * guarded removal; true when none of those removals failed.
   */
  function RemoveVariants(fs: Fs, os: Os, ps: seq<Path>, keep: Option<Path>, allowed: Path): (r: Effect<bool>)
    ensures RemovesOnlyUnder(fs, r.fs, os.resolve(allowed))
    ensures forall q :: q in fs && q !in r.fs ==>
              exists i :: 0 <= i < |ps| && Some(ps[i]) != keep && IsFile(fs, ps[i]) && os.resolve(ps[i]) <= q
    ensures (forall i :: 0 <= i < |ps| && Some(ps[i]) != keep ==> !IsFile(fs, ps[i])) ==> r == Effect(fs, true)
    decreases |ps|
  {
    if ps == [] then Effect(fs, true)
    else
      var attempt := IsFile(fs, ps[0]) && Some(ps[0]) != keep;
      var step := if attempt then SafeRemove(fs, os, ps[0], allowed) else Effect(fs, true);
      var rest := RemoveVariants(step.fs, os, ps[1..], keep, allowed);
      TraceRemoval(fs, step.fs, rest.fs, os, ps, keep, attempt);
      assert forall i :: 1 <= i < |ps| ==> ps[i] == ps[1..][i - 1];
      Effect(rest.fs, step.value && rest.value)
  }

  /** Every entry gone after the loop was under a variant removed at the first step or a later one. */
  lemma TraceRemoval(fs: Fs, mid: Fs, end: Fs, os: Os, ps: seq<Path>, keep: Option<Path>, attempt: bool)
    requires ps != []
    requires attempt == (IsFile(fs, ps[0]) && Some(ps[0]) != keep)
    requires attempt ==> RemovesOnlyUnder(fs, mid, os.resolve(ps[0]))
    requires !attempt ==> mid == fs
    requires forall q :: q in mid && q !in end ==>
               exists i :: 0 <= i < |ps[1..]| && Some(ps[1..][i]) != keep && IsFile(mid, ps[1..][i]) && os.resolve(ps[1..][i]) <= q
    ensures forall q :: q in fs && q !in end ==>
              exists i :: 0 <= i < |ps| && Some(ps[i]) != keep && IsFile(fs, ps[i]) && os.resolve(ps[i]) <= q
  {
    forall q | q in fs && q !in end
      ensures exists i :: 0 <= i < |ps| && Some(ps[i]) != keep && IsFile(fs, ps[i]) && os.resolve(ps[i]) <= q
    {
      if q in mid {
        var i :| 0 <= i < |ps[1..]| && Some(ps[1..][i]) != keep && IsFile(mid, ps[1..][i]) && os.resolve(ps[1..][i]) <= q;
        assert ps[1..][i] == ps[i + 1];
      } else {
        assert attempt && os.resolve(ps[0]) <= q;
      }
    }
  }

  /** When each file among `ps` other than `keep` can be removed, all of them go and the loop reports success. */
  lemma {:induction false} RemoveVariantsClears(fs: Fs, os: Os, ps: seq<Path>, keep: Option<Path>, allowed: Path)
    requires forall i :: 0 <= i < |ps| && Some(ps[i]) != keep && IsFile(fs, ps[i]) ==> Removable(fs, os, ps[i], allowed)
    ensures var r := RemoveVariants(fs, os, ps, keep, allowed);
            r.value && forall i :: 0 <= i < |ps| && Some(ps[i]) != keep ==> !IsFile(r.fs, ps[i])
    decreases |ps|
  {
    if ps != [] {
      var attempt := IsFile(fs, ps[0]) && Some(ps[0]) != keep;
      var step := if attempt then SafeRemove(fs, os, ps[0], allowed) else Effect(fs, true);
      if attempt {
        SafeRemoveRemovable(fs, os, ps[0], allowed);
      }
      assert Shrinks(fs, step.fs);
      forall i | 0 <= i < |ps[1..]| && Some(ps[1..][i]) != keep && IsFile(step.fs, ps[1..][i])
        ensures Removable(step.fs, os, ps[1..][i], allowed)
      {
        assert ps[1..][i] == ps[i + 1];
        ShrinkPreserves(fs, step.fs, os, ps[i + 1], allowed, None);
      }
      RemoveVariantsClears(step.fs, os, ps[1..], keep, allowed);
      var rest := RemoveVariants(step.fs, os, ps[1..], keep, allowed);
      forall i | 0 <= i < |ps| && Some(ps[i]) != keep
        ensures !IsFile(rest.fs, ps[i])
      {
        if i == 0 {
          assert !IsFile(step.fs, ps[0]);
          assert Shrinks(step.fs, rest.fs);
        } else {
          assert ps[1..][i - 1] == ps[i];
        }
      }
    }
  }

  /** The variants `invalidate` removes, in the order it removes them. */
  function EntryVariants<V>(c: Cache<V>, key: string): (r: seq<Path>)
    ensures r == [CanonicalPath(c, key), CompressedPath(CanonicalPath(c, key))]
  {
    [CanonicalPath(c, key), CompressedPath(CanonicalPath(c, key))]
  }

  /** `invalidate`: removes both variants; true when no attempted removal failed. */
  function Invalidate<V>(fs: Fs, os: Os, c: Cache<V>, key: string): (r: Effect<bool>)
    ensures ResolveVariant(fs, CanonicalPath(c, key)).None? ==> r == Effect(fs, true)
    ensures RemovesOnlyUnder(fs, r.fs, os.resolve(c.config.datasetDir))
    ensures forall q :: q in fs && q !in r.fs ==>
              os.resolve(CanonicalPath(c, key)) <= q || os.resolve(CompressedPath(CanonicalPath(c, key))) <= q
  {
    var vs := EntryVariants(c, key);
    var r := RemoveVariants(fs, os, vs, None, c.config.datasetDir);
    assert forall q :: q in fs && q !in r.fs ==> os.resolve(vs[0]) <= q || os.resolve(vs[1]) <= q;
    r
  }

  /** `exists`: some variant is a file, however old. */
  predicate HasEntry<V>(fs: Fs, c: Cache<V>, key: string) {
    ResolveVariant(fs, CanonicalPath(c, key)).Some?
  }

  /** `is_valid`: the variant `load` would read passes the TTL check. */
  function IsEntryValid<V>(fs: Fs, c: Cache<V>, key: string, maxAgeDays: Option<int>): (r: bool)
    ensures r ==> HasEntry(fs, c, key)
    ensures HasEntry(fs, c, key) && EffectiveTtl(c.t, maxAgeDays).None? ==> r
  {
    var actual := ResolveVariant(fs, CanonicalPath(c, key));
    actual.Some? && IsFileValid(fs, actual, EffectiveTtl(c.t, maxAgeDays))
  }

  /** What `load` returns is exactly what an entry that `is_valid` reads back as. */
  lemma LoadNeedsValidEntry<V>(fs: Fs, ffi: Ffi, c: Cache<V>, key: string, maxAgeDays: Option<int>)
    ensures Load(fs, ffi, c, key, maxAgeDays).Some? ==> IsEntryValid(fs, c, key, maxAgeDays) && HasEntry(fs, c, key)
    ensures IsLoadEnabled(c.config, c.t.cacheType) && IsEntryValid(fs, c, key, maxAgeDays) ==>
              Load(fs, ffi, c, key, maxAgeDays) ==
                match ReadVariant(fs, ffi, ResolveVariant(fs, CanonicalPath(c, key)).value)
                case None => None
                case Some(data) => Decode(c.t, data)
  {
  }

  // ----- store, then load -----

  /** A file just written passes any TTL that is not negative. */
  predicate FreshEnough(ttl: Option<int>) {
    ttl.None? || ttl.value >= 0
  }

  /** What a successful store needs beyond the store being enabled. */
  predicate StoreGoesThrough<V>(fs: Fs, os: Os, c: Cache<V>, key: string) {
    && Writable(fs, os, Target(c, key))
    && !(os.resolve(Stale(c, key)) <= Target(c, key))
    && (IsFile(fs, Stale(c, key)) ==> Removable(fs, os, Stale(c, key), c.config.datasetDir))
  }

  /** After a successful store only the written variant is left, and `load` resolves to it. */
  lemma StoreLeavesOneVariant<V>(fs: Fs, os: Os, ffi: Ffi, c: Cache<V>, data: V, key: string)
    requires c.t.serialize(data).Some?
    requires StoreGoesThrough(fs, os, c, key)
    ensures var r := StoreNew(fs, os, ffi, c, data, key);
            && r.value == Some(Target(c, key))
            && IsFile(r.fs, Target(c, key))
            && !IsFile(r.fs, Stale(c, key))
            && ResolveVariant(r.fs, CanonicalPath(c, key)) == Some(Target(c, key))
  {
    var w := WriteVariant(fs, os, ffi, c, key, c.t.serialize(data).value);
    var t := Target(c, key);
    var stale := Stale(c, key);
    if IsFile(fs, stale) {
      RemovableAfterWrite(fs, os, stale, c.config.datasetDir, t, w.fs[t]);
    }
    assert IsFile(w.fs, stale) ==> IsFile(fs, stale);
    CleanupRemovesStale(w.fs, os, c, key);
    var r := StoreNew(fs, os, ffi, c, data, key);
    assert r.fs == Cleanup(w.fs, os, c, key);
    assert IsFile(r.fs, t);
    OnlyTargetResolves(r.fs, c, key);
  }

  /** With the written variant a file and the other one gone, `load` finds the written one. */
  lemma OnlyTargetResolves<V>(fs: Fs, c: Cache<V>, key: string)
    requires IsFile(fs, Target(c, key)) && !IsFile(fs, Stale(c, key))
    ensures ResolveVariant(fs, CanonicalPath(c, key)) == Some(Target(c, key))
  {
  }

  /** Writing a file outside a removable target keeps it removable. */
  lemma RemovableAfterWrite(fs: Fs, os: Os, p: Path, allowed: Path, t: Path, n: Node)
    requires Removable(fs, os, p, allowed) && t != p && !(p <= t)
    ensures Removable(fs[t := n], os, p, allowed)
  {
    if p in fs && fs[p].File? {
      forall q | q in fs[t := n] && |p| < |q|
        ensures q[..|p|] != p
      {
        if q != t {
          assert !(q in fs && |p| < |q| && q[..|p|] == p);
        }
      }
    }
  }

  /** The cleanup leaves no stale variant behind when that variant is removable. */
  lemma CleanupRemovesStale<V>(fs: Fs, os: Os, c: Cache<V>, key: string)
    requires IsFile(fs, Stale(c, key)) ==> Removable(fs, os, Stale(c, key), c.config.datasetDir)
    ensures !IsFile(Cleanup(fs, os, c, key), Stale(c, key))
  {
    if IsFile(fs, Stale(c, key)) {
      SafeRemoveRemovable(fs, os, Stale(c, key), c.config.datasetDir);
    }
  }

  /** The variant a successful store writes reads back as the serialised data. */
  lemma StoredReadsBack<V>(fs: Fs, os: Os, ffi: Ffi, c: Cache<V>, data: V, key: string)
    requires Lawful(ffi)
    requires c.t.serialize(data).Some?
    requires StoreGoesThrough(fs, os, c, key)
    requires !c.t.useCompression ==> !EndsWith(Name(CanonicalPath(c, key)), ".zip")
    ensures ReadVariant(StoreNew(fs, os, ffi, c, data, key).fs, ffi, Target(c, key)) == c.t.serialize(data)
  {
    var s := c.t.serialize(data).value;
    var r := StoreNew(fs, os, ffi, c, data, key);
    var w := WriteVariant(fs, os, ffi, c, key, s);
    var t := Target(c, key);
    StoreLeavesOneVariant(fs, os, ffi, c, data, key);
    assert r.fs[t] == w.fs[t];
    if c.t.useCompression {
      ZipRoundTrip(fs, os, ffi, t, s);
      assert EndsWith(Name(t), ".zip");
      assert ReadJsonFromZip(r.fs, ffi, t) == ReadJsonFromZip(w.fs, ffi, t);
    } else {
      JsonWriteReadRoundTrip(fs, os, ffi, t, s);
      assert ReadJsonWithLock(r.fs, ffi, t) == ReadJsonWithLock(w.fs, ffi, t);
    }
  }

  /**
   * Store, then load: the entry comes back as the type's deserialiser makes
   * it of the serialised data, from either variant.
   */
  lemma StoreThenLoad<V>(fs: Fs, os: Os, ffi: Ffi, c: Cache<V>, data: V, key: string, override: bool, maxAgeDays: Option<int>)
    requires Lawful(ffi)
    requires IsStoreEnabled(c.config, c.t.cacheType) && IsLoadEnabled(c.config, c.t.cacheType)
    requires WritesNew(fs, c, key, override)
    requires c.t.serialize(data).Some?
    requires StoreGoesThrough(fs, os, c, key)
    requires FreshEnough(EffectiveTtl(c.t, maxAgeDays))
    requires !c.t.useCompression ==> !EndsWith(Name(CanonicalPath(c, key)), ".zip")
    ensures var r := Store(fs, os, ffi, c, data, key, override);
            && r.value == Some(Target(c, key))
            && Load(r.fs, ffi, c, key, maxAgeDays) == Decode(c.t, c.t.serialize(data).value)
  {
    var r := StoreNew(fs, os, ffi, c, data, key);
    StoreLeavesOneVariant(fs, os, ffi, c, data, key);
    StoredReadsBack(fs, os, ffi, c, data, key);
    assert IsFileValid(r.fs, Some(Target(c, key)), EffectiveTtl(c.t, maxAgeDays));
  }

  /** With `override` off, an existing entry is neither rewritten nor replaced. */
  lemma StoreKeepsExisting<V>(fs: Fs, os: Os, ffi: Ffi, c: Cache<V>, data: V, key: string)
    requires HasEntry(fs, c, key)
    ensures var r := Store(fs, os, ffi, c, data, key, false);
            r.fs == fs && (IsStoreEnabled(c.config, c.t.cacheType) ==> r.value == ResolveVariant(fs, CanonicalPath(c, key)))
  {
  }

  // ----- invalidate -----

  /** When both variants can be removed, `invalidate` succeeds and the entry is gone. */
  lemma InvalidateRemovesEntry<V>(fs: Fs, os: Os, ffi: Ffi, c: Cache<V>, key: string, maxAgeDays: Option<int>)
    requires IsFile(fs, CanonicalPath(c, key)) ==> Removable(fs, os, CanonicalPath(c, key), c.config.datasetDir)
    requires IsFile(fs, CompressedPath(CanonicalPath(c, key))) ==>
               Removable(fs, os, CompressedPath(CanonicalPath(c, key)), c.config.datasetDir)
    ensures var r := Invalidate(fs, os, c, key);
            r.value && !HasEntry(r.fs, c, key) && Load(r.fs, ffi, c, key, maxAgeDays).None?
  {
    var vs := EntryVariants(c, key);
    RemoveVariantsClears(fs, os, vs, None, c.config.datasetDir);
    var r := RemoveVariants(fs, os, vs, None, c.config.datasetDir);
    assert !IsFile(r.fs, vs[0]) && !IsFile(r.fs, vs[1]);
  }

  /**
   * Paths no two of which lie one inside the other, each its own resolution:
   * the shape of an entry's variants on a system without links.
   */
  predicate Apart(os: Os, ps: seq<Path>) {
    && (forall i :: 0 <= i < |ps| ==> os.resolve(ps[i]) == ps[i])
    && (forall i, j :: 0 <= i < |ps| && 0 <= j < |ps| && i != j ==> !(ps[i] <= ps[j]))
  }

  /** The removal of `p` went through: it lies in the allowed directory and nothing is left there. */
  predicate Gone(fs: Fs, os: Os, p: Path, allowed: Path) {
    os.resolve(allowed) <= p && !Exists(fs, p)
  }

  /**
   * The cleanup loop reports success exactly when every path it attempted
   * (a file, not `keep`) is gone afterwards; so one variant that stays makes
   * it report failure.
   */
  lemma {:induction false} RemoveVariantsResult(fs: Fs, os: Os, ps: seq<Path>, keep: Option<Path>, allowed: Path)
    requires Apart(os, ps)
    ensures var r := RemoveVariants(fs, os, ps, keep, allowed);
            r.value <==> forall i :: 0 <= i < |ps| && Some(ps[i]) != keep && IsFile(fs, ps[i]) ==> Gone(r.fs, os, ps[i], allowed)
    decreases |ps|
  {
    if ps != [] {
      var attempt := IsFile(fs, ps[0]) && Some(ps[0]) != keep;
      var step := if attempt then SafeRemove(fs, os, ps[0], allowed) else Effect(fs, true);
      var tail := ps[1..];
      assert Apart(os, tail) by {
        forall i, j | 0 <= i < |tail| && 0 <= j < |tail| && i != j ensures !(tail[i] <= tail[j]) {
          assert tail[i] == ps[i + 1] && tail[j] == ps[j + 1];
        }
      }
      RemoveVariantsResult(step.fs, os, tail, keep, allowed);
      var rest := RemoveVariants(step.fs, os, tail, keep, allowed);
      assert RemoveVariants(fs, os, ps, keep, allowed) == Effect(rest.fs, step.value && rest.value);
      forall i | 1 <= i < |ps| ensures IsFile(step.fs, ps[i]) == IsFile(fs, ps[i]) && tail[i - 1] == ps[i] {
        assert !(ps[0] <= ps[i]);
      }
      assert Exists(rest.fs, ps[0]) == Exists(step.fs, ps[0]) by {
        TailKeeps(step.fs, rest.fs, os, ps, keep);
      }
      if step.value && rest.value {
        forall i | 0 <= i < |ps| && Some(ps[i]) != keep && IsFile(fs, ps[i]) ensures Gone(rest.fs, os, ps[i], allowed) {
          if i > 0 {
            assert Some(tail[i - 1]) != keep && IsFile(step.fs, tail[i - 1]);
          }
        }
      } else if !step.value {
        assert attempt && !Gone(rest.fs, os, ps[0], allowed);
      } else {
        var j :| 0 <= j < |tail| && Some(tail[j]) != keep && IsFile(step.fs, tail[j]) && !Gone(rest.fs, os, tail[j], allowed);
        assert tail[j] == ps[j + 1];
      }
    }
  }

  /** What the later removals take lies under later paths, so the first path's subtree survives them. */
  lemma TailKeeps(mid: Fs, end: Fs, os: Os, ps: seq<Path>, keep: Option<Path>)
    requires |ps| >= 1 && Apart(os, ps)
    requires forall q :: q in end ==> q in mid && end[q] == mid[q]
    requires forall q :: q in mid && q !in end ==>
               exists i :: 0 <= i < |ps[1..]| && Some(ps[1..][i]) != keep && IsFile(mid, ps[1..][i]) && os.resolve(ps[1..][i]) <= q
    ensures Exists(end, ps[0]) == Exists(mid, ps[0])
  {
    if Exists(mid, ps[0]) {
      var q :| q in mid && ps[0] <= q;
      forall i | 0 <= i < |ps[1..]| ensures !(os.resolve(ps[1..][i]) <= q) {
        assert ps[1..][i] == ps[i + 1];
        PrefixesNest(ps[0], ps[i + 1], q);
      }
    }
  }

  /**
   * A path of `ps` that is a file the system refuses to delete, and not
   * `keep`, makes the cleanup loop report failure.
   */
  lemma {:induction false} UndeletableStays(fs: Fs, os: Os, ps: seq<Path>, keep: Option<Path>, allowed: Path, k: nat)
    requires Apart(os, ps)
    requires k < |ps| && IsFile(fs, ps[k]) && ps[k] in os.undeletable && Some(ps[k]) != keep
    ensures !RemoveVariants(fs, os, ps, keep, allowed).value
    decreases |ps|
  {
    var attempt := IsFile(fs, ps[0]) && Some(ps[0]) != keep;
    var step := if attempt then SafeRemove(fs, os, ps[0], allowed) else Effect(fs, true);
    var tail := ps[1..];
    assert RemoveVariants(fs, os, ps, keep, allowed).value == (step.value && RemoveVariants(step.fs, os, tail, keep, allowed).value);
    if k > 0 {
      assert Apart(os, tail) by {
        forall i, j | 0 <= i < |tail| && 0 <= j < |tail| && i != j ensures !(tail[i] <= tail[j]) {
          assert tail[i] == ps[i + 1] && tail[j] == ps[j + 1];
        }
      }
      assert !(ps[0] <= ps[k]);
      assert tail[k - 1] == ps[k] && IsFile(step.fs, ps[k]);
      UndeletableStays(step.fs, os, tail, keep, allowed, k - 1);
    }
  }

  /** The two variants of an entry are apart on a system where they resolve to themselves. */
  lemma EntryVariantsApart<V>(os: Os, c: Cache<V>, key: string)
    requires CanonicalPath(c, key) != []
    requires forall i :: 0 <= i < 2 ==> os.resolve(EntryVariants(c, key)[i]) == EntryVariants(c, key)[i]
    ensures Apart(os, EntryVariants(c, key))
  {
  }

  /**
   * `invalidate` returns true exactly when each variant that was a file lay
   * in the dataset directory and is gone afterwards: a variant whose removal
   * fails makes it return false.
   */
  lemma InvalidateResult<V>(fs: Fs, os: Os, c: Cache<V>, key: string)
    requires CanonicalPath(c, key) != []
    requires os.resolve(CanonicalPath(c, key)) == CanonicalPath(c, key)
    requires os.resolve(CompressedPath(CanonicalPath(c, key))) == CompressedPath(CanonicalPath(c, key))
    ensures var r := Invalidate(fs, os, c, key);
            var canonical, compressed := CanonicalPath(c, key), CompressedPath(CanonicalPath(c, key));
            r.value <==> && (IsFile(fs, canonical) ==> Gone(r.fs, os, canonical, c.config.datasetDir))
                         && (IsFile(fs, compressed) ==> Gone(r.fs, os, compressed, c.config.datasetDir))
  {
    var vs := EntryVariants(c, key);
    EntryVariantsApart(os, c, key);
    RemoveVariantsResult(fs, os, vs, None, c.config.datasetDir);
    var r := Invalidate(fs, os, c, key);
    assert (forall i :: 0 <= i < |vs| && IsFile(fs, vs[i]) ==> Gone(r.fs, os, vs[i], c.config.datasetDir))
       <==> (IsFile(fs, vs[0]) ==> Gone(r.fs, os, vs[0], c.config.datasetDir))
            && (IsFile(fs, vs[1]) ==> Gone(r.fs, os, vs[1], c.config.datasetDir));
  }

  /** A variant that is a file the system refuses to delete makes `invalidate` return false. */
  lemma InvalidateFailsOnUndeletable<V>(fs: Fs, os: Os, c: Cache<V>, key: string, p: Path)
    requires CanonicalPath(c, key) != []
    requires os.resolve(CanonicalPath(c, key)) == CanonicalPath(c, key)
    requires os.resolve(CompressedPath(CanonicalPath(c, key))) == CompressedPath(CanonicalPath(c, key))
    requires p == CanonicalPath(c, key) || p == CompressedPath(CanonicalPath(c, key))
    requires IsFile(fs, p) && p in os.undeletable
    ensures !Invalidate(fs, os, c, key).value
  {
    var vs := EntryVariants(c, key);
    var allowed := c.config.datasetDir;
    EntryVariantsApart(os, c, key);
    var first := if IsFile(fs, vs[0]) then SafeRemove(fs, os, vs[0], allowed) else Effect(fs, true);
    var rest := RemoveVariants(first.fs, os, vs[1..], None, allowed);
    assert Invalidate(fs, os, c, key).value == (first.value && rest.value);
    if p == vs[1] {
      assert !(vs[0] <= vs[1]);
      assert IsFile(first.fs, vs[1]);
      var second := SafeRemove(first.fs, os, vs[1], allowed);
      assert !second.value;
      assert vs[1..][1..] == [];
      assert rest.value == (second.value && RemoveVariants(second.fs, os, [], None, allowed).value);
    }
  }

  // ----- clear -----

  /**
   * One `glob` pass of `clear` over the names it matched: each entry is
   * removed when no age is given or when it fails the TTL check, and every
   * successful removal is counted.
   */
  function ClearPass(fs: Fs, os: Os, dir: Path, names: seq<string>, maxAgeDays: Option<int>, allowed: Path): (r: Effect<nat>)
    ensures r.value <= |names|
    ensures RemovesOnlyUnder(fs, r.fs, os.resolve(allowed))
    ensures forall q :: q in fs && q !in r.fs ==> exists i :: 0 <= i < |names| && os.resolve(dir + [names[i]]) <= q
    decreases |names|
  {
    if names == [] then Effect(fs, 0)
    else
      var p := dir + [names[0]];
      var clear := maxAgeDays.None? || !IsFileValid(fs, Some(p), maxAgeDays);
      var step := if clear then SafeRemove(fs, os, p, allowed) else Effect(fs, false);
      var rest := ClearPass(step.fs, os, dir, names[1..], maxAgeDays, allowed);
      TraceClear(fs, step.fs, rest.fs, os, dir, names);
      Effect(rest.fs, rest.value + if step.value then 1 else 0)
  }

  /** Every entry a pass removed lies under one of the names it went through. */
  lemma TraceClear(fs: Fs, mid: Fs, end: Fs, os: Os, dir: Path, names: seq<string>)
    requires names != []
    requires forall q :: q in fs && q !in mid ==> os.resolve(dir + [names[0]]) <= q
    requires forall q :: q in mid && q !in end ==> exists i :: 0 <= i < |names[1..]| && os.resolve(dir + [names[1..][i]]) <= q
    ensures forall q :: q in fs && q !in end ==> exists i :: 0 <= i < |names| && os.resolve(dir + [names[i]]) <= q
  {
    forall q | q in fs && q !in end
      ensures exists i :: 0 <= i < |names| && os.resolve(dir + [names[i]]) <= q
    {
      if q in mid {
        var i :| 0 <= i < |names[1..]| && os.resolve(dir + [names[1..][i]]) <= q;
        assert names[1..][i] == names[i + 1];
      } else {
        assert os.resolve(dir + [names[0]]) <= q;
      }
    }
  }

  /** Without an age every removable entry goes, and each removal counts. */
  lemma {:induction false} ClearPassRemovesAll(fs: Fs, os: Os, dir: Path, names: seq<string>, allowed: Path)
    requires forall i :: 0 <= i < |names| ==> Removable(fs, os, dir + [names[i]], allowed)
    ensures var r := ClearPass(fs, os, dir, names, None, allowed);
            r.value == |names| && forall i :: 0 <= i < |names| ==> !Exists(r.fs, dir + [names[i]])
    decreases |names|
  {
    if names != [] {
      var p := dir + [names[0]];
      var step := SafeRemove(fs, os, p, allowed);
      SafeRemoveRemovable(fs, os, p, allowed);
      forall i | 0 <= i < |names[1..]|
        ensures Removable(step.fs, os, dir + [names[1..][i]], allowed)
      {
        assert names[1..][i] == names[i + 1];
        ShrinkPreserves(fs, step.fs, os, dir + [names[i + 1]], allowed, None);
      }
      ClearPassRemovesAll(step.fs, os, dir, names[1..], allowed);
      var r := ClearPass(step.fs, os, dir, names[1..], None, allowed);
      forall i | 0 <= i < |names|
        ensures !Exists(r.fs, dir + [names[i]])
      {
        if i == 0 {
          ShrinkPreserves(step.fs, r.fs, os, p, allowed, None);
        } else {
          assert names[1..][i - 1] == names[i];
        }
      }
    }
  }

  /** An entry no listed removal reaches stays as it was. */
  predicate Untouched(os: Os, dir: Path, names: seq<string>, n: string) {
    forall i :: 0 <= i < |names| && names[i] != n ==> !(os.resolve(dir + [names[i]]) <= dir + [n])
  }

  /** With an age, an entry that passes the TTL check is kept, unchanged. */
  lemma {:induction false} ClearPassKeepsValid(fs: Fs, os: Os, dir: Path, names: seq<string>, maxAgeDays: int, allowed: Path, n: string)
    requires IsFileValid(fs, Some(dir + [n]), Some(maxAgeDays))
    requires Untouched(os, dir, names, n)
    ensures var r := ClearPass(fs, os, dir, names, Some(maxAgeDays), allowed);
            dir + [n] in r.fs && r.fs[dir + [n]] == fs[dir + [n]]
    decreases |names|
  {
    if names != [] {
      var p := dir + [names[0]];
      var clear := !IsFileValid(fs, Some(p), Some(maxAgeDays));
      var step := if clear then SafeRemove(fs, os, p, allowed) else Effect(fs, false);
      if names[0] != n {
        assert !(os.resolve(p) <= dir + [n]);
      }
      assert dir + [n] in step.fs && step.fs[dir + [n]] == fs[dir + [n]];
      assert Untouched(os, dir, names[1..], n) by {
        forall i | 0 <= i < |names[1..]| && names[1..][i] != n
          ensures !(os.resolve(dir + [names[1..][i]]) <= dir + [n])
        {
          assert names[1..][i] == names[i + 1];
        }
      }
      ClearPassKeepsValid(step.fs, os, dir, names[1..], maxAgeDays, allowed, n);
    }
  }

  /** With an age, a listed removable entry that fails the TTL check is gone afterwards. */
  lemma {:induction false} ClearPassRemovesExpired(fs: Fs, os: Os, dir: Path, names: seq<string>, maxAgeDays: int, allowed: Path, n: string)
    requires n in names
    requires !IsFileValid(fs, Some(dir + [n]), Some(maxAgeDays))
    requires Removable(fs, os, dir + [n], allowed)
    ensures var r := ClearPass(fs, os, dir, names, Some(maxAgeDays), allowed);
            !Exists(r.fs, dir + [n])
    decreases |names|
  {
    var p := dir + [names[0]];
    var clear := !IsFileValid(fs, Some(p), Some(maxAgeDays));
    var step := if clear then SafeRemove(fs, os, p, allowed) else Effect(fs, false);
    var r := ClearPass(step.fs, os, dir, names[1..], Some(maxAgeDays), allowed);
    assert Shrinks(fs, step.fs);
    if names[0] == n {
      SafeRemoveRemovable(fs, os, p, allowed);
      ShrinkPreserves(step.fs, r.fs, os, p, allowed, None);
    } else {
      assert n in names[1..];
      ShrinkPreserves(fs, step.fs, os, dir + [n], allowed, Some(maxAgeDays));
      ClearPassRemovesExpired(step.fs, os, dir, names[1..], maxAgeDays, allowed, n);
    }
  }

  /** The names a `glob("*" + pattern)` matches, in listing order. */
  function Matching(names: seq<string>, pattern: string): (r: seq<string>)
    ensures |r| <= |names|
    ensures forall n :: n in r <==> n in names && EndsWith(n, pattern)
  {
    if names == [] then []
    else (if EndsWith(names[0], pattern) then [names[0]] else []) + Matching(names[1..], pattern)
  }

  /** The listed names whose entries still exist. */
  function Live(fs: Fs, dir: Path, names: seq<string>): (r: seq<string>)
    ensures |r| <= |names|
    ensures forall n :: n in r <==> n in names && Exists(fs, dir + [n])
  {
    if names == [] then []
    else (if Exists(fs, dir + [names[0]]) then [names[0]] else []) + Live(fs, dir, names[1..])
  }

  /** The listed names that do not end in `pattern`. */
  function Unmatched(names: seq<string>, pattern: string): (r: seq<string>)
    ensures forall n :: n in r <==> n in names && !EndsWith(n, pattern)
  {
    if names == [] then []
    else (if EndsWith(names[0], pattern) then [] else [names[0]]) + Unmatched(names[1..], pattern)
  }

  /**
   * `clear`: a pass over the entries ending in the extension, then a second
   * `glob` over the entries ending in the extension plus ".zip"; the second
   * listing is taken after the first pass. `listing` is the directory's
   * entries in the order the operating system enumerates them.
   */
  function Clear<V>(fs: Fs, os: Os, c: Cache<V>, maxAgeDays: Option<int>, listing: seq<string>): (r: Effect<nat>)
    requires Exists(fs, CacheDir(c)) ==> Lists(fs, CacheDir(c), listing)
    ensures !Exists(fs, CacheDir(c)) ==> r == Effect(fs, 0)
    ensures r.value <= 2 * |listing|
    ensures RemovesOnlyUnder(fs, r.fs, os.resolve(c.config.datasetDir))
  {
    if !Exists(fs, CacheDir(c)) then Effect(fs, 0)
    else TwoPasses(fs, os, CacheDir(c), listing, c.t.ext, maxAgeDays, c.config.datasetDir)
  }

  /** The two `glob` passes of `clear` over an existing directory. */
  function TwoPasses(fs: Fs, os: Os, dir: Path, listing: seq<string>, ext: string, maxAgeDays: Option<int>, allowed: Path): (r: Effect<nat>)
    ensures r.value <= 2 * |listing|
    ensures RemovesOnlyUnder(fs, r.fs, os.resolve(allowed))
  {
    var first := ClearPass(fs, os, dir, Matching(listing, ext), maxAgeDays, allowed);
    var second := ClearPass(first.fs, os, dir, Matching(Live(first.fs, dir, listing), ext + ".zip"), maxAgeDays, allowed);
    RemovesOnlyUnderTransitive(fs, first.fs, second.fs, os.resolve(allowed));
    Effect(second.fs, first.value + second.value)
  }

  lemma RemovesOnlyUnderTransitive(a: Fs, b: Fs, d: Fs, root: Path)
    requires RemovesOnlyUnder(a, b, root) && RemovesOnlyUnder(b, d, root)
    ensures RemovesOnlyUnder(a, d, root)
  {
  }

  /**
   * `listing` is the directory listing of `dir`: it names each entry of
   * `dir` exactly once, and every entry is named.
   */
  predicate Lists(fs: Fs, dir: Path, listing: seq<string>) {
    && (forall i, j :: 0 <= i < j < |listing| ==> listing[i] != listing[j])
    && (forall i :: 0 <= i < |listing| ==> Exists(fs, dir + [listing[i]]))
    && (forall q :: q in fs && |dir| < |q| && q[..|dir|] == dir ==> q[|dir|] in listing)
  }

  /** Every entry of the directory is in its listing. */
  lemma ListedIfPresent(fs: Fs, dir: Path, listing: seq<string>, n: string)
    requires Lists(fs, dir, listing)
    ensures Exists(fs, dir + [n]) ==> n in listing
  {
    var p := dir + [n];
    if p in fs {
      assert |dir| < |p| && p[..|dir|] == dir && p[|dir|] == n;
    } else if HasDescendant(fs, p) {
      var q :| q in fs && |p| < |q| && q[..|p|] == p;
      assert q[..|dir|] == dir && q[|dir|] == n;
    }
  }

  /** An entry exists only inside an existing directory. */
  lemma EntryNeedsDir(fs: Fs, dir: Path, n: string)
    ensures Exists(fs, dir + [n]) ==> Exists(fs, dir)
  {
    var p := dir + [n];
    if p in fs {
      assert |dir| < |p| && p[..|dir|] == dir;
    } else if HasDescendant(fs, p) {
      var q :| q in fs && |p| < |q| && q[..|p|] == p;
      assert q[..|dir|] == dir;
    }
  }

  /** A directory that does not exist has an empty listing. */
  lemma NoDirNoListing(fs: Fs, dir: Path, listing: seq<string>)
    requires Lists(fs, dir, listing) && !Exists(fs, dir)
    ensures listing == []
  {
    if listing != [] {
      EntryNeedsDir(fs, dir, listing[0]);
    }
  }

  /** Clearing only entries other than `n` leaves `n`'s entry in place. */
  lemma {:induction false} LiveAfterOthers(before: Fs, after: Fs, dir: Path, n: string)
    requires Exists(before, dir + [n])
    requires forall q :: q in before && q !in after ==> !(dir + [n] <= q)
    requires Shrinks(before, after)
    ensures Exists(after, dir + [n])
  {
    var p := dir + [n];
    if p in before {
      assert p in after;
    } else {
      var q :| q in before && |p| < |q| && q[..|p|] == p;
      assert p <= q;
      assert q in after;
    }
  }

  /** After the first pass removed every entry ending in `ext`, the live listing is the rest. */
  lemma {:induction false} LiveIsUnmatched(fs: Fs, dir: Path, listing: seq<string>, ext: string)
    requires forall n :: n in listing && EndsWith(n, ext) ==> !Exists(fs, dir + [n])
    requires forall n :: n in listing && !EndsWith(n, ext) ==> Exists(fs, dir + [n])
    ensures Live(fs, dir, listing) == Unmatched(listing, ext)
    decreases |listing|
  {
    if listing != [] {
      LiveIsUnmatched(fs, dir, listing[1..], ext);
    }
  }

  /** The names of `m` are all listed, so all are removable. */
  lemma MatchedRemovable(fs: Fs, os: Os, dir: Path, listing: seq<string>, m: seq<string>, allowed: Path)
    requires forall n :: n in m ==> n in listing
    requires forall i :: 0 <= i < |listing| ==> Removable(fs, os, dir + [listing[i]], allowed)
    ensures forall i :: 0 <= i < |m| ==> Removable(fs, os, dir + [m[i]], allowed)
  {
    forall i | 0 <= i < |m| ensures Removable(fs, os, dir + [m[i]], allowed) {
      assert m[i] in listing;
    }
  }

  /** A pass over plain entries named in `m` leaves every other listed entry in place. */
  lemma OthersSurvive(fs: Fs, after: Fs, os: Os, dir: Path, listing: seq<string>, m: seq<string>, n: string)
    requires Lists(fs, dir, listing)
    requires n in listing && n !in m
    requires forall k :: 0 <= k < |m| ==> os.resolve(dir + [m[k]]) == dir + [m[k]]
    requires Shrinks(fs, after)
    requires forall q :: q in fs && q !in after ==> exists i :: 0 <= i < |m| && os.resolve(dir + [m[i]]) <= q
    ensures Exists(after, dir + [n])
  {
    forall q | q in fs && q !in after ensures !(dir + [n] <= q) {
      var i :| 0 <= i < |m| && os.resolve(dir + [m[i]]) <= q;
      assert (dir + [n])[|dir|] == n;
      assert (dir + [m[i]])[|dir|] == m[i];
    }
    var k :| 0 <= k < |listing| && listing[k] == n;
    LiveAfterOthers(fs, after, dir, n);
  }

  /** What the first pass of an age-less `clear` leaves: its entries gone, all others still there. */
  lemma ClearFirstPass(fs: Fs, os: Os, dir: Path, listing: seq<string>, ext: string, allowed: Path)
    requires Lists(fs, dir, listing)
    requires forall i :: 0 <= i < |listing| ==> Removable(fs, os, dir + [listing[i]], allowed)
    ensures var first := ClearPass(fs, os, dir, Matching(listing, ext), None, allowed);
            && first.value == |Matching(listing, ext)|
            && (forall n :: n in listing && EndsWith(n, ext) ==> !Exists(first.fs, dir + [n]))
            && Live(first.fs, dir, listing) == Unmatched(listing, ext)
  {
    var m1 := Matching(listing, ext);
    MatchedRemovable(fs, os, dir, listing, m1, allowed);
    ClearPassRemovesAll(fs, os, dir, m1, allowed);
    var first := ClearPass(fs, os, dir, m1, None, allowed);
    UnmatchedSurvive(fs, first.fs, os, dir, listing, m1);
    MatchedGone(first.fs, dir, m1);
    LiveIsUnmatched(first.fs, dir, listing, ext);
  }

  /** The listed entries a pass did not go through are all still there. */
  lemma UnmatchedSurvive(fs: Fs, after: Fs, os: Os, dir: Path, listing: seq<string>, m: seq<string>)
    requires Lists(fs, dir, listing)
    requires forall k :: 0 <= k < |m| ==> os.resolve(dir + [m[k]]) == dir + [m[k]]
    requires Shrinks(fs, after)
    requires forall q :: q in fs && q !in after ==> exists i :: 0 <= i < |m| && os.resolve(dir + [m[i]]) <= q
    ensures forall n :: n in listing && n !in m ==> Exists(after, dir + [n])
  {
    forall n | n in listing && n !in m
      ensures Exists(after, dir + [n])
    {
      OthersSurvive(fs, after, os, dir, listing, m, n);
    }
  }

  lemma MatchedGone(after: Fs, dir: Path, m: seq<string>)
    requires forall i :: 0 <= i < |m| ==> !Exists(after, dir + [m[i]])
    ensures forall n :: n in m ==> !Exists(after, dir + [n])
  {
    forall n | n in m
      ensures !Exists(after, dir + [n])
    {
      var i :| 0 <= i < |m| && m[i] == n;
    }
  }

  /** Entries stay removable while others are removed. */
  lemma StillRemovable(fs: Fs, after: Fs, os: Os, dir: Path, listing: seq<string>, allowed: Path)
    requires Shrinks(fs, after)
    requires forall i :: 0 <= i < |listing| ==> Removable(fs, os, dir + [listing[i]], allowed)
    ensures forall i :: 0 <= i < |listing| ==> Removable(after, os, dir + [listing[i]], allowed)
  {
    forall i | 0 <= i < |listing| ensures Removable(after, os, dir + [listing[i]], allowed) {
      ShrinkPreserves(fs, after, os, dir + [listing[i]], allowed, None);
    }
  }

  /** Both passes without an age: every matching entry goes, each counted once. */
  lemma TwoPassesRemoveAll(fs: Fs, os: Os, dir: Path, listing: seq<string>, ext: string, allowed: Path)
    requires Lists(fs, dir, listing)
    requires forall i :: 0 <= i < |listing| ==> Removable(fs, os, dir + [listing[i]], allowed)
    ensures var r := TwoPasses(fs, os, dir, listing, ext, None, allowed);
            && r.value == |Matching(listing, ext)| + |Matching(Unmatched(listing, ext), ext + ".zip")|
            && forall n :: n in listing && (EndsWith(n, ext) || EndsWith(n, ext + ".zip")) ==> !Exists(r.fs, dir + [n])
  {
    ClearFirstPass(fs, os, dir, listing, ext, allowed);
    var first := ClearPass(fs, os, dir, Matching(listing, ext), None, allowed);
    var m2 := Matching(Unmatched(listing, ext), ext + ".zip");
    StillRemovable(fs, first.fs, os, dir, listing, allowed);
    MatchedRemovable(first.fs, os, dir, listing, m2, allowed);
    ClearPassRemovesAll(first.fs, os, dir, m2, allowed);
    var second := ClearPass(first.fs, os, dir, m2, None, allowed);
    forall n | n in listing && (EndsWith(n, ext) || EndsWith(n, ext + ".zip"))
      ensures !Exists(second.fs, dir + [n])
    {
      if EndsWith(n, ext) {
        ShrinkPreserves(first.fs, second.fs, os, dir + [n], allowed, None);
      } else {
        var i :| 0 <= i < |m2| && m2[i] == n;
      }
    }
  }

  /**
   * Without an age, `clear` removes every entry of the cache directory
   * ending in the extension or in the extension plus ".zip", when each entry
   * can be removed, and counts each of them once.
   */
  lemma ClearRemovesAll<V>(fs: Fs, os: Os, c: Cache<V>, listing: seq<string>)
    requires Lists(fs, CacheDir(c), listing)
    requires forall i :: 0 <= i < |listing| ==> Removable(fs, os, CacheDir(c) + [listing[i]], c.config.datasetDir)
    ensures var r := Clear(fs, os, c, None, listing);
            && r.value == |Matching(listing, c.t.ext)| + |Matching(Unmatched(listing, c.t.ext), c.t.ext + ".zip")|
            && forall n :: EndsWith(n, c.t.ext) || EndsWith(n, c.t.ext + ".zip") ==> !Exists(r.fs, CacheDir(c) + [n])
  {
    var dir := CacheDir(c);
    if Exists(fs, dir) {
      TwoPassesRemoveAll(fs, os, dir, listing, c.t.ext, c.config.datasetDir);
      var r := Clear(fs, os, c, None, listing);
      forall n | EndsWith(n, c.t.ext) || EndsWith(n, c.t.ext + ".zip") ensures !Exists(r.fs, dir + [n]) {
        ListedIfPresent(fs, dir, listing, n);
        if n !in listing {
          ShrinkPreserves(fs, r.fs, os, dir + [n], c.config.datasetDir, None);
        }
      }
    } else {
      NoDirNoListing(fs, dir, listing);
      forall n ensures !Exists(fs, dir + [n]) {
        EntryNeedsDir(fs, dir, n);
      }
    }
  }

  /** With an age, `clear` keeps every entry that passes the TTL check, when no link redirects a removal. */
  lemma ClearKeepsValid<V>(fs: Fs, os: Os, c: Cache<V>, maxAgeDays: int, listing: seq<string>, n: string)
    requires Lists(fs, CacheDir(c), listing)
    requires IsFileValid(fs, Some(CacheDir(c) + [n]), Some(maxAgeDays))
    requires forall i :: 0 <= i < |listing| ==> os.resolve(CacheDir(c) + [listing[i]]) == CacheDir(c) + [listing[i]]
    ensures var r := Clear(fs, os, c, Some(maxAgeDays), listing);
            CacheDir(c) + [n] in r.fs && r.fs[CacheDir(c) + [n]] == fs[CacheDir(c) + [n]]
  {
    var dir := CacheDir(c);
    var allowed := c.config.datasetDir;
    assert Exists(fs, dir) by {
      assert |dir| < |dir + [n]| && (dir + [n])[..|dir|] == dir;
    }
    var m1 := Matching(listing, c.t.ext);
    assert Untouched(os, dir, m1, n) by {
      forall i | 0 <= i < |m1| && m1[i] != n ensures !(os.resolve(dir + [m1[i]]) <= dir + [n]) {
        assert m1[i] in listing;
        assert (dir + [n])[|dir|] == n;
      }
    }
    ClearPassKeepsValid(fs, os, dir, m1, maxAgeDays, allowed, n);
    var first := ClearPass(fs, os, dir, m1, Some(maxAgeDays), allowed);
    var m2 := Matching(Live(first.fs, dir, listing), c.t.ext + ".zip");
    assert Untouched(os, dir, m2, n) by {
      forall i | 0 <= i < |m2| && m2[i] != n ensures !(os.resolve(dir + [m2[i]]) <= dir + [n]) {
        assert m2[i] in listing;
        assert (dir + [n])[|dir|] == n;
      }
    }
    assert IsFileValid(first.fs, Some(dir + [n]), Some(maxAgeDays));
    ClearPassKeepsValid(first.fs, os, dir, m2, maxAgeDays, allowed, n);
  }

  /** With an age, a removable entry that matches a pattern and fails the TTL check is gone afterwards. */
  lemma ClearRemovesExpired<V>(fs: Fs, os: Os, c: Cache<V>, maxAgeDays: int, listing: seq<string>, n: string)
    requires Lists(fs, CacheDir(c), listing)
    requires EndsWith(n, c.t.ext) || EndsWith(n, c.t.ext + ".zip")
    requires !IsFileValid(fs, Some(CacheDir(c) + [n]), Some(maxAgeDays))
    requires Removable(fs, os, CacheDir(c) + [n], c.config.datasetDir)
    ensures !Exists(Clear(fs, os, c, Some(maxAgeDays), listing).fs, CacheDir(c) + [n])
  {
    var dir := CacheDir(c);
    ListedIfPresent(fs, dir, listing, n);
    EntryNeedsDir(fs, dir, n);
    if n in listing {
      TwoPassesRemoveExpired(fs, os, dir, listing, c.t.ext, maxAgeDays, c.config.datasetDir, n);
    } else if Exists(fs, dir) {
      var r := Clear(fs, os, c, Some(maxAgeDays), listing);
      ShrinkPreserves(fs, r.fs, os, dir + [n], c.config.datasetDir, None);
    }
  }

  lemma TwoPassesRemoveExpired(fs: Fs, os: Os, dir: Path, listing: seq<string>, ext: string, maxAgeDays: int, allowed: Path, n: string)
    requires n in listing && (EndsWith(n, ext) || EndsWith(n, ext + ".zip"))
    requires !IsFileValid(fs, Some(dir + [n]), Some(maxAgeDays))
    requires Removable(fs, os, dir + [n], allowed)
    ensures !Exists(TwoPasses(fs, os, dir, listing, ext, Some(maxAgeDays), allowed).fs, dir + [n])
  {
    var p := dir + [n];
    var m1 := Matching(listing, ext);
    var first := ClearPass(fs, os, dir, m1, Some(maxAgeDays), allowed);
    var m2 := Matching(Live(first.fs, dir, listing), ext + ".zip");
    var second := ClearPass(first.fs, os, dir, m2, Some(maxAgeDays), allowed);
    if EndsWith(n, ext) {
      ClearPassRemovesExpired(fs, os, dir, m1, maxAgeDays, allowed, n);
      ShrinkPreserves(first.fs, second.fs, os, p, allowed, None);
    } else if Exists(first.fs, p) {
      ShrinkPreserves(fs, first.fs, os, p, allowed, Some(maxAgeDays));
      assert n in m2;
      ClearPassRemovesExpired(first.fs, os, dir, m2, maxAgeDays, allowed, n);
    } else {
      ShrinkPreserves(first.fs, second.fs, os, p, allowed, None);
    }
  }
}

=== FILE: cache_config.dfy ===
/**
 * The cache configuration: per-type load/store toggles, sharing groups, TTL
 * overrides and the directory layout, all plain dictionary lookups on a
 * normalised type id.
 */
module CacheConfig {
  import opened Wrappers
  import opened Strs
  import opened JsonValues
  import opened FileSystem

  datatype Config = Config(
    profile: string,
    datasetDir: Path,
    loadEnabled: map<string, bool>,
    storeEnabled: map<string, bool>,
    sharedCaches: map<string, bool>,
    ttlOverrides: map<string, Option<int>>)

  /** A configuration with every field at its default. */
  function Default(): (c: Config)
    ensures c.profile == "default" && c.datasetDir == []
    ensures c.loadEnabled == map[] && c.storeEnabled == map[] && c.sharedCaches == map[] && c.ttlOverrides == map[]
  {
    Config("default", [], map[], map[], map[], map[])
  }

  /** A type id as the lookups see it: '-' becomes '_', then lower case. */
  function Normalize(cacheType: string): (r: string)
    ensures |r| == |cacheType|
    ensures '-' !in r
    ensures forall i :: 0 <= i < |r| ==> !IsUpper(r[i])
  {
    Lower(ReplaceChar(cacheType, '-', '_'))
  }

  /** Normalising twice is normalising once. */
  lemma NormalizeIdempotent(cacheType: string)
    ensures Normalize(Normalize(cacheType)) == Normalize(cacheType)
  {
  }

  /** The share-group table: type ids that share one `[ShareCache]` key. */
  function ShareKeyMap(): map<string, string> {
    map[
      "git_api" := "git_api_cache",
      "nvd_query" := "nvd_query_cache",
      "osv_query" := "osv_query_cache",
      "osv_entry" := "osv_query_cache",
      "cve_entry" := "nvd_query_cache",
      "patch_info" := "nvd_query_cache",
      "generic_entry" := "nvd_query_cache",
      "cpe_match" := "nvd_query_cache",
      "file_change" := "file_change_cache",
      "out_of_func_change" := "out_change_cache",
      "decompile_result" := "decompile_output",
      "ida_index" := "decompile_output",
      "ida_database" := "decompile_output",
      "agent_check_result" := "agent_cache",
      "llm_query" := "llm_query_cache",
      "di_agent_state" := "di_agent_cache",
      "ro_agent_state" := "ro_agent_cache",
      "fpc_agent_state" := "fpc_agent_cache",
      "web_handler" := "agent_cache",
      "branch_tag" := "agent_cache"
    ]
  }

  /** The `[ShareCache]` key a type id is looked up under; unmapped ids stand for themselves. */
  function ShareKey(cacheType: string): (k: string)
    ensures Normalize(cacheType) in ShareKeyMap() ==> k == ShareKeyMap()[Normalize(cacheType)]
    ensures Normalize(cacheType) !in ShareKeyMap() ==> k == Normalize(cacheType)
  {
    var n := Normalize(cacheType);
    if n in ShareKeyMap() then ShareKeyMap()[n] else n
  }

  /** `is_cache_load_enabled`: enabled unless the normalised id is configured off. */
  predicate IsLoadEnabled(c: Config, cacheType: string) {
    var n := Normalize(cacheType);
    if n in c.loadEnabled then c.loadEnabled[n] else true
  }

  /** `is_cache_store_enabled`: enabled unless the normalised id is configured off. */
  predicate IsStoreEnabled(c: Config, cacheType: string) {
    var n := Normalize(cacheType);
    if n in c.storeEnabled then c.storeEnabled[n] else true
  }

  /** `is_cache_enabled`. */
  predicate IsEnabled(c: Config, cacheType: string) {
    IsLoadEnabled(c, cacheType) && IsStoreEnabled(c, cacheType)
  }

  /** The toggles of a type: configured value or true, under the normalised id. */
  lemma TogglesAreLookups(c: Config, cacheType: string)
    ensures IsLoadEnabled(c, cacheType) <==> Normalize(cacheType) !in c.loadEnabled || c.loadEnabled[Normalize(cacheType)]
    ensures IsStoreEnabled(c, cacheType) <==> Normalize(cacheType) !in c.storeEnabled || c.storeEnabled[Normalize(cacheType)]
    ensures IsEnabled(c, cacheType) <==> IsLoadEnabled(c, cacheType) && IsStoreEnabled(c, cacheType)
  {
  }

  /** An unconfigured type is enabled both ways. */
  lemma DefaultsToEnabled(cacheType: string)
    ensures IsLoadEnabled(Default(), cacheType) && IsStoreEnabled(Default(), cacheType)
    ensures IsEnabled(Default(), cacheType)
  {
  }

  /** `is_cache_shared(cache_type, default)`. */
  function IsShared(c: Config, cacheType: string, default: bool): (r: bool)
    ensures ShareKey(cacheType) !in c.sharedCaches ==> r == default
    ensures ShareKey(cacheType) in c.sharedCaches ==> r == c.sharedCaches[ShareKey(cacheType)]
  {
    var k := ShareKey(cacheType);
    if k in c.sharedCaches then c.sharedCaches[k] else default
  }

  /** `get_ttl(cache_type, default)`: an override (possibly None) wins over the default. */
  function GetTtl(c: Config, cacheType: string, default: Option<int>): (r: Option<int>)
    ensures Normalize(cacheType) in c.ttlOverrides ==> r == c.ttlOverrides[Normalize(cacheType)]
    ensures Normalize(cacheType) !in c.ttlOverrides ==> r == default
  {
    var n := Normalize(cacheType);
    if n in c.ttlOverrides then c.ttlOverrides[n] else default
  }

  /** Ids that normalise alike get the same answers from every lookup. */
  lemma LookupsIgnoreSpelling(c: Config, a: string, b: string, default: bool, ttl: Option<int>)
    requires Normalize(a) == Normalize(b)
    ensures IsLoadEnabled(c, a) == IsLoadEnabled(c, b)
    ensures IsStoreEnabled(c, a) == IsStoreEnabled(c, b)
    ensures IsShared(c, a, default) == IsShared(c, b, default)
    ensures GetTtl(c, a, ttl) == GetTtl(c, b, ttl)
  {
  }

  /** Types in one share group agree on sharing, whatever the configuration. */
  lemma ShareGroupsAgree(c: Config, a: string, b: string, default: bool)
    requires Normalize(a) in ShareKeyMap() && Normalize(b) in ShareKeyMap()
    requires ShareKeyMap()[Normalize(a)] == ShareKeyMap()[Normalize(b)]
    ensures IsShared(c, a, default) == IsShared(c, b, default)
  {
  }

  /** `get_cache_dir(name, shared)`: the dataset dir's child, plus the profile when isolated. */
  function GetCacheDir(c: Config, cacheName: string, shared: bool): (r: Path)
    ensures Child(c.datasetDir, cacheName) <= r
    ensures shared ==> r == Child(c.datasetDir, cacheName)
    ensures !shared ==> r == Child(Child(c.datasetDir, cacheName), c.profile)
  {
    var base := Child(c.datasetDir, cacheName);
    if shared then base else Child(base, c.profile)
  }

  /** Two profiles share a directory when shared and are kept apart when isolated. */
  lemma ProfilesIsolated(c1: Config, c2: Config, cacheName: string)
    requires c1.datasetDir == c2.datasetDir
    requires Segments(c1.profile) != Segments(c2.profile)
    ensures GetCacheDir(c1, cacheName, true) == GetCacheDir(c2, cacheName, true)
    ensures GetCacheDir(c1, cacheName, false) != GetCacheDir(c2, cacheName, false)
  {
    var base := Child(c1.datasetDir, cacheName);
    assert GetCacheDir(c1, cacheName, false)[|base|..] == Segments(c1.profile);
    assert GetCacheDir(c2, cacheName, false)[|base|..] == Segments(c2.profile);
  }

  // ----- building a configuration -----

  /** `ConfigParser.getboolean`: None where it raises on an unknown word. */
  function GetBoolean(value: string): (r: Option<bool>)
    ensures r == Some(true) <==> Lower(value) in {"1", "yes", "true", "on"}
    ensures r == Some(false) <==> Lower(value) in {"0", "no", "false", "off"}
  {
    var v := Lower(value);
    if v in {"1", "yes", "true", "on"} then Some(true)
    else if v in {"0", "no", "false", "off"} then Some(false)
    else None
  }

  /** Every option of a section read as a boolean; None when one of them is not one. */
  function SectionToggles(section: map<string, string>): (r: Option<map<string, bool>>)
    ensures r.Some? <==> forall k :: k in section ==> GetBoolean(section[k]).Some?
    ensures r.Some? ==> r.value.Keys == section.Keys
    ensures r.Some? ==> forall k :: k in section ==> Some(r.value[k]) == GetBoolean(section[k])
  {
    if forall k :: k in section ==> GetBoolean(section[k]).Some? then
      Some(map k | k in section :: GetBoolean(section[k]).value)
    else None
  }

  /** The toggles of a section that may be missing: a missing section configures nothing. */
  function OptionalToggles(sections: map<string, map<string, string>>, name: string): Option<map<string, bool>> {
    if name in sections then SectionToggles(sections[name]) else Some(map[])
  }

  /** The section load toggles come from: the current name when present, else the legacy one. */
  function LoadSection(sections: map<string, map<string, string>>): (name: string)
    ensures "LoadCacheOptions" in sections ==> name == "LoadCacheOptions"
    ensures "LoadCacheOptions" !in sections ==> name == "CacheOptions"
  {
    if "LoadCacheOptions" in sections then "LoadCacheOptions" else "CacheOptions"
  }

  /** `from_config_parser`: None where a toggle is not a boolean word. */
  function FromConfigParser(sections: map<string, map<string, string>>, profile: string, datasetDir: Option<Path>): (r: Option<Config>)
    ensures r.Some? ==> r.value.profile == profile && r.value.ttlOverrides == map[]
    ensures r.Some? ==> Some(r.value.loadEnabled) == OptionalToggles(sections, LoadSection(sections))
    ensures r.Some? ==> Some(r.value.storeEnabled) == OptionalToggles(sections, "StoreCacheOptions")
    ensures r.Some? ==> Some(r.value.sharedCaches) == OptionalToggles(sections, "ShareCache")
    ensures r.Some? ==> r.value.datasetDir == if datasetDir.Some? && datasetDir.value != [] then datasetDir.value else []
    ensures r.None? <==> OptionalToggles(sections, LoadSection(sections)).None?
                         || OptionalToggles(sections, "StoreCacheOptions").None?
                         || OptionalToggles(sections, "ShareCache").None?
  {
    var load := OptionalToggles(sections, LoadSection(sections));
    var store := OptionalToggles(sections, "StoreCacheOptions");
    var share := OptionalToggles(sections, "ShareCache");
    if load.None? || store.None? || share.None? then None
    else
      var dir := if datasetDir.Some? && datasetDir.value != [] then datasetDir.value else [];
      Some(Config(profile, dir, load.value, store.value, share.value, map[]))
  }

  /** A legacy `[CacheOptions]` section drives load toggles only when `[LoadCacheOptions]` is absent. */
  lemma LegacyLoadSection(sections: map<string, map<string, string>>, profile: string)
    requires "LoadCacheOptions" !in sections && "CacheOptions" in sections
    requires FromConfigParser(sections, profile, None).Some?
    ensures Some(FromConfigParser(sections, profile, None).value.loadEnabled) == SectionToggles(sections["CacheOptions"])
  {
  }

  /** An option object read as toggles: a dict's values coerced with `bool`, anything else ignored. */
  function Toggles(options: Json): (r: map<string, bool>)
    ensures !options.JObj? ==> r == map[]
    ensures options.JObj? ==> r.Keys == options.fields.Keys
    ensures options.JObj? ==> forall k :: k in r ==> r[k] == Truthy(options.fields[k])
  {
    if options.JObj? then map k | k in options.fields :: Truthy(options.fields[k]) else map[]
  }

  /** `from_rs_config` over the application config's attributes. */
  function FromRsConfig(ffi: Ffi, attrs: map<string, Json>): (r: Config)
    ensures "config_profile" !in attrs ==> r.profile == "default"
    ensures "config_profile" in attrs ==> r.profile == PyStr(ffi, attrs["config_profile"])
    ensures "dataset_dir_path" !in attrs ==> r.datasetDir == []
    ensures r.loadEnabled == Toggles(Get(attrs, "load_cache_options", JObj(map[])))
    ensures r.storeEnabled == Toggles(Get(attrs, "store_cache_options", JObj(map[])))
    ensures r.sharedCaches == Toggles(Get(attrs, "share_cache", JObj(map[])))
    ensures r.ttlOverrides == map[]
  {
    var profile := PyStr(ffi, Get(attrs, "config_profile", JStr("default")));
    var dirText := PyStr(ffi, Get(attrs, "dataset_dir_path", JStr(".")));
    var dir := if dirText == [] then [] else Segments(dirText);
    assert Segments(".") == [] by { NoSeparator(".", '/'); }
    Config(profile, dir,
      Toggles(Get(attrs, "load_cache_options", JObj(map[]))),
      Toggles(Get(attrs, "store_cache_options", JObj(map[]))),
      Toggles(Get(attrs, "share_cache", JObj(map[]))),
      map[])
  }
}

=== FILE: cache_decompile.dfy ===
/**
 * The decompilation caches: decompiled pseudocode grouped in one directory
 * per agent and project, IDA pre-indexing results, and IDA database files.
 * The database cache stores files rather than JSON and keeps up to four
 * variants of an entry (`.i64` or `.idb`, each plain or zipped), so it has
 * its own resolution, `load`, `store`, `invalidate` and `clear`.
 */
module DecompileCaches {
  import opened Wrappers
  import opened Strs
  import opened JsonValues
  import opened FileSystem
  import opened FileUtils
  import opened CacheConfig
  import opened CacheBase
  import opened PyValues

  // ----- decompilation results -----

  /** Never expires, shared, stored under `decompile_output`. */
  function DecompileResult(): (t: CacheType<PyValue>)
    ensures t.defaultTtl.None? && t.sharedByDefault && t.ext == ".json" && !t.useCompression
  {
    CacheType("decompile_result", None, true, ".json", false, ["decompile_output"], ToDictOrItself, FromDict)
  }

  /** `compute_cache_key`: the hash of agent and project joined, a slash, the binary's name. */
  function DecompileKey(ffi: Ffi, agentId: string, projId: string, binaryName: string): string {
    ffi.hash(agentId + projId) + "/" + binaryName + "_result"
  }

  /** `key.split('/', 1)`: the text before the first slash and the text after it. */
  function SplitFirst(s: string): (r: Option<(string, string)>)
    ensures r.None? <==> '/' !in s
    ensures r.Some? ==> s == r.value.0 + "/" + r.value.1 && '/' !in r.value.0
  {
    match Find(s, "/")
    case None =>
      assert forall k :: 0 <= k < |s| ==> s[k] != '/' by {
        forall k | 0 <= k < |s| ensures s[k] != '/' {
          assert !("/" <= s[k..]);
        }
      }
      None
    case Some(i) =>
      assert forall k :: 0 <= k < i ==> s[k] != '/' by {
        forall k | 0 <= k < i ensures s[k] != '/' {
          assert !("/" <= s[k..]);
        }
      }
      assert s == s[..i] + "/" + s[i + 1..];
      Some((s[..i], s[i + 1..]))
  }

  /** The overriding `get_cache_path`: the part before the first slash becomes a subdirectory. */
  function DecompilePath(c: Cache<PyValue>, key: string): Path {
    match SplitFirst(key)
    case Some((dir, rest)) => Child(Child(CacheDir(c), dir), rest + c.t.ext)
    case None => Child(CacheDir(c), key + c.t.ext)
  }

  /** The override names the same file as the shared `get_cache_path`, so the shared operations apply unchanged. */
  lemma DecompilePathIsCanonical(c: Cache<PyValue>, key: string)
    ensures DecompilePath(c, key) == CanonicalPath(c, key)
  {
    match SplitFirst(key)
    case Some((dir, rest)) =>
      assert key + c.t.ext == dir + "/" + (rest + c.t.ext);
      SegmentsJoin(dir, rest + c.t.ext);
    case None =>
  }

  /** `get_decompile_dir`: the per-agent-and-project directory. */
  function DecompileDir(c: Cache<PyValue>, ffi: Ffi, agentId: string, projId: string): Path {
    Child(CacheDir(c), ffi.hash(agentId + projId))
  }

  /** A key with a slash names a file below the directory named by the part before it. */
  lemma CanonicalAtSlash(c: Cache<PyValue>, dir: string, rest: string)
    ensures CanonicalPath(c, dir + "/" + rest) == Child(CacheDir(c), dir) + Segments(rest + c.t.ext)
  {
    var tail := rest + c.t.ext;
    assert dir + "/" + rest + c.t.ext == dir + "/" + tail;
    SegmentsJoin(dir, tail);
    calc {
      CanonicalPath(c, dir + "/" + rest);
      CacheDir(c) + Segments(dir + "/" + tail);
      CacheDir(c) + (Segments(dir) + Segments(tail));
      Child(CacheDir(c), dir) + Segments(tail);
    }
  }

  /** Every result of an agent and project lies in that pair's directory, under the binary's name. */
  lemma ResultInDecompileDir(c: Cache<PyValue>, ffi: Ffi, agentId: string, projId: string, binaryName: string)
    ensures var p := DecompilePath(c, DecompileKey(ffi, agentId, projId, binaryName));
            && DecompileDir(c, ffi, agentId, projId) <= p
            && p == DecompileDir(c, ffi, agentId, projId) + Segments(binaryName + "_result" + c.t.ext)
  {
    var h := ffi.hash(agentId + projId);
    var key := DecompileKey(ffi, agentId, projId, binaryName);
    assert key == h + "/" + (binaryName + "_result");
    DecompilePathIsCanonical(c, key);
    CanonicalAtSlash(c, h, binaryName + "_result");
    assert binaryName + "_result" + c.t.ext == (binaryName + "_result") + c.t.ext;
  }

  /**
   * Agent and project ids are joined without a separator before hashing, so
   * pairs that concatenate alike share their results.
   */
  lemma KeyJoinsWithoutSeparator(ffi: Ffi, binaryName: string)
    ensures DecompileKey(ffi, "ab", "c", binaryName) == DecompileKey(ffi, "a", "bc", binaryName)
  {
    assert "ab" + "c" == "a" + "bc";
  }

  /** A decompilation result comes back as the record it was stored from. */
  lemma DecompileResultRoundTrip(fs: Fs, os: Os, ffi: Ffi, c: Cache<PyValue>, key: string, result: map<string, Json>, maxAgeDays: Option<int>)
    requires c.t == DecompileResult()
    requires Lawful(ffi)
    requires IsEnabled(c.config, c.t.cacheType)
    requires StoreGoesThrough(fs, os, c, key)
    requires FreshEnough(maxAgeDays)
    requires !EndsWith(Name(CanonicalPath(c, key)), ".zip")
    ensures var r := Store(fs, os, ffi, c, Record(result), key, true);
            r.value == Some(DecompilePath(c, key)) && Load(r.fs, ffi, c, key, maxAgeDays) == Some(Record(result))
  {
    DecompilePathIsCanonical(c, key);
    StoreThenLoad(fs, os, ffi, c, Record(result), key, true, maxAgeDays);
  }

  // ----- IDA pre-indexing results -----

  /** `data.to_dict()`: only a domain record has one; anything else makes the hook raise. */
  function ToDict(v: PyValue): (r: Option<Json>)
    ensures r.Some? <==> v.Record?
  {
    if v.Record? then Some(JObj(v.dict)) else None
  }

  /** Never expires, shared, stored under `ida_index_cache`, keyed by the binary's hash as given. */
  function IdaIndex(): (t: CacheType<PyValue>)
    ensures t.defaultTtl.None? && t.sharedByDefault && t.ext == ".json" && !t.useCompression
  {
    CacheType("ida_index", None, true, ".json", false, ["ida_index_cache"], ToDict, FromDict)
  }

  /** An index stored under a binary's hash comes back as the record it was; anything else is not stored. */
  lemma IdaIndexRoundTrip(fs: Fs, os: Os, ffi: Ffi, c: Cache<PyValue>, binaryHash: string, index: PyValue, maxAgeDays: Option<int>)
    requires c.t == IdaIndex()
    requires Lawful(ffi)
    requires IsEnabled(c.config, c.t.cacheType)
    requires StoreGoesThrough(fs, os, c, binaryHash)
    requires FreshEnough(maxAgeDays)
    requires !EndsWith(Name(CanonicalPath(c, binaryHash)), ".zip")
    ensures var r := Store(fs, os, ffi, c, index, binaryHash, true);
            && (index.Record? ==> r.value.Some? && Load(r.fs, ffi, c, binaryHash, maxAgeDays) == Some(index))
            && (!index.Record? ==> r == Effect(fs, None))
  {
    if index.Record? {
      StoreThenLoad(fs, os, ffi, c, index, binaryHash, true, maxAgeDays);
    }
  }

  // ----- IDA databases -----

  /** The variants of an entry in the order they are looked for. */
  const IdbExtensions: seq<string> := [".i64", ".i64.zip", ".idb", ".idb.zip"]

  /**
   * The database cache: never expires, shared, `.i64` as canonical name,
   * zipped by default. Its hooks are unused and give None.
   */
  function IdaDatabase(): (t: CacheType<Path>)
    ensures t.defaultTtl.None? && t.sharedByDefault && t.ext == ".i64" && t.useCompression
  {
    CacheType("ida_database", None, true, ".i64", true, ["ida_database_cache"], (p: Path) => None, (j: Json) => None)
  }

  /** `parent / f"{stem}{ext}"` of the canonical path. */
  function Variant(canonical: Path, ext: string): (r: Path)
    ensures Parent(r) == Parent(canonical) && Name(r) == Stem(Name(canonical)) + ext
  {
    Sibling(canonical, Stem(Name(canonical)) + ext)
  }

  /** The four variants of the entry at `canonical`, in `_IDB_EXTENSIONS` order. */
  function Variants(canonical: Path): (r: seq<Path>)
    ensures |r| == |IdbExtensions|
    ensures forall i :: 0 <= i < |r| ==> r[i] == Variant(canonical, IdbExtensions[i])
  {
    seq(|IdbExtensions|, i requires 0 <= i < |IdbExtensions| => Variant(canonical, IdbExtensions[i]))
  }

  /** Variants of one entry lie side by side: one is a prefix of another only when they are the same. */
  lemma VariantsSideBySide(canonical: Path, e1: string, e2: string)
    ensures Variant(canonical, e1) <= Variant(canonical, e2) <==> e1 == e2
  {
    var v1 := Variant(canonical, e1);
    var v2 := Variant(canonical, e2);
    if v1 <= v2 {
      assert |v1| == |v2|;
      assert v1 == v2;
      assert Name(v1) == Name(v2);
      var stem := Stem(Name(canonical));
      assert (stem + e1)[|stem|..] == e1 && (stem + e2)[|stem|..] == e2;
    }
  }

  /** The index of the first of `ps` that is a file. */
  function FirstFile(fs: Fs, ps: seq<Path>): (r: Option<nat>)
    ensures r.None? <==> forall i :: 0 <= i < |ps| ==> !IsFile(fs, ps[i])
    ensures r.Some? ==> r.value < |ps| && IsFile(fs, ps[r.value]) && forall j :: 0 <= j < r.value ==> !IsFile(fs, ps[j])
  {
    if ps == [] then None
    else if IsFile(fs, ps[0]) then Some(0)
    else
      var r := FirstFile(fs, ps[1..]);
      assert forall i :: 1 <= i < |ps| ==> ps[i] == ps[1..][i - 1];
      if r.None? then None else Some(r.value + 1)
  }

  /**
   * `_resolve_actual_path`: the first variant that is a file, in the order
   * `.i64`, `.i64.zip`, `.idb`, `.idb.zip` (the order the code iterates).
   */
  function IdaResolve(fs: Fs, canonical: Path): (r: Option<Path>)
    ensures r.None? <==> forall i :: 0 <= i < |IdbExtensions| ==> !IsFile(fs, Variant(canonical, IdbExtensions[i]))
    ensures r.Some? ==> IsFile(fs, r.value) && r.value in Variants(canonical)
    ensures IsFile(fs, Variant(canonical, ".i64")) ==> r == Some(Variant(canonical, ".i64"))
    ensures !IsFile(fs, Variant(canonical, ".i64")) && IsFile(fs, Variant(canonical, ".i64.zip")) ==>
              r == Some(Variant(canonical, ".i64.zip"))
  {
    var vs := Variants(canonical);
    FirstVariantNone(fs, canonical);
    FirstVariantHead(fs, canonical);
    match FirstFile(fs, vs)
    case None => None
    case Some(i) => Some(vs[i])
  }

  lemma FirstVariantNone(fs: Fs, canonical: Path)
    ensures FirstFile(fs, Variants(canonical)).None? <==>
              forall i :: 0 <= i < |IdbExtensions| ==> !IsFile(fs, Variant(canonical, IdbExtensions[i]))
  {
  }

  lemma FirstVariantHead(fs: Fs, canonical: Path)
    ensures IsFile(fs, Variant(canonical, ".i64")) ==> FirstFile(fs, Variants(canonical)) == Some(0)
    ensures !IsFile(fs, Variant(canonical, ".i64")) && IsFile(fs, Variant(canonical, ".i64.zip")) ==>
              FirstFile(fs, Variants(canonical)) == Some(1)
    ensures Variants(canonical)[0] == Variant(canonical, ".i64") && Variants(canonical)[1] == Variant(canonical, ".i64.zip")
  {
    VariantsFront(canonical);
    FirstFileFront(fs, Variants(canonical));
  }

  lemma VariantsFront(canonical: Path)
    ensures |Variants(canonical)| == 4
    ensures Variants(canonical)[0] == Variant(canonical, ".i64") && Variants(canonical)[1] == Variant(canonical, ".i64.zip")
  {
    var vs := Variants(canonical);
    assert vs[0] == Variant(canonical, IdbExtensions[0]);
    assert vs[1] == Variant(canonical, IdbExtensions[1]);
  }

  /** The first file is the first path when that is a file, else the second when that one is. */
  lemma FirstFileFront(fs: Fs, ps: seq<Path>)
    requires |ps| >= 2
    ensures IsFile(fs, ps[0]) ==> FirstFile(fs, ps) == Some(0)
    ensures !IsFile(fs, ps[0]) && IsFile(fs, ps[1]) ==> FirstFile(fs, ps) == Some(1)
  {
  }

  /** `load`: the path of the variant found, when both toggles are on and it passes the TTL check. */
  function IdaLoad(fs: Fs, c: Cache<Path>, key: string, maxAgeDays: Option<int>): (r: Option<Path>)
    ensures !IsEnabled(c.config, c.t.cacheType) ==> r.None?
    ensures r.Some? ==> r == IdaResolve(fs, CanonicalPath(c, key)) && IsFileValid(fs, r, EffectiveTtl(c.t, maxAgeDays))
    ensures IsEnabled(c.config, c.t.cacheType) && IsFileValid(fs, IdaResolve(fs, CanonicalPath(c, key)), EffectiveTtl(c.t, maxAgeDays)) ==>
              r == IdaResolve(fs, CanonicalPath(c, key))
  {
    if !IsEnabled(c.config, c.t.cacheType) then None
    else
      var actual := IdaResolve(fs, CanonicalPath(c, key));
      if actual.None? then None
      else if !IsFileValid(fs, actual, EffectiveTtl(c.t, maxAgeDays)) then None
      else actual
  }

  /** The extension a stored database keeps: the source's own, lower-cased, when it is `.i64` or `.idb`. */
  function SourceExt(source: Path, canonicalExt: string): (r: string)
    ensures Lower(Suffix(Name(source))) == ".i64" || Lower(Suffix(Name(source))) == ".idb" ==> r == Lower(Suffix(Name(source)))
    ensures r == ".i64" || r == ".idb" || r == canonicalExt
  {
    var ext := Lower(Suffix(Name(source)));
    if ext == ".i64" || ext == ".idb" then ext else canonicalExt
  }

  /** The variant a store writes: the source's extension, with ".zip" when compressing. */
  function IdaDest(c: Cache<Path>, key: string, source: Path): Path {
    var ext := SourceExt(source, c.t.ext);
    Variant(CanonicalPath(c, key), if c.t.useCompression then ext + ".zip" else ext)
  }

  /**
   * `zip_file(source, dest)`: an archive holding the source under its own
   * name; false when the archive cannot be written.
   */
  function ZipFile(fs: Fs, os: Os, source: Path, dest: Path): (r: Effect<bool>)
    requires IsFile(fs, source)
    ensures r.value <==> dest !in os.unwritable
    ensures !r.value ==> r.fs == fs
    ensures r.value ==> IsFile(r.fs, dest) && r.fs[dest].payload == Zip([ZipMember(Name(source), fs[source].payload)])
    ensures forall q :: q != dest ==> (q in r.fs <==> q in fs) && (q in fs ==> r.fs[q] == fs[q])
  {
    if dest in os.unwritable then Effect(fs, false)
    else Effect(fs[dest := File(Zip([ZipMember(Name(source), fs[source].payload)]), 0.0)], true)
  }

  /** Where `shutil.copy2` and `shutil.move` put a file: inside `dest` when that is a directory. */
  function Into(fs: Fs, source: Path, dest: Path): (r: Path)
    ensures dest <= r
  {
    if IsDir(fs, dest) then dest + [Name(source)] else dest
  }

  /**
   * `shutil.move` or `shutil.copy2` of a file; None where it raises. Both
   * keep the modification time, so the copy has the source's age; copying
   * a file onto itself raises.
   */
  function Transfer(fs: Fs, os: Os, source: Path, dest: Path, move: bool): (r: Option<Fs>)
    requires IsFile(fs, source)
    ensures r.Some? ==> Into(fs, source, dest) in r.value && r.value[Into(fs, source, dest)] == fs[source]
    ensures r.Some? ==> forall q :: q in r.value && q != Into(fs, source, dest) ==> q in fs && r.value[q] == fs[q]
    ensures r.Some? ==> forall q :: q in fs && q !in r.value ==> move && q == source
    ensures Into(fs, source, dest) in os.unwritable ==> r.None?
    ensures !move && Into(fs, source, dest) !in os.unwritable && os.resolve(source) != os.resolve(Into(fs, source, dest)) ==> r.Some?
  {
    var into := Into(fs, source, dest);
    if into in os.unwritable then None
    else if move then
      if source in os.undeletable && source != into then None
      else Some((fs - {source})[into := fs[source]])
    else if os.resolve(source) == os.resolve(into) then None
    else Some(fs[into := fs[source]])
  }

  /** The archiving branch of `store`: zip, remove the other variants, then drop a moved source. */
  function ZipInto(fs: Fs, os: Os, vs: seq<Path>, source: Path, dest: Path, move: bool, allowed: Path): (r: Effect<Option<Path>>)
    requires IsFile(fs, source)
    ensures dest in os.unwritable ==> r == Effect(fs, None)
    ensures r.value.Some? ==> r.value == Some(dest)
    ensures forall q :: q in fs && q !in r.fs ==> os.resolve(allowed) <= q || (move && q == source)
    ensures forall q :: q in r.fs && q != dest ==> q in fs && r.fs[q] == fs[q]
  {
    var zipped := ZipFile(fs, os, source, dest);
    if !zipped.value then Effect(fs, None)
    else
      var cleaned := RemoveVariants(zipped.fs, os, vs, Some(dest), allowed);
      if !move then Effect(cleaned.fs, Some(dest))
      else if source in cleaned.fs && source in os.undeletable then Effect(cleaned.fs, None)
      else Effect(cleaned.fs - {source}, Some(dest))
  }

  /** The copying branch of `store`: copy or move, then remove the other variants. */
  function TransferInto(fs: Fs, os: Os, vs: seq<Path>, source: Path, dest: Path, move: bool, allowed: Path): (r: Effect<Option<Path>>)
    requires IsFile(fs, source)
    ensures r.value.None? ==> r.fs == fs
    ensures r.value.Some? ==> r.value == Some(dest)
    ensures forall q :: q in fs && q !in r.fs ==> os.resolve(allowed) <= q || (move && q == source)
    ensures forall q :: q in r.fs && !(dest <= q) ==> q in fs && r.fs[q] == fs[q]
  {
    match Transfer(fs, os, source, dest, move)
    case None => Effect(fs, None)
    case Some(moved) =>
      var cleaned := RemoveVariants(moved, os, vs, Some(dest), allowed);
      Effect(cleaned.fs, Some(dest))
  }

  /**
   * `store`: archives (or copies, or moves) the source database into the
   * cache under its own extension, then removes the entry's other
   * variants. With `override` off an existing variant is returned as is.
   * An exception after the archive was written (removing a moved source)
   * yields None with the cache already changed.
   */
  function IdaStore(fs: Fs, os: Os, c: Cache<Path>, key: string, source: Path, override: bool, move: bool): (r: Effect<Option<Path>>)
    ensures !IsEnabled(c.config, c.t.cacheType) ==> r == Effect(fs, None)
    ensures IsEnabled(c.config, c.t.cacheType) && !override && IdaResolve(fs, CanonicalPath(c, key)).Some? ==>
              r == Effect(fs, IdaResolve(fs, CanonicalPath(c, key)))
    ensures (override || IdaResolve(fs, CanonicalPath(c, key)).None?) && !IsFile(fs, source) ==> r == Effect(fs, None)
    ensures (override || IdaResolve(fs, CanonicalPath(c, key)).None?) && r.value.Some? ==> r.value == Some(IdaDest(c, key, source))
    ensures forall q :: q in fs && q !in r.fs ==> os.resolve(c.config.datasetDir) <= q || (move && q == source)
    ensures forall q :: q in r.fs && !(IdaDest(c, key, source) <= q) ==> q in fs && r.fs[q] == fs[q]
  {
    var canonical := CanonicalPath(c, key);
    if !IsEnabled(c.config, c.t.cacheType) then Effect(fs, None)
    else if !override && IdaResolve(fs, canonical).Some? then Effect(fs, IdaResolve(fs, canonical))
    else if !IsFile(fs, source) then Effect(fs, None)
    else if c.t.useCompression then
      ZipInto(fs, os, Variants(canonical), source, IdaDest(c, key, source), move, c.config.datasetDir)
    else
      TransferInto(fs, os, Variants(canonical), source, IdaDest(c, key, source), move, c.config.datasetDir)
  }

  /** The preconditions under which a zipping store succeeds. */
  predicate IdaStoreGoesThrough(fs: Fs, os: Os, c: Cache<Path>, key: string, source: Path, move: bool) {
    var dest := IdaDest(c, key, source);
    var vs := Variants(CanonicalPath(c, key));
    && IsFile(fs, source)
    && dest !in os.unwritable
    && (forall i :: 0 <= i < |vs| && vs[i] != dest && IsFile(fs, vs[i]) ==> Removable(fs, os, vs[i], c.config.datasetDir))
    && (move ==> source !in os.undeletable && source != dest)
  }

  /** A zipped `.i64` or `.idb` name is one of the four variants. */
  lemma ZippedIsVariant(canonical: Path, ext: string)
    requires ext == ".i64" || ext == ".idb"
    ensures Variant(canonical, ext + ".zip") in Variants(canonical)
  {
    if ext == ".i64" {
      assert ext + ".zip" == ".i64.zip";
      assert Variants(canonical)[1] == Variant(canonical, ".i64.zip");
    } else {
      assert ext + ".zip" == ".idb.zip";
      assert Variants(canonical)[3] == Variant(canonical, ".idb.zip");
    }
  }

  /** The destination of a store into the database cache is one of the entry's zipped variants. */
  lemma IdaDestIsVariant(c: Cache<Path>, key: string, source: Path)
    requires c.t == IdaDatabase()
    ensures IdaDest(c, key, source) in Variants(CanonicalPath(c, key))
  {
    var ext := SourceExt(source, c.t.ext);
    assert c.t.ext == ".i64" && c.t.useCompression;
    assert ext == ".i64" || ext == ".idb";
    ZippedIsVariant(CanonicalPath(c, key), ext);
  }

  /** No path of `vs` other than `dest` itself lies above `dest`. */
  predicate SideBySide(vs: seq<Path>, dest: Path) {
    forall i :: 0 <= i < |vs| && vs[i] <= dest ==> vs[i] == dest
  }

  /** The four variants of an entry sit side by side with each of them. */
  lemma VariantsSideBySideAll(canonical: Path, ext: string)
    ensures SideBySide(Variants(canonical), Variant(canonical, ext))
  {
    forall i | 0 <= i < |IdbExtensions| && Variants(canonical)[i] <= Variant(canonical, ext)
      ensures Variants(canonical)[i] == Variant(canonical, ext)
    {
      VariantsSideBySide(canonical, IdbExtensions[i], ext);
    }
  }

  /**
   * A successful archiving branch leaves the archive at `dest`, holding the
   * source's data, and none of the other variants.
   */
  lemma ZipIntoLeavesDest(fs: Fs, os: Os, vs: seq<Path>, source: Path, dest: Path, move: bool, allowed: Path)
    requires IsFile(fs, source)
    requires dest !in os.unwritable
    requires SideBySide(vs, dest)
    requires forall i :: 0 <= i < |vs| && vs[i] != dest && IsFile(fs, vs[i]) ==> Removable(fs, os, vs[i], allowed)
    requires move ==> source !in os.undeletable && source != dest
    ensures var r := ZipInto(fs, os, vs, source, dest, move, allowed);
            && r.value == Some(dest)
            && IsFile(r.fs, dest) && r.fs[dest].payload == Zip([ZipMember(Name(source), fs[source].payload)])
            && forall i :: 0 <= i < |vs| && vs[i] != dest ==> !IsFile(r.fs, vs[i])
  {
    var zipped := ZipFile(fs, os, source, dest);
    forall i | 0 <= i < |vs| && Some(vs[i]) != Some(dest) && IsFile(zipped.fs, vs[i])
      ensures Removable(zipped.fs, os, vs[i], allowed)
    {
      assert IsFile(fs, vs[i]) && Removable(fs, os, vs[i], allowed);
      if HasDescendant(zipped.fs, vs[i]) {
        var q :| q in zipped.fs && |vs[i]| < |q| && q[..|vs[i]|] == vs[i];
        assert q != dest;
        assert q in fs;
      }
    }
    RemoveVariantsClears(zipped.fs, os, vs, Some(dest), allowed);
    var cleaned := RemoveVariants(zipped.fs, os, vs, Some(dest), allowed);
    assert dest in cleaned.fs;
  }

  /**
   * Store, then load, on the database cache: the store answers with the
   * zipped variant it wrote, it is the only variant left, the archive holds
   * the source's data, and `load` finds it.
   */
  lemma IdaStoreThenLoad(fs: Fs, os: Os, c: Cache<Path>, key: string, source: Path, override: bool, move: bool)
    requires c.t == IdaDatabase()
    requires IsEnabled(c.config, c.t.cacheType)
    requires override || IdaResolve(fs, CanonicalPath(c, key)).None?
    requires IdaStoreGoesThrough(fs, os, c, key, source, move)
    ensures var r := IdaStore(fs, os, c, key, source, override, move);
            var dest := IdaDest(c, key, source);
            && r.value == Some(dest)
            && IsFile(r.fs, dest) && r.fs[dest].payload == Zip([ZipMember(Name(source), fs[source].payload)])
            && (forall i :: 0 <= i < |IdbExtensions| && Variants(CanonicalPath(c, key))[i] != dest ==>
                  !IsFile(r.fs, Variants(CanonicalPath(c, key))[i]))
            && IdaLoad(r.fs, c, key, None) == Some(dest)
  {
    var canonical := CanonicalPath(c, key);
    var vs := Variants(canonical);
    var dest := IdaDest(c, key, source);
    var allowed := c.config.datasetDir;
    IdaDestIsVariant(c, key, source);
    assert c.t.useCompression && c.t.defaultTtl.None?;
    VariantsSideBySideAll(canonical, SourceExt(source, c.t.ext) + ".zip");
    ZipIntoLeavesDest(fs, os, vs, source, dest, move, allowed);
    var r := IdaStore(fs, os, c, key, source, override, move);
    assert r == ZipInto(fs, os, vs, source, dest, move, allowed);
    OnlyVariantResolves(r.fs, canonical, dest);
  }

  /** When one variant alone is a file, resolution finds it. */
  lemma OnlyVariantResolves(fs: Fs, canonical: Path, dest: Path)
    requires dest in Variants(canonical) && IsFile(fs, dest)
    requires forall i :: 0 <= i < |IdbExtensions| && Variants(canonical)[i] != dest ==> !IsFile(fs, Variants(canonical)[i])
    ensures IdaResolve(fs, canonical) == Some(dest)
  {
    var vs := Variants(canonical);
    var j :| 0 <= j < |vs| && vs[j] == dest;
    var f := FirstFile(fs, vs);
    assert IsFile(fs, vs[j]);
    assert vs[f.value] == dest;
  }

  /** `invalidate`: every variant that is a file goes through the guarded removal; true when none failed. */
  function IdaInvalidate(fs: Fs, os: Os, c: Cache<Path>, key: string): (r: Effect<bool>)
    ensures IdaResolve(fs, CanonicalPath(c, key)).None? ==> r == Effect(fs, true)
    ensures RemovesOnlyUnder(fs, r.fs, os.resolve(c.config.datasetDir))
  {
    RemoveVariants(fs, os, Variants(CanonicalPath(c, key)), None, c.config.datasetDir)
  }

  /** When every variant can be removed, `invalidate` succeeds and `load` finds nothing afterwards. */
  lemma IdaInvalidateRemovesAll(fs: Fs, os: Os, c: Cache<Path>, key: string, maxAgeDays: Option<int>)
    requires forall i :: 0 <= i < |IdbExtensions| && IsFile(fs, Variants(CanonicalPath(c, key))[i]) ==>
               Removable(fs, os, Variants(CanonicalPath(c, key))[i], c.config.datasetDir)
    ensures var r := IdaInvalidate(fs, os, c, key);
            && r.value
            && IdaResolve(r.fs, CanonicalPath(c, key)).None?
            && IdaLoad(r.fs, c, key, maxAgeDays).None?
  {
    RemoveVariantsClears(fs, os, Variants(CanonicalPath(c, key)), None, c.config.datasetDir);
  }

  /** The four variants are apart on a system where each resolves to itself. */
  lemma VariantsApart(os: Os, canonical: Path)
    requires forall i :: 0 <= i < |IdbExtensions| ==> os.resolve(Variants(canonical)[i]) == Variants(canonical)[i]
    ensures Apart(os, Variants(canonical))
  {
    var vs := Variants(canonical);
    forall i, j | 0 <= i < |vs| && 0 <= j < |vs| && i != j ensures !(vs[i] <= vs[j]) {
      ExtensionsDistinct(i, j);
      VariantsSideBySide(canonical, IdbExtensions[i], IdbExtensions[j]);
    }
  }

  /** No two of the four extensions are the same: their lengths or third characters differ. */
  lemma ExtensionsDistinct(i: nat, j: nat)
    requires i < |IdbExtensions| && j < |IdbExtensions| && i != j
    ensures IdbExtensions[i] != IdbExtensions[j]
  {
    var e, f := IdbExtensions[i], IdbExtensions[j];
    assert |e| == (if i % 2 == 0 then 4 else 8) && e[2] == (if i < 2 then '6' else 'd');
    assert |f| == (if j % 2 == 0 then 4 else 8) && f[2] == (if j < 2 then '6' else 'd');
  }

  /**
   * `invalidate` returns true exactly when every variant that was a file lay
   * in the dataset directory and is gone afterwards.
   */
  lemma IdaInvalidateResult(fs: Fs, os: Os, c: Cache<Path>, key: string)
    requires forall i :: 0 <= i < |IdbExtensions| ==>
               os.resolve(Variants(CanonicalPath(c, key))[i]) == Variants(CanonicalPath(c, key))[i]
    ensures var r := IdaInvalidate(fs, os, c, key);
            var vs := Variants(CanonicalPath(c, key));
            r.value <==> forall i :: 0 <= i < |vs| && IsFile(fs, vs[i]) ==> Gone(r.fs, os, vs[i], c.config.datasetDir)
  {
    VariantsApart(os, CanonicalPath(c, key));
    RemoveVariantsResult(fs, os, Variants(CanonicalPath(c, key)), None, c.config.datasetDir);
  }

  /** A variant that is a file the system refuses to delete makes `invalidate` return false. */
  lemma IdaInvalidateFailsOnUndeletable(fs: Fs, os: Os, c: Cache<Path>, key: string, k: nat)
    requires forall i :: 0 <= i < |IdbExtensions| ==>
               os.resolve(Variants(CanonicalPath(c, key))[i]) == Variants(CanonicalPath(c, key))[i]
    requires k < |IdbExtensions|
    requires IsFile(fs, Variants(CanonicalPath(c, key))[k]) && Variants(CanonicalPath(c, key))[k] in os.undeletable
    ensures !IdaInvalidate(fs, os, c, key).value
  {
    var vs := Variants(CanonicalPath(c, key));
    VariantsApart(os, CanonicalPath(c, key));
    UndeletableStays(fs, os, vs, None, c.config.datasetDir, k);
  }

  /** `k` times `n`, added up one `n` at a time. */
  function Repeated(k: nat, n: nat): (r: nat)
    ensures k > 0 ==> r >= n
  {
    if k == 0 then 0 else n + Repeated(k - 1, n)
  }

  /** The `glob` passes of `clear`, one per pattern, each over the entries still there. */
  function Passes(fs: Fs, os: Os, dir: Path, listing: seq<string>, patterns: seq<string>, maxAgeDays: Option<int>, allowed: Path): (r: Effect<nat>)
    ensures r.value <= Repeated(|patterns|, |listing|)
    ensures RemovesOnlyUnder(fs, r.fs, os.resolve(allowed))
    decreases |patterns|
  {
    if patterns == [] then Effect(fs, 0)
    else
      var pass := ClearPass(fs, os, dir, Matching(Live(fs, dir, listing), patterns[0]), maxAgeDays, allowed);
      var rest := Passes(pass.fs, os, dir, listing, patterns[1..], maxAgeDays, allowed);
      RemovesOnlyUnderTransitive(fs, pass.fs, rest.fs, os.resolve(allowed));
      assert pass.value <= |listing|;
      assert Repeated(|patterns|, |listing|) == |listing| + Repeated(|patterns[1..]|, |listing|);
      Effect(rest.fs, pass.value + rest.value)
  }

  /** `clear`: a pass per database extension, counting each removal. */
  function IdaClear(fs: Fs, os: Os, c: Cache<Path>, maxAgeDays: Option<int>, listing: seq<string>): (r: Effect<nat>)
    requires Exists(fs, CacheDir(c)) ==> Lists(fs, CacheDir(c), listing)
    ensures !Exists(fs, CacheDir(c)) ==> r == Effect(fs, 0)
    ensures r.value <= 4 * |listing|
    ensures RemovesOnlyUnder(fs, r.fs, os.resolve(c.config.datasetDir))
  {
    if !Exists(fs, CacheDir(c)) then Effect(fs, 0)
    else
      var n := |listing|;
      assert Repeated(|IdbExtensions|, n) == 4 * n by {
        assert Repeated(1, n) == n;
        assert Repeated(2, n) == 2 * n;
        assert Repeated(3, n) == 3 * n;
      }
      Passes(fs, os, CacheDir(c), listing, IdbExtensions, maxAgeDays, c.config.datasetDir)
  }

  /** Without an age, the passes remove every listed entry that ends in one of the patterns. */
  lemma {:induction false} PassesRemoveAll(fs: Fs, os: Os, dir: Path, listing: seq<string>, patterns: seq<string>, allowed: Path)
    requires forall i :: 0 <= i < |listing| ==> Removable(fs, os, dir + [listing[i]], allowed)
    ensures var r := Passes(fs, os, dir, listing, patterns, None, allowed);
            forall n, k :: n in listing && 0 <= k < |patterns| && EndsWith(n, patterns[k]) ==> !Exists(r.fs, dir + [n])
    decreases |patterns|
  {
    if patterns != [] {
      var pass := ClearPass(fs, os, dir, Matching(Live(fs, dir, listing), patterns[0]), None, allowed);
      FirstPassClears(fs, os, dir, listing, patterns[0], allowed);
      PassesRemoveAll(pass.fs, os, dir, listing, patterns[1..], allowed);
      var rest := Passes(pass.fs, os, dir, listing, patterns[1..], None, allowed);
      GoneStaysGone(pass.fs, rest.fs, os, dir, listing, allowed);
      assert Passes(fs, os, dir, listing, patterns, None, allowed).fs == rest.fs;
      forall n, k | n in listing && 0 <= k < |patterns| && EndsWith(n, patterns[k])
        ensures !Exists(rest.fs, dir + [n])
      {
        if k > 0 {
          assert patterns[1..][k - 1] == patterns[k];
        }
      }
    }
  }

  /** One pass without an age removes every listed entry that ends in its pattern, and only shrinks. */
  lemma FirstPassClears(fs: Fs, os: Os, dir: Path, listing: seq<string>, pattern: string, allowed: Path)
    requires forall i :: 0 <= i < |listing| ==> Removable(fs, os, dir + [listing[i]], allowed)
    ensures var pass := ClearPass(fs, os, dir, Matching(Live(fs, dir, listing), pattern), None, allowed);
            && (forall n :: n in listing && EndsWith(n, pattern) ==> !Exists(pass.fs, dir + [n]))
            && (forall i :: 0 <= i < |listing| ==> Removable(pass.fs, os, dir + [listing[i]], allowed))
  {
    var m := Matching(Live(fs, dir, listing), pattern);
    MatchedRemovable(fs, os, dir, listing, m, allowed);
    ClearPassRemovesAll(fs, os, dir, m, allowed);
    var pass := ClearPass(fs, os, dir, m, None, allowed);
    assert Shrinks(fs, pass.fs);
    StillRemovable(fs, pass.fs, os, dir, listing, allowed);
    forall n | n in listing && EndsWith(n, pattern)
      ensures !Exists(pass.fs, dir + [n])
    {
      if n in m {
        var i :| 0 <= i < |m| && m[i] == n;
      } else {
        ShrinkPreserves(fs, pass.fs, os, dir + [n], allowed, None);
      }
    }
  }

  /** Later passes only remove, so what is gone stays gone. */
  lemma GoneStaysGone(before: Fs, after: Fs, os: Os, dir: Path, listing: seq<string>, allowed: Path)
    requires RemovesOnlyUnder(before, after, os.resolve(allowed))
    ensures forall n :: n in listing && !Exists(before, dir + [n]) ==> !Exists(after, dir + [n])
  {
    forall n | n in listing && !Exists(before, dir + [n])
      ensures !Exists(after, dir + [n])
    {
      ShrinkPreserves(before, after, os, dir + [n], allowed, None);
    }
  }

  /**
   * Without an age, `clear` removes every entry of the cache directory that
   * ends in one of the four database extensions, when each entry can be
   * removed.
   */
  lemma IdaClearRemovesAll(fs: Fs, os: Os, c: Cache<Path>, listing: seq<string>)
    requires Lists(fs, CacheDir(c), listing)
    requires forall i :: 0 <= i < |listing| ==> Removable(fs, os, CacheDir(c) + [listing[i]], c.config.datasetDir)
    ensures var r := IdaClear(fs, os, c, None, listing);
            forall n, k :: 0 <= k < |IdbExtensions| && EndsWith(n, IdbExtensions[k]) ==>
              !Exists(r.fs, CacheDir(c) + [n])
  {
    var dir := CacheDir(c);
    if Exists(fs, dir) {
      PassesRemoveAll(fs, os, dir, listing, IdbExtensions, c.config.datasetDir);
      var r := IdaClear(fs, os, c, None, listing);
      forall n, k | 0 <= k < |IdbExtensions| && EndsWith(n, IdbExtensions[k]) ensures !Exists(r.fs, dir + [n]) {
        ListedIfPresent(fs, dir, listing, n);
        if n !in listing {
          ShrinkPreserves(fs, r.fs, os, dir + [n], c.config.datasetDir, None);
        }
      }
    } else {
      forall n ensures !Exists(fs, dir + [n]) {
        EntryNeedsDir(fs, dir, n);
      }
    }
  }

}

=== FILE: cache_diff.dfy ===
/**
 * The diff cache types: enriched file changes keyed by their change id,
 * and summaries of changes outside functions keyed by a hash of the change,
 * the prompt and the agent.
 */
module DiffCaches {
  import opened Wrappers
  import opened Strs
  import opened JsonValues
  import opened FileSystem
  import opened FileUtils
  import opened CacheConfig
  import opened CacheBase
  import opened PyValues

  /** `FileChangeCache`: class defaults (21 days, shared), keyed by the change id. */
  function FileChange(): CacheType<PyValue> {
    WithDefaults("file_change", ["file_change_cache"], ToDictOrItself, FromDict)
  }

  /** `OutOfFuncChangeCache`: class defaults (21 days, shared). */
  function OutOfFuncChange(): CacheType<PyValue> {
    WithDefaults("out_of_func_change", ["out_change_cache"], ToDictOrItself, FromDict)
  }

  /** The change a key is computed from: its `old_path` and `new_path` attributes, when it has them. */
  datatype OutChange = OutChange(oldPath: Option<string>, newPath: Option<string>)

  /** `getattr(change, name, '')`. */
  function PathOr(p: Option<string>): string {
    if p.Some? then p.value else ""
  }

  /** The string whose hash is the key. */
  function OutOfFuncKeyInput(ffi: Ffi, prompt: string, change: OutChange, agentId: string): string {
    PathOr(change.oldPath) + "##" + PathOr(change.newPath) + "##" + ffi.hash(prompt) + "##" + agentId
  }

  /** `compute_cache_key`: the hash of the two paths, the prompt's hash and the agent id. */
  function OutOfFuncKey(ffi: Ffi, prompt: string, change: OutChange, agentId: string): string {
    ffi.hash(OutOfFuncKeyInput(ffi, prompt, change, agentId))
  }

  /**
   * The key depends on the prompt only through its hash, and a change
   * without path attributes is keyed like one whose paths are empty.
   */
  lemma OutOfFuncKeyInputs(ffi: Ffi, p1: string, p2: string, agentId: string, oldPath: Option<string>, newPath: Option<string>)
    requires ffi.hash(p1) == ffi.hash(p2)
    ensures OutOfFuncKey(ffi, p1, OutChange(oldPath, newPath), agentId) == OutOfFuncKey(ffi, p2, OutChange(oldPath, newPath), agentId)
    ensures OutOfFuncKey(ffi, p1, OutChange(None, None), agentId) == OutOfFuncKey(ffi, p1, OutChange(Some(""), Some("")), agentId)
  {
  }

  /** A change record stored in either diff cache comes back as the same record. */
  lemma ChangeRoundTrip(fs: Fs, os: Os, ffi: Ffi, c: Cache<PyValue>, key: string, change: map<string, Json>, maxAgeDays: Option<int>)
    requires c.t == FileChange() || c.t == OutOfFuncChange()
    requires Lawful(ffi)
    requires IsEnabled(c.config, c.t.cacheType)
    requires StoreGoesThrough(fs, os, c, key)
    requires FreshEnough(EffectiveTtl(c.t, maxAgeDays))
    requires !EndsWith(Name(CanonicalPath(c, key)), ".zip")
    ensures var r := Store(fs, os, ffi, c, Record(change), key, true);
            r.value.Some? && Load(r.fs, ffi, c, key, maxAgeDays) == Some(Record(change))
  {
    StoreThenLoad(fs, os, ffi, c, Record(change), key, true, maxAgeDays);
  }

  /**
   * A change entry expires: with the class default, an entry older than 21
   * days is no longer loaded, whatever its content.
   */
  lemma ChangeEntriesExpire(fs: Fs, ffi: Ffi, c: Cache<PyValue>, key: string)
    requires c.t == FileChange() || c.t == OutOfFuncChange()
    requires var p := ResolveVariant(fs, CanonicalPath(c, key)); p.Some? && fs[p.value].ageDays > 21.0
    ensures Load(fs, ffi, c, key, None).None?
    ensures !IsEntryValid(fs, c, key, None)
  {
  }
}

=== FILE: cache_git_api.dfy ===
/**
 * The git hosting API cache: responses keyed by a hash of the normalised
 * request, stored with their request metadata.
 */
module GitApiCache {
  import opened Wrappers
  import opened Strs
  import opened JsonValues
  import opened FileSystem
  import opened FileUtils
  import opened CacheConfig
  import opened CacheBase

  /** `GitApiCache`: shared, never expiring, dictionaries stored as they are. */
  function GitApi(): CacheType<Json> {
    CacheType("git_api", None, true, ".json", false, ["git_api_cache"],
      (j: Json) => if j == JNull then None else Some(j), (j: Json) => Some(j))
  }

  /** `extra_params or {}`. */
  function Params(extraParams: Option<map<string, Json>>): map<string, Json> {
    if extraParams.Some? then extraParams.value else map[]
  }

  /** `compute_cache_key`: the hash of the sorted-key JSON of the stripped URL and the parameters. */
  function Key(ffi: Ffi, url: string, extraParams: Option<map<string, Json>>): string {
    ffi.hash(ffi.canonical(JObj(map["url" := JStr(Strip(url)), "params" := JObj(Params(extraParams))])))
  }

  /** Surrounding whitespace in the URL, and None against empty parameters, never change the key. */
  lemma KeyNormalises(ffi: Ffi, u1: string, u2: string, p1: Option<map<string, Json>>, p2: Option<map<string, Json>>)
    requires Strip(u1) == Strip(u2)
    requires Params(p1) == Params(p2)
    ensures Key(ffi, u1, p1) == Key(ffi, u2, p2)
    ensures Key(ffi, " " + u1 + " ", p1) == Key(ffi, u1, p1)
    ensures Key(ffi, u1, None) == Key(ffi, u1, Some(map[]))
  {
    StripPadded(u1);
  }

  /** Stripping ignores a space added on either side. */
  lemma StripPadded(s: string)
    ensures Strip(" " + s + " ") == Strip(s)
  {
    assert LStrip(" " + s + " ") == LStrip(s + " ") by {
      assert (" " + s + " ")[1..] == s + " ";
    }
    LStripSpace(s);
    var l := LStrip(s);
    if l != [] {
      RStripSpace(l);
    }
  }

  /** A trailing space survives `lstrip` only behind something that is not whitespace. */
  lemma {:induction false} LStripSpace(s: string)
    ensures LStrip(s + " ") == if LStrip(s) == [] then [] else LStrip(s) + " "
  {
    if s != [] {
      assert (s + " ")[1..] == s[1..] + " ";
      if IsSpace(s[0]) {
        LStripSpace(s[1..]);
      }
    } else {
      assert LStrip(" ") == LStrip([]);
    }
  }

  /** The entry `store_with_metadata` writes: the request, the time and the response. */
  function Envelope(response: Json, url: string, extraParams: Option<map<string, Json>>, timestamp: real): Json {
    JObj(map["url" := JStr(url), "params" := JObj(Params(extraParams)), "timestamp" := JReal(timestamp),
             "response" := response])
  }

  /** `store_with_metadata`: the envelope, stored under the request's key; `timestamp` is `time.time()`. */
  function StoreWithMetadata(fs: Fs, os: Os, ffi: Ffi, c: Cache<Json>, response: Json, url: string,
                             extraParams: Option<map<string, Json>>, timestamp: real, override: bool): Effect<Option<Path>>
  {
    Store(fs, os, ffi, c, Envelope(response, url, extraParams, timestamp), Key(ffi, url, extraParams), override)
  }

  /** `load_response`: the cached envelope's response, or a cached value without an envelope as it is. */
  function LoadResponse(fs: Fs, ffi: Ffi, c: Cache<Json>, url: string, extraParams: Option<map<string, Json>>, maxAgeDays: Option<int>): (r: Option<Json>)
    ensures Load(fs, ffi, c, Key(ffi, url, extraParams), maxAgeDays).None? ==> r.None?
  {
    match Load(fs, ffi, c, Key(ffi, url, extraParams), maxAgeDays)
    case None => None
    case Some(data) =>
      if data.JObj? && "response" in data.fields then
        (if data.fields["response"] == JNull then None else Some(data.fields["response"]))
      else Some(data)
  }

  /**
   * `store_with_metadata` then `load_response` gives the response back,
   * under the same URL and parameters or any equivalent spelling of them.
   */
  lemma MetadataRoundTrip(fs: Fs, os: Os, ffi: Ffi, c: Cache<Json>, response: Json, url: string, url2: string,
                          extraParams: Option<map<string, Json>>, extraParams2: Option<map<string, Json>>, timestamp: real, maxAgeDays: Option<int>)
    requires c.t == GitApi()
    requires Lawful(ffi)
    requires IsEnabled(c.config, c.t.cacheType)
    requires response != JNull
    requires Strip(url) == Strip(url2) && Params(extraParams) == Params(extraParams2)
    requires StoreGoesThrough(fs, os, c, Key(ffi, url, extraParams))
    requires FreshEnough(EffectiveTtl(c.t, maxAgeDays))
    requires !EndsWith(Name(CanonicalPath(c, Key(ffi, url, extraParams))), ".zip")
    ensures var r := StoreWithMetadata(fs, os, ffi, c, response, url, extraParams, timestamp, true);
            r.value.Some? && LoadResponse(r.fs, ffi, c, url2, extraParams2, maxAgeDays) == Some(response)
  {
    var key := Key(ffi, url, extraParams);
    var env := Envelope(response, url, extraParams, timestamp);
    var r := Store(fs, os, ffi, c, env, key, true);
    assert r.value.Some? && Load(r.fs, ffi, c, key, maxAgeDays) == Some(env) by {
      assert c.t.serialize(env) == Some(env);
      StoreThenLoad(fs, os, ffi, c, env, key, true, maxAgeDays);
      assert Decode(c.t, env) == Some(env);
    }
    KeyNormalises(ffi, url, url2, extraParams, extraParams2);
    assert env.fields["response"] == response;
  }

}

=== FILE: cache_llm.dfy ===
/**
 * The LLM query cache: the key derived from a query's parameters, and the
 * tagged serialisation that lets chat messages and pydantic models survive
 * the trip through JSON.
 */
module LlmCache {
  import opened Wrappers
  import opened Strs
  import opened Seqs
  import opened JsonValues
  import opened FileSystem
  import opened FileUtils
  import opened CacheConfig
  import opened CacheBase
  import opened PyValues

  /** A cached response: a chat message (something with `content` and `type`) or any other value. */
  datatype LlmValue =
    | Message(content: Json, additionalKwargs: Json, responseMetadata: Json)
    | Value(v: PyValue)

  /** A response schema, by the name attribute it carries (a class, a `TypedDict`, or neither). */
  datatype Struct = Named(name: string) | TypedDictNamed(typedDictName: string) | Unnamed(shown: string)

  /** A tool, by its `name` or `__name__` attribute; tools with neither are skipped. */
  datatype Tool = NamedTool(name: string) | FunctionTool(functionName: string) | Anonymous

  /** The `tools` argument: a list of tools, or any other value, known by `str()`. */
  datatype Tools = ToolList(items: seq<Tool>) | NotAList(shown: string)

  /** `LlmQueryCache`: kept per profile, never expiring, under `llm_query_cache`. */
  function LlmQuery(ffi: Ffi): CacheType<LlmValue> {
    CacheType("llm_query", None, false, ".json", false, ["llm_query_cache"],
      (v: LlmValue) => Some(Serialize(ffi, v)), Deserialize)
  }

  function StructName(s: Option<Struct>): string {
    match s
    case None => "no_struct"
    case Some(Named(n)) => n
    case Some(TypedDictNamed(n)) => n
    case Some(Unnamed(shown)) => shown
  }

  /** The names of the tools that have one, in list order. */
  function ToolNames(items: seq<Tool>): (r: seq<string>)
    ensures |r| <= |items|
  {
    if items == [] then []
    else
      (match items[0]
       case NamedTool(n) => [n]
       case FunctionTool(n) => [n]
       case Anonymous => []) + ToolNames(items[1..])
  }

  function ToolInfo(t: Tools): string {
    match t
    case ToolList(items) => Join(",", Sort(ToolNames(items)))
    case NotAList(shown) => shown
  }

  /** A namespace counts when it is given and not empty. */
  predicate HasNamespace(ns: Option<string>) {
    ns.Some? && ns.value != []
  }

  /** The string that is hashed; `temperature` is `str(temperature)`. */
  function KeyInput(message: string, model: string, temperature: string, struct: Option<Struct>, tools: Option<Tools>, ns: Option<string>): string {
    var base := model + "##" + temperature + "##" + message + "##" + StructName(struct);
    var withTools := if tools.None? then base else base + "##" + ToolInfo(tools.value);
    if HasNamespace(ns) then ns.value + "##" + withTools else withTools
  }

  /** `compute_cache_key`. */
  function Key(ffi: Ffi, message: string, model: string, temperature: real, struct: Option<Struct>, tools: Option<Tools>, ns: Option<string>): (r: string)
    ensures HasNamespace(ns) ==> StartsWith(r, ns.value + "/")
  {
    var h := ffi.hash(KeyInput(message, model, ffi.show(JReal(temperature)), struct, tools, ns));
    if HasNamespace(ns) then ns.value + "/" + h else h
  }

  lemma {:induction false} ToolNamesAppend(a: seq<Tool>, b: seq<Tool>)
    ensures ToolNames(a + b) == ToolNames(a) + ToolNames(b)
  {
    if a == [] {
      assert a + b == b;
    } else {
      assert (a + b)[1..] == a[1..] + b;
      ToolNamesAppend(a[1..], b);
    }
  }

  /** Rearranging the tools rearranges their names. */
  lemma {:induction false} ToolNamesPermute(a: seq<Tool>, b: seq<Tool>)
    requires multiset(a) == multiset(b)
    ensures multiset(ToolNames(a)) == multiset(ToolNames(b))
    decreases |a|
  {
    if a == [] {
      assert |multiset(b)| == 0;
    } else {
      var x := a[0];
      assert x in multiset(b);
      var i :| 0 <= i < |b| && b[i] == x;
      var rest := b[..i] + b[i + 1..];
      assert b == b[..i] + [x] + b[i + 1..];
      assert a == [x] + a[1..];
      assert multiset(rest) == multiset(b) - multiset{x};
      ToolNamesPermute(a[1..], rest);
      ToolNamesAppend(b[..i] + [x], b[i + 1..]);
      ToolNamesAppend(b[..i], [x]);
      ToolNamesAppend(b[..i], b[i + 1..]);
      ToolNamesAppend([x], a[1..]);
    }
  }

  /** The order in which tools are listed never changes the key. */
  lemma ToolOrderIrrelevant(ffi: Ffi, message: string, model: string, temperature: real, struct: Option<Struct>, a: seq<Tool>, b: seq<Tool>, ns: Option<string>)
    requires multiset(a) == multiset(b)
    ensures Key(ffi, message, model, temperature, struct, Some(ToolList(a)), ns) ==
            Key(ffi, message, model, temperature, struct, Some(ToolList(b)), ns)
  {
    ToolNamesPermute(a, b);
    SortIgnoresOrder(ToolNames(a), ToolNames(b));
  }

  /** An empty tool list is not the same as no tools: it adds an empty "##" section to what is hashed. */
  lemma EmptyToolsHashedApart(message: string, model: string, temperature: string, struct: Option<Struct>, ns: Option<string>)
    ensures KeyInput(message, model, temperature, struct, Some(ToolList([])), ns) ==
            KeyInput(message, model, temperature, struct, None, ns) + "##"
    ensures KeyInput(message, model, temperature, struct, Some(ToolList([])), ns) !=
            KeyInput(message, model, temperature, struct, None, ns)
  {
    assert ToolInfo(ToolList([])) == [];
  }

  /**
   * A namespaced entry lives in a subdirectory named after the namespace,
   * under the hash of the namespaced input; without a namespace the entry
   * is the bare hash.
   */
  lemma NamespaceIsSubdirectory(ffi: Ffi, c: Cache<LlmValue>, message: string, model: string, temperature: real, struct: Option<Struct>, tools: Option<Tools>, ns: Option<string>)
    requires c.t == LlmQuery(ffi)
    ensures var input := KeyInput(message, model, ffi.show(JReal(temperature)), struct, tools, ns);
            var path := CanonicalPath(c, Key(ffi, message, model, temperature, struct, tools, ns));
            && (HasNamespace(ns) && '/' !in ns.value ==> path == CacheDir(c) + Segments(ns.value) + Segments(ffi.hash(input) + ".json"))
            && (!HasNamespace(ns) ==> path == CacheDir(c) + Segments(ffi.hash(input) + ".json"))
  {
    var input := KeyInput(message, model, ffi.show(JReal(temperature)), struct, tools, ns);
    if HasNamespace(ns) && '/' !in ns.value {
      var h := ffi.hash(input);
      assert ns.value + "/" + h + ".json" == ns.value + "/" + (h + ".json");
      SegmentsAtSlash(ns.value, h + ".json");
    }
  }

  // ----- tagged serialisation -----

  function MessageFields(content: Json, additionalKwargs: Json, responseMetadata: Json): map<string, Json> {
    map["_type" := JStr("AIMessage"), "content" := content, "additional_kwargs" := additionalKwargs,
        "response_metadata" := responseMetadata]
  }

  /** `serialize`: messages and models are tagged, dictionaries kept, anything else wrapped as `_raw`. */
  function Serialize(ffi: Ffi, v: LlmValue): (r: Json)
    ensures r.JObj?
  {
    match v
    case Message(c, a, m) => JObj(MessageFields(c, a, m))
    case Value(Model(n, d)) => JObj(map["_type" := JStr("pydantic"), "_class" := JStr(n), "data" := JObj(d)])
    case Value(Plain(JObj(m))) => JObj(m)
    case Value(Record(d)) => JObj(d)
    case Value(Plain(j)) => JObj(map["_raw" := JStr(PyStr(ffi, j))])
    case Value(Object(shown)) => JObj(map["_raw" := JStr(shown)])
  }

  /** A stored dictionary rebuilt as a chat message, with the fields' defaults. */
  function MessageFrom(d: map<string, Json>): LlmValue {
    Message(Get(d, "content", JStr("")), Get(d, "additional_kwargs", JObj(map[])), Get(d, "response_metadata", JObj(map[])))
  }

  /** A dictionary that `deserialize` hands back unchanged: no tag, no `_raw`, no legacy message marker. */
  predicate Untagged(d: map<string, Json>) {
    && Get(d, "_type", JNull) != JStr("AIMessage")
    && Get(d, "_type", JNull) != JStr("pydantic")
    && "_raw" !in d
    && !(Get(d, "type", JNull) == JStr("ai") && "content" in d)
  }

  /** `deserialize`: the tags in the order they are checked, then the legacy message format. */
  function Deserialize(j: Json): (r: Option<LlmValue>)
    ensures r.Some?
    ensures j.JObj? && Untagged(j.fields) ==> r == Some(Value(Plain(j)))
    ensures !j.JObj? ==> r == Some(Value(Plain(j)))
  {
    if !j.JObj? then Some(Value(Plain(j)))
    else
      var d := j.fields;
      var tag := Get(d, "_type", JNull);
      if tag == JStr("AIMessage") then Some(MessageFrom(d))
      else if tag == JStr("pydantic") then Some(Value(Plain(Get(d, "data", j))))
      else if "_raw" in d then Some(Value(Plain(d["_raw"])))
      else if Get(d, "type", JNull) == JStr("ai") && "content" in d then Some(MessageFrom(d))
      else Some(Value(Plain(j)))
  }

  /**
   * What comes back after a trip through the cache's hooks: messages, untagged
   * dictionaries and strings unchanged; a model as its dumped dictionary; any
   * other value as its `str()`.
   */
  lemma SerializeRoundTrip(ffi: Ffi, v: LlmValue)
    ensures v.Message? ==> Deserialize(Serialize(ffi, v)) == Some(v)
    ensures v.Value? && v.v.Model? ==> Deserialize(Serialize(ffi, v)) == Some(Value(Plain(JObj(v.v.dump))))
    ensures v.Value? && v.v.Plain? && v.v.value.JObj? && Untagged(v.v.value.fields) ==> Deserialize(Serialize(ffi, v)) == Some(v)
    ensures v.Value? && v.v.Record? && Untagged(v.v.dict) ==> Deserialize(Serialize(ffi, v)) == Some(Value(Plain(JObj(v.v.dict))))
    ensures v.Value? && v.v.Plain? && v.v.value.JStr? ==> Deserialize(Serialize(ffi, v)) == Some(v)
    ensures v.Value? && v.v.Object? ==> Deserialize(Serialize(ffi, v)) == Some(Value(Plain(JStr(v.v.shown))))
  {
    if v.Message? {
      var d := MessageFields(v.content, v.additionalKwargs, v.responseMetadata);
      assert Get(d, "_type", JNull) == JStr("AIMessage");
      assert MessageFrom(d) == v;
    } else if v.v.Model? {
      var d := map["_type" := JStr("pydantic"), "_class" := JStr(v.v.className), "data" := JObj(v.v.dump)];
      assert Get(d, "_type", JNull) == JStr("pydantic");
    } else if v.v.Plain? && v.v.value.JStr? {
      var d := map["_raw" := v.v.value];
      assert Get(d, "_type", JNull) == JNull;
    } else if v.v.Object? {
      var d := map["_raw" := JStr(v.v.shown)];
      assert Get(d, "_type", JNull) == JNull;
    }
  }

  /** A stored untagged dictionary response is loaded back unchanged. */
  lemma DictResponseRoundTrip(fs: Fs, os: Os, ffi: Ffi, c: Cache<LlmValue>, key: string, response: map<string, Json>, maxAgeDays: Option<int>)
    requires c.t == LlmQuery(ffi)
    requires Lawful(ffi)
    requires IsEnabled(c.config, c.t.cacheType)
    requires Untagged(response)
    requires StoreGoesThrough(fs, os, c, key)
    requires FreshEnough(EffectiveTtl(c.t, maxAgeDays))
    requires !EndsWith(Name(CanonicalPath(c, key)), ".zip")
    ensures var r := Store(fs, os, ffi, c, Value(Plain(JObj(response))), key, true);
            r.value.Some? && Load(r.fs, ffi, c, key, maxAgeDays) == Some(Value(Plain(JObj(response))))
  {
    StoreThenLoad(fs, os, ffi, c, Value(Plain(JObj(response))), key, true, maxAgeDays);
    SerializeRoundTrip(ffi, Value(Plain(JObj(response))));
  }

  /** A stored chat message is loaded back as the same message. */
  lemma MessageRoundTrip(fs: Fs, os: Os, ffi: Ffi, c: Cache<LlmValue>, key: string, content: Json, additionalKwargs: Json, responseMetadata: Json, maxAgeDays: Option<int>)
    requires c.t == LlmQuery(ffi)
    requires Lawful(ffi)
    requires IsEnabled(c.config, c.t.cacheType)
    requires StoreGoesThrough(fs, os, c, key)
    requires FreshEnough(EffectiveTtl(c.t, maxAgeDays))
    requires !EndsWith(Name(CanonicalPath(c, key)), ".zip")
    ensures var m := Message(content, additionalKwargs, responseMetadata);
            var r := Store(fs, os, ffi, c, m, key, true);
            r.value.Some? && Load(r.fs, ffi, c, key, maxAgeDays) == Some(m)
  {
    var m := Message(content, additionalKwargs, responseMetadata);
    StoreThenLoad(fs, os, ffi, c, m, key, true, maxAgeDays);
    SerializeRoundTrip(ffi, m);
  }
}

=== FILE: cache_web.dfy ===
/**
 * The web handler cache: scraping results keyed by the hash of their URL.
 */
module WebCache {
  import opened Wrappers
  import opened Strs
  import opened JsonValues
  import opened FileSystem
  import opened FileUtils
  import opened CacheConfig
  import opened CacheBase
  import opened PyValues

  /**
   * `WebHandlerCache`: kept per profile, never expiring; `validates` says
   * which stored dictionaries `TryHandleResult.model_validate` accepts.
   */
  function WebHandler(ffi: Ffi, validates: map<string, Json> -> bool): CacheType<PyValue> {
    CacheType("web_handler", None, false, ".json", false, ["web_handler"],
      (v: PyValue) => Some(Serialize(ffi, v)), (j: Json) => Some(Deserialize(validates, j)))
  }

  /** `compute_cache_key`: the URL's hash, without normalisation. */
  function Key(ffi: Ffi, url: string): string {
    ffi.hash(url)
  }

  /** `serialize`: `model_dump`, then `to_dict`, then a plain dictionary, else `{"_raw": str(data)}`. */
  function Serialize(ffi: Ffi, v: PyValue): (r: Json)
    ensures r.JObj?
  {
    match v
    case Model(_, d) => JObj(d)
    case Record(d) => JObj(d)
    case Plain(JObj(m)) => JObj(m)
    case Plain(j) => JObj(map["_raw" := JStr(PyStr(ffi, j))])
    case Object(shown) => JObj(map["_raw" := JStr(shown)])
  }

  /** `deserialize`: non-dictionaries and `_raw` unwrapped, else a validated model or the dictionary. */
  function Deserialize(validates: map<string, Json> -> bool, j: Json): PyValue {
    if !j.JObj? then Plain(j)
    else if "_raw" in j.fields then Plain(j.fields["_raw"])
    else if validates(j.fields) then Model("TryHandleResult", j.fields)
    else Plain(j)
  }

  /**
   * A validating result comes back as the same model; a string comes back
   * as itself; any other non-dictionary comes back as its `str()`.
   */
  lemma SerializeRoundTrip(ffi: Ffi, validates: map<string, Json> -> bool, v: PyValue)
    ensures v.Model? && v.className == "TryHandleResult" && validates(v.dump) && "_raw" !in v.dump ==>
              Deserialize(validates, Serialize(ffi, v)) == v
    ensures v.Plain? && v.value.JStr? ==> Deserialize(validates, Serialize(ffi, v)) == v
    ensures v.Plain? && !v.value.JObj? ==> Deserialize(validates, Serialize(ffi, v)) == Plain(JStr(PyStr(ffi, v.value)))
    ensures v.Object? ==> Deserialize(validates, Serialize(ffi, v)) == Plain(JStr(v.shown))
  {
  }

  /** A validating scraping result stored under a URL is loaded back from the same URL. */
  lemma ResultRoundTrip(fs: Fs, os: Os, ffi: Ffi, validates: map<string, Json> -> bool, c: Cache<PyValue>, url: string,
                        result: map<string, Json>, maxAgeDays: Option<int>)
    requires c.t == WebHandler(ffi, validates)
    requires Lawful(ffi)
    requires IsEnabled(c.config, c.t.cacheType)
    requires validates(result) && "_raw" !in result
    requires StoreGoesThrough(fs, os, c, Key(ffi, url))
    requires FreshEnough(EffectiveTtl(c.t, maxAgeDays))
    requires !EndsWith(Name(CanonicalPath(c, Key(ffi, url))), ".zip")
    ensures var v := Model("TryHandleResult", result);
            var r := Store(fs, os, ffi, c, v, Key(ffi, url), true);
            r.value.Some? && Load(r.fs, ffi, c, Key(ffi, url), maxAgeDays) == Some(v)
  {
    var v := Model("TryHandleResult", result);
    StoreThenLoad(fs, os, ffi, c, v, Key(ffi, url), true, maxAgeDays);
    SerializeRoundTrip(ffi, validates, v);
  }
}

=== FILE: card_context.dfy ===
/**
 * The context the card-reward advisor sees: the game's offered commands
 * and choices, a handful of state fields, and the deck counted two ways.
 */
module CardRewardContext {
  import opened Wrappers
  import opened Strs
  import opened JsonValues
  import opened Seqs
  import opened AgentData
  import opened GameStateView

  /** A card's entry key: its trimmed, lowercased name (upgrade marks kept) and its upgrade count. */
  function CardKey(c: Card): (string, int) {
    (Lower(Strip(c.name)), c.upgrades)
  }

  function CardKeys(deck: seq<Card>): (r: seq<(string, int)>)
    ensures |r| == |deck| && forall i :: 0 <= i < |deck| ==> r[i] == CardKey(deck[i])
  {
    seq(|deck|, i requires 0 <= i < |deck| => CardKey(deck[i]))
  }

  /**
   * `_build_card_entries_with_counts`: one entry per distinct key, in order
   * of first occurrence, counting the cards that carry it.
   */
  function CardTally(deck: seq<Card>): (r: Tally<(string, int)>)
    ensures UniqueKeys(r)
    ensures forall k :: Lookup(r, k) == multiset(CardKeys(deck))[k]
    ensures Total(r) == |deck|
  {
    Count(CardKeys(deck))
  }

  /** One tally line as the dictionary the advisor reads. */
  function Entry(e: ((string, int), nat)): (r: map<string, Json>)
    ensures r.Keys == {"name", "upgrade_times", "count"}
  {
    map["name" := JStr(e.0.0), "upgrade_times" := JInt(e.0.1), "count" := JInt(e.1)]
  }

  function CardEntries(deck: seq<Card>): (r: seq<Json>)
    ensures |r| == |CardTally(deck)|
    ensures forall i :: 0 <= i < |r| ==> r[i] == JObj(Entry(CardTally(deck)[i]))
  {
    var t := CardTally(deck);
    seq(|t|, i requires 0 <= i < |t| => JObj(Entry(t[i])))
  }

  /** Every card of the deck is counted under its own key. */
  lemma EveryCardCounted(deck: seq<Card>, i: int)
    requires 0 <= i < |deck|
    ensures Lookup(CardTally(deck), CardKey(deck[i])) >= 1
  {
    assert CardKeys(deck)[i] in multiset(CardKeys(deck));
  }

  /**
   * Entries keep the upgrade mark in the name and split by upgrade count,
   * while the name counts drop the mark: a Strike and a Strike+ are two
   * entries but one name.
   */
  lemma EntriesSplitUpgrades(a: string, b: string)
    ensures var deck := [Card(a, "Strike", 0), Card(b, "Strike+", 1)];
            && Lookup(CardTally(deck), ("strike", 0)) == 1
            && Lookup(CardTally(deck), ("strike+", 1)) == 1
            && Lookup(DeckByStrippedName(deck), "strike") == 2
  {
    var deck := [Card(a, "Strike", 0), Card(b, "Strike+", 1)];
    KeysOfStrikes(a, b);
    NamesOfStrikes(a, b);
    assert multiset(CardKeys(deck))[("strike", 0)] == 1;
    assert multiset(StrippedNames(deck))["strike"] == 2;
  }

  lemma KeysOfStrikes(a: string, b: string)
    ensures CardKeys([Card(a, "Strike", 0), Card(b, "Strike+", 1)]) == [("strike", 0), ("strike+", 1)]
  {
    assert Trimmed("Strike") && Trimmed("Strike+");
    StripStripped("Strike");
    StripStripped("Strike+");
    LowerStrike();
    assert "strike" + "+" == "strike+";
  }

  lemma NamesOfStrikes(a: string, b: string)
    ensures StrippedNames([Card(a, "Strike", 0), Card(b, "Strike+", 1)]) == ["strike", "strike"]
  {
    StrikeName(Card(a, "Strike", 0));
    StrikeName(Card(b, "Strike+", 1));
  }

  lemma StrikeName(c: Card)
    requires c.name == "Strike" || c.name == "Strike+"
    ensures StrippedName(c) == "strike"
  {
    assert RemoveChar("Strike", '+') == "Strike" by {
      assert '+' !in "Strike";
    }
    if c.name == "Strike+" {
      RemovePlusSuffix("Strike");
      assert c.name == "Strike" + "+";
    }
    LowerStrike();
  }

  /** The tally's counts as a dictionary. */
  function CountsObject(t: Tally<string>): (r: map<string, Json>)
    ensures forall i :: 0 <= i < |t| ==> t[i].0 in r
    ensures forall k :: k in r ==> r[k] == JInt(Lookup(t, k))
  {
    map k | k in (set i | 0 <= i < |t| :: t[i].0) :: JInt(Lookup(t, k))
  }

  /** `available_commands`, each as text, or none when it is not a list. */
  function CommandTexts(ffi: Ffi, commands: Json): (r: seq<string>)
    ensures !commands.JArr? ==> r == []
    ensures commands.JArr? ==> |r| == |commands.items|
    ensures commands.JArr? ==> forall i :: 0 <= i < |r| ==> r[i] == PyStr(ffi, commands.items[i])
  {
    if !commands.JArr? then []
    else seq(|commands.items|, i requires 0 <= i < |commands.items| => PyStr(ffi, commands.items[i]))
  }

  predicate AllText(items: seq<Json>) {
    forall i :: 0 <= i < |items| ==> items[i].JStr?
  }

  function Texts(items: seq<Json>): (r: seq<string>)
    requires AllText(items)
    ensures |r| == |items| && forall i :: 0 <= i < |items| ==> JStr(r[i]) == items[i]
  {
    seq(|items|, i requires 0 <= i < |items| => items[i].s)
  }

  /** `relic["name"]` for every relic; None when one has no name. */
  function RelicNames(relics: seq<Json>): (r: Option<seq<Json>>)
    ensures r.Some? <==> forall i :: 0 <= i < |relics| ==> relics[i].JObj? && "name" in relics[i].fields
    ensures r.Some? ==> |r.value| == |relics|
    ensures r.Some? ==> forall i :: 0 <= i < |relics| ==> r.value[i] == relics[i].fields["name"]
  {
    if relics == [] then Some([])
    else
      var last := relics[|relics| - 1];
      match RelicNames(relics[..|relics| - 1])
      case None => None
      case Some(names) =>
        if last.JObj? && "name" in last.fields then Some(names + [last.fields["name"]]) else None
  }

  /** Every field `build_card_reward_agent_context` reads without a default. */
  predicate Readable(gs: map<string, Json>) {
    && "screen_type" in gs && gs["screen_type"].JStr?
    && "choice_list" in gs && gs["choice_list"].JArr? && AllText(gs["choice_list"].items)
    && "floor" in gs
    && "relics" in gs && gs["relics"].JArr?
  }

  /**
   * `build_card_reward_agent_context`. None is a lookup that raises: no
   * game state, or a field read without a default missing.
   */
  function BuildContext(ffi: Ffi, state: GameState, handlerName: string): (r: Option<AgentContext>)
    ensures ("game_state" !in state.json || !state.json["game_state"].JObj?) ==> r.None?
    ensures r.Some? ==>
              var gs := state.json["game_state"].fields;
              && Readable(gs)
              && r.value.handlerName == handlerName
              && r.value.screenType == gs["screen_type"].s
              && r.value.availableCommands == CommandTexts(ffi, Get(state.json, "available_commands", JNull))
              && "floor" in r.value.gameState && r.value.gameState["floor"] == gs["floor"]
              && "gold" in r.value.gameState && r.value.gameState["gold"] == Get(gs, "gold", JNull)
              && "act" in r.value.gameState && r.value.gameState["act"] == Get(gs, "act", JNull)
              && "room_phase" in r.value.gameState && r.value.gameState["room_phase"] == Get(gs, "room_phase", JNull)
              && "current_hp" in r.value.gameState && r.value.gameState["current_hp"] == Get(gs, "current_hp", JNull)
              && "max_hp" in r.value.gameState && r.value.gameState["max_hp"] == Get(gs, "max_hp", JNull)
              && |r.value.choiceList| == |gs["choice_list"].items|
              && (forall i :: 0 <= i < |r.value.choiceList| ==> JStr(r.value.choiceList[i]) == gs["choice_list"].items[i])
              && "deck_size" in r.value.extras && r.value.extras["deck_size"] == JInt(|state.deck|)
              && "deck_card_entries" in r.value.extras && r.value.extras["deck_card_entries"] == JArr(CardEntries(state.deck))
    ensures r.Some? ==>
              var relics := state.json["game_state"].fields["relics"].items;
              && "relic_names" in r.value.extras && r.value.extras["relic_names"].JArr?
              && |r.value.extras["relic_names"].items| == |relics|
              && forall i :: 0 <= i < |relics| ==>
                   relics[i].JObj? && "name" in relics[i].fields
                   && r.value.extras["relic_names"].items[i] == relics[i].fields["name"]
  {
    if "game_state" !in state.json || !state.json["game_state"].JObj? then None
    else
      var gs := state.json["game_state"].fields;
      if !Readable(gs) then None
      else match RelicNames(gs["relics"].items)
        case None => None
        case Some(relicNames) =>
          Some(AgentContext(
            handlerName,
            gs["screen_type"].s,
            CommandTexts(ffi, Get(state.json, "available_commands", JNull)),
            Texts(gs["choice_list"].items),
            StateFields(gs),
            ContextExtras(state.deck, relicNames)))
  }

  /** The context's `game_state`: the floor, and the other fields or None. */
  function StateFields(gs: map<string, Json>): (m: map<string, Json>)
    requires "floor" in gs
    ensures "floor" in m && m["floor"] == gs["floor"]
    ensures "gold" in m && m["gold"] == Get(gs, "gold", JNull)
    ensures "act" in m && m["act"] == Get(gs, "act", JNull)
    ensures "room_phase" in m && m["room_phase"] == Get(gs, "room_phase", JNull)
    ensures "current_hp" in m && m["current_hp"] == Get(gs, "current_hp", JNull)
    ensures "max_hp" in m && m["max_hp"] == Get(gs, "max_hp", JNull)
    ensures |m.Keys| == 6
  {
    map["floor" := gs["floor"],
        "act" := Get(gs, "act", JNull),
        "room_phase" := Get(gs, "room_phase", JNull),
        "current_hp" := Get(gs, "current_hp", JNull),
        "max_hp" := Get(gs, "max_hp", JNull),
        "gold" := Get(gs, "gold", JNull)]
  }

  /** The context's `extras`: deck size, relic names, name counts and card entries. */
  function ContextExtras(deck: seq<Card>, relicNames: seq<Json>): (m: map<string, Json>)
    ensures "deck_size" in m && m["deck_size"] == JInt(|deck|)
    ensures "relic_names" in m && m["relic_names"] == JArr(relicNames)
    ensures "deck_card_name_counts" in m && m["deck_card_name_counts"] == JObj(CountsObject(DeckByStrippedName(deck)))
    ensures "deck_card_entries" in m && m["deck_card_entries"] == JArr(CardEntries(deck))
  {
    map["deck_size" := JInt(|deck|),
        "relic_names" := JArr(relicNames),
        "deck_card_name_counts" := JObj(CountsObject(DeckByStrippedName(deck))),
        "deck_card_entries" := JArr(CardEntries(deck))]
  }

  /** A readable state always gives a context, and its choices are the game's own labels. */
  lemma ReadableBuilds(ffi: Ffi, state: GameState, handlerName: string)
    requires "game_state" in state.json && state.json["game_state"].JObj?
    requires Readable(state.json["game_state"].fields)
    requires var relics := state.json["game_state"].fields["relics"].items;
             forall i :: 0 <= i < |relics| ==> relics[i].JObj? && "name" in relics[i].fields
    ensures BuildContext(ffi, state, handlerName).Some?
    ensures var gs := state.json["game_state"].fields;
            forall i :: 0 <= i < |gs["choice_list"].items| ==>
              i < |BuildContext(ffi, state, handlerName).value.choiceList|
              && JStr(BuildContext(ffi, state, handlerName).value.choiceList[i]) == gs["choice_list"].items[i]
  {
  }

  /** The deck's name counts add up to the deck size the context reports. */
  lemma NameCountsMatchSize(ffi: Ffi, state: GameState, handlerName: string)
    requires BuildContext(ffi, state, handlerName).Some?
    ensures Total(DeckByStrippedName(state.deck)) == |state.deck|
    ensures Total(CardTally(state.deck)) == |state.deck|
    ensures forall k :: k in BuildContext(ffi, state, handlerName).value.extras["deck_card_name_counts"].fields ==>
              BuildContext(ffi, state, handlerName).value.extras["deck_card_name_counts"].fields[k]
                == JInt(multiset(StrippedNames(state.deck))[k])
  {
    var extras := BuildContext(ffi, state, handlerName).value.extras;
    var t := DeckByStrippedName(state.deck);
    assert extras["deck_card_name_counts"] == JObj(CountsObject(t));
    assert forall k :: k in CountsObject(t) ==> CountsObject(t)[k] == JInt(Lookup(t, k));
  }
}

=== FILE: common_utils.dfy ===
/**
 * General helpers: C-identifier names, Levenshtein distance, path-to-text
 * conversion of argument lists, and setting environment variables.
 */
module CommonUtils {
  import opened Strs
  import opened JsonValues

  // ----- identifiers -----

  /** A legal C identifier character: an ASCII letter, digit or underscore. */
  predicate IdentChar(c: char) { IsAlnum(c) || c == '_' }

  /**
   * `format_name`: every non-alphanumeric character becomes '_', and a
   * leading digit gets a '_' in front.
   */
  function FormatName(name: string): (r: string)
    ensures forall i :: 0 <= i < |r| ==> IdentChar(r[i])
    ensures r == [] <==> name == []
    ensures r != [] ==> !IsDigit(r[0])
    ensures |r| == |name| + (if name != [] && IsDigit(name[0]) then 1 else 0)
    ensures forall i :: 0 <= i < |name| && IsAlnum(name[i]) ==> r[|r| - |name| + i] == name[i]
    ensures forall i :: 0 <= i < |name| && !IsAlnum(name[i]) ==> r[|r| - |name| + i] == '_'
  {
    var formatted := seq(|name|, i requires 0 <= i < |name| => if IsAlnum(name[i]) then name[i] else '_');
    if formatted != [] && IsDigit(formatted[0]) then "_" + formatted else formatted
  }

  /** A formatted name is already formatted. */
  lemma FormatNameIdempotent(name: string)
    ensures FormatName(FormatName(name)) == FormatName(name)
  {
    var r := FormatName(name);
    var rr := FormatName(r);
    assert forall i :: 0 <= i < |r| ==> (IsAlnum(r[i]) || r[i] == '_');
    assert |rr| == |r|;
    forall i | 0 <= i < |r|
      ensures rr[i] == r[i]
    {
      if !IsAlnum(r[i]) {
        assert r[i] == '_';
      }
    }
  }

  /** An identifier that is already legal and does not start with a digit is kept. */
  lemma LegalNameKept(name: string)
    requires forall i :: 0 <= i < |name| ==> IdentChar(name[i])
    requires name != [] ==> !IsDigit(name[0])
    ensures FormatName(name) == name
  {
    var r := FormatName(name);
    forall i | 0 <= i < |name|
      ensures r[i] == name[i]
    {
      if !IsAlnum(name[i]) {
        assert name[i] == '_';
      }
    }
  }

  // ----- Levenshtein distance -----

  function Min3(a: nat, b: nat, c: nat): (r: nat)
    ensures r <= a && r <= b && r <= c
    ensures r == a || r == b || r == c
  {
    if a <= b && a <= c then a else if b <= c then b else c
  }

  /**
   * The edit distance by its defining recurrence on prefixes: the fewest
   * single-character insertions, deletions and substitutions.
   */
  function Lev(a: string, b: string): nat
    decreases |a| + |b|
  {
    if a == [] then |b|
    else if b == [] then |a|
    else
      Min3(Lev(a[..|a| - 1], b) + 1,
           Lev(a, b[..|b| - 1]) + 1,
           Lev(a[..|a| - 1], b[..|b| - 1]) + (if a[|a| - 1] == b[|b| - 1] then 0 else 1))
  }

  /** The distance does not depend on which string is first. */
  lemma {:induction false} LevSymmetric(a: string, b: string)
    ensures Lev(a, b) == Lev(b, a)
    decreases |a| + |b|
  {
    if a != [] && b != [] {
      LevSymmetric(a[..|a| - 1], b);
      LevSymmetric(a, b[..|b| - 1]);
      LevSymmetric(a[..|a| - 1], b[..|b| - 1]);
    }
  }

  /** A string is at distance zero from itself. */
  lemma {:induction false} LevSelf(a: string)
    ensures Lev(a, a) == 0
  {
    if a != [] {
      LevSelf(a[..|a| - 1]);
    }
  }

  /** The distance to the empty string is the length, either way round. */
  lemma LevToEmpty(a: string)
    ensures Lev(a, "") == |a| && Lev("", a) == |a|
  {
  }

  /** The distance is at most the longer length and at least the difference of the lengths. */
  lemma {:induction false} LevBounds(a: string, b: string)
    ensures Lev(a, b) <= (if |a| >= |b| then |a| else |b|)
    ensures Lev(a, b) >= (if |a| >= |b| then |a| - |b| else |b| - |a|)
    decreases |a| + |b|
  {
    if a != [] && b != [] {
      LevBounds(a[..|a| - 1], b);
      LevBounds(a, b[..|b| - 1]);
      LevBounds(a[..|a| - 1], b[..|b| - 1]);
    }
  }

  /** The first row: the distance from the empty prefix to each prefix of `s2`. */
  function Range(n: nat): (r: seq<nat>)
    ensures |r| == n && forall j :: 0 <= j < n ==> r[j] == j
  {
    seq(n, j requires 0 <= j < n => j as nat)
  }

  /**
   * `levenshtein_distance`: the longer string drives the rows; each row
   * holds the distances from a prefix of it to every prefix of the other.
   */
  method Levenshtein(s1: string, s2: string) returns (d: nat)
    ensures d == Lev(s1, s2)
    decreases if |s1| < |s2| then 1 else 0
  {
    if |s1| < |s2| {
      d := Levenshtein(s2, s1);
      LevSymmetric(s2, s1);
      return;
    }
    if |s2| == 0 {
      return |s1|;
    }
    var previous := Range(|s2| + 1);
    assert forall j :: 0 <= j <= |s2| ==> previous[j] == Lev(s1[..0], s2[..j]);
    var i := 0;
    while i < |s1|
      invariant 0 <= i <= |s1|
      invariant |previous| == |s2| + 1
      invariant forall j :: 0 <= j <= |s2| ==> previous[j] == Lev(s1[..i], s2[..j])
    {
      previous := NextRow(s1, s2, i, previous);
      i := i + 1;
    }
    assert s1[..i] == s1 && s2[..|s2|] == s2;
    d := previous[|s2|];
  }

  /** One row of the table from the row before it. */
  method NextRow(s1: string, s2: string, i: nat, previous: seq<nat>) returns (current: seq<nat>)
    requires i < |s1|
    requires |previous| == |s2| + 1
    requires forall j :: 0 <= j <= |s2| ==> previous[j] == Lev(s1[..i], s2[..j])
    ensures |current| == |s2| + 1
    ensures forall j :: 0 <= j <= |s2| ==> current[j] == Lev(s1[..i + 1], s2[..j])
  {
    current := [i + 1];
    assert current[0] == Lev(s1[..i + 1], s2[..0]);
    var j := 0;
    while j < |s2|
      invariant 0 <= j <= |s2|
      invariant |current| == j + 1
      invariant RowPrefix(s1[..i + 1], s2, current)
    {
      var insertions := previous[j + 1] + 1;
      var deletions := current[j] + 1;
      var substitutions := previous[j] + (if s1[i] != s2[j] then 1 else 0);
      var cell := Min3(insertions, deletions, substitutions);
      LevCell(s1, s2, i, j, previous[j + 1], current[j], previous[j]);
      RowExtend(s1[..i + 1], s2, current, cell);
      current := current + [cell];
      j := j + 1;
    }
  }

  /** Each entry of `row` is the distance from `a` to the prefix of `b` of its index. */
  predicate RowPrefix(a: string, b: string, row: seq<nat>) {
    |row| <= |b| + 1 && forall k :: 0 <= k < |row| ==> row[k] == Lev(a, b[..k])
  }

  lemma RowExtend(a: string, b: string, row: seq<nat>, cell: nat)
    requires RowPrefix(a, b, row) && |row| <= |b| && cell == Lev(a, b[..|row|])
    ensures RowPrefix(a, b, row + [cell])
  {
    var r := row + [cell];
    assert forall k :: 0 <= k < |row| ==> r[k] == row[k];
  }

  /** One cell of the table from its three neighbours. */
  lemma LevCell(s1: string, s2: string, i: nat, j: nat, above: nat, left: nat, diagonal: nat)
    requires i < |s1| && j < |s2|
    requires above == Lev(s1[..i], s2[..j + 1])
    requires left == Lev(s1[..i + 1], s2[..j])
    requires diagonal == Lev(s1[..i], s2[..j])
    ensures Min3(above + 1, left + 1, diagonal + (if s1[i] != s2[j] then 1 else 0)) == Lev(s1[..i + 1], s2[..j + 1])
  {
    LevStep(s1, s2, i, j);
  }

  /** The recurrence at one cell, written on the prefixes the table indexes. */
  lemma LevStep(s1: string, s2: string, i: nat, j: nat)
    requires i < |s1| && j < |s2|
    ensures Lev(s1[..i + 1], s2[..j + 1])
              == Min3(Lev(s1[..i], s2[..j + 1]) + 1,
                      Lev(s1[..i + 1], s2[..j]) + 1,
                      Lev(s1[..i], s2[..j]) + (if s1[i] != s2[j] then 1 else 0))
  {
    var a := s1[..i + 1];
    var b := s2[..j + 1];
    assert a[..|a| - 1] == s1[..i] && a[|a| - 1] == s1[i];
    assert b[..|b| - 1] == s2[..j] && b[|b| - 1] == s2[j];
  }

  // ----- argument lists -----

  /** An item of an argument list: a path object or any other value. */
  datatype Item = PathItem(path: string) | Value(v: Json)

  /** `convert_path_to_str`: every path becomes its text; everything else is kept, in order. */
  function ConvertPathsToStr(items: seq<Item>): (r: seq<Item>)
    ensures |r| == |items|
    ensures forall i :: 0 <= i < |items| && items[i].Value? ==> r[i] == items[i]
    ensures forall i :: 0 <= i < |items| && items[i].PathItem? ==> r[i] == Value(JStr(items[i].path))
    ensures forall i :: 0 <= i < |r| ==> r[i].Value?
  {
    seq(|items|, i requires 0 <= i < |items| => if items[i].PathItem? then Value(JStr(items[i].path)) else items[i])
  }

  /** Converting twice is converting once. */
  lemma ConvertIdempotent(items: seq<Item>)
    ensures ConvertPathsToStr(ConvertPathsToStr(items)) == ConvertPathsToStr(items)
  {
  }

  // ----- environment -----

  /**
   * `set_env`: the variable takes the value unless it is already set and
   * overriding is off; no other variable changes.
   */
  function SetEnv(env: map<string, string>, name: string, value: string, override: bool): (r: map<string, string>)
    ensures (override || name !in env) ==> name in r && r[name] == value
    ensures !override && name in env ==> r == env
    ensures forall k :: k != name ==> (k in r <==> k in env) && (k in env ==> r[k] == env[k])
  {
    if override || name !in env then env[name := value] else env
  }

  /** Without overriding, the first value set stays. */
  lemma FirstValueStays(env: map<string, string>, name: string, first: string, second: string)
    ensures SetEnv(SetEnv(env, name, first, true), name, second, false)[name] == first
  {
  }

  /** With overriding, the last value set wins. */
  lemma LastValueWins(env: map<string, string>, name: string, first: string, second: string, override: bool)
    ensures SetEnv(SetEnv(env, name, first, override), name, second, true)[name] == second
  {
  }
}

=== FILE: env_config.dfy ===
/**
 * The language-model settings: the `.env` reader, where the API keys come
 * from, and the per-namespace cache switches.
 */
module UtilsConfig {
  import opened Wrappers
  import opened Strs
  import opened JsonValues

  // ----- the .env file -----

  /** The index of the first '=' in `s`, if any. */
  function FirstEquals(s: string): (r: Option<nat>)
    ensures r.None? <==> '=' !in s
    ensures r.Some? ==> r.value < |s| && s[r.value] == '=' && '=' !in s[..r.value]
  {
    if s == [] then None
    else if s[0] == '=' then Some(0)
    else
      match FirstEquals(s[1..])
      case None => None
      case Some(k) =>
        assert s[..k + 1] == [s[0]] + s[1..][..k];
        Some(k + 1)
  }

  /** A value with surrounding whitespace, then double quotes, then single quotes removed. */
  function CleanValue(v: string): (r: string)
    ensures r == [] || (r[0] != '\'' && r[|r| - 1] != '\'')
  {
    StripChar(StripChar(Strip(v), '"'), '\'')
  }

  /**
   * One line of `_load_dotenv`: blank lines, comments and lines without
   * '=' set nothing; others split at the first '=' into a trimmed key and
   * a cleaned value.
   */
  function ParseLine(raw: string): (r: Option<(string, string)>)
    ensures Strip(raw) == [] ==> r.None?
    ensures (Strip(raw) != [] && Strip(raw)[0] == '#') ==> r.None?
    ensures '=' !in Strip(raw) ==> r.None?
    ensures r.Some? ==> '=' !in r.value.0
  {
    var line := Strip(raw);
    if line == [] || line[0] == '#' then None
    else match FirstEquals(line)
      case None => None
      case Some(k) =>
        var key := Strip(line[..k]);
        assert '=' !in key by { StripKeepsOut(line[..k], '='); }
        Some((key, CleanValue(line[k + 1..])))
  }

  lemma StripKeepsOut(s: string, c: char)
    requires c !in s
    ensures c !in Strip(s)
  {
    var l := LStrip(s);
    LStripSuffix(s);
    SliceKeepsOut(s, c, |s| - |l|, |s|);
    SliceKeepsOut(l, c, 0, |RStrip(l)|);
  }

  /** A character missing from a text is missing from every slice of it. */
  lemma SliceKeepsOut(s: string, c: char, i: int, j: int)
    requires 0 <= i <= j <= |s| && c !in s
    ensures c !in s[i..j]
  {
    forall k | 0 <= k < j - i
      ensures s[i..j][k] != c
    {
      assert s[i..j][k] == s[i + k];
    }
  }

  /** What each line sets, if anything. */
  function Parsed(lines: seq<string>): (r: seq<Option<(string, string)>>)
    ensures |r| == |lines| && forall i :: 0 <= i < |lines| ==> r[i] == ParseLine(lines[i])
  {
    seq(|lines|, i requires 0 <= i < |lines| => ParseLine(lines[i]))
  }

  /** The settings made in order, a later one overriding an earlier one with the same key. */
  function Apply(ps: seq<Option<(string, string)>>): (r: map<string, string>)
    ensures forall i :: 0 <= i < |ps| && ps[i].Some? ==> ps[i].value.0 in r
  {
    if ps == [] then map[]
    else
      var before := Apply(ps[..|ps| - 1]);
      var r := match ps[|ps| - 1]
        case None => before
        case Some(kv) => before[kv.0 := kv.1];
      assert forall i :: 0 <= i < |ps| - 1 ==> ps[i] == ps[..|ps| - 1][i];
      r
  }

  /** `_load_dotenv`: `text` is None when the file does not exist. */
  function LoadDotenv(text: Option<string>): (r: map<string, string>)
    ensures text.None? ==> r == map[]
    ensures text.Some? ==> forall i :: 0 <= i < |SplitLines(text.value)| && ParseLine(SplitLines(text.value)[i]).Some?
                              ==> ParseLine(SplitLines(text.value)[i]).value.0 in r
  {
    if text.None? then map[]
    else
      var ps := Parsed(SplitLines(text.value));
      Apply(ps)
  }

  /** A key is set exactly when some line sets it. */
  lemma {:induction false} ApplyKeys(ps: seq<Option<(string, string)>>, key: string)
    ensures key in Apply(ps) <==> exists i :: 0 <= i < |ps| && ps[i].Some? && ps[i].value.0 == key
  {
    if ps != [] {
      var init := ps[..|ps| - 1];
      ApplyKeys(init, key);
      assert forall i :: 0 <= i < |init| ==> init[i] == ps[i];
    }
  }

  /** The value of a key is the one its last line gives. */
  lemma {:induction false} LastLineWins(ps: seq<Option<(string, string)>>, i: int)
    requires 0 <= i < |ps| && ps[i].Some?
    requires forall j :: i < j < |ps| && ps[j].Some? ==> ps[j].value.0 != ps[i].value.0
    ensures Apply(ps)[ps[i].value.0] == ps[i].value.1
  {
    if i < |ps| - 1 {
      var init := ps[..|ps| - 1];
      assert init[i] == ps[i];
      assert forall j :: i < j < |init| ==> init[j] == ps[j];
      LastLineWins(init, i);
    }
  }

  /** Lines that set nothing change nothing, wherever they are. */
  lemma SkippedLinesIgnored(lines: seq<string>, line: string)
    requires ParseLine(line).None?
    ensures Apply(Parsed(lines + [line])) == Apply(Parsed(lines))
  {
    assert Parsed(lines + [line])[..|lines|] == Parsed(lines);
  }

  /** A text whose ends are not `c`. */
  predicate EndsFree(v: string, c: char) {
    v == [] || (v[0] != c && v[|v| - 1] != c)
  }

  /**
   * A line `KEY ="value"` sets the key to the value without its quotes: the
   * space before '=' goes with the key, the double quotes with the value.
   */
  lemma QuotedValue(key: string, v: string)
    requires IsToken(key) && '=' !in key && key[0] != '#'
    requires EndsFree(v, '"') && EndsFree(v, '\'')
    ensures ParseLine(key + " =\"" + v + "\"") == Some((key, v))
  {
    SplitsAtEquals(key, v);
    PartsClean(key, v);
  }

  lemma SplitsAtEquals(key: string, v: string)
    requires IsToken(key) && '=' !in key && key[0] != '#'
    ensures var line := key + " =\"" + v + "\"";
            ParseLine(line) == Some((Strip(line[..|key| + 1]), CleanValue(line[|key| + 2..])))
  {
    LineParts(key, v);
    SplitsAt(key + " =\"" + v + "\"", |key| + 1);
  }

  /** A trimmed, uncommented line with its first '=' at `k` splits there. */
  lemma SplitsAt(line: string, k: nat)
    requires Trimmed(line) && line != [] && line[0] != '#'
    requires k < |line| && line[k] == '=' && '=' !in line[..k]
    ensures ParseLine(line) == Some((Strip(line[..k]), CleanValue(line[k + 1..])))
  {
    TrimmedAt(line, k);
    ParseLineAt(line, k);
  }

  lemma TrimmedAt(line: string, k: nat)
    requires Trimmed(line)
    requires k < |line| && line[k] == '=' && '=' !in line[..k]
    ensures Strip(line) == line && FirstEquals(line) == Some(k)
  {
    StripStripped(line);
    FirstEqualsAt(line, k);
  }

  lemma ParseLineAt(line: string, k: nat)
    requires Strip(line) == line && line != [] && line[0] != '#'
    requires FirstEquals(line) == Some(k)
    ensures ParseLine(line) == Some((Strip(line[..k]), CleanValue(line[k + 1..])))
  {
  }


  lemma PartsClean(key: string, v: string)
    requires IsToken(key) && '=' !in key
    requires EndsFree(v, '"') && EndsFree(v, '\'')
    ensures var line := key + " =\"" + v + "\"";
            Strip(line[..|key| + 1]) == key && CleanValue(line[|key| + 2..]) == v
  {
    LineParts(key, v);
    PaddedKey(key);
    QuotedClean(v);
  }

  /** Where the pieces of a `KEY ="value"` line sit. */
  lemma LineParts(key: string, v: string)
    requires IsToken(key) && '=' !in key
    ensures var line := key + " =\"" + v + "\"";
            && Trimmed(line)
            && line[..|key| + 1] == key + " "
            && line[|key| + 1] == '='
            && '=' !in line[..|key| + 1]
            && line[|key| + 2..] == ['"'] + v + ['"']
  {
    var line := key + " =\"" + v + "\"";
    assert line[0] == key[0];
    assert line[..|key| + 1] == key + " ";
    assert line[|key| + 2..] == ['"'] + v + ['"'];
  }

  /** A token followed by a space strips to the token. */
  lemma PaddedKey(key: string)
    requires IsToken(key)
    ensures Strip(key + " ") == key
  {
    assert LStrip(key + " ") == key + " ";
    RStripSpace(key);
    assert LStrip(key) == key;
    StripStripped(key);
  }

  /** A double-quoted value loses exactly its quotes. */
  lemma QuotedClean(v: string)
    requires EndsFree(v, '"') && EndsFree(v, '\'')
    ensures CleanValue(['"'] + v + ['"']) == v
  {
    var q := ['"'] + v + ['"'];
    QuotedParts(v);
    StripStripped(q);
    assert StripChar(q, '"') == StripChar(v + ['"'], '"');
    assert StripChar(v + ['"'], '"') == StripChar(v, '"');
  }

  lemma QuotedParts(v: string)
    ensures var q := ['"'] + v + ['"'];
            && Trimmed(q)
            && q[0] == '"' && q[1..] == v + ['"']
            && (v + ['"'])[..|v|] == v
  {
  }

  /** The first '=' is the one with no '=' before it. */
  lemma FirstEqualsAt(s: string, k: nat)
    requires k < |s| && s[k] == '=' && '=' !in s[..k]
    ensures FirstEquals(s) == Some(k)
  {
    assert s[k] in s;
  }


  // ----- the configuration -----

  /** `Config`: the model settings `load_config` produces. */
  datatype Config = Config(
    fastLlmModel: string,
    datasetDirPath: string,
    openaiKey: string,
    anthropicKey: string,
    loadCacheOptions: map<string, Json>,
    storeCacheOptions: map<string, Json>)

  /** The options a namespace gets when the configuration names none. */
  const DefaultCacheOptions: map<string, Json> := map["llm_query" := JBool(true)]

  /** `get_load_cache_option`: whether to read the cache for a namespace; false when not listed. */
  function LoadCacheOption(c: Config, key: string): (r: bool)
    ensures key !in c.loadCacheOptions ==> !r
    ensures key in c.loadCacheOptions ==> r == Truthy(c.loadCacheOptions[key])
  {
    Truthy(Get(c.loadCacheOptions, key, JBool(false)))
  }

  /** `get_store_cache_option`: whether to write the cache for a namespace; false when not listed. */
  function StoreCacheOption(c: Config, key: string): (r: bool)
    ensures key !in c.storeCacheOptions ==> !r
    ensures key in c.storeCacheOptions ==> r == Truthy(c.storeCacheOptions[key])
  {
    Truthy(Get(c.storeCacheOptions, key, JBool(false)))
  }

  /** An API key: a non-empty environment variable, else the `.env` value, else empty. */
  function ApiKey(env: map<string, string>, dotenv: map<string, string>, name: string): (r: string)
    ensures name in env && env[name] != [] ==> r == env[name]
    ensures (name !in env || env[name] == []) && name in dotenv ==> r == dotenv[name]
    ensures (name !in env || env[name] == []) && name !in dotenv ==> r == []
  {
    if name in env && env[name] != [] then env[name]
    else if name in dotenv then dotenv[name]
    else []
  }

  /**
   * `load_config` after the files are read: `values` is the YAML mapping,
   * `dotenv` the `.env` settings and `env` the process environment. None
   * is an exception from a malformed cache section.
   */
  function LoadConfig(ffi: Ffi, values: map<string, Json>, dotenv: map<string, string>,
                      env: map<string, string>): (r: Option<Config>)
    ensures r.Some? ==> r.value.openaiKey == ApiKey(env, dotenv, "OPENAI_API_KEY")
    ensures r.Some? ==> r.value.anthropicKey == ApiKey(env, dotenv, "ANTHROPIC_API_KEY")
    ensures "cache" !in values ==> r.Some?
    ensures "cache" !in values ==> r.value.loadCacheOptions == DefaultCacheOptions
                                   && r.value.storeCacheOptions == DefaultCacheOptions
    ensures r.Some? && "fast_llm_model" !in values ==> r.value.fastLlmModel == "gpt-5-mini"
    ensures r.Some? && "dataset_dir_path" !in values ==> r.value.datasetDirPath == "dataset"
  {
    var cache := Get(values, "cache", JObj(map[]));
    if !cache.JObj? then None
    else
      var load := DictOf(Get(cache.fields, "load_options", JObj(DefaultCacheOptions)));
      var store := DictOf(Get(cache.fields, "store_options", JObj(DefaultCacheOptions)));
      if load.None? || store.None? then None
      else
        Some(Config(
          PyStr(ffi, Get(values, "fast_llm_model", JStr("gpt-5-mini"))),
          PyStr(ffi, Get(values, "dataset_dir_path", JStr("dataset"))),
          ApiKey(env, dotenv, "OPENAI_API_KEY"),
          ApiKey(env, dotenv, "ANTHROPIC_API_KEY"),
          load.value,
          store.value))
  }

  /** With no cache section, the LLM query namespace is both read and written, and nothing else is. */
  lemma DefaultCachesLlmQueries(ffi: Ffi, values: map<string, Json>, dotenv: map<string, string>,
                                env: map<string, string>, key: string)
    requires "cache" !in values
    ensures var c := LoadConfig(ffi, values, dotenv, env).value;
            LoadCacheOption(c, key) == (key == "llm_query") && StoreCacheOption(c, key) == (key == "llm_query")
  {
  }

  /** A key in the environment hides the `.env` one; an empty one does not. */
  lemma EnvironmentFirst(dotenv: map<string, string>, name: string, v: string)
    ensures ApiKey(map[name := v], dotenv, name) == if v != [] then v else if name in dotenv then dotenv[name] else []
  {
  }
}

=== FILE: event_advisor.dfy ===
/**
 * The event advisor: the language model's proposal when it has a command,
 * otherwise a small table of conservative rules for well-known events.
 */
module EventAdvisor {
  import opened Wrappers
  import opened Strs
  import opened JsonValues
  import opened AgentData
  import opened CommandValidator
  import opened AdvisorAgent
  import opened LlmProviders

  const Phase := "phase_1_event_pilot"
  const LlmTool := "llm_event_advisor"
  const RuleConfidence := 0.65

  /** The metadata every answer starts from, before the provider's own is merged in. */
  function BaseMetadata(ctx: AgentContext): map<string, Json> {
    map["phase" := JStr(Phase), "event_name" := Get(ctx.gameState, "event_name", JStr("unknown"))]
  }

  /**
   * `_decide`, as the decision it writes into its raw dictionary. `rule` is
   * the decision provider; it is consulted only when the model proposed no
   * command, and a Failure is the exception it raised.
   */
  function Proposed(ctx: AgentContext, llm: Proposal, rule: AgentContext -> Result<Option<string>>): (r: Result<AgentDecision>)
    ensures llm.proposedCommand.Some? ==>
              && r.Success?
              && r.value.proposedCommand == llm.proposedCommand
              && r.value.confidence == llm.confidence
              && r.value.explanation == llm.explanation
              && r.value.toolsUsed == [JStr(LlmTool)]
              && !r.value.fallbackRecommended
    ensures llm.proposedCommand.None? ==> (r.Failure? <==> rule(ctx).Failure?)
    ensures llm.proposedCommand.None? && r.Success? ==>
              && r.value.proposedCommand == rule(ctx).value
              && r.value.confidence == (if r.value.proposedCommand.Some? then RuleConfidence else 0.0)
              && r.value.explanation == (if r.value.proposedCommand.Some? then "rule_based_event_policy" else "no_rule_match")
              && r.value.toolsUsed == []
              && (r.value.fallbackRecommended <==> r.value.proposedCommand.None?)
              && "fallback_reason" in r.value.metadata
    ensures r.Success? ==>
              && r.value.metadata.Keys >= BaseMetadata(ctx).Keys + llm.metadata.Keys
              && (forall k :: k in llm.metadata ==> r.value.metadata[k] == llm.metadata[k])
              && (forall k :: k in BaseMetadata(ctx) && k !in llm.metadata ==> r.value.metadata[k] == BaseMetadata(ctx)[k])
  {
    if llm.proposedCommand.Some? then
      Success(AgentDecision(llm.proposedCommand, llm.confidence, llm.explanation, [JStr(LlmTool)], false,
                            BaseMetadata(ctx) + llm.metadata))
    else
      match rule(ctx)
      case Failure(e) => Failure(e)
      case Success(command) =>
        var metadata := BaseMetadata(ctx)["fallback_reason" := JStr("llm_no_decision")] + llm.metadata;
        if command.Some? then
          Success(AgentDecision(command, RuleConfidence, "rule_based_event_policy", [], false, metadata))
        else
          Success(AgentDecision(None, 0.0, "no_rule_match", [], true, metadata))
  }

  /** The advisor's whole turn: its raw dictionary, parsed and normalised by the base pipeline. */
  function EventDecide(ffi: Ffi, ctx: AgentContext, llm: Proposal,
                       rule: AgentContext -> Result<Option<string>>): (r: Result<AgentDecision>)
    ensures Proposed(ctx, llm, rule).Failure? ==> r.Failure?
    ensures Proposed(ctx, llm, rule).Success? ==> r == Normalize(Proposed(ctx, llm, rule).value, ctx)
  {
    match Proposed(ctx, llm, rule)
    case Failure(e) => Failure(e)
    case Success(d) =>
      ParseRaw(ffi, d);
      Decide(ffi, RawOf(d), ctx)
  }

  /**
   * A model command the validator accepts is the advisor's answer, whatever
   * the rules would have said, and does not call for the fallback.
   */
  lemma LlmCommandWins(ffi: Ffi, ctx: AgentContext, llm: Proposal,
                       rule: AgentContext -> Result<Option<string>>, other: AgentContext -> Result<Option<string>>)
    requires llm.proposedCommand.Some? && Accepts(ctx, llm.proposedCommand.value)
    ensures EventDecide(ffi, ctx, llm, rule) == EventDecide(ffi, ctx, llm, other)
    ensures var r := EventDecide(ffi, ctx, llm, rule);
            && r.Success?
            && r.value.proposedCommand == llm.proposedCommand
            && r.value.confidence == Clamp(llm.confidence)
            && r.value.toolsUsed == [JStr(LlmTool)]
            && !r.value.fallbackRecommended
  {
    var d := Proposed(ctx, llm, rule).value;
    assert Proposed(ctx, llm, rule) == Proposed(ctx, llm, other);
    NormalizeRecords(d, ctx);
  }

  /** With neither a model command nor a rule, the fallback is recommended at zero confidence. */
  lemma NoDecisionFallsBack(ffi: Ffi, ctx: AgentContext, llm: Proposal, rule: AgentContext -> Result<Option<string>>)
    requires llm.proposedCommand.None? && rule(ctx) == Success(None)
    ensures var r := EventDecide(ffi, ctx, llm, rule);
            && r.Success?
            && r.value.proposedCommand.None?
            && r.value.confidence == 0.0
            && r.value.fallbackRecommended
            && r.value.explanation == "no_rule_match"
  {
  }

  /**
   * The provider's metadata is merged last: a key it sets overrides the
   * advisor's own phase, event name or fallback reason.
   */
  lemma ProviderMetadataWins(ctx: AgentContext, llm: Proposal, rule: AgentContext -> Result<Option<string>>, k: string)
    requires Proposed(ctx, llm, rule).Success? && k in llm.metadata
    ensures k in Proposed(ctx, llm, rule).value.metadata
    ensures Proposed(ctx, llm, rule).value.metadata[k] == llm.metadata[k]
  {
  }

  /**
   * One advisor turn from the provider call onwards, with the corrected
   * provider: the model's reply is normalised into a proposal and the rules
   * are consulted when it carries no command.
   */
  function EventTurn(ffi: Ffi, ctx: AgentContext, model: string, imported: bool, importError: string,
                     reply: Reply, tokenTotal: int, rule: AgentContext -> Result<Option<string>>): Result<AgentDecision>
  {
    EventDecide(ffi, ctx, Propose(EventPolicy, model, imported, importError, reply, tokenTotal), rule)
  }

  /** The same turn with the provider as written: its exception leaves `decide` uncaught. */
  function EventTurnAsWritten(ffi: Ffi, ctx: AgentContext, model: string, imported: bool, importError: string,
                              reply: Reply, tokenTotal: int, rule: AgentContext -> Result<Option<string>>): (r: Result<AgentDecision>)
    ensures imported ==> r.Failure?
    ensures !imported ==> r == EventTurn(ffi, ctx, model, imported, importError, reply, tokenTotal, rule)
  {
    match EventProposeAsWritten(model, imported, importError, reply, tokenTotal)
    case Failure(e) => Failure(e)
    case Success(p) => EventDecide(ffi, ctx, p, rule)
  }

  /**
   * When the model gives no usable answer and no rule matches, the
   * corrected turn still decides (recommending the fallback), while the
   * turn as written raises: with the helper module importable, the rules
   * are never reached.
   */
  lemma RulesReachedOnlyWhenCorrected(ffi: Ffi, ctx: AgentContext, model: string, tokenTotal: int,
                                      rule: AgentContext -> Result<Option<string>>)
    requires rule(ctx) == Success(None)
    ensures var r := EventTurn(ffi, ctx, model, true, "", Other(JNull), tokenTotal, rule);
            r.Success? && r.value.fallbackRecommended && r.value.explanation == "no_rule_match"
    ensures EventTurnAsWritten(ffi, ctx, model, true, "", Other(JNull), tokenTotal, rule).Failure?
  {
    assert Propose(EventPolicy, model, true, "", Other(JNull), tokenTotal) == NonSchema(tokenTotal);
    NoDecisionFallsBack(ffi, ctx, NonSchema(tokenTotal), rule);
    assert EventProposeAsWritten(model, true, "", Other(JNull), tokenTotal).Failure?;
  }

  // ----- the default rules -----

  /** `str(game_state.get("event_name", "")).strip().lower()`. */
  function EventName(ffi: Ffi, ctx: AgentContext): string {
    Lower(Strip(PyStr(ffi, Get(ctx.gameState, "event_name", JStr("")))))
  }

  /** The choice labels, lowercased. */
  function LoweredChoices(ctx: AgentContext): (r: seq<string>)
    ensures |r| == |ctx.choiceList|
    ensures forall i :: 0 <= i < |r| ==> r[i] == Lower(ctx.choiceList[i])
  {
    seq(|ctx.choiceList|, i requires 0 <= i < |ctx.choiceList| => Lower(ctx.choiceList[i]))
  }

  /** The events whose first option is always taken. */
  predicate FirstOptionEvent(name: string) {
    name == "purifier" || name == "the divine fountain" || name == "upgrade shrine" || name == "lab"
  }

  /** Health as a percentage of the maximum; zero when the maximum is not positive. */
  function HpPercent(hp: real, maxHp: real): (r: real)
    ensures maxHp <= 0.0 ==> r == 0.0
  {
    if maxHp <= 0.0 then 0.0 else (hp / maxHp) * 100.0
  }

  /** The cleric: heal when low, else purify, else leave when healthy, else the first option. */
  function ClericChoice(hpPct: real, choices: seq<string>): (r: string)
    ensures r == "choose heal" || r == "choose purify" || r == "choose leave" || r == "choose 0"
  {
    if hpPct <= 65.0 && "heal" in choices then "choose heal"
    else if "purify" in choices then "choose purify"
    else if hpPct >= 90.0 && "leave" in choices then "choose leave"
    else "choose 0"
  }

  /**
   * `_default_event_decision_provider`. A Failure is `float()` raising on the
   * cleric's health figures.
   */
  function DefaultRule(ffi: Ffi, ctx: AgentContext): (r: Result<Option<string>>)
    ensures ctx.handlerName != "CommonEventHandler" ==> r == Success(None)
    ensures EventName(ffi, ctx) == [] ==> r == Success(None)
    ensures r.Failure? ==> EventName(ffi, ctx) == "the cleric"
    ensures FirstOptionEvent(EventName(ffi, ctx)) && ctx.handlerName == "CommonEventHandler" ==> r == Success(Some("choose 0"))
    ensures r.Success? && r.value.Some? ==>
              ctx.handlerName == "CommonEventHandler" && (EventName(ffi, ctx) == "the cleric" || FirstOptionEvent(EventName(ffi, ctx)))
  {
    if ctx.handlerName != "CommonEventHandler" then Success(None)
    else
      var name := EventName(ffi, ctx);
      if name == [] then Success(None)
      else if name == "the cleric" then
        var hp := FloatOf(Get(ctx.gameState, "current_hp", JInt(0)));
        var maxHp := FloatOf(Get(ctx.gameState, "max_hp", JInt(1)));
        if hp.None? || maxHp.None? then Failure("ValueError: could not convert to float")
        else Success(Some(ClericChoice(HpPercent(hp.value, maxHp.value), LoweredChoices(ctx))))
      else if FirstOptionEvent(name) then Success(Some("choose 0"))
      else Success(None)
  }

  /** The cleric's figures as the rules read them. */
  predicate ClericAt(ffi: Ffi, ctx: AgentContext, hp: real, maxHp: real) {
    && ctx.handlerName == "CommonEventHandler"
    && EventName(ffi, ctx) == "the cleric"
    && FloatOf(Get(ctx.gameState, "current_hp", JInt(0))) == Some(hp)
    && FloatOf(Get(ctx.gameState, "max_hp", JInt(1))) == Some(maxHp)
  }

  /**
   * The cleric's rules in their order: healing when at most 65% health
   * wins over purifying, which wins over leaving at 90% or more, and the
   * first option is taken otherwise.
   */
  lemma ClericOrder(ffi: Ffi, ctx: AgentContext, hp: real, maxHp: real)
    requires ClericAt(ffi, ctx, hp, maxHp)
    ensures var pct := HpPercent(hp, maxHp);
            var choices := LoweredChoices(ctx);
            var r := DefaultRule(ffi, ctx);
            && (pct <= 65.0 && "heal" in choices ==> r == Success(Some("choose heal")))
            && (!(pct <= 65.0 && "heal" in choices) && "purify" in choices ==> r == Success(Some("choose purify")))
            && ((!(pct <= 65.0 && "heal" in choices) && "purify" !in choices && pct >= 90.0 && "leave" in choices)
                ==> r == Success(Some("choose leave")))
            && ((!(pct <= 65.0 && "heal" in choices) && "purify" !in choices && !(pct >= 90.0 && "leave" in choices))
                ==> r == Success(Some("choose 0")))
  {
  }

  /** A non-positive maximum reads as zero health, so the cleric heals whenever healing is offered. */
  lemma ClericZeroMaxHeals(ffi: Ffi, ctx: AgentContext, hp: real, maxHp: real)
    requires ClericAt(ffi, ctx, hp, maxHp) && maxHp <= 0.0
    requires "heal" in LoweredChoices(ctx)
    ensures DefaultRule(ffi, ctx) == Success(Some("choose heal"))
  {
  }

  /** Choice labels are compared lowercased: "Heal" on offer counts as "heal". */
  lemma LabelsCompareLowercased(ffi: Ffi, ctx: AgentContext, hp: real, maxHp: real, i: int)
    requires ClericAt(ffi, ctx, hp, maxHp) && HpPercent(hp, maxHp) <= 65.0
    requires 0 <= i < |ctx.choiceList| && ctx.choiceList[i] == "Heal"
    ensures DefaultRule(ffi, ctx) == Success(Some("choose heal"))
  {
    LowerHeal();
    assert LoweredChoices(ctx)[i] == "heal";
    assert "heal" in LoweredChoices(ctx);
    ClericOrder(ffi, ctx, hp, maxHp);
  }

  lemma LowerHeal()
    ensures Lower("Heal") == "heal"
  {
    assert LowerChar('H') == 'h';
  }

  /** A rule only answers on the plain event handler, for a named event. */
  lemma RulesOnlyForCommonHandler(ffi: Ffi, ctx: AgentContext)
    requires DefaultRule(ffi, ctx).Success? && DefaultRule(ffi, ctx).value.Some?
    ensures ctx.handlerName == "CommonEventHandler"
    ensures EventName(ffi, ctx) != []
  {
  }

  /**
   * The validator judges a rule's label against the labels exactly as
   * offered: "choose heal" stands when "heal" itself is on offer.
   */
  lemma HealCommandAccepted(ctx: AgentContext)
    requires Available("choose", ctx.availableCommands)
    ensures Accepts(ctx, "choose heal") <==> "heal" in ctx.choiceList
  {
    assert IsToken("heal");
    assert !IsIntString("heal");
    assert Command(["choose", "heal"]) == "choose heal";
    ChooseLabel(ctx, "heal");
  }

  /** "choose 0" stands exactly when there is at least one choice. */
  lemma FirstOptionAccepted(ctx: AgentContext)
    requires Available("choose", ctx.availableCommands)
    ensures Accepts(ctx, "choose 0") <==> |ctx.choiceList| > 0
  {
    assert IntToString(0) == "0";
    assert Command(["choose", "0"]) == "choose 0";
    ChooseIndex(ctx, 0);
  }
}

=== FILE: file_lock.dfy ===
/**
 * Locked, atomic reads and writes of text, JSON, JSON Lines and zipped JSON.
 * Locks and temporary files are not modelled: a write either replaces the
 * whole file or, when anything raises, leaves the file system as it was.
 */
module FileLock {
  import opened Wrappers
  import opened Strs
  import opened JsonValues
  import opened FileSystem

  /** How `write_with_lock` turns data into text, and how a merge reads the old text back. */
  datatype Serializer =
    | JsonDumps
      /** a bound method whose owner has a `loads`: the merge parses with it */
    | WithLoads(dump: Json -> Option<string>, load: string -> Option<Json>)
      /** any other callable: the merge receives the raw text */
    | Callable(dump: Json -> Option<string>)

  /** A merge function `merge_fn(new, existing)`; None where it raises. */
  type Merge = (Json, Json) -> Option<Json>

  /** Serializing; None where the serializer raises. */
  function Dump(ffi: Ffi, ser: Serializer, data: Json): Option<string> {
    match ser
    case JsonDumps => Some(ffi.dumps(data))
    case WithLoads(dump, _) => dump(data)
    case Callable(dump) => dump(data)
  }

  /** The serializer chosen when none is given: JSON for dicts and lists, the text itself for strings, `str()` otherwise. */
  function DefaultSerializer(ffi: Ffi, data: Json): (s: Serializer)
    ensures data.JObj? || data.JArr? ==> s == JsonDumps
    ensures data.JStr? ==> Dump(ffi, s, data) == Some(data.s)
    ensures !data.JObj? && !data.JArr? ==> s.Callable?
  {
    if data.JObj? || data.JArr? then JsonDumps
    else if data.JStr? then Callable((x: Json) => if x.JStr? then Some(x.s) else None)
    else Callable((x: Json) => Some(PyStr(ffi, x)))
  }

  /** The text of a readable text file; None where opening or decoding it raises. */
  function ReadText(fs: Fs, path: Path): (r: Option<string>)
    ensures r.Some? <==> IsFile(fs, path) && fs[path].payload.Text?
    ensures r.Some? ==> r.value == fs[path].payload.text
  {
    if !Exists(fs, path) then None
    else if IsFile(fs, path) && fs[path].payload.Text? then Some(fs[path].payload.text)
    else None
  }

  /** `read_with_lock` with a deserializer; None for a missing or unreadable file or a raising deserializer. */
  function ReadWithLock<T>(fs: Fs, path: Path, deserialize: string -> Option<T>): Option<T> {
    match ReadText(fs, path)
    case None => None
    case Some(text) => deserialize(text)
  }

  /** `read_json_with_lock`. */
  function ReadJsonWithLock(fs: Fs, ffi: Ffi, path: Path): Option<Json> {
    ReadWithLock(fs, path, ffi.loads)
  }

  /** What a merge receives as the existing data: parsed for JSON serializers, the raw text otherwise. */
  function ExistingData(fs: Fs, ffi: Ffi, ser: Serializer, path: Path): (r: Option<Json>)
    ensures ser.Callable? && ReadText(fs, path).Some? ==> r == Some(JStr(ReadText(fs, path).value))
    ensures ReadText(fs, path).None? ==> r.None?
  {
    match ReadText(fs, path)
    case None => None
    case Some(text) =>
      match ser
      case WithLoads(_, load) => load(text)
      case JsonDumps => ffi.loads(text)
      case Callable(_) => Some(JStr(text))
  }

  /**
   * `write_with_lock`: merges with the existing file when asked (a failing
   * merge falls back to the new data), then replaces the file atomically.
   */
  function WriteWithLock(fs: Fs, os: Os, ffi: Ffi, path: Path, data: Json, serializer: Option<Serializer>, merge: Option<Merge>): (r: Effect<bool>)
    ensures !r.value ==> r.fs == fs
    ensures r.value ==> path in r.fs && r.fs[path].File? && r.fs[path].payload.Text? && r.fs[path].ageDays == 0.0
    ensures r.value ==> r.fs == fs[path := r.fs[path]]
    ensures !Writable(fs, os, path) ==> r == Effect(fs, false)
    ensures r.value && merge.None? ==>
              Some(r.fs[path].payload.text) == Dump(ffi, serializer.GetOr(DefaultSerializer(ffi, data)), data)
  {
    var ser := serializer.GetOr(DefaultSerializer(ffi, data));
    if !Writable(fs, os, path) then Effect(fs, false)
    else
      var written :=
        if merge.Some? && Exists(fs, path) then
          match ExistingData(fs, ffi, ser, path)
          case None => data
          case Some(existing) => merge.value(data, existing).GetOr(data)
        else data;
      match Dump(ffi, ser, written)
      case None => Effect(fs, false)
      case Some(text) => Effect(fs[path := File(Text(text), 0.0)], true)
  }

  /** `write_json_with_lock`: an indented `json.dumps` passed as an uninterpreted callable. */
  function WriteJsonWithLock(fs: Fs, os: Os, ffi: Ffi, path: Path, data: Json, merge: Option<Merge>): Effect<bool> {
    WriteWithLock(fs, os, ffi, path, data, Some(Callable((d: Json) => Some(ffi.pretty(d)))), merge)
  }

  /** What is written by `write_json_with_lock` reads back unchanged. */
  lemma JsonWriteReadRoundTrip(fs: Fs, os: Os, ffi: Ffi, path: Path, data: Json)
    requires Lawful(ffi)
    requires Writable(fs, os, path)
    ensures var r := WriteJsonWithLock(fs, os, ffi, path, data, None);
            r.value && ReadJsonWithLock(r.fs, ffi, path) == Some(data)
  {
  }

  /** The merge of `write_json_with_lock` sees the file's raw text, never parsed JSON. */
  lemma JsonMergeSeesRawText(fs: Fs, ffi: Ffi, path: Path)
    requires IsFile(fs, path) && fs[path].payload.Text?
    ensures ExistingData(fs, ffi, Callable((d: Json) => Some(ffi.pretty(d))), path) == Some(JStr(fs[path].payload.text))
  {
  }

  // ----- JSON Lines -----

  /** `_serialize_jsonl`: one compact JSON document per line, no final newline. */
  function SerializeJsonl(ffi: Ffi, items: seq<Json>): string {
    Join("\n", DumpAll(ffi, items))
  }

  function DumpAll(ffi: Ffi, items: seq<Json>): (r: seq<string>)
    ensures |r| == |items|
    ensures forall i :: 0 <= i < |items| ==> r[i] == ffi.dumps(items[i])
  {
    if items == [] then [] else [ffi.dumps(items[0])] + DumpAll(ffi, items[1..])
  }

  /** `_deserialize_jsonl`: blank lines are skipped; one unparsable line makes the whole read fail. */
  function DeserializeJsonl(ffi: Ffi, content: string): Option<seq<Json>> {
    ParseLines(ffi, SplitLines(content))
  }

  function ParseLines(ffi: Ffi, lines: seq<string>): Option<seq<Json>> {
    if lines == [] then Some([])
    else
      var line := Strip(lines[0]);
      var rest := ParseLines(ffi, lines[1..]);
      if line == [] then rest
      else match ffi.loads(line)
        case None => None
        case Some(j) => if rest.None? then None else Some([j] + rest.value)
  }

  /** A document whose compact form is one trimmed, non-blank line that parses back to it. */
  predicate LineSafe(ffi: Ffi, j: Json) {
    ffi.dumps(j) != [] && Trimmed(ffi.dumps(j)) && ffi.loads(ffi.dumps(j)) == Some(j)
  }

  lemma {:induction false} ParseDumped(ffi: Ffi, items: seq<Json>)
    requires forall i :: 0 <= i < |items| ==> LineSafe(ffi, items[i])
    ensures ParseLines(ffi, DumpAll(ffi, items)) == Some(items)
  {
    if items != [] {
      var first := ffi.dumps(items[0]);
      var tail := DumpAll(ffi, items[1..]);
      assert DumpAll(ffi, items) == [first] + tail;
      assert ParseLines(ffi, tail) == Some(items[1..]) by {
        forall i | 0 <= i < |items[1..]| ensures LineSafe(ffi, items[1..][i]) {
          assert items[1..][i] == items[i + 1];
        }
        ParseDumped(ffi, items[1..]);
      }
      assert first != [] && Strip(first) == first && ffi.loads(first) == Some(items[0]) by {
        assert LineSafe(ffi, items[0]);
        StripStripped(first);
      }
      ParseLinesCons(ffi, first, tail, items[0], items[1..]);
      assert items == [items[0]] + items[1..];
    }
  }

  /** A first line that is a whole document is parsed in front of the rest. */
  lemma ParseLinesCons(ffi: Ffi, first: string, tail: seq<string>, j: Json, rest: seq<Json>)
    requires first != [] && Strip(first) == first && ffi.loads(first) == Some(j)
    requires ParseLines(ffi, tail) == Some(rest)
    ensures ParseLines(ffi, [first] + tail) == Some([j] + rest)
  {
    assert ([first] + tail)[1..] == tail;
  }

  /** JSON Lines written by `_serialize_jsonl` parse back to the same items. */
  lemma JsonlRoundTrip(ffi: Ffi, items: seq<Json>)
    requires Lawful(ffi)
    ensures DeserializeJsonl(ffi, SerializeJsonl(ffi, items)) == Some(items)
  {
    var lines := DumpAll(ffi, items);
    assert forall i :: 0 <= i < |lines| ==> lines[i] != [] && NoLineBreak(lines[i]);
    SplitJoined(lines);
    assert forall i :: 0 <= i < |items| ==> LineSafe(ffi, items[i]);
    ParseDumped(ffi, items);
  }

  /** The serializer `write_jsonl_with_lock` passes: a plain function, so the merge cannot see inside it. */
  function JsonlSerializer(ffi: Ffi): Serializer {
    Callable((d: Json) => if d.JArr? then Some(SerializeJsonl(ffi, d.items)) else None)
  }

  /** `write_jsonl_with_lock` as written: the merge receives the old file as one string. */
  function WriteJsonlAsWritten(fs: Fs, os: Os, ffi: Ffi, path: Path, items: seq<Json>, merge: Option<Merge>): Effect<bool> {
    WriteWithLock(fs, os, ffi, path, JArr(items), Some(JsonlSerializer(ffi)), merge)
  }

  /** The append merge of the documented example `lambda new, old: old + new`; None where `+` raises. */
  function AppendMerge(newData: Json, oldData: Json): Option<Json> {
    if newData.JArr? && oldData.JArr? then Some(JArr(oldData.items + newData.items))
    else if newData.JStr? && oldData.JStr? then Some(JStr(oldData.s + newData.s))
    else None
  }

  /** With the append merge, the file as written holds only the new items: the old lines are lost. */
  lemma JsonlAppendLosesOldLines(fs: Fs, os: Os, ffi: Ffi, path: Path, prior: seq<Json>, items: seq<Json>)
    requires Lawful(ffi)
    requires Writable(fs, os, path)
    requires IsFile(fs, path) && fs[path].payload == Text(SerializeJsonl(ffi, prior))
    ensures var r := WriteJsonlAsWritten(fs, os, ffi, path, items, Some(AppendMerge));
            r.value && ReadWithLock(r.fs, path, (t: string) => DeserializeJsonl(ffi, t)) == Some(items)
  {
    var text := SerializeJsonl(ffi, prior);
    assert ReadText(fs, path) == Some(text);
    CallableWritesNew(fs, os, ffi, path, text, items);
    JsonlRoundTrip(ffi, items);
  }

  /** The plain-function serializer's merge fails on the raw text, so only the new items are written. */
  lemma CallableWritesNew(fs: Fs, os: Os, ffi: Ffi, path: Path, text: string, items: seq<Json>)
    requires Writable(fs, os, path)
    requires ReadText(fs, path) == Some(text)
    ensures var r := WriteJsonlAsWritten(fs, os, ffi, path, items, Some(AppendMerge));
            r.value && r.fs == fs[path := File(Text(SerializeJsonl(ffi, items)), 0.0)]
  {
    assert ExistingData(fs, ffi, JsonlSerializer(ffi), path) == Some(JStr(text));
    assert AppendMerge(JArr(items), JStr(text)) == None;
  }


  /** The JSON Lines serializer with the parser a merge needs. */
  function JsonlCodec(ffi: Ffi): Serializer {
    WithLoads(
      (d: Json) => if d.JArr? then Some(SerializeJsonl(ffi, d.items)) else None,
      (t: string) => match DeserializeJsonl(ffi, t) case None => None case Some(xs) => Some(JArr(xs)))
  }

  /** A serializer with a parser hands the merge the parsed file. */
  lemma ExistingParsed(fs: Fs, ffi: Ffi, ser: Serializer, path: Path, text: string)
    requires ser.WithLoads? && ReadText(fs, path) == Some(text)
    ensures ExistingData(fs, ffi, ser, path) == ser.load(text)
  {
  }

  /** The codec's parser gives back the items its text holds. */
  lemma JsonlCodecLoads(ffi: Ffi, text: string, items: seq<Json>)
    requires DeserializeJsonl(ffi, text) == Some(items)
    ensures JsonlCodec(ffi).WithLoads? && JsonlCodec(ffi).load(text) == Some(JArr(items))
  {
  }

  /** `write_jsonl_with_lock` as intended: the merge receives the parsed old items. */
  function WriteJsonlWithLock(fs: Fs, os: Os, ffi: Ffi, path: Path, items: seq<Json>, merge: Option<Merge>): Effect<bool> {
    WriteWithLock(fs, os, ffi, path, JArr(items), Some(JsonlCodec(ffi)), merge)
  }

  /** With the append merge, the old items are kept in front of the new ones. */
  lemma JsonlAppendKeepsOldLines(fs: Fs, os: Os, ffi: Ffi, path: Path, prior: seq<Json>, items: seq<Json>)
    requires Lawful(ffi)
    requires Writable(fs, os, path)
    requires IsFile(fs, path) && fs[path].payload == Text(SerializeJsonl(ffi, prior))
    ensures var r := WriteJsonlWithLock(fs, os, ffi, path, items, Some(AppendMerge));
            r.value && ReadWithLock(r.fs, path, (t: string) => DeserializeJsonl(ffi, t)) == Some(prior + items)
  {
    var text := SerializeJsonl(ffi, prior);
    assert ReadText(fs, path) == Some(text);
    JsonlRoundTrip(ffi, prior);
    JsonlCodecLoads(ffi, text, prior);
    ExistingParsed(fs, ffi, JsonlCodec(ffi), path, text);
    AppendWrites(fs, os, ffi, path, prior, items);
    JsonlRoundTrip(ffi, prior + items);
  }

  /** Appending to parsed old items writes them followed by the new ones. */
  lemma AppendWrites(fs: Fs, os: Os, ffi: Ffi, path: Path, prior: seq<Json>, items: seq<Json>)
    requires Writable(fs, os, path)
    requires ExistingData(fs, ffi, JsonlCodec(ffi), path) == Some(JArr(prior))
    ensures var r := WriteJsonlWithLock(fs, os, ffi, path, items, Some(AppendMerge));
            r.value && r.fs == fs[path := File(Text(SerializeJsonl(ffi, prior + items)), 0.0)]
  {
    assert AppendMerge(JArr(items), JArr(prior)) == Some(JArr(prior + items));
    assert Dump(ffi, JsonlCodec(ffi), JArr(prior + items)) == Some(SerializeJsonl(ffi, prior + items));
  }



  // ----- zipped JSON -----

  /** The member name a zip writer chooses: the zip's stem, with `.json` added unless already there. */
  function ZipMemberName(zipPath: Path): (name: string)
    ensures EndsWith(name, ".json")
  {
    var stem := Stem(Name(zipPath));
    if EndsWith(stem, ".json") then stem else stem + ".json"
  }

  /** `write_json_as_zip_with_lock`: one member holding indented JSON. */
  function WriteJsonAsZip(fs: Fs, os: Os, ffi: Ffi, zipPath: Path, data: Json): (r: Effect<bool>)
    ensures !r.value ==> r.fs == fs
    ensures r.value ==> r.fs == fs[zipPath := File(Zip([ZipMember(ZipMemberName(zipPath), Text(ffi.pretty(data)))]), 0.0)]
    ensures r.value <==> Writable(fs, os, zipPath)
  {
    if !Writable(fs, os, zipPath) then Effect(fs, false)
    else Effect(fs[zipPath := File(Zip([ZipMember(ZipMemberName(zipPath), Text(ffi.pretty(data)))]), 0.0)], true)
  }

  /** `read_json_from_zip_with_lock`: the first member parsed as JSON; None for an empty or broken archive. */
  function ReadJsonFromZip(fs: Fs, ffi: Ffi, zipPath: Path): (r: Option<Json>)
    ensures r.Some? ==> IsFile(fs, zipPath) && fs[zipPath].payload.Zip? && fs[zipPath].payload.members != []
  {
    if !IsFile(fs, zipPath) then None
    else match fs[zipPath].payload
      case Zip(members) =>
        if members == [] then None
        else if members[0].data.Text? then ffi.loads(members[0].data.text)
        else None
      case _ => None
  }

  /** What is written as zipped JSON reads back unchanged. */
  lemma ZipRoundTrip(fs: Fs, os: Os, ffi: Ffi, zipPath: Path, data: Json)
    requires Lawful(ffi)
    requires Writable(fs, os, zipPath)
    ensures ReadJsonFromZip(WriteJsonAsZip(fs, os, ffi, zipPath, data).fs, ffi, zipPath) == Some(data)
  {
  }

  /** A cache entry's zip member is named after the entry: `key.json.zip` holds `key.json`. */
  lemma CacheMemberName(dir: Path, key: string)
    ensures ZipMemberName(dir + [key + ".json.zip"]) == key + ".json"
  {
    var name := key + ".json.zip";
    assert Name(dir + [name]) == name;
    var i := LastIndex(name, '.');
    assert name[|name| - 4] == '.';
    assert i == |name| - 4;
    assert Stem(name) == key + ".json";
  }
}

=== FILE: file_utils.dfy ===
/**
 * The guarded file operations every cache deletion and copy goes through:
 * nothing is removed, renamed or copied outside an allowed directory, after
 * the operating system has resolved the paths involved.
 */
module FileUtils {
  import opened Wrappers
  import opened Strs
  import opened FileSystem

  /** One allowed entry admits `target`: a directory by containment, anything else by equality. */
  predicate Admits(fs: Fs, allowed: Path, target: Path) {
    if IsDir(fs, allowed) then allowed <= target else target == allowed
  }

  /** Whether some allowed entry admits `target` (callers pass resolved paths). */
  method IsPathAllowed(fs: Fs, target: Path, allowedPaths: seq<Path>) returns (r: bool)
    ensures r <==> exists i :: 0 <= i < |allowedPaths| && Admits(fs, allowedPaths[i], target)
  {
    var k := 0;
    while k < |allowedPaths|
      invariant 0 <= k <= |allowedPaths|
      invariant forall i :: 0 <= i < k ==> !Admits(fs, allowedPaths[i], target)
    {
      var a := allowedPaths[k];
      if IsDir(fs, a) {
        if a <= target {
          return true;
        }
      } else if target == a {
        return true;
      }
      k := k + 1;
    }
    return false;
  }

  /** The removal only shrinks the map, and only inside `root`. */
  predicate RemovesOnlyUnder(before: Fs, after: Fs, root: Path) {
    && (forall q :: q in after ==> q in before && after[q] == before[q])
    && (forall q :: q in before && q !in after ==> root <= q)
  }

  /**
   * Removes a file or a directory tree if its resolved path lies inside the
   * resolved allowed directory; true when nothing is left at the path.
   */
  function SafeRemove(fs: Fs, os: Os, target: Path, allowed: Path): (r: Effect<bool>)
    ensures !(os.resolve(allowed) <= os.resolve(target)) ==> r == Effect(fs, false)
    ensures r.value <==> os.resolve(allowed) <= os.resolve(target) && !Exists(r.fs, os.resolve(target))
    ensures RemovesOnlyUnder(fs, r.fs, os.resolve(target))
    ensures RemovesOnlyUnder(fs, r.fs, os.resolve(allowed))
    ensures os.resolve(allowed) <= os.resolve(target) && !Exists(fs, os.resolve(target)) ==> r == Effect(fs, true)
    ensures Exists(fs, os.resolve(target)) && os.resolve(target) in os.undeletable ==> r == Effect(fs, false)
  {
    var t := os.resolve(target);
    var a := os.resolve(allowed);
    if !(a <= t) then Effect(fs, false)
    else if !Exists(fs, t) then Effect(fs, true)
    else if t in os.undeletable then Effect(fs, false)
    else if IsDir(fs, t) then
      var after := RemoveTree(fs, t);
      Effect(after, !Exists(after, t))
    else if IsFile(fs, t) then
      var after := fs - {t};
      Effect(after, !Exists(after, t))
    else Effect(fs, false)
  }

  /** A second removal of what the first one removed succeeds and changes nothing. */
  lemma SafeRemoveIdempotent(fs: Fs, os: Os, target: Path, allowed: Path)
    requires SafeRemove(fs, os, target, allowed).value
    ensures var r := SafeRemove(fs, os, target, allowed);
            SafeRemove(r.fs, os, target, allowed) == Effect(r.fs, true)
  {
  }

  /**
   * What makes a removal go through: the path is its own resolution, lies in
   * the allowed directory, is not protected, and is a directory or a plain file.
   */
  predicate Removable(fs: Fs, os: Os, p: Path, allowed: Path) {
    && os.resolve(p) == p
    && p !in os.undeletable
    && os.resolve(allowed) <= p
    && (p in fs ==> fs[p].Dir? || (fs[p].File? && !HasDescendant(fs, p)))
  }

  /** A removable target is gone afterwards and the removal reports success. */
  lemma SafeRemoveRemovable(fs: Fs, os: Os, p: Path, allowed: Path)
    requires Removable(fs, os, p, allowed)
    ensures var r := SafeRemove(fs, os, p, allowed);
            r.value && !Exists(r.fs, p)
  {
    if Exists(fs, p) && !IsDir(fs, p) {
      assert IsFile(fs, p);
      var after := fs - {p};
      assert !HasDescendant(after, p);
    }
  }

  /** `after` keeps a subset of `before`'s entries, unchanged. */
  predicate Shrinks(before: Fs, after: Fs) {
    forall q :: q in after ==> q in before && after[q] == before[q]
  }

  /** Removing entries never brings a path, a valid file or a removable target into being. */
  lemma ShrinkPreserves(before: Fs, after: Fs, os: Os, p: Path, allowed: Path, ttl: Option<int>)
    requires Shrinks(before, after)
    ensures Exists(after, p) ==> Exists(before, p)
    ensures IsFileValid(after, Some(p), ttl) ==> IsFileValid(before, Some(p), ttl)
    ensures Removable(before, os, p, allowed) ==> Removable(after, os, p, allowed)
  {
    if HasDescendant(after, p) {
      var q :| q in after && |p| < |q| && q[..|p|] == p;
      assert q in before;
    }
  }

  /**
   * Empties a directory: removes it through the guard, then creates it again.
   * The removal resolves the already resolved path once more, which changes
   * nothing on a real system; the postconditions say so where they need it.
   */
  function SafeClearDir(fs: Fs, os: Os, dir: Path, allowed: Path): (r: Effect<bool>)
    ensures r.value ==> os.resolve(dir) in r.fs && r.fs[os.resolve(dir)] == Dir
    ensures r.value && os.resolve(os.resolve(dir)) == os.resolve(dir) ==> !HasDescendant(r.fs, os.resolve(dir))
    ensures !IsDir(fs, os.resolve(dir)) ==> r == Effect(fs, false)
    ensures forall q :: q in r.fs && q != os.resolve(dir) ==> q in fs && r.fs[q] == fs[q]
  {
    var d := os.resolve(dir);
    if !IsDir(fs, d) then Effect(fs, false)
    else
      var rm := SafeRemove(fs, os, d, allowed);
      if !rm.value then rm
      else if d in os.unwritable then Effect(rm.fs, false)
      else Effect(rm.fs[d := Dir], true)
  }

  /**
   * `shutil.move` of a directory: into `dest` when `dest` is an existing
   * directory, onto `dest` otherwise; a directory moved onto itself is
   * renamed in place, which changes nothing.
   */
  function MoveDir(fs: Fs, os: Os, src: Path, dest: Path): (r: Effect<bool>)
    ensures !Exists(fs, src) ==> r == Effect(fs, false)
    ensures IsDir(fs, src) && src == dest ==> r == Effect(fs, true)
    ensures (IsDir(fs, dest) && Exists(fs, src) && src != dest && !Exists(fs, dest + [Name(src)])
             && !(src <= dest + [Name(src)]) && dest + [Name(src)] !in os.unwritable)
            ==> r == Effect(Relocate(fs, src, dest + [Name(src)]), true)
  {
    if !Exists(fs, src) then Effect(fs, false)
    else if IsDir(fs, dest) && src == dest then Effect(fs, true)
    else
      var target := if IsDir(fs, dest) then dest + [Name(src)] else dest;
      if Exists(fs, target) || src <= target || target in os.unwritable then Effect(fs, false)
      else Effect(Relocate(fs, src, target), true)
  }

  /** `after` holds at `dst` what `before` holds at `src`: every node of a tree, the content of a file. */
  predicate Copied(before: Fs, after: Fs, src: Path, dst: Path) {
    && (IsDir(before, src) ==>
          forall q :: q in before && src <= q ==>
            Rebase(q, src, dst) in after && after[Rebase(q, src, dst)] == before[q])
    && (IsFile(before, src) ==> dst in after && after[dst] == before[src])
  }

  /** Where `copy2` puts a file: inside `dest` when `dest` is a directory. */
  function CopyTarget(fs: Fs, src: Path, dest: Path): Path {
    if IsFile(fs, src) && IsDir(fs, dest) then dest + [Name(src)] else dest
  }

  /**
   * `safe_copy`'s copy step: a tree with `copytree`, a file with `copy2`.
   * `copytree` lists the source before it creates the destination, so a copy
   * into a new entry directly under the source copies the tree as it was; a
   * destination deeper inside an existing entry of the source makes the copy
   * recurse into itself until the system refuses.
   */
  function CopyStep(fs: Fs, os: Os, src: Path, dest: Path): (r: Effect<bool>)
    ensures forall q :: q in fs && !(dest <= q) ==> q in r.fs && r.fs[q] == fs[q]
    ensures forall q :: q in r.fs && !(dest <= q) ==> q in fs
    ensures r.value ==> Copied(fs, r.fs, src, CopyTarget(fs, src, dest))
    ensures IsFile(fs, src) && !IsDir(fs, Parent(CopyTarget(fs, src, dest))) ==> r == Effect(fs, false)
    ensures IsDir(fs, src) && !Exists(fs, dest) && dest !in os.unwritable && !(src <= dest) ==> r.value
  {
    if IsDir(fs, src) then
      if Exists(fs, dest) || dest in os.unwritable
         || (src <= dest && |dest| > |src| + 1 && Exists(fs, dest[..|src| + 1])) then Effect(fs, false)
      else
        var after := CopyTree(fs, src, dest);
        CopyTreeFacts(fs, src, dest);
        Effect(after, Exists(after, dest))
    else if IsFile(fs, src) then
      var target := CopyTarget(fs, src, dest);
      if target in os.unwritable || IsDir(fs, target) || !IsDir(fs, Parent(target)) then Effect(fs, false)
      else
        var after := fs[target := fs[src]];
        CopyFileFacts(fs, src, dest, target);
        Effect(after, Exists(after, dest))
    else Effect(fs, false)
  }

  /** `copytree` adds the image of the source under `dest` and nothing elsewhere. */
  lemma CopyTreeFacts(fs: Fs, src: Path, dest: Path)
    requires IsDir(fs, src)
    ensures var after := CopyTree(fs, src, dest);
            && (forall q :: q in fs && !(dest <= q) ==> q in after && after[q] == fs[q])
            && (forall q :: q in after && !(dest <= q) ==> q in fs)
            && Copied(fs, after, src, dest)
            && Exists(after, dest)
  {
    var after := CopyTree(fs, src, dest);
    var img := Image(fs, src, dest);
    assert forall q :: q in img ==> dest <= q;
    var q: Path;
    if src in fs {
      q := src;
    } else {
      q :| q in fs && |src| < |q| && q[..|src|] == src;
    }
    assert src <= q;
    var p := Rebase(q, src, dest);
    assert p in after;
    assert p == dest || p[..|dest|] == dest;
  }

  /** `copy2` writes the file at `target`, which lies at or under `dest`. */
  lemma CopyFileFacts(fs: Fs, src: Path, dest: Path, target: Path)
    requires IsFile(fs, src)
    requires target == CopyTarget(fs, src, dest)
    ensures var after := fs[target := fs[src]];
            && (forall q :: q in fs && !(dest <= q) ==> q in after && after[q] == fs[q])
            && (forall q :: q in after && !(dest <= q) ==> q in fs)
            && Copied(fs, after, src, target)
            && Exists(after, dest)
  {
    var after := fs[target := fs[src]];
    assert dest <= target;
    assert target in after;
    if target != dest {
      assert |dest| < |target| && target[..|dest|] == dest;
    }
    assert !IsDir(fs, src);
  }

  /**
   * Copies a file or directory tree when both resolved ends lie inside the
   * allowed directory; an existing destination is removed first only when
   * `override` is set.
   */
  function SafeCopy(fs: Fs, os: Os, src: Path, dest: Path, override: bool, allowed: Path): (r: Effect<bool>)
    ensures r.value ==> os.resolve(allowed) <= os.resolve(src) && os.resolve(allowed) <= os.resolve(dest)
    ensures !(os.resolve(allowed) <= os.resolve(dest)) ==> r == Effect(fs, false)
    ensures Exists(fs, os.resolve(dest)) && !override ==> r == Effect(fs, false)
    ensures os.resolve(os.resolve(dest)) == os.resolve(dest) ==>
              forall q :: q in fs && !(os.resolve(dest) <= q) ==> q in r.fs && r.fs[q] == fs[q]
    ensures forall q :: q in r.fs && !(os.resolve(dest) <= q) ==> q in fs
    ensures r.value && !Exists(fs, os.resolve(dest)) ==> Copied(fs, r.fs, os.resolve(src), os.resolve(dest))
  {
    var s := os.resolve(src);
    var d := os.resolve(dest);
    var a := os.resolve(allowed);
    if !Exists(fs, s) then Effect(fs, false)
    else if !(a <= s) || !(a <= d) then Effect(fs, false)
    else if Exists(fs, d) && !override then Effect(fs, false)
    else
      var cleared := if Exists(fs, d) then SafeRemove(fs, os, d, a).fs else fs;
      CopyStep(cleared, os, s, d)
  }

  /**
   * With `override`, a destination apart from the source that the removal
   * clears is replaced by a copy of the source.
   */
  lemma SafeCopyReplaces(fs: Fs, os: Os, src: Path, dest: Path, allowed: Path)
    requires forall p :: os.resolve(p) == p
    requires Exists(fs, dest) && !(dest <= src) && !(src <= dest)
    requires Removable(fs, os, dest, allowed)
    ensures var r := SafeCopy(fs, os, src, dest, true, allowed);
            r.value ==> Copied(fs, r.fs, src, dest)
  {
    var r := SafeCopy(fs, os, src, dest, true, allowed);
    if r.value {
      var cleared := SafeRemove(fs, os, dest, allowed).fs;
      SafeRemoveRemovable(fs, os, dest, allowed);
      assert r == CopyStep(cleared, os, src, dest);
      forall q | q in fs && src <= q
        ensures q in cleared && cleared[q] == fs[q]
      {
        PrefixesNest(src, dest, q);
      }
      SameKind(fs, cleared, src);
      assert CopyTarget(cleared, src, dest) == dest;
    }
  }

  /** A map that keeps every node under `p` sees `p` as the same kind of entry. */
  lemma SameKind(before: Fs, after: Fs, p: Path)
    requires Shrinks(before, after)
    requires forall q :: q in before && p <= q ==> q in after
    ensures IsDir(after, p) == IsDir(before, p)
    ensures IsFile(after, p) == IsFile(before, p)
  {
    if HasDescendant(before, p) {
      var q :| q in before && |p| < |q| && q[..|p|] == p;
      assert p <= q;
    }
    if HasDescendant(after, p) {
      var q :| q in after && |p| < |q| && q[..|p|] == p;
    }
  }

  /**
   * `safe_rename_dir` as written: with `override` and an existing
   * destination it empties the destination and re-creates it, so the move
   * that follows puts the source INSIDE the destination.
   */
  function SafeRenameDirAsWritten(fs: Fs, os: Os, src: Path, dest: Path, override: bool, allowed: Path): (r: Effect<bool>)
    ensures r.value ==> os.resolve(allowed) <= os.resolve(src) && os.resolve(allowed) <= os.resolve(dest)
    ensures !IsDir(fs, os.resolve(src)) ==> r == Effect(fs, false)
    ensures Exists(fs, os.resolve(dest)) && !override ==> r == Effect(fs, false)
  {
    var s := os.resolve(src);
    var d := os.resolve(dest);
    var a := os.resolve(allowed);
    if !IsDir(fs, s) then Effect(fs, false)
    else if !(a <= s) || !(a <= d) then Effect(fs, false)
    else if Exists(fs, d) && !override then Effect(fs, false)
    else
      var cleared := if Exists(fs, d) then SafeClearDir(fs, os, d, a).fs else fs;
      MoveDir(cleared, os, s, d)
  }

  /** A system without links that refuses nothing. */
  function PlainOs(): (os: Os)
    ensures forall p :: os.resolve(p) == p
    ensures os.undeletable == {} && os.unwritable == {}
  {
    Os(p => p, {}, {})
  }

  function ExampleFs(): Fs {
    map[["w", "a", "f"] := File(Text("x"), 0.0), ["w", "b", "g"] := File(Text("y"), 0.0)]
  }

  lemma ExampleClear()
    ensures SafeClearDir(ExampleFs(), PlainOs(), ["w", "b"], ["w"]).fs == ExampleCleared()
  {
    var fs := ExampleFs();
    var d: Path := ["w", "b"];
    var f: Path := ["w", "a", "f"];
    var g: Path := ["w", "b", "g"];
    assert g[..|d|] == d;
    assert IsDir(fs, d);
    var rm := SafeRemove(fs, PlainOs(), d, ["w"]);
    assert rm.fs == RemoveTree(fs, d);
    assert !(d <= f) by { assert f[1] != d[1]; }
    assert fs.Keys == {f, g};
    assert rm.fs.Keys == {f};
  }

  function ExampleCleared(): Fs {
    map[["w", "a", "f"] := File(Text("x"), 0.0), ["w", "b"] := Dir]
  }

  lemma ExampleMoveTarget()
    ensures MoveDir(ExampleCleared(), PlainOs(), ["w", "a"], ["w", "b"])
            == Effect(Relocate(ExampleCleared(), ["w", "a"], ["w", "b", "a"]), true)
  {
    var c := ExampleCleared();
    var s: Path := ["w", "a"];
    var d: Path := ["w", "b"];
    var f: Path := ["w", "a", "f"];
    var target: Path := ["w", "b", "a"];
    assert c.Keys == {f, d};
    assert IsDir(c, d) by { assert d in c && c[d] == Dir; }
    assert !Exists(c, target) by {
      assert target !in c;
      assert forall q :: q in c ==> |q| <= |target|;
    }
    assert Exists(c, s) by { assert f in c && |s| < |f| && f[..|s|] == s; }
    assert !(s <= target) by { assert s[1] != target[1]; }
    assert target !in PlainOs().unwritable;
    assert d + [Name(s)] == target;
  }

  lemma ExampleRelocated()
    ensures var moved := Relocate(ExampleCleared(), ["w", "a"], ["w", "b", "a"]);
            ["w", "b", "a", "f"] in moved && ["w", "b", "f"] !in moved
  {
    ExampleImage();
    ExampleRemoved();
  }

  lemma ExampleImage()
    ensures var img := Image(ExampleCleared(), ["w", "a"], ["w", "b", "a"]);
            ["w", "b", "a", "f"] in img && ["w", "b", "f"] !in img
  {
    var c := ExampleCleared();
    var f: Path := ["w", "a", "f"];
    var t: Path := ["w", "b", "a"];
    var p: Path := ["w", "b", "f"];
    assert f in c && ["w", "a"] <= f;
    assert Rebase(f, ["w", "a"], t) == ["w", "b", "a", "f"];
    assert !(t <= p) by { assert p[2] != t[2]; }
  }

  lemma ExampleRemoved()
    ensures ["w", "b", "f"] !in RemoveTree(ExampleCleared(), ["w", "a"])
  {
    assert ExampleCleared().Keys == {["w", "a", "f"], ["w", "b"]};
  }

  /** With `override`, an existing destination ends up holding the source as a subdirectory. */
  lemma RenameOverrideNestsSource()
    ensures var r := SafeRenameDirAsWritten(ExampleFs(), PlainOs(), ["w", "a"], ["w", "b"], true, ["w"]);
            r.value && ["w", "b", "a", "f"] in r.fs && ["w", "b", "f"] !in r.fs
  {
    var fs := ExampleFs();
    var s: Path := ["w", "a"];
    var d: Path := ["w", "b"];
    assert ["w", "a", "f"][..|s|] == s;
    assert IsDir(fs, s);
    assert ["w", "b", "g"][..|d|] == d;
    assert Exists(fs, d);
    ExampleClear();
    ExampleMoveTarget();
    ExampleRelocated();
    var r := SafeRenameDirAsWritten(fs, PlainOs(), s, d, true, ["w"]);
    assert r == MoveDir(ExampleCleared(), PlainOs(), s, d);
  }

  /**
   * Renaming a directory onto itself with `override` empties it first and
   * then reports success: the directory's content is lost.
   */
  lemma RenameOntoItselfEmpties(fs: Fs, os: Os, dir: Path, allowed: Path)
    requires forall p :: os.resolve(p) == p
    requires IsDir(fs, dir) && Removable(fs, os, dir, allowed) && dir !in os.unwritable
    ensures var r := SafeRenameDirAsWritten(fs, os, dir, dir, true, allowed);
            r.value && dir in r.fs && r.fs[dir] == Dir && !HasDescendant(r.fs, dir)
  {
    SafeRemoveRemovable(fs, os, dir, allowed);
    var cleared := SafeClearDir(fs, os, dir, allowed);
    assert cleared.value;
    assert IsDir(cleared.fs, dir);
  }

  /**
   * `safe_rename_dir` as intended: an existing destination is removed (when
   * `override` is set) and the source takes its place.
   */
  function SafeRenameDir(fs: Fs, os: Os, src: Path, dest: Path, override: bool, allowed: Path): (r: Effect<bool>)
    ensures r.value ==> os.resolve(allowed) <= os.resolve(src) && os.resolve(allowed) <= os.resolve(dest)
    ensures !IsDir(fs, os.resolve(src)) ==> r == Effect(fs, false)
    ensures Exists(fs, os.resolve(dest)) && !override ==> r == Effect(fs, false)
    ensures r.value && os.resolve(os.resolve(dest)) == os.resolve(dest) ==>
              forall q :: q in fs && os.resolve(src) <= q && !(os.resolve(dest) <= q) ==>
                Rebase(q, os.resolve(src), os.resolve(dest)) in r.fs
                && r.fs[Rebase(q, os.resolve(src), os.resolve(dest))] == fs[q]
  {
    var s := os.resolve(src);
    var d := os.resolve(dest);
    var a := os.resolve(allowed);
    if !IsDir(fs, s) then Effect(fs, false)
    else if !(a <= s) || !(a <= d) then Effect(fs, false)
    else if Exists(fs, d) && !override then Effect(fs, false)
    else if s == d then Effect(fs, true)
    else if Exists(fs, d) then
      var rm := SafeRemove(fs, os, d, a);
      if !rm.value then Effect(rm.fs, false) else MoveDir(rm.fs, os, s, d)
    else MoveDir(fs, os, s, d)
  }

  /** Renaming a directory onto itself keeps it whole; without `override` it is refused. */
  lemma RenameOntoItselfKeeps(fs: Fs, os: Os, dir: Path, override: bool, allowed: Path)
    requires forall p :: os.resolve(p) == p
    requires IsDir(fs, dir) && allowed <= dir
    ensures SafeRenameDir(fs, os, dir, dir, override, allowed) == Effect(fs, override)
  {
  }

  /**
   * Whether a cache file may be used: it is a file and, when a limit is
   * given, no older than the limit (a file exactly at the limit is valid).
   */
  function IsFileValid(fs: Fs, p: Option<Path>, maxAgeDays: Option<int>): (r: bool)
    ensures r ==> p.Some? && IsFile(fs, p.value)
    ensures p.Some? && IsFile(fs, p.value) && maxAgeDays.None? ==> r
    ensures p.Some? && IsFile(fs, p.value) && maxAgeDays.Some? ==>
              (r <==> fs[p.value].ageDays <= maxAgeDays.value as real)
  {
    match p
    case None => false
    case Some(path) =>
      if !IsFile(fs, path) then false
      else if maxAgeDays.None? then true
      else !(fs[path].ageDays > maxAgeDays.value as real)
  }

  /** A longer limit never invalidates a file a shorter one accepts. */
  lemma ValidityMonotone(fs: Fs, p: Option<Path>, shorter: int, longer: int)
    requires shorter <= longer
    requires IsFileValid(fs, p, Some(shorter))
    ensures IsFileValid(fs, p, Some(longer))
    ensures IsFileValid(fs, p, None)
  {
  }

  /** The character `format_id` writes for `c`. */
  function IdChar(c: char): char {
    if IsAlnum(c) || c == '-' then c else '#'
  }

  /** What `format_id` returns, one character per input character. */
  function FormatIdSpec(id: string): (r: string)
    ensures |r| == |id|
  {
    seq(|id|, i requires 0 <= i < |id| => IdChar(id[i]))
  }

  /** `format_id`: letters, digits and `-` are kept, every other character becomes `#`. */
  method FormatId(id: string) returns (r: string)
    ensures r == FormatIdSpec(id)
    ensures forall i :: 0 <= i < |r| ==> IsAlnum(r[i]) || r[i] == '-' || r[i] == '#'
  {
    r := "";
    for k := 0 to |id|
      invariant r == FormatIdSpec(id[..k])
    {
      assert id[..k + 1][..k] == id[..k];
      if IsAlnum(id[k]) || id[k] == '-' {
        r := r + [id[k]];
      } else {
        r := r + "#";
      }
    }
    assert id[..|id|] == id;
  }

  /** Formatting twice is formatting once. */
  lemma FormatIdIdempotent(id: string)
    ensures FormatIdSpec(FormatIdSpec(id)) == FormatIdSpec(id)
  {
  }
}

=== FILE: fs.dfy ===
/**
 * The file system the cache layer works on: a map from paths to nodes.
 * A directory exists when it is a node of its own or when some node lies
 * beneath it. The operating system's path resolution (symbolic links, `..`)
 * and its refusals are parameters.
 */
module FileSystem {
  import opened Wrappers
  import opened Strs

  /** A path as its sequence of components. */
  type Path = seq<string>

  /** What a file holds: text, a zip archive, or other binary data. */
  datatype Payload = Text(text: string) | Zip(members: seq<ZipMember>) | Blob(data: string)
  datatype ZipMember = ZipMember(name: string, data: Payload)

  /** A file with its content and its age in days, an explicit directory, or anything else (a socket, a device). */
  datatype Node = File(payload: Payload, ageDays: real) | Dir | Special

  type Fs = map<Path, Node>

  /** The file system after an operation, and what the operation returned. */
  datatype Effect<T> = Effect(fs: Fs, value: T)

  /**
   * The operating system: `resolve` is `Path.resolve()`; removing a path in
   * `undeletable` or writing a path in `unwritable` raises.
   */
  datatype Os = Os(resolve: Path -> Path, undeletable: set<Path>, unwritable: set<Path>)

  predicate IsFile(fs: Fs, p: Path) { p in fs && fs[p].File? }

  predicate HasDescendant(fs: Fs, p: Path) {
    exists q :: q in fs && |p| < |q| && q[..|p|] == p
  }

  predicate IsDir(fs: Fs, p: Path) {
    (p in fs && fs[p].Dir?) || (p !in fs && HasDescendant(fs, p))
  }

  predicate Exists(fs: Fs, p: Path) { p in fs || HasDescendant(fs, p) }

  /**
   * Whether a file can be written at `p`: the system does not refuse it, it
   * is not a directory, and no ancestor of it is a file.
   */
  predicate Writable(fs: Fs, os: Os, p: Path) {
    && p !in os.unwritable
    && !IsDir(fs, p)
    && forall k :: 0 <= k < |p| ==> !IsFile(fs, p[..k])
  }

  /** Everything except `p` and what lies beneath it (`shutil.rmtree`). */
  function RemoveTree(fs: Fs, p: Path): (r: Fs)
    ensures forall q :: q in r <==> q in fs && !(p <= q)
    ensures forall q :: q in r ==> r[q] == fs[q]
    ensures !Exists(r, p)
  {
    map q | q in fs && !(p <= q) :: fs[q]
  }

  /** `q` with its prefix `src` replaced by `dst`. */
  function Rebase(q: Path, src: Path, dst: Path): Path
    requires src <= q
  {
    dst + q[|src|..]
  }

  lemma RebaseInjective(q1: Path, q2: Path, src: Path, dst: Path)
    requires src <= q1 && src <= q2
    requires Rebase(q1, src, dst) == Rebase(q2, src, dst)
    ensures q1 == q2
  {
    assert q1[|src|..] == Rebase(q1, src, dst)[|dst|..];
    assert q1 == src + q1[|src|..];
    assert q2 == src + q2[|src|..];
  }

  /** Two prefixes of one path are prefixes of each other. */
  lemma PrefixesNest(a: Path, b: Path, q: Path)
    ensures a <= q && b <= q ==> a <= b || b <= a
  {
  }

  /** The subtree at `src`, re-rooted at `dst`. */
  function Image(fs: Fs, src: Path, dst: Path): (r: Fs)
    ensures forall q :: q in fs && src <= q ==> Rebase(q, src, dst) in r && r[Rebase(q, src, dst)] == fs[q]
    ensures forall p :: p in r ==> dst <= p && src + p[|dst|..] in fs
  {
    forall q1, q2 | q1 in fs && src <= q1 && q2 in fs && src <= q2 && Rebase(q1, src, dst) == Rebase(q2, src, dst)
      ensures q1 == q2
    {
      RebaseInjective(q1, q2, src, dst);
    }
    var r := map q | q in fs && src <= q :: Rebase(q, src, dst) := fs[q];
    assert forall p :: p in r ==> exists q :: q in fs && src <= q && p == Rebase(q, src, dst);
    forall p | p in r
      ensures dst <= p && src + p[|dst|..] in fs
    {
      var q :| q in fs && src <= q && p == Rebase(q, src, dst);
      assert src + p[|dst|..] == q;
    }
    r
  }

  /** Moving the subtree at `src` to `dst`. */
  function Relocate(fs: Fs, src: Path, dst: Path): Fs {
    RemoveTree(fs, src) + Image(fs, src, dst)
  }

  /** Copying the subtree at `src` to `dst`. */
  function CopyTree(fs: Fs, src: Path, dst: Path): Fs {
    fs + Image(fs, src, dst)
  }

  // ----- path names -----

  /** `s.split(c)`. */
  function SplitOn(s: string, c: char): (r: seq<string>)
    ensures |r| >= 1
  {
    if s == [] then [[]]
    else if s[0] == c then [[]] + SplitOn(s[1..], c)
    else
      var rest := SplitOn(s[1..], c);
      [[s[0]] + rest[0]] + rest[1..]
  }

  lemma {:induction false} SplitOnFirst(x: string, y: string, c: char)
    requires c !in x
    ensures SplitOn(x + [c] + y, c) == [x] + SplitOn(y, c)
  {
    if x != [] {
      assert (x + [c] + y)[1..] == x[1..] + [c] + y;
      SplitOnFirst(x[1..], y, c);
      assert [x[0]] + x[1..] == x;
    } else {
      assert (x + [c] + y)[1..] == y;
    }
  }

  /** Components that `pathlib` keeps: empty and `.` components vanish. */
  function Kept(parts: seq<string>): (r: seq<string>)
    ensures forall i :: 0 <= i < |r| ==> r[i] != [] && r[i] != "."
  {
    if parts == [] then []
    else (if parts[0] == [] || parts[0] == "." then [] else [parts[0]]) + Kept(parts[1..])
  }

  lemma {:induction false} KeptAppend(a: seq<string>, b: seq<string>)
    ensures Kept(a + b) == Kept(a) + Kept(b)
  {
    if a != [] {
      assert (a + b)[1..] == a[1..] + b;
      KeptAppend(a[1..], b);
    } else {
      assert a + b == b;
    }
  }

  /** The components `Path / s` appends for a relative name `s`. */
  function Segments(s: string): Path {
    Kept(SplitOn(s, '/'))
  }

  /**
   * `dir / name` for a relative name. A name beginning with '/' is joined
   * under `dir` too (its empty first component is dropped), where pathlib
   * would discard `dir`.
   */
  function Child(dir: Path, name: string): Path {
    dir + Segments(name)
  }

  /** `Path / "x/y"` is `Path / "x" / "y"` when `x` holds no separator. */
  lemma SegmentsAtSlash(x: string, y: string)
    requires '/' !in x
    ensures Segments(x + "/" + y) == Segments(x) + Segments(y)
  {
    SplitOnFirst(x, y, '/');
    NoSeparator(x, '/');
    KeptAppend([x], SplitOn(y, '/'));
  }

  lemma {:induction false} NoSeparator(x: string, c: char)
    requires c !in x
    ensures SplitOn(x, c) == [x]
  {
    if x != [] {
      NoSeparator(x[1..], c);
      assert [x[0]] + x[1..] == x;
    }
  }

  /** `s.split(c)` of a joined string: the parts of both sides, the separator dropped. */
  lemma {:induction false} SplitOnJoin(x: string, y: string, c: char)
    ensures SplitOn(x + [c] + y, c) == SplitOn(x, c) + SplitOn(y, c)
  {
    if x == [] {
      assert x + [c] + y == [c] + y;
      assert ([c] + y)[1..] == y;
    } else {
      assert (x + [c] + y)[1..] == x[1..] + [c] + y;
      SplitOnJoin(x[1..], y, c);
    }
  }

  /** `Path / "x/y"` is `Path / "x" / "y"`, whatever `x` holds. */
  lemma SegmentsJoin(x: string, y: string)
    ensures Segments(x + "/" + y) == Segments(x) + Segments(y)
  {
    SplitOnJoin(x, y, '/');
    KeptAppend(SplitOn(x, '/'), SplitOn(y, '/'));
  }

  /** `Path.name`. */
  function Name(p: Path): string {
    if p == [] then [] else p[|p| - 1]
  }

  /** `Path.parent`. */
  function Parent(p: Path): Path {
    if p == [] then [] else p[..|p| - 1]
  }

  /** The last index of `c` in `s`, or -1. */
  function LastIndex(s: string, c: char): (i: int)
    ensures -1 <= i < |s|
    ensures i >= 0 ==> s[i] == c
    ensures forall j :: i < j < |s| ==> s[j] != c
  {
    if s == [] then -1 else if s[|s| - 1] == c then |s| - 1 else LastIndex(s[..|s| - 1], c)
  }

  /** `PurePath.suffix` of a name. */
  function Suffix(name: string): (r: string)
    ensures r == [] || (r[0] == '.' && EndsWith(name, r))
  {
    var i := LastIndex(name, '.');
    if 0 < i < |name| - 1 then name[i..] else []
  }

  /** `PurePath.stem` of a name. */
  function Stem(name: string): (r: string)
    ensures r + Suffix(name) == name
  {
    var i := LastIndex(name, '.');
    if 0 < i < |name| - 1 then name[..i] else name
  }

  /** `Path.with_name`-style sibling: `p.parent / name`. */
  function Sibling(p: Path, name: string): Path {
    Parent(p) + [name]
  }
}

=== FILE: game_state.dfy ===
/**
 * Read-only views of the game's JSON state: offered commands, deck tallies,
 * upgrade-stripped labels, potions, orbs, relics and the falling event's
 * options.
 */
module GameStateView {
  import opened Wrappers
  import opened Strs
  import opened JsonValues
  import opened Seqs

  /** A card of the deck: its id, its display name and how often it was upgraded. */
  datatype Card = Card(id: string, name: string, upgrades: int)

  /** `GameState`: the raw JSON the game sent and the deck read from it. */
  datatype GameState = GameState(json: map<string, Json>, deck: seq<Card>)

  datatype Relic = Relic(name: string, counter: int)
  datatype Potion = Potion(id: string, name: string)
  /** An option of an event screen: whether it is disabled, and its text. */
  datatype EventOption = EventOption(disabled: bool, text: string)

  /** `has_command`: only a list of offered commands can contain one. */
  predicate HasCommand(json: map<string, Json>, command: string) {
    "available_commands" in json && json["available_commands"].JArr?
    && JStr(command) in json["available_commands"].items
  }

  /** A command is offered exactly when it is one of the listed commands. */
  lemma HasCommandListed(json: map<string, Json>, command: string, items: seq<Json>)
    requires "available_commands" in json && json["available_commands"] == JArr(items)
    ensures HasCommand(json, command) <==> exists i :: 0 <= i < |items| && items[i] == JStr(command)
  {
  }

  /** Without a list of offered commands, nothing is offered. */
  lemma NoListNoCommand(json: map<string, Json>, command: string)
    requires "available_commands" !in json || !json["available_commands"].JArr?
    ensures !HasCommand(json, command)
  {
  }

  // ----- deck tallies -----

  function LoweredIds(deck: seq<Card>): (r: seq<string>)
    ensures |r| == |deck| && forall i :: 0 <= i < |deck| ==> r[i] == Lower(deck[i].id)
  {
    seq(|deck|, i requires 0 <= i < |deck| => Lower(deck[i].id))
  }

  /** A card's name without upgrade marks, lowercased. */
  function StrippedName(c: Card): (r: string)
    ensures '+' !in r
  {
    var r := Lower(RemoveChar(c.name, '+'));
    assert forall i :: 0 <= i < |r| ==> r[i] != '+';
    r
  }

  function StrippedNames(deck: seq<Card>): (r: seq<string>)
    ensures |r| == |deck| && forall i :: 0 <= i < |deck| ==> r[i] == StrippedName(deck[i])
  {
    seq(|deck|, i requires 0 <= i < |deck| => StrippedName(deck[i]))
  }

  /** `get_deck_card_list_by_id`: how many cards carry each lowercased id. */
  function DeckById(deck: seq<Card>): (r: Tally<string>)
    ensures UniqueKeys(r)
    ensures Total(r) == |deck|
    ensures forall k :: Lookup(r, k) == multiset(LoweredIds(deck))[k]
  {
    Count(LoweredIds(deck))
  }

  /** `get_deck_card_list_by_name_with_upgrade_stripped`: the same, by name without '+'. */
  function DeckByStrippedName(deck: seq<Card>): (r: Tally<string>)
    ensures UniqueKeys(r)
    ensures Total(r) == |deck|
    ensures forall k :: Lookup(r, k) == multiset(StrippedNames(deck))[k]
  {
    Count(StrippedNames(deck))
  }

  /** An upgraded card and its base card are counted under one name. */
  lemma UpgradedCountsWithBase(deck: seq<Card>, i: int, j: int)
    requires 0 <= i < |deck| && 0 <= j < |deck| && i != j
    requires deck[j].name == deck[i].name + "+" && '+' !in deck[i].name
    ensures Lookup(DeckByStrippedName(deck), StrippedName(deck[i])) >= 2
  {
    var names := StrippedNames(deck);
    RemovePlusSuffix(deck[i].name);
    assert names[i] == names[j];
    MultisetTwo(names, i, j);
  }

  lemma RemovePlusSuffix(s: string)
    requires '+' !in s
    ensures RemoveChar(s + "+", '+') == s
  {
    RemoveCharAppend(s, "+", '+');
  }

  lemma {:induction false} RemoveCharAppend(a: string, b: string, c: char)
    ensures RemoveChar(a + b, c) == RemoveChar(a, c) + RemoveChar(b, c)
  {
    if a != [] {
      var h := if a[0] == c then [] else [a[0]];
      RemoveCharHead(a, b, c);
      RemoveCharAppend(a[1..], b, c);
      AppendAssoc(h, RemoveChar(a[1..], c), RemoveChar(b, c));
    } else {
      assert a + b == b;
    }
  }

  /** One step of removal on a concatenation whose left part is not empty. */
  lemma RemoveCharHead(a: string, b: string, c: char)
    requires a != []
    ensures RemoveChar(a + b, c) == (if a[0] == c then [] else [a[0]]) + RemoveChar(a[1..] + b, c)
    ensures RemoveChar(a, c) == (if a[0] == c then [] else [a[0]]) + RemoveChar(a[1..], c)
  {
    assert (a + b)[0] == a[0] && (a + b)[1..] == a[1..] + b;
  }

  lemma AppendAssoc(x: string, y: string, z: string)
    ensures x + (y + z) == x + y + z
  {
  }

  lemma MultisetTwo<T>(s: seq<T>, i: int, j: int)
    requires 0 <= i < |s| && 0 <= j < |s| && i != j && s[i] == s[j]
    ensures multiset(s)[s[i]] >= 2
  {
    var lo := if i < j then i else j;
    var hi := if i < j then j else i;
    assert s == s[..lo] + [s[lo]] + s[lo + 1..hi] + [s[hi]] + s[hi + 1..];
  }

  // ----- labels -----

  /** `get_choice_list_upgrade_stripped_from_choice`: every label without '+'. */
  function UpgradeStripped(choices: seq<string>): (r: seq<string>)
    ensures |r| == |choices|
    ensures forall i :: 0 <= i < |r| ==> '+' !in r[i]
    ensures forall i :: 0 <= i < |r| ==> r[i] == RemoveChar(choices[i], '+')
  {
    var r := seq(|choices|, i requires 0 <= i < |choices| => RemoveChar(choices[i], '+'));
    assert forall i, k :: 0 <= i < |r| && 0 <= k < |r[i]| ==> r[i][k] != '+';
    r
  }

  /** Stripping twice is stripping once; labels without '+' are kept. */
  lemma UpgradeStrippedIdempotent(choices: seq<string>)
    ensures UpgradeStripped(UpgradeStripped(choices)) == UpgradeStripped(choices)
    ensures (forall i :: 0 <= i < |choices| ==> '+' !in choices[i]) ==> UpgradeStripped(choices) == choices
  {
  }

  // ----- potions -----

  /** `are_potions_full`: no potion is an empty slot. */
  function PotionsFull(potions: seq<Potion>): (r: bool)
    ensures r <==> forall i :: 0 <= i < |potions| ==> potions[i].id != "Potion Slot"
  {
    if potions == [] then true
    else if potions[0].id == "Potion Slot" then false
    else
      var rest := PotionsFull(potions[1..]);
      assert forall i :: 1 <= i < |potions| ==> potions[i] == potions[1..][i - 1];
      rest
  }

  /** `get_held_potion_names`: the names, lowercased, in order. */
  function HeldPotionNames(potions: seq<Potion>): (r: seq<string>)
    ensures |r| == |potions| && forall i :: 0 <= i < |potions| ==> r[i] == Lower(potions[i].name)
  {
    seq(|potions|, i requires 0 <= i < |potions| => Lower(potions[i].name))
  }

  // ----- relics -----

  /** `has_relic`: names compared without regard to case. */
  predicate HasRelic(relics: seq<Relic>, name: string) {
    exists i :: 0 <= i < |relics| && Lower(relics[i].name) == Lower(name)
  }

  /** `get_relic_counter`: the counter of the first relic of exactly that name, 0 when none is held. */
  function RelicCounter(relics: seq<Relic>, name: string): (r: int)
    ensures (forall i :: 0 <= i < |relics| ==> relics[i].name != name) ==> r == 0
    ensures forall i :: (0 <= i < |relics| && relics[i].name == name
                         && (forall k :: 0 <= k < i ==> relics[k].name != name)) ==> r == relics[i].counter
  {
    if relics == [] then 0
    else if relics[0].name == name then relics[0].counter
    else
      var r := RelicCounter(relics[1..], name);
      assert forall i :: 1 <= i < |relics| ==> relics[i] == relics[1..][i - 1];
      r
  }

  /** A relic with a counter is held; the converse fails when only the case differs. */
  lemma CounterImpliesHeld(relics: seq<Relic>, name: string)
    requires RelicCounter(relics, name) != 0
    ensures HasRelic(relics, name)
  {
    var i :| 0 <= i < |relics| && relics[i].name == name;
  }

  lemma CaseMatters()
    ensures HasRelic([Relic("Pen Nib", 7)], "pen nib")
    ensures RelicCounter([Relic("Pen Nib", 7)], "pen nib") == 0
  {
    assert Lower("Pen Nib") == "pen nib";
    assert [Relic("Pen Nib", 7)][0].name != "pen nib";
  }

  // ----- orbs -----

  /** An orb entry counts when it has an id other than "Empty" and an evoke amount. */
  predicate RealOrb(o: map<string, Json>) {
    "id" in o && o["id"] != JStr("Empty") && "evoke_amount" in o
  }

  /**
   * `get_player_orbs`: the real orbs with their evoke amounts, in order.
   * `orbs` is the player's orb list, empty when it is null or empty (an
   * absent `orbs` key raises a KeyError, which is not modelled); None is
   * `int()` raising on an evoke amount.
   */
  function PlayerOrbs(orbs: seq<map<string, Json>>): (r: Option<seq<(Json, int)>>)
    ensures r.Some? ==> |r.value| <= |orbs|
    ensures r.Some? && (forall i :: 0 <= i < |orbs| ==> !RealOrb(orbs[i])) ==> r.value == []
    ensures (forall i :: 0 <= i < |orbs| ==> RealOrb(orbs[i]) ==> IntOf(orbs[i]["evoke_amount"]).Some?) ==> r.Some?
  {
    if orbs == [] then Some([])
    else
      var o := orbs[0];
      assert forall i :: 1 <= i < |orbs| ==> orbs[i] == orbs[1..][i - 1];
      if !RealOrb(o) then PlayerOrbs(orbs[1..])
      else match IntOf(o["evoke_amount"])
        case None => None
        case Some(n) =>
          match PlayerOrbs(orbs[1..])
          case None => None
          case Some(rest) => Some([(o["id"], n)] + rest)
  }

  /** The elements of `xs` that satisfy `p`, in order. */
  function Filter<T>(xs: seq<T>, p: T -> bool): (r: seq<T>)
    ensures |r| <= |xs|
    ensures forall i :: 0 <= i < |r| ==> p(r[i])
  {
    if xs == [] then [] else (if p(xs[0]) then [xs[0]] else []) + Filter(xs[1..], p)
  }

  /** Every orb's evoke amount converts with `int()`. */
  predicate AllConvert(orbs: seq<map<string, Json>>) {
    forall k :: 0 <= k < |orbs| ==> "evoke_amount" in orbs[k] && IntOf(orbs[k]["evoke_amount"]).Some?
  }

  /** `os` pairs each orb of `held`, in order, with its converted evoke amount. */
  predicate Pairs(os: seq<(Json, int)>, held: seq<map<string, Json>>) {
    && |os| == |held|
    && forall k :: 0 <= k < |held| ==>
         && RealOrb(held[k])
         && IntOf(held[k]["evoke_amount"]).Some?
         && os[k] == (held[k]["id"], IntOf(held[k]["evoke_amount"]).value)
  }

  /**
   * `get_player_orbs` is a filter, then a map: it yields a list exactly
   * when every real orb's evoke amount converts, and then that list pairs
   * the real orbs, in order, with their amounts.
   */
  lemma {:induction false} PlayerOrbsFilterMap(orbs: seq<map<string, Json>>)
    ensures PlayerOrbs(orbs).Some? <==> AllConvert(Filter(orbs, RealOrb))
    ensures PlayerOrbs(orbs).Some? ==> Pairs(PlayerOrbs(orbs).value, Filter(orbs, RealOrb))
  {
    if orbs != [] {
      PlayerOrbsFilterMap(orbs[1..]);
      var held := Filter(orbs, RealOrb);
      var tail := Filter(orbs[1..], RealOrb);
      if RealOrb(orbs[0]) {
        assert held == [orbs[0]] + tail;
        ConvertCons(orbs[0], tail);
        var r := PlayerOrbs(orbs[1..]);
        if r.Some? && IntOf(orbs[0]["evoke_amount"]).Some? {
          PairsCons(orbs[0], r.value, tail);
        }
      } else {
        assert held == tail;
        assert PlayerOrbs(orbs) == PlayerOrbs(orbs[1..]);
      }
    }
  }

  lemma ConvertCons(o: map<string, Json>, rest: seq<map<string, Json>>)
    ensures AllConvert([o] + rest) <==> "evoke_amount" in o && IntOf(o["evoke_amount"]).Some? && AllConvert(rest)
  {
    var xs := [o] + rest;
    assert forall k :: 1 <= k < |xs| ==> xs[k] == rest[k - 1];
    if AllConvert(xs) {
      assert xs[0] == o;
      forall k | 0 <= k < |rest|
        ensures "evoke_amount" in rest[k] && IntOf(rest[k]["evoke_amount"]).Some?
      {
        assert rest[k] == xs[k + 1];
      }
    }
    if "evoke_amount" in o && IntOf(o["evoke_amount"]).Some? && AllConvert(rest) {
      forall k | 0 <= k < |xs|
        ensures "evoke_amount" in xs[k] && IntOf(xs[k]["evoke_amount"]).Some?
      {
        if k > 0 {
          assert xs[k] == rest[k - 1];
        }
      }
    }
  }

  lemma PairsCons(o: map<string, Json>, os: seq<(Json, int)>, rest: seq<map<string, Json>>)
    requires RealOrb(o) && IntOf(o["evoke_amount"]).Some?
    requires Pairs(os, rest)
    ensures Pairs([(o["id"], IntOf(o["evoke_amount"]).value)] + os, [o] + rest)
  {
    var xs := [o] + rest;
    var ys := [(o["id"], IntOf(o["evoke_amount"]).value)] + os;
    assert forall k :: 1 <= k < |xs| ==> xs[k] == rest[k - 1] && ys[k] == os[k - 1];
  }

  /** `get_player_orb_slots`: every entry is a slot, empty ones included. */
  function OrbSlots(orbs: seq<map<string, Json>>): (r: nat)
    ensures r == |orbs|
    ensures forall os :: PlayerOrbs(orbs) == Some(os) ==> |os| <= r
  {
    |orbs|
  }

  // ----- the falling event -----

  /** What follows the first "Lose" in the text, when there is one. */
  function AfterLose(text: string): (r: Option<string>)
    ensures r.Some? <==> Contains(text, "Lose")
    ensures r.Some? ==> |r.value| + 4 <= |text| && r.value == text[|text| - |r.value|..]
  {
    match Find(text, "Lose")
    case None => None
    case Some(k) => Some(text[k + 4..])
  }

  /** One option's card: trimmed, lowercased, without '+'. */
  function OptionCard(rest: string): (r: string)
    ensures '+' !in r
  {
    RemoveChar(Lower(Strip(rest)), '+')
  }

  /** `get_falling_event_options`: the cards the enabled "Lose" options would take. */
  function FallingEventOptions(options: seq<EventOption>): (r: seq<string>)
    ensures |r| <= |options|
    ensures forall i :: 0 <= i < |r| ==> '+' !in r[i]
  {
    if options == [] then []
    else
      var rest := FallingEventOptions(options[1..]);
      var card := if options[0].disabled then None else AfterLose(options[0].text);
      if card.Some? then
        PlusFreeCons(OptionCard(card.value), rest);
        [OptionCard(card.value)] + rest
      else rest
  }

  /** An option that yields a card: enabled, with "Lose" in its text. */
  predicate Yields(o: EventOption) {
    !o.disabled && Contains(o.text, "Lose")
  }

  /** The card a yielding option names. */
  function CardOf(o: EventOption): string
    requires Yields(o)
  {
    OptionCard(AfterLose(o.text).value)
  }

  /** `get_falling_event_options` is a filter, then a map: the yielding options' cards, in order. */
  lemma {:induction false} FallingEventFilterMap(options: seq<EventOption>)
    ensures var y := Filter(options, Yields);
            && |FallingEventOptions(options)| == |y|
            && forall k :: 0 <= k < |y| ==> FallingEventOptions(options)[k] == CardOf(y[k])
  {
    if options != [] {
      FallingEventFilterMap(options[1..]);
      var r := FallingEventOptions(options);
      var rest := FallingEventOptions(options[1..]);
      var y := Filter(options, Yields);
      var tail := Filter(options[1..], Yields);
      if Yields(options[0]) {
        assert y == [options[0]] + tail;
        assert r == [CardOf(options[0])] + rest;
        forall k | 0 <= k < |y|
          ensures r[k] == CardOf(y[k])
        {
          if k > 0 {
            assert r[k] == rest[k - 1] && y[k] == tail[k - 1];
          }
        }
      } else {
        assert y == tail;
        assert r == rest;
      }
    }
  }

  lemma PlusFreeCons(card: string, rest: seq<string>)
    requires '+' !in card && forall i :: 0 <= i < |rest| ==> '+' !in rest[i]
    ensures forall i :: 0 <= i < |[card] + rest| ==> '+' !in ([card] + rest)[i]
  {
  }

  /** The options that yield nothing: disabled, or without "Lose". */
  function Disqualified(options: seq<EventOption>): seq<EventOption> {
    if options == [] then []
    else
      (if options[0].disabled || !Contains(options[0].text, "Lose") then [options[0]] else [])
        + Disqualified(options[1..])
  }

  /** Every enabled "Lose" option yields exactly one card. */
  lemma {:induction false} FallingEventCount(options: seq<EventOption>)
    ensures |FallingEventOptions(options)| + |Disqualified(options)| == |options|
  {
    if options != [] {
      FallingEventCount(options[1..]);
    }
  }

  /** An enabled option reading "Lose Strike+" gives "strike"; a disabled one gives nothing. */
  lemma LoseStrike()
    ensures FallingEventOptions([EventOption(false, "Lose Strike+"), EventOption(true, "Lose Defend")]) == ["strike"]
  {
    var strike := EventOption(false, "Lose Strike+");
    var defend := EventOption(true, "Lose Defend");
    assert FallingEventOptions([defend]) == [] by {
      assert [defend][1..] == [];
    }
    assert FallingEventOptions([strike, defend]) == ["strike"] by {
      StrikeAfterLose();
      StrikeCard();
      assert [strike, defend][1..] == [defend];
    }
  }

  lemma StrikeAfterLose()
    ensures AfterLose("Lose Strike+") == Some(" Strike+")
  {
    assert "Lose" <= "Lose Strike+";
    assert "Lose Strike+"[4..] == " Strike+";
  }

  lemma StrikeCard()
    ensures OptionCard(" Strike+") == "strike"
  {
    StripStrike();
    LowerStrike();
    RemovePlusSuffix("strike");
  }

  lemma StripStrike()
    ensures Strip(" Strike+") == "Strike+"
  {
    var t := "Strike+";
    assert Trimmed(t);
    StripStripped(t);
    assert " Strike+" == " " + t;
    LStripSpace(t);
  }

  /** Lowercasing the card names the examples use. */
  lemma LowerStrike()
    ensures Lower("Strike") == "strike"
    ensures Lower("Strike+") == "strike" + "+"
  {
    assert LowerChar('S') == 's';
    assert Lower("Strike") == "strike";
    assert Lower("Strike+") == Lower("Strike") + "+";
  }
}

=== FILE: grid_select.dfy ===
/**
 * The common grid-select handler: on a GRID screen that needs several
 * cards, pick the cards the preference list names first and the rest in
 * screen order, then confirm.
 */
module GridSelect {
  import opened Wrappers
  import opened Strs
  import opened JsonValues
  import opened GameStateView

  const Wait := "wait 30"
  const Confirm := "confirm"

  /**
   * `can_handle`: choose is offered, the screen is a GRID and it asks for
   * at least one card. None is a lookup or comparison raising on a
   * malformed state.
   */
  function CanHandle(json: map<string, Json>): (r: Option<bool>)
    ensures !HasCommand(json, "choose") ==> r == Some(false)
    ensures r == Some(true) ==>
              && HasCommand(json, "choose")
              && "game_state" in json && json["game_state"].JObj?
              && Get(json["game_state"].fields, "screen_type", JNull) == JStr("GRID")
  {
    if !HasCommand(json, "choose") then Some(false)
    else if "game_state" !in json || !json["game_state"].JObj? then None
    else
      var gs := json["game_state"].fields;
      if Get(gs, "screen_type", JNull) != JStr("GRID") then Some(false)
      else
        var screen := Get(gs, "screen_state", JObj(map[]));
        if !screen.JObj? then None
        else match Get(screen.fields, "num_cards", JInt(0))
          case JInt(n) => Some(n > 0)
          case JReal(x) => Some(x > 0.0)
          case JBool(b) => Some(b)
          case _ => None
  }

  /** On an offered GRID screen with an integer card count, the handler applies exactly when the count is positive. */
  lemma CanHandleGrid(json: map<string, Json>, gs: map<string, Json>, screen: map<string, Json>, n: int)
    requires HasCommand(json, "choose")
    requires "game_state" in json && json["game_state"] == JObj(gs)
    requires "screen_type" in gs && gs["screen_type"] == JStr("GRID")
    requires "screen_state" in gs && gs["screen_state"] == JObj(screen)
    requires "num_cards" in screen && screen["num_cards"] == JInt(n)
    ensures CanHandle(json) == Some(n > 0)
  {
  }

  // ----- the order of the cards -----

  /** `pref.lower() in card.lower()`. */
  predicate Matches(pref: string, card: string) {
    Contains(Lower(card), Lower(pref))
  }

  /** The position of the first preference a card matches; the number of preferences when none. */
  function FirstPref(prefs: seq<string>, card: string): (r: nat)
    ensures r <= |prefs|
    ensures r < |prefs| ==> Matches(prefs[r], card)
    ensures forall k :: 0 <= k < r ==> !Matches(prefs[k], card)
  {
    if prefs == [] then 0
    else if Matches(prefs[0], card) then 0
    else
      var r := 1 + FirstPref(prefs[1..], card);
      assert forall k :: 1 <= k < r ==> prefs[k] == prefs[1..][k - 1];
      r
  }

  /** Which card each preference matches: row `p`, column `i`. */
  function Hits(prefs: seq<string>, choices: seq<string>): (t: seq<seq<bool>>)
    ensures |t| == |prefs|
    ensures forall p :: 0 <= p < |t| ==> |t[p]| == |choices|
    ensures forall p, i :: 0 <= p < |t| && 0 <= i < |choices| ==> (t[p][i] <==> Matches(prefs[p], choices[i]))
  {
    seq(|prefs|, p requires 0 <= p < |prefs| => seq(|choices|, i requires 0 <= i < |choices| => Matches(prefs[p], choices[i])))
  }

  /** Every row of the table covers the `n` cards. */
  predicate Table(t: seq<seq<bool>>, n: nat) {
    forall p :: 0 <= p < |t| ==> |t[p]| == n
  }

  /** The first row that marks card `i`; the number of rows when none. */
  function FirstHit(t: seq<seq<bool>>, n: nat, i: nat): (r: nat)
    requires Table(t, n) && i < n
    ensures r <= |t|
    ensures r < |t| ==> t[r][i]
    ensures forall p :: 0 <= p < r ==> !t[p][i]
  {
    if t == [] then 0
    else if t[0][i] then 0
    else
      var r := 1 + FirstHit(t[1..], n, i);
      assert forall p :: 1 <= p < r ==> t[p] == t[1..][p - 1];
      r
  }

  /** The indices below `hi` that `row` marks and that are not yet ordered, ascending. */
  function Select(row: seq<bool>, acc: seq<nat>, hi: nat): (r: seq<nat>)
    requires hi <= |row|
    ensures forall k :: 0 <= k < |r| ==> r[k] < hi && row[r[k]] && r[k] !in acc
    ensures forall i: nat :: i < hi && row[i] && i !in acc ==> i in r
    ensures forall a, b :: 0 <= a < b < |r| ==> r[a] < r[b]
  {
    if hi == 0 then [] else Select(row, acc, hi - 1) + (if row[hi - 1] && hi - 1 !in acc then [hi - 1] else [])
  }

  /** The indices below `hi` not yet ordered, ascending. */
  function Rest(acc: seq<nat>, hi: nat): (r: seq<nat>)
    ensures forall k :: 0 <= k < |r| ==> r[k] < hi && r[k] !in acc
    ensures forall i: nat :: i < hi && i !in acc ==> i in r
    ensures forall a, b :: 0 <= a < b < |r| ==> r[a] < r[b]
  {
    if hi == 0 then [] else Rest(acc, hi - 1) + (if hi - 1 !in acc then [hi - 1] else [])
  }

  /** The preference pass over the first `m` rows: each row's new cards in turn. */
  function PrefPass(t: seq<seq<bool>>, n: nat, m: nat): seq<nat>
    requires Table(t, n) && m <= |t|
  {
    if m == 0 then []
    else
      var acc := PrefPass(t, n, m - 1);
      acc + Select(t[m - 1], acc, n)
  }

  /** The preference pass, then every card it left, in screen order. */
  function OrderOf(t: seq<seq<bool>>, n: nat): seq<nat>
    requires Table(t, n)
  {
    var acc := PrefPass(t, n, |t|);
    acc + Rest(acc, n)
  }

  /** The order `handle` picks cards in. */
  function Order(prefs: seq<string>, choices: seq<string>): seq<nat> {
    OrderOf(Hits(prefs, choices), |choices|)
  }

  /** Card `i` goes before card `j`: an earlier first matching row, or the same one and an earlier index. */
  predicate HitBefore(t: seq<seq<bool>>, n: nat, i: nat, j: nat)
    requires Table(t, n) && i < n && j < n
  {
    FirstHit(t, n, i) < FirstHit(t, n, j) || (FirstHit(t, n, i) == FirstHit(t, n, j) && i < j)
  }

  predicate HitSorted(t: seq<seq<bool>>, n: nat, r: seq<nat>)
    requires Table(t, n)
  {
    && (forall k :: 0 <= k < |r| ==> r[k] < n)
    && (forall a, b :: 0 <= a < b < |r| ==> HitBefore(t, n, r[a], r[b]))
  }

  /**
   * After `m` rows the pass holds exactly the cards whose first matching
   * row is among them, sorted by first matching row and then index.
   */
  lemma {:induction false} PrefPassSpec(t: seq<seq<bool>>, n: nat, m: nat)
    requires Table(t, n) && m <= |t|
    ensures HitSorted(t, n, PrefPass(t, n, m))
    ensures forall i: nat :: i in PrefPass(t, n, m) <==> i < n && FirstHit(t, n, i) < m
  {
    if m > 0 {
      var acc := PrefPass(t, n, m - 1);
      PrefPassSpec(t, n, m - 1);
      var sel := Select(t[m - 1], acc, n);
      assert forall k :: 0 <= k < |sel| ==> FirstHit(t, n, sel[k]) == m - 1;
      forall i: nat | i < n && FirstHit(t, n, i) == m - 1
        ensures i in sel
      {
        assert i !in acc;
      }
      assert forall k :: 0 <= k < |acc| ==> acc[k] in acc;
      SortedConcat(t, n, acc, sel, m - 1);
    }
  }

  /**
   * A sorted prefix whose cards all match before row `h`, followed by cards
   * in ascending index whose first match is row `h`, is sorted.
   */
  lemma SortedConcat(t: seq<seq<bool>>, n: nat, acc: seq<nat>, tail: seq<nat>, h: nat)
    requires Table(t, n) && HitSorted(t, n, acc)
    requires forall k :: 0 <= k < |acc| ==> FirstHit(t, n, acc[k]) < h
    requires forall k :: 0 <= k < |tail| ==> tail[k] < n && FirstHit(t, n, tail[k]) == h
    requires forall a, b :: 0 <= a < b < |tail| ==> tail[a] < tail[b]
    ensures HitSorted(t, n, acc + tail)
  {
    var r := acc + tail;
    forall a, b | 0 <= a < b < |r|
      ensures HitBefore(t, n, r[a], r[b])
    {
      if b < |acc| {
        assert r[a] == acc[a] && r[b] == acc[b];
      } else if a >= |acc| {
        assert r[a] == tail[a - |acc|] && r[b] == tail[b - |acc|];
      } else {
        assert r[a] == acc[a];
        assert r[b] == tail[b - |acc|];
      }
    }
  }

  /** The whole order is sorted the same way, with the unmatched cards last. */
  lemma OrderOfSpec(t: seq<seq<bool>>, n: nat)
    requires Table(t, n)
    ensures HitSorted(t, n, OrderOf(t, n))
    ensures forall i: nat :: i in OrderOf(t, n) <==> i < n
  {
    var acc := PrefPass(t, n, |t|);
    PrefPassSpec(t, n, |t|);
    var rest := Rest(acc, n);
    assert forall k :: 0 <= k < |rest| ==> FirstHit(t, n, rest[k]) == |t|;
    assert forall k :: 0 <= k < |acc| ==> acc[k] in acc;
    SortedConcat(t, n, acc, rest, |t|);
    var r := acc + rest;
    forall i: nat | i < n
      ensures i in r
    {
      if i !in acc {
        assert i in rest;
      }
    }
  }

  /** Every index appears at most once. */
  predicate Distinct(r: seq<nat>) {
    forall a, b :: 0 <= a < b < |r| ==> r[a] != r[b]
  }

  function Elems(r: seq<nat>): set<nat> {
    set k | 0 <= k < |r| :: r[k]
  }

  lemma {:induction false} DistinctCard(r: seq<nat>)
    requires Distinct(r)
    ensures |Elems(r)| == |r|
  {
    if r != [] {
      var init := r[..|r| - 1];
      DistinctCard(init);
      assert Elems(r) == Elems(init) + {r[|r| - 1]} by {
        assert forall k :: 0 <= k < |init| ==> init[k] == r[k];
      }
      assert r[|r| - 1] !in Elems(init);
    }
  }

  /** A duplicate-free sequence of indices below `n` that holds each of them has length `n`. */
  lemma CoversRange(r: seq<nat>, n: nat)
    requires Distinct(r)
    requires forall i: nat :: i in r <==> i < n
    ensures |r| == n
  {
    var range := seq(n, i requires 0 <= i < n => i as nat);
    assert Distinct(range);
    assert Elems(r) == Elems(range) by {
      forall x | x in Elems(r) ensures x in Elems(range) {
        var k :| 0 <= k < |r| && r[k] == x;
        assert r[k] in r;
        assert range[x] == x;
      }
      forall x | x in Elems(range) ensures x in Elems(r) {
        var k :| 0 <= k < n && range[k] == x;
        assert x in r;
      }
    }
    DistinctCard(r);
    DistinctCard(range);
  }

  /** The first matching row of the table is the first matching preference. */
  lemma FirstHitIsFirstPref(prefs: seq<string>, choices: seq<string>, i: nat)
    requires i < |choices|
    ensures FirstHit(Hits(prefs, choices), |choices|, i) == FirstPref(prefs, choices[i])
  {
  }

  /**
   * `handle`'s order holds every card exactly once, sorted by the first
   * preference it matches, ties and unmatched cards in screen order.
   */
  lemma OrderSpec(prefs: seq<string>, choices: seq<string>)
    ensures forall i: nat :: i in Order(prefs, choices) <==> i < |choices|
    ensures |Order(prefs, choices)| == |choices|
    ensures forall a, b :: 0 <= a < b < |Order(prefs, choices)| ==>
              var i, j := Order(prefs, choices)[a], Order(prefs, choices)[b];
              i < |choices| && j < |choices| &&
              (FirstPref(prefs, choices[i]) < FirstPref(prefs, choices[j])
               || (FirstPref(prefs, choices[i]) == FirstPref(prefs, choices[j]) && i < j))
  {
    var t := Hits(prefs, choices);
    var n := |choices|;
    var r := OrderOf(t, n);
    OrderOfSpec(t, n);
    assert Distinct(r) by {
      forall a, b | 0 <= a < b < |r| ensures r[a] != r[b] {
        assert HitBefore(t, n, r[a], r[b]);
      }
    }
    CoversRange(r, n);
    forall a, b | 0 <= a < b < |r|
      ensures FirstPref(prefs, choices[r[a]]) < FirstPref(prefs, choices[r[b]])
              || (FirstPref(prefs, choices[r[a]]) == FirstPref(prefs, choices[r[b]]) && r[a] < r[b])
    {
      assert HitBefore(t, n, r[a], r[b]);
      FirstHitIsFirstPref(prefs, choices, r[a]);
      FirstHitIsFirstPref(prefs, choices, r[b]);
    }
  }

  // ----- the commands -----

  /** A choose command for each index, each followed by a wait. */
  function ChooseSteps(cs: seq<nat>): (r: seq<string>)
    ensures |r| == 2 * |cs|
    ensures forall j :: 0 <= j < |cs| ==> r[2 * j] == "choose " + NatToString(cs[j]) && r[2 * j + 1] == Wait
  {
    if cs == [] then []
    else ChooseSteps(cs[..|cs| - 1]) + ["choose " + NatToString(cs[|cs| - 1]), Wait]
  }

  /** The commands around a set of picks: wait, each pick and a wait, then confirm and wait. */
  function Steps(chosen: seq<nat>): (r: seq<string>)
    ensures |r| == 2 * |chosen| + 3
    ensures r[0] == Wait && r[|r| - 2] == Confirm && r[|r| - 1] == Wait
    ensures forall j :: 0 <= j < |chosen| ==> r[2 * j + 1] == "choose " + NatToString(chosen[j]) && r[2 * j + 2] == Wait
  {
    var steps := ChooseSteps(chosen);
    var r := [Wait] + steps + [Confirm, Wait];
    assert forall k :: 0 <= k < |steps| ==> r[k + 1] == steps[k];
    r
  }

  /**
   * `handle`: with cards left to select, wait, choose that many cards (as
   * many as there are at most) from the front of the order, each followed
   * by a wait, then confirm and wait.
   */
  function Handle(prefs: seq<string>, choices: seq<string>, numCards: int, alreadySelected: nat): (r: seq<string>)
    ensures numCards - alreadySelected <= 0 ==> r == [Wait, Confirm, Wait]
    ensures var picks := if numCards - alreadySelected < |choices| then numCards - alreadySelected else |choices|;
            numCards - alreadySelected > 0 ==>
              && |r| == 2 * picks + 3
              && r[0] == Wait && r[|r| - 2] == Confirm && r[|r| - 1] == Wait
              && |Order(prefs, choices)| == |choices|
              && (forall j :: 0 <= j < picks ==>
                    r[2 * j + 1] == "choose " + NatToString(Order(prefs, choices)[j]) && r[2 * j + 2] == Wait)
  {
    var toSelect := numCards - alreadySelected;
    if toSelect <= 0 then [Wait, Confirm, Wait]
    else
      var order := Order(prefs, choices);
      OrderSpec(prefs, choices);
      var picks := if toSelect < |order| then toSelect else |order|;
      var chosen := order[..picks];
      assert forall j :: 0 <= j < picks ==> chosen[j] == order[j];
      Steps(chosen)
  }

  /** `num_cards` (default 1) and the number of `selected_cards` (default none); None where reading raises. */
  function SelectionCounts(screen: map<string, Json>): (r: Option<(int, nat)>)
    ensures "num_cards" !in screen && "selected_cards" !in screen ==> r == Some((1, 0))
    ensures r.Some? <==> ("num_cards" in screen ==> screen["num_cards"].JInt?)
                         && ("selected_cards" in screen ==> screen["selected_cards"].JArr?)
    ensures r.Some? ==> r.value.0 == (if "num_cards" in screen then screen["num_cards"].i else 1)
    ensures r.Some? ==> r.value.1 == (if "selected_cards" in screen then |screen["selected_cards"].items| else 0)
  {
    var n := Get(screen, "num_cards", JInt(1));
    var selected := Get(screen, "selected_cards", JArr([]));
    if !n.JInt? || !selected.JArr? then None else Some((n.i, |selected.items|))
  }

  /** `handle` on a screen state: the counts it reads, then the commands; None where reading raises. */
  function HandleScreen(prefs: seq<string>, choices: seq<string>, screen: map<string, Json>): (r: Option<seq<string>>)
    ensures r.Some? <==> SelectionCounts(screen).Some?
    ensures r.Some? && SelectionCounts(screen).value.0 <= SelectionCounts(screen).value.1 ==> r.value == [Wait, Confirm, Wait]
    ensures r.Some? && SelectionCounts(screen).value.0 > SelectionCounts(screen).value.1 ==>
              var left := SelectionCounts(screen).value.0 - SelectionCounts(screen).value.1;
              |r.value| == 2 * (if left < |choices| then left else |choices|) + 3
  {
    match SelectionCounts(screen)
    case None => None
    case Some((numCards, selected)) => Some(Handle(prefs, choices, numCards, selected))
  }

  /**
   * A screen state that names neither count asks for one card: the first
   * card of the order is chosen, then confirmed.
   */
  lemma DefaultScreenPicksOne(prefs: seq<string>, choices: seq<string>, screen: map<string, Json>)
    requires "num_cards" !in screen && "selected_cards" !in screen
    requires |choices| > 0
    ensures HandleScreen(prefs, choices, screen)
              == Some([Wait, "choose " + NatToString(Order(prefs, choices)[0]), Wait, Confirm, Wait])
  {
    assert SelectionCounts(screen) == Some((1, 0));
    var r := Handle(prefs, choices, 1, 0);
    assert HandleScreen(prefs, choices, screen) == Some(r);
    var c := "choose " + NatToString(Order(prefs, choices)[0]);
    assert |r| == 5 && r[0] == Wait && r[1] == c && r[2] == Wait && r[3] == Confirm && r[4] == Wait;
    assert r == [Wait, c, Wait, Confirm, Wait];
  }

  /** Once every card is selected, the handler only confirms. */
  lemma AllSelectedConfirms(prefs: seq<string>, choices: seq<string>, n: nat)
    ensures Handle(prefs, choices, n, n) == [Wait, Confirm, Wait]
  {
  }
}

=== FILE: installer.dfy ===
/**
 * The installer script: it checks the debugpy endpoint argument, builds
 * the command CommunicationMod launches, finds CommunicationMod's
 * `config.properties` among the ModTheSpire roots and writes the command
 * into it.
 */
module Installer {
  import opened Wrappers
  import opened Strs
  import opened Seqs

  // ----- the debugpy endpoint -----

  const EmptyHostError := "--debugpy-listen host cannot be empty (use host:port)."
  const PortTextError := "--debugpy-listen must be a port or host:port with a numeric port."
  const PortRangeError := "--debugpy-listen port must be in range 1..65535."

  /** The index of the last ':' in `s`, if any. */
  function LastColon(s: string): (r: Option<nat>)
    ensures r.None? <==> ':' !in s
    ensures r.Some? ==> r.value < |s| && s[r.value] == ':' && forall j :: r.value < j < |s| ==> s[j] != ':'
  {
    if s == [] then None
    else if s[|s| - 1] == ':' then Some(|s| - 1)
    else
      var r := LastColon(s[..|s| - 1]);
      assert forall j :: 0 <= j < |s| - 1 ==> s[..|s| - 1][j] == s[j];
      r
  }

  /**
   * `_validate_debugpy_listen`: a port, or `host:port` split at the last
   * colon with a non-empty host; the port must parse as an integer in
   * 1..65535. The accepted value is returned unchanged.
   */
  function ValidateListen(value: string): (r: Result<string>)
    ensures r.Success? ==> r.value == value
    ensures r.Failure? ==> r.error == EmptyHostError || r.error == PortTextError || r.error == PortRangeError
    ensures (LastColon(value).Some? && LastColon(value).value == 0) ==> r == Failure(EmptyHostError)
  {
    ListenAt(value, LastColon(value))
  }

  /** The verdict once the last colon (if any) is known. */
  function ListenAt(value: string, colon: Option<nat>): (r: Result<string>)
    requires colon.Some? ==> colon.value < |value|
  {
    if colon.Some? && colon.value == 0 then Failure(EmptyHostError)
    else
      var portText := if colon.Some? then value[colon.value + 1..] else value;
      ListenVerdict(value, ParseInt(portText))
  }

  function ListenVerdict(value: string, port: Option<int>): Result<string> {
    match port
    case None => Failure(PortTextError)
    case Some(port) => if port < 1 || port > 65535 then Failure(PortRangeError) else Success(value)
  }

  lemma NoColonInDigits(s: string)
    requires IsDigits(s)
    ensures ':' !in s
  {
  }

  /** The colon before a colon-free tail is the last one. */
  lemma {:induction false} LastColonBefore(head: string, tail: string)
    requires ':' !in tail
    ensures LastColon(head + ":" + tail) == Some(|head|)
    decreases |tail|
  {
    var s := head + ":" + tail;
    if tail != [] {
      var init := tail[..|tail| - 1];
      assert s[..|s| - 1] == head + ":" + init;
      assert s[|s| - 1] == tail[|tail| - 1];
      LastColonBefore(head, init);
    }
  }

  /** A bare port is accepted exactly when it is in range. */
  lemma PortAlone(n: nat)
    ensures ValidateListen(NatToString(n)).Success? <==> 1 <= n <= 65535
    ensures !(1 <= n <= 65535) ==> ValidateListen(NatToString(n)) == Failure(PortRangeError)
  {
    var v := NatToString(n);
    NoColonInDigits(v);
    ParseShownInt(n);
    assert IntToString(n) == v;
    assert ValidateListen(v) == ListenAt(v, None);
    ListenAtPort(v, None, n);
  }

  /** `host:port` with a non-empty host (colons allowed in it) is accepted exactly when the port is in range. */
  lemma HostAndPort(host: string, n: nat)
    requires host != []
    ensures ValidateListen(host + ":" + NatToString(n)).Success? <==> 1 <= n <= 65535
  {
    var p := NatToString(n);
    var v := host + ":" + p;
    NoColonInDigits(p);
    LastColonBefore(host, p);
    assert v[|host| + 1..] == p;
    ParseShownInt(n);
    assert IntToString(n) == p;
    assert ValidateListen(v) == ListenAt(v, Some(|host|));
    ListenAtPort(v, Some(|host|), n);
  }

  /** Past the host check, the verdict depends on the port alone. */
  lemma ListenAtPort(v: string, colon: Option<nat>, port: int)
    requires colon.Some? ==> 0 < colon.value < |v| && ParseInt(v[colon.value + 1..]) == Some(port)
    requires colon.None? ==> ParseInt(v) == Some(port)
    ensures ListenAt(v, colon).Success? <==> 1 <= port <= 65535
    ensures !(1 <= port <= 65535) ==> ListenAt(v, colon) == Failure(PortRangeError)
  {
    assert ListenAt(v, colon) == ListenVerdict(v, Some(port));
  }

  /** An endpoint whose host is empty is refused before its port is read. */
  lemma EmptyHostRefused(port: string)
    requires ':' !in port
    ensures ValidateListen(":" + port) == Failure(EmptyHostError)
  {
    LastColonBefore("", port);
    assert "" + ":" + port == ":" + port;
  }

  // ----- the launch command -----

  datatype Mode = PythonMode | DebugpyMode

  /**
   * `_build_command`: the interpreter and the entry point, with debugpy's
   * module, endpoint and optional wait flag in between in debugpy mode.
   */
  function BuildCommand(mainPy: string, pythonPath: string, mode: Mode, listen: string, waitForClient: bool): (r: string)
    ensures pythonPath + " " <= r
    ensures EndsWith(r, " " + mainPy)
  {
    var r := if mode == DebugpyMode then
               pythonPath + " -m debugpy --listen " + listen
               + (if waitForClient then " --wait-for-client" else "") + " " + mainPy
             else pythonPath + " " + mainPy;
    assert r[|r| - |" " + mainPy|..] == " " + mainPy;
    r
  }

  /** The words the command is made of. */
  function LaunchWords(mainPy: string, pythonPath: string, mode: Mode, listen: string, waitForClient: bool): seq<string> {
    if mode == DebugpyMode then
      [pythonPath, "-m", "debugpy", "--listen", listen] + (if waitForClient then ["--wait-for-client"] else []) + [mainPy]
    else [pythonPath, mainPy]
  }

  /**
   * With paths and endpoint free of whitespace, the command splits into
   * exactly the interpreter, its arguments and the entry point; the wait
   * flag is there exactly when asked for.
   */
  lemma CommandWords(mainPy: string, pythonPath: string, mode: Mode, listen: string, waitForClient: bool)
    requires IsToken(mainPy) && IsToken(pythonPath) && IsToken(listen)
    ensures SplitWs(BuildCommand(mainPy, pythonPath, mode, listen, waitForClient))
              == LaunchWords(mainPy, pythonPath, mode, listen, waitForClient)
  {
    var words := LaunchWords(mainPy, pythonPath, mode, listen, waitForClient);
    if mode == DebugpyMode {
      DebugpyJoined(mainPy, pythonPath, listen, waitForClient);
    } else {
      JoinCons(" ", pythonPath, [mainPy]);
    }
    assert IsToken("-m") && IsToken("debugpy") && IsToken("--listen") && IsToken("--wait-for-client");
    assert forall i :: 0 <= i < |words| ==> IsToken(words[i]);
    SplitJoinedWords(words);
  }

  lemma DebugpyJoined(mainPy: string, pythonPath: string, listen: string, waitForClient: bool)
    ensures BuildCommand(mainPy, pythonPath, DebugpyMode, listen, waitForClient)
              == Join(" ", LaunchWords(mainPy, pythonPath, DebugpyMode, listen, waitForClient))
  {
    var tail := (if waitForClient then ["--wait-for-client"] else []) + [mainPy];
    DebugpyTail(mainPy, waitForClient);
    DebugpyPrefix(pythonPath, listen, tail);
    assert LaunchWords(mainPy, pythonPath, DebugpyMode, listen, waitForClient) == [pythonPath, "-m", "debugpy", "--listen", listen] + tail;
    DebugpyText(mainPy, pythonPath, listen, waitForClient);
  }

  /** The words after the endpoint, joined, behind their leading space. */
  lemma DebugpyTail(mainPy: string, waitForClient: bool)
    ensures " " + Join(" ", (if waitForClient then ["--wait-for-client"] else []) + [mainPy])
              == (if waitForClient then " --wait-for-client" else "") + " " + mainPy
  {
    if waitForClient {
      JoinCons(" ", "--wait-for-client", [mainPy]);
    } else {
      assert [] + [mainPy] == [mainPy];
    }
  }

  /** The debugpy command as the prefix up to the endpoint and the rest. */
  lemma DebugpyText(mainPy: string, pythonPath: string, listen: string, waitForClient: bool)
    ensures BuildCommand(mainPy, pythonPath, DebugpyMode, listen, waitForClient)
              == pythonPath + " -m debugpy --listen " + listen + ((if waitForClient then " --wait-for-client" else "") + " " + mainPy)
  {
  }

  lemma DebugpyPrefix(pythonPath: string, listen: string, tail: seq<string>)
    requires tail != []
    ensures Join(" ", [pythonPath, "-m", "debugpy", "--listen", listen] + tail)
              == pythonPath + " -m debugpy --listen " + listen + (" " + Join(" ", tail))
  {
    JoinFive(pythonPath, "-m", "debugpy", "--listen", listen, tail);
    DebugpyWords(pythonPath, listen, " " + Join(" ", tail));
  }

  lemma DebugpyWords(pythonPath: string, listen: string, rest: string)
    ensures pythonPath + " " + "-m" + " " + "debugpy" + " " + "--listen" + " " + listen + rest
              == pythonPath + " -m debugpy --listen " + listen + rest
  {
    assert " " + "-m" + " " + "debugpy" + " " + "--listen" + " " == " -m debugpy --listen ";
  }

  /** Five words in front of a non-empty list, joined by single spaces. */
  lemma JoinFive(a: string, b: string, c: string, d: string, e: string, tail: seq<string>)
    requires tail != []
    ensures Join(" ", [a, b, c, d, e] + tail)
              == a + " " + b + " " + c + " " + d + " " + e + (" " + Join(" ", tail))
  {
    var s1 := [b] + ([c] + ([d] + ([e] + tail)));
    assert [a, b, c, d, e] + tail == [a] + s1;
    JoinCons(" ", a, s1);
    JoinFour(b, c, d, e, tail);
  }

  lemma JoinFour(b: string, c: string, d: string, e: string, tail: seq<string>)
    requires tail != []
    ensures Join(" ", [b] + ([c] + ([d] + ([e] + tail))))
              == b + " " + c + " " + d + " " + e + (" " + Join(" ", tail))
  {
    var s4 := [e] + tail;
    var s3 := [d] + s4;
    var s2 := [c] + s3;
    JoinCons(" ", e, tail);
    JoinCons(" ", d, s4);
    JoinCons(" ", c, s3);
    JoinCons(" ", b, s2);
  }

  lemma JoinCons(sep: string, x: string, rest: seq<string>)
    requires rest != []
    ensures Join(sep, [x] + rest) == x + sep + Join(sep, rest)
  {
    assert ([x] + rest)[1..] == rest;
  }

  /** The platform check: the lowercased system name starts with "win". */
  predicate IsWindows(system: string) {
    StartsWith(Lower(system), "win")
  }

  /**
   * `_default_python_path`: the repository's virtual-environment
   * interpreter for the platform (Windows when the lowercased system name
   * starts with "win"), resolved when it exists, an error otherwise.
   */
  function DefaultPythonPath(repoRoot: string, system: string, present: string -> bool,
                             resolve: string -> string): (r: Result<string>)
    ensures IsWindows(system) && present(repoRoot + "/venv/Scripts/python.exe") ==>
              r == Success(resolve(repoRoot + "/venv/Scripts/python.exe"))
    ensures !IsWindows(system) && present(repoRoot + "/venv/bin/python") ==>
              r == Success(resolve(repoRoot + "/venv/bin/python"))
    ensures IsWindows(system) ==> (r.Failure? <==> !present(repoRoot + "/venv/Scripts/python.exe"))
    ensures !IsWindows(system) ==> (r.Failure? <==> !present(repoRoot + "/venv/bin/python"))
  {
    var candidate := if IsWindows(system) then repoRoot + "/venv/Scripts/python.exe"
                     else repoRoot + "/venv/bin/python";
    if present(candidate) then Success(resolve(candidate))
    else Failure("Could not find default venv python at " + candidate + ". Pass --python-path explicitly.")
  }

  /** The names `platform.system()` reports: only Windows picks the Scripts interpreter. */
  lemma PlatformNames()
    ensures IsWindows("Windows") && !IsWindows("Linux") && !IsWindows("Darwin")
  {
    assert Lower("Windows")[..3] == "win";
    assert Lower("Linux")[0] == 'l';
    assert Lower("Darwin")[0] == 'd';
  }

  // ----- config.properties -----

  const CommandKey := "command="

  /** A line that sets the command, leading whitespace allowed. */
  predicate IsCommandLine(line: string) {
    CommandKey <= Strip(line)
  }

  predicate HasCommandLine(lines: seq<string>) {
    exists i :: 0 <= i < |lines| && IsCommandLine(lines[i])
  }

  /** Every command line replaced by the new one, the others kept. */
  function ReplaceCommands(lines: seq<string>, command: string): (r: seq<string>)
    ensures |r| == |lines|
    ensures forall i :: 0 <= i < |lines| ==> r[i] == if IsCommandLine(lines[i]) then CommandKey + command else lines[i]
  {
    seq(|lines|, i requires 0 <= i < |lines| => if IsCommandLine(lines[i]) then CommandKey + command else lines[i])
  }

  /**
   * The lines `_write_command_to_properties` writes: with a command line
   * present, each is replaced; otherwise the command is appended, after a
   * blank line when the file does not already end with one.
   */
  function UpdatedLines(lines: seq<string>, command: string): (r: seq<string>)
    ensures r != []
    ensures HasCommandLine(lines) ==> r == ReplaceCommands(lines, command)
    ensures !HasCommandLine(lines) ==>
              && r[|r| - 1] == CommandKey + command
              && lines <= r
              && |r| == |lines| + (if lines != [] && lines[|lines| - 1] != "" then 2 else 1)
  {
    if HasCommandLine(lines) then ReplaceCommands(lines, command)
    else
      var sep := if lines != [] && lines[|lines| - 1] != "" then [""] else [];
      lines + sep + [CommandKey + command]
  }

  /** `_write_command_to_properties`: the file's new text; `existing` is None when there is no file. */
  function WriteProperties(existing: Option<string>, command: string): (r: string)
    ensures r == Join("\n", UpdatedLines(SplitLines(existing.GetOr("")), command)) + "\n"
  {
    var lines := UpdatedLines(SplitLines(existing.GetOr("")), command);
    Terminated(lines)
  }

  lemma CommandLineRecognised(command: string)
    ensures IsCommandLine(CommandKey + command)
  {
    var s := CommandKey + command;
    assert LStrip(s) == s;
    var r := RStrip(s);
    assert !IsSpace(s[7]);
    assert |r| >= 8;
    assert s[..8] == CommandKey;
  }

  lemma UpdatedLinesClean(lines: seq<string>, command: string)
    requires forall i :: 0 <= i < |lines| ==> NoLineBreak(lines[i])
    requires NoLineBreak(command)
    ensures forall i :: 0 <= i < |UpdatedLines(lines, command)| ==> NoLineBreak(UpdatedLines(lines, command)[i])
  {
    assert NoLineBreak(CommandKey + command) by {
      assert forall i :: 8 <= i < |CommandKey + command| ==> (CommandKey + command)[i] == command[i - 8];
    }
  }

  /** The written file reads back as the lines that were meant. */
  lemma WrittenLines(existing: Option<string>, command: string)
    requires NoLineBreak(command)
    ensures SplitLines(WriteProperties(existing, command)) == UpdatedLines(SplitLines(existing.GetOr("")), command)
  {
    var lines := UpdatedLines(SplitLines(existing.GetOr("")), command);
    UpdatedLinesClean(SplitLines(existing.GetOr("")), command);
    SplitTerminated(lines);
  }

  /** Every command line among `lines` is `line`. */
  predicate SetsOnly(lines: seq<string>, line: string) {
    forall i :: 0 <= i < |lines| && IsCommandLine(lines[i]) ==> lines[i] == line
  }

  /**
   * After the write, the file has a command line and every command line
   * sets the new command.
   */
  lemma CommandSet(existing: Option<string>, command: string)
    requires NoLineBreak(command)
    ensures var lines := SplitLines(WriteProperties(existing, command));
            && HasCommandLine(lines)
            && forall i :: 0 <= i < |lines| && IsCommandLine(lines[i]) ==> lines[i] == CommandKey + command
  {
    WrittenLines(existing, command);
    UpdatedSetsCommand(SplitLines(existing.GetOr("")), command);
  }

  lemma UpdatedSetsCommand(before: seq<string>, command: string)
    ensures HasCommandLine(UpdatedLines(before, command)) && SetsOnly(UpdatedLines(before, command), CommandKey + command)
  {
    if HasCommandLine(before) {
      ReplacedSetsCommand(before, command);
    } else {
      var sep := if before != [] && before[|before| - 1] != "" then [""] else [];
      assert UpdatedLines(before, command) == before + sep + [CommandKey + command];
      AppendedSetsCommand(before, sep, command);
    }
  }

  lemma ReplacedSetsCommand(before: seq<string>, command: string)
    requires HasCommandLine(before)
    ensures HasCommandLine(ReplaceCommands(before, command)) && SetsOnly(ReplaceCommands(before, command), CommandKey + command)
  {
    var lines := ReplaceCommands(before, command);
    CommandLineRecognised(command);
    var k :| 0 <= k < |before| && IsCommandLine(before[k]);
    assert lines[k] == CommandKey + command;
  }

  lemma AppendedSetsCommand(before: seq<string>, sep: seq<string>, command: string)
    requires !HasCommandLine(before)
    requires sep == [] || sep == [""]
    ensures HasCommandLine(before + sep + [CommandKey + command])
    ensures SetsOnly(before + sep + [CommandKey + command], CommandKey + command)
  {
    CommandLineRecognised(command);
    EmptyNotCommandLine();
    AppendedLine(before, sep, CommandKey + command);
  }

  lemma AppendedLine(before: seq<string>, sep: seq<string>, line: string)
    requires !HasCommandLine(before) && IsCommandLine(line) && !IsCommandLine("")
    requires sep == [] || sep == [""]
    ensures HasCommandLine(before + sep + [line]) && SetsOnly(before + sep + [line], line)
  {
    var lines := before + sep + [line];
    NoCommandBeforeLast(before, sep, line);
    assert lines[|lines| - 1] == line;
  }

  /** Only the appended line of `before + sep + [line]` can be a command line. */
  lemma NoCommandBeforeLast(before: seq<string>, sep: seq<string>, line: string)
    requires !HasCommandLine(before) && !IsCommandLine("")
    requires sep == [] || sep == [""]
    ensures forall i :: 0 <= i < |before + sep + [line]| - 1 ==> !IsCommandLine((before + sep + [line])[i])
  {
    var lines := before + sep + [line];
    assert forall i :: 0 <= i < |before| ==> lines[i] == before[i] && !IsCommandLine(before[i]);
    assert forall i :: |before| <= i < |lines| - 1 ==> lines[i] == "";
  }

  lemma EmptyNotCommandLine()
    ensures !IsCommandLine("")
  {
    assert Strip("") == "";
  }

  /** Replacing command lines that already set the command changes nothing. */
  lemma ReplaceFixed(lines: seq<string>, command: string)
    requires SetsOnly(lines, CommandKey + command)
    ensures ReplaceCommands(lines, command) == lines
  {
  }

  /** Writing the same command a second time changes nothing. */
  lemma WriteIdempotent(existing: Option<string>, command: string)
    requires NoLineBreak(command)
    ensures WriteProperties(Some(WriteProperties(existing, command)), command) == WriteProperties(existing, command)
  {
    var text := WriteProperties(existing, command);
    var lines := UpdatedLines(SplitLines(existing.GetOr("")), command);
    assert SplitLines(Some(text).GetOr("")) == lines by {
      WrittenLines(existing, command);
    }
    assert UpdatedLines(lines, command) == lines by {
      UpdatedSetsCommand(SplitLines(existing.GetOr("")), command);
      ReplaceFixed(lines, command);
    }
  }

  /** The lines that set nothing are kept, in order, when the command is replaced. */
  lemma OtherLinesKept(lines: seq<string>, command: string, i: int)
    requires 0 <= i < |lines| && !IsCommandLine(lines[i])
    ensures i < |UpdatedLines(lines, command)| && UpdatedLines(lines, command)[i] == lines[i]
  {
  }

  // ----- finding the config file -----

  /** Each path once, at its first occurrence. */
  function Dedupe(xs: seq<string>): (r: seq<string>)
    ensures forall x :: x in r <==> x in xs
    ensures forall i, j :: 0 <= i < j < |r| ==> r[i] != r[j]
    ensures |r| <= |xs|
    ensures xs != [] ==> r != [] && r[0] == xs[0]
    ensures (xs != [] && forall i :: 0 <= i < |xs| ==> xs[i] == xs[0]) ==> r == [xs[0]]
  {
    if xs == [] then []
    else
      var d := Dedupe(xs[..|xs| - 1]);
      assert forall x :: x in xs <==> x in xs[..|xs| - 1] || x == xs[|xs| - 1] by {
        assert xs == xs[..|xs| - 1] + [xs[|xs| - 1]];
      }
      if xs[|xs| - 1] in d then d else d + [xs[|xs| - 1]]
  }

  /** A list without repeats is its own deduplication. */
  lemma {:induction false} DedupeDistinct(xs: seq<string>)
    requires forall i, j :: 0 <= i < j < |xs| ==> xs[i] != xs[j]
    ensures Dedupe(xs) == xs
  {
    if xs != [] {
      var init, last := xs[..|xs| - 1], xs[|xs| - 1];
      assert xs == init + [last];
      assert forall k :: 0 <= k < |init| ==> init[k] == xs[k];
      DedupeDistinct(init);
      DedupeSnoc(init, last);
      assert last !in init;
    }
  }

  lemma DedupeIdempotent(xs: seq<string>)
    ensures Dedupe(Dedupe(xs)) == Dedupe(xs)
  {
    DedupeDistinct(Dedupe(xs));
  }

  function InModTheSpire(base: string): string {
    base + "/ModTheSpire"
  }

  /**
   * `_default_modthespire_roots`: under LOCALAPPDATA and APPDATA when set
   * and non-empty, then the macOS and Linux preference folders under the
   * home directory, each root once.
   */
  function DefaultRoots(localAppData: Option<string>, appData: Option<string>, home: string): (r: seq<string>)
    ensures home + "/Library/Preferences/ModTheSpire" in r && home + "/.config/ModTheSpire" in r
    ensures localAppData.Some? && localAppData.value != [] ==> r[0] == InModTheSpire(localAppData.value)
    ensures appData.Some? && appData.value != [] ==> InModTheSpire(appData.value) in r
    ensures forall i, j :: 0 <= i < j < |r| ==> r[i] != r[j]
    ensures |r| <= 4
  {
    var local := if localAppData.Some? && localAppData.value != [] then [InModTheSpire(localAppData.value)] else [];
    var app := if appData.Some? && appData.value != [] then [InModTheSpire(appData.value)] else [];
    Dedupe(local + app + [home + "/Library/Preferences/ModTheSpire", home + "/.config/ModTheSpire"])
  }

  /** With LOCALAPPDATA and APPDATA the same folder, it is searched once. */
  lemma SharedAppDataOnce(d: string, home: string)
    requires d != []
    requires InModTheSpire(d) != home + "/Library/Preferences/ModTheSpire"
    requires InModTheSpire(d) != home + "/.config/ModTheSpire"
    ensures DefaultRoots(Some(d), Some(d), home)
              == [InModTheSpire(d), home + "/Library/Preferences/ModTheSpire", home + "/.config/ModTheSpire"]
  {
    var a := home + "/Library/Preferences/ModTheSpire";
    var b := home + "/.config/ModTheSpire";
    assert |a| != |b|;
    var x := InModTheSpire(d);
    DedupeRepeatedHead(x, a, b);
    assert [x] + [x] + [a, b] == [x, x, a, b];
  }

  /** A repeated first path followed by two new, different paths. */
  lemma DedupeRepeatedHead(x: string, a: string, b: string)
    requires x != a && x != b && a != b
    ensures Dedupe([x, x, a, b]) == [x, a, b]
  {
    var xs := [x, x, a, b];
    DedupeRepeatedPair(x, a);
    assert xs[..|xs| - 1] == [x, x, a];
    assert xs[|xs| - 1] !in Dedupe(xs[..|xs| - 1]);
    assert Dedupe(xs) == [x, a] + [b];
  }

  lemma DedupeRepeatedPair(x: string, a: string)
    requires x != a
    ensures Dedupe([x, x, a]) == [x, a]
  {
    var xs := [x, x, a];
    DedupeRepeated(x);
    assert xs[..|xs| - 1] == [x, x];
    assert xs[|xs| - 1] !in Dedupe(xs[..|xs| - 1]);
    assert Dedupe(xs) == [x] + [a];
  }

  lemma DedupeRepeated(x: string)
    ensures Dedupe([x, x]) == [x]
  {
    var xs := [x, x];
    assert forall i :: 0 <= i < |xs| ==> xs[i] == xs[0];
  }

  /** Deduplicating one more path keeps the earlier result and adds the path when it is new. */
  lemma DedupeSnoc(xs: seq<string>, y: string)
    ensures Dedupe(xs + [y]) == (if y in xs then Dedupe(xs) else Dedupe(xs) + [y])
  {
    var s := xs + [y];
    assert s[..|s| - 1] == xs;
  }

  function DirectConfig(root: string): string {
    root + "/CommunicationMod/config.properties"
  }

  /**
   * The candidates under each root: the direct config file when it
   * exists, else whatever the recursive glob finds under an existing root.
   * `present` and `glob` stand for the file system.
   */
  function Candidates(roots: seq<string>, present: string -> bool, glob: string -> seq<string>): (r: seq<string>)
    ensures roots == [] ==> r == []
    ensures forall i :: 0 <= i < |roots| && present(DirectConfig(roots[i])) ==> DirectConfig(roots[i]) in r
  {
    if roots == [] then []
    else
      var root := roots[0];
      var here := if present(DirectConfig(root)) then [DirectConfig(root)]
                  else if present(root) then glob(root) else [];
      var r := here + Candidates(roots[1..], present, glob);
      assert forall i :: 1 <= i < |roots| ==> roots[i] == roots[1..][i - 1];
      r
  }

  datatype Discovery = Found(path: string) | NotFound | Ambiguous(paths: seq<string>)

  function Resolved(paths: seq<string>, resolve: string -> string): (r: seq<string>)
    ensures |r| == |paths| && forall i :: 0 <= i < |paths| ==> r[i] == resolve(paths[i])
  {
    seq(|paths|, i requires 0 <= i < |paths| => resolve(paths[i]))
  }

  /**
   * `_discover_config_path`: no candidate is an error, more than one
   * distinct resolved path is an error listing them sorted, and exactly
   * one is the answer. `resolve` stands for `Path.resolve`.
   */
  function Discover(roots: seq<string>, present: string -> bool, glob: string -> seq<string>,
                    resolve: string -> string): (r: Discovery)
    ensures r == NotFound <==> Candidates(roots, present, glob) == []
    ensures r.Found? ==> forall p :: p in Candidates(roots, present, glob) ==> resolve(p) == r.path
    ensures r.Ambiguous? ==> |r.paths| > 1 && Sorted(r.paths)
    ensures r.Ambiguous? ==> forall i, j :: 0 <= i < j < |r.paths| ==> r.paths[i] != r.paths[j]
    ensures r.Ambiguous? ==> forall p :: p in Candidates(roots, present, glob) ==> resolve(p) in r.paths
    ensures r.Ambiguous? ==> forall x :: x in r.paths ==> x in Resolved(Candidates(roots, present, glob), resolve)
  {
    var matches := Candidates(roots, present, glob);
    if matches == [] then NotFound
    else
      var resolved := Resolved(matches, resolve);
      var unique := Dedupe(resolved);
      var sorted := Sort(unique);
      SameElements(unique, sorted);
      ResolvedHolds(matches, resolve);
      if |sorted| > 1 then
        SortKeepsDistinct(unique, sorted);
        Ambiguous(sorted)
      else
        assert resolved[0] in sorted;
        Found(sorted[0])
  }

  lemma SameElements(xs: seq<string>, ys: seq<string>)
    requires multiset(ys) == multiset(xs)
    ensures forall x :: x in ys <==> x in xs
  {
    assert forall x :: x in ys <==> x in multiset(ys);
    assert forall x :: x in xs <==> x in multiset(xs);
  }

  lemma ResolvedHolds(paths: seq<string>, resolve: string -> string)
    ensures forall p :: p in paths ==> resolve(p) in Resolved(paths, resolve)
  {
    forall p | p in paths
      ensures resolve(p) in Resolved(paths, resolve)
    {
      var i :| 0 <= i < |paths| && paths[i] == p;
      assert Resolved(paths, resolve)[i] == resolve(p);
    }
  }

  lemma SortKeepsDistinct(xs: seq<string>, ys: seq<string>)
    requires forall i, j :: 0 <= i < j < |xs| ==> xs[i] != xs[j]
    requires multiset(ys) == multiset(xs)
    ensures forall i, j :: 0 <= i < j < |ys| ==> ys[i] != ys[j]
  {
    forall i, j | 0 <= i < j < |ys|
      ensures ys[i] != ys[j]
    {
      if ys[i] == ys[j] {
        assert multiset(ys)[ys[i]] >= 2 by {
          assert ys == ys[..i] + [ys[i]] + ys[i + 1..j] + [ys[j]] + ys[j + 1..];
        }
        DistinctOnce(xs, ys[i]);
      }
    }
  }

  lemma {:induction false} DistinctOnce(xs: seq<string>, x: string)
    requires forall i, j :: 0 <= i < j < |xs| ==> xs[i] != xs[j]
    ensures multiset(xs)[x] <= 1
  {
    if xs != [] {
      DistinctOnce(xs[1..], x);
      assert xs == [xs[0]] + xs[1..];
      if xs[0] == x {
        assert x !in xs[1..];
      }
    }
  }

  /** Two roots that hold the same file (by resolution) still find it once. */
  lemma SameFileTwice(roots: seq<string>, present: string -> bool, glob: string -> seq<string>,
                      resolve: string -> string, p: string)
    requires Candidates(roots, present, glob) != []
    requires forall q :: q in Candidates(roots, present, glob) ==> resolve(q) == p
    ensures Discover(roots, present, glob, resolve) == Found(p)
  {
    var matches := Candidates(roots, present, glob);
    var resolved := Resolved(matches, resolve);
    assert forall i :: 0 <= i < |resolved| ==> resolved[i] == p by {
      forall i | 0 <= i < |resolved| ensures resolved[i] == p {
        assert matches[i] in matches;
      }
    }
    assert Dedupe(resolved) == [p];
    assert Sort([p]) == [p];
  }
}

=== FILE: json.dfy ===
/**
 * JSON-shaped Python values, and the foreign functions the system calls on
 * them (hashing, `json.dumps`/`json.loads`, `str()`), which the model leaves
 * uninterpreted and passes around as one record.
 */
module JsonValues {
  import opened Wrappers
  import opened Strs

  datatype Json =
    | JNull
    | JBool(b: bool)
    | JInt(i: int)
    | JReal(r: real)
    | JStr(s: string)
    | JArr(items: seq<Json>)
    | JObj(fields: map<string, Json>)

  /** Python's `bool(x)`. */
  predicate Truthy(j: Json) {
    match j
    case JNull => false
    case JBool(b) => b
    case JInt(i) => i != 0
    case JReal(r) => r != 0.0
    case JStr(s) => s != []
    case JArr(a) => a != []
    case JObj(m) => m != map[]
  }

  /** `d.get(k, default)`. */
  function Get(d: map<string, Json>, k: string, default: Json): Json {
    if k in d then d[k] else default
  }

  /** `int(r)` for a float: truncation toward zero. */
  function Trunc(r: real): (i: int)
    ensures 0.0 <= r ==> i as real <= r < i as real + 1.0
    ensures r <= 0.0 ==> i as real - 1.0 < r <= i as real
  {
    if r >= 0.0 then r.Floor else -((-r).Floor)
  }

  /** `int(x)`: None where Python raises. */
  function IntOf(j: Json): Option<int> {
    match j
    case JInt(i) => Some(i)
    case JBool(b) => Some(if b then 1 else 0)
    case JReal(r) => Some(Trunc(r))
    case JStr(s) => ParseInt(s)
    case _ => None
  }

  /** `float(x)`; strings are read in their finite decimal forms. */
  function FloatOf(j: Json): Option<real> {
    match j
    case JInt(i) => Some(i as real)
    case JBool(b) => Some(if b then 1.0 else 0.0)
    case JReal(r) => Some(r)
    case JStr(s) => ParseFloat(s)
    case _ => None
  }

  /** One `(key, value)` pair as `dict()` reads it from a list: a two-item list with a text key. */
  predicate IsPair(j: Json) {
    j.JArr? && |j.items| == 2 && j.items[0].JStr?
  }

  /** The key of a pair; null for anything else. */
  function PairKey(j: Json): Json {
    if IsPair(j) then j.items[0] else JNull
  }

  /**
   * `dict(x)`: a copy of a dictionary, or the dictionary built from a list
   * of pairs with later pairs overriding earlier ones; None where it raises.
   */
  function DictOf(j: Json): (r: Option<map<string, Json>>)
    ensures j.JObj? ==> r == Some(j.fields)
    ensures j.JArr? ==> r == PairsDict(j.items)
    ensures !j.JObj? && !j.JArr? ==> r.None?
  {
    match j
    case JObj(fields) => Some(fields)
    case JArr(items) => PairsDict(items)
    case _ => None
  }

  /** The dictionary of a list of pairs: every pair's key is present, holding its last pair's value. */
  function PairsDict(items: seq<Json>): (r: Option<map<string, Json>>)
    ensures r.Some? <==> forall i :: 0 <= i < |items| ==> IsPair(items[i])
    ensures r.Some? ==> forall k :: k in r.value <==> exists i :: 0 <= i < |items| && PairKey(items[i]) == JStr(k)
  {
    if items == [] then Some(map[])
    else
      var init := items[..|items| - 1];
      var last := items[|items| - 1];
      assert forall i :: 0 <= i < |init| ==> init[i] == items[i];
      match PairsDict(init)
      case None => None
      case Some(m) => if IsPair(last) then Some(m[last.items[0].s := last.items[1]]) else None
  }

  /** A key's value comes from the last pair that names it. */
  lemma {:induction false} PairsDictLastWins(items: seq<Json>, i: int)
    requires forall l :: 0 <= l < |items| ==> IsPair(items[l])
    requires 0 <= i < |items|
    requires forall l :: i < l < |items| ==> PairKey(items[l]) != PairKey(items[i])
    ensures PairsDict(items).Some? && items[i].items[0].s in PairsDict(items).value
    ensures PairsDict(items).value[items[i].items[0].s] == items[i].items[1]
  {
    var init := items[..|items| - 1];
    if i < |items| - 1 {
      assert forall l :: 0 <= l < |init| ==> init[l] == items[l];
      PairsDictLastWins(init, i);
    }
  }

  /**
   * The functions the system takes from its libraries: SHA-256 as hex text,
   * `json.dumps` (compact), `json.dumps(indent=4)`, `json.dumps(sort_keys=True)`,
   * `json.loads` (None where it raises) and `str()` of a non-string value.
   */
  datatype Ffi = Ffi(
    hash: string -> string,
    dumps: Json -> string,
    pretty: Json -> string,
    canonical: Json -> string,
    loads: string -> Option<Json>,
    show: Json -> string)

  /**
   * What the JSON library guarantees: both renderings parse back, and the
   * compact one is a single non-blank line without surrounding whitespace.
   */
  ghost predicate Lawful(f: Ffi) {
    && (forall j :: f.loads(f.dumps(j)) == Some(j))
    && (forall j :: f.loads(f.pretty(j)) == Some(j))
    && (forall j :: f.dumps(j) != [] && NoLineBreak(f.dumps(j)) && Trimmed(f.dumps(j)))
  }

  /** `str(x)`. */
  function PyStr(f: Ffi, j: Json): string {
    if j.JStr? then j.s else f.show(j)
  }
}

=== FILE: llm_utils.dfy ===
/**
 * The pure helpers around the language-model client: model limits and
 * request arguments, message truncation, reading a completion response,
 * coercing its content into the requested structure, and the bookkeeping
 * that lets a batch of prompts with holes and cache hits come back in order.
 */
module LlmUtils {
  import opened Wrappers
  import opened Strs
  import opened JsonValues

  /** The context window of the models the table knows. */
  const LargeTokenLimit := 272000
  /** The context window assumed for every other model. */
  const DefaultTokenLimit := 8192

  /** The models listed in the token table; they also accept no temperature but 1.0. */
  predicate Gpt5(model: string) {
    model == "gpt-5" || model == "gpt-5-mini"
  }

  /** `get_model_token_limit`. */
  function TokenLimit(model: string): (r: nat)
    ensures Gpt5(model) ==> r == LargeTokenLimit
    ensures !Gpt5(model) ==> r == DefaultTokenLimit
  {
    if Gpt5(model) then LargeTokenLimit else DefaultTokenLimit
  }

  /** `_is_openrouter_model`. */
  predicate OpenRouter(model: string) {
    StartsWith(model, "openrouter/")
  }

  /** The configured endpoint and keys the request arguments read. */
  datatype Keys = Keys(openrouterBaseUrl: string, openrouterKey: string, openaiKey: string)

  /** `config.openrouter_key or config.openai_key`. */
  function OpenRouterKey(keys: Keys): (r: string)
    ensures keys.openrouterKey != [] ==> r == keys.openrouterKey
    ensures keys.openrouterKey == [] ==> r == keys.openaiKey
  {
    if keys.openrouterKey != [] then keys.openrouterKey else keys.openaiKey
  }

  /**
   * `_litellm_completion_kwargs`: model and temperature always; an
   * OpenRouter model also gets its endpoint and key.
   */
  function CompletionKwargs(model: string, temperature: real, keys: Keys): (r: map<string, Json>)
    ensures "model" in r && r["model"] == JStr(model)
    ensures "temperature" in r && r["temperature"] == JReal(temperature)
    ensures OpenRouter(model) <==> "api_key" in r
    ensures OpenRouter(model) <==> "api_base" in r
    ensures OpenRouter(model) ==> r["api_key"] == JStr(OpenRouterKey(keys)) && r["api_base"] == JStr(keys.openrouterBaseUrl)
    ensures forall k :: k in r ==> k == "model" || k == "temperature" || k == "api_key" || k == "api_base"
  {
    var base := map["model" := JStr(model), "temperature" := JReal(temperature)];
    if OpenRouter(model) then
      base["api_base" := JStr(keys.openrouterBaseUrl)]["api_key" := JStr(OpenRouterKey(keys))]
    else base
  }

  /** The temperature actually sent: the models that accept only 1.0 get 1.0. */
  function EffectiveTemperature(model: string, temperature: real): (r: real)
    ensures Gpt5(model) ==> r == 1.0
    ensures !Gpt5(model) ==> r == temperature
  {
    if Gpt5(model) && temperature != 1.0 then 1.0 else temperature
  }

  // ----- truncation -----

  /** Python's `s[:k]`: a negative `k` counts from the end. */
  function SliceTo<T>(s: seq<T>, k: int): (r: seq<T>)
    ensures 0 <= k ==> r == s[..if k < |s| then k else |s|]
    ensures k < 0 ==> r == s[..if |s| + k < 0 then 0 else |s| + k]
  {
    if 0 <= k then s[..if k < |s| then k else |s|]
    else s[..if |s| + k < 0 then 0 else |s| + k]
  }

  /** The token budget: the caller's, or the model's window less the reserve. */
  function Budget(model: string, maxTokens: Option<int>, reserve: int): int {
    if maxTokens.Some? then maxTokens.value else TokenLimit(model) - reserve
  }

  /**
   * `truncate_message`: the message cut to the budget, and the tokens left
   * over for the answer. `encode` and `decode` are the model's tokenizer.
   */
  function TruncateMessage(message: string, model: string, maxTokens: Option<int>, reserve: int,
                           encode: string -> seq<int>, decode: seq<int> -> string): (r: (string, int))
    ensures var budget := Budget(model, maxTokens, reserve);
            |encode(message)| <= budget ==> r == (message, budget - |encode(message)|)
    ensures var budget := Budget(model, maxTokens, reserve);
            0 <= budget < |encode(message)| ==> r == (decode(encode(message)[..budget]), 0)
    ensures 0 <= Budget(model, maxTokens, reserve) ==> r.1 >= 0
  {
    var budget := Budget(model, maxTokens, reserve);
    var tokens := encode(message);
    if |tokens| <= budget then (message, budget - |tokens|)
    else
      var kept := SliceTo(tokens, budget);
      (decode(kept), budget - |kept|)
  }

  /**
   * With a tokenizer that reads its own output back, a truncated message
   * fits its budget, and truncating it again changes nothing.
   */
  lemma TruncateFits(message: string, model: string, maxTokens: Option<int>, reserve: int,
                     encode: string -> seq<int>, decode: seq<int> -> string)
    requires forall ts :: encode(decode(ts)) == ts
    requires 0 <= Budget(model, maxTokens, reserve)
    ensures var cut := TruncateMessage(message, model, maxTokens, reserve, encode, decode).0;
            && |encode(cut)| <= Budget(model, maxTokens, reserve)
            && TruncateMessage(cut, model, maxTokens, reserve, encode, decode).0 == cut
  {
    var budget := Budget(model, maxTokens, reserve);
    if budget < |encode(message)| {
      assert encode(decode(encode(message)[..budget])) == encode(message)[..budget];
    }
  }

  // ----- responses -----

  /** What a completion's content can be: an instance of the requested model, or plain JSON. */
  datatype Content = Built(fields: map<string, Json>) | Plain(value: Json)

  /**
   * The structure requested: a pydantic model, whose validation `valid`
   * decides, or a dictionary type.
   */
  datatype Struct = ModelStruct(valid: map<string, Json> -> bool) | DictStruct

  /** What comes back to the caller: a validated model instance or a dictionary. */
  datatype Loaded = Model(fields: map<string, Json>) | Dict(fields: map<string, Json>)

  /**
   * `_extract_litellm_content`, on the response's dictionary form (what
   * `model_dump` gives). A Failure is indexing or `.get` raising on a
   * malformed `choices`.
   */
  function ExtractContent(response: Json): (r: Result<Json>)
    ensures !response.JObj? ==> r == Success(JNull)
    ensures response.JObj? && !Truthy(Get(response.fields, "choices", JArr([]))) ==> r == Success(JNull)
    ensures r.Failure? ==>
              && response.JObj?
              && var choices := Get(response.fields, "choices", JArr([]));
                 !choices.JArr? || (choices.items != [] && !choices.items[0].JObj?)
  {
    if !response.JObj? then Success(JNull)
    else
      var choices := Get(response.fields, "choices", JArr([]));
      if !Truthy(choices) then Success(JNull)
      else if !choices.JArr? then Failure("TypeError: choices is not a list")
      else
        var first := choices.items[0];
        if !first.JObj? then Failure("AttributeError: choice has no get")
        else
          var message := Get(first.fields, "message", JObj(map[]));
          if !message.JObj? then Success(JNull)
          else if "parsed" in message.fields then Success(message.fields["parsed"])
          else Success(Get(message.fields, "content", JNull))
  }

  /**
   * `_coerce_structured_response`: for a model, an instance is kept and a
   * dictionary (or a string holding one) is validated; for a dictionary
   * type, a dictionary (or a string holding one) is returned. None for
   * everything else.
   */
  function Coerce(ffi: Ffi, content: Content, struct: Struct): (r: Option<Loaded>)
    ensures struct.ModelStruct? && content.Built? ==> r == Some(Model(content.fields))
    ensures struct.ModelStruct? && r.Some? ==> r.value.Model?
    ensures struct.ModelStruct? && content.Plain? && r.Some? ==> struct.valid(r.value.fields)
    ensures struct.DictStruct? && r.Some? ==> r.value.Dict?
    ensures content.Plain? && content.value.JObj? ==>
              (r.Some? <==> struct.DictStruct? || struct.valid(content.value.fields))
  {
    match struct
    case ModelStruct(valid) =>
      if content.Built? then Some(Model(content.fields))
      else
        var payload := if content.value.JStr? then ffi.loads(content.value.s) else Some(content.value);
        if payload.None? || !payload.value.JObj? then None
        else if valid(payload.value.fields) then Some(Model(payload.value.fields))
        else None
    case DictStruct =>
      if content.Built? then None
      else if content.value.JObj? then Some(Dict(content.value.fields))
      else if content.value.JStr? && ffi.loads(content.value.s).Some? && ffi.loads(content.value.s).value.JObj? then
        Some(Dict(ffi.loads(content.value.s).value.fields))
      else None
  }

  /** `int(usage.get("total_tokens", 0) or 0)`; None is a conversion raising. */
  function TotalTokens(usage: map<string, Json>): (r: Option<int>)
    ensures "total_tokens" !in usage ==> r == Some(0)
    ensures "total_tokens" in usage && !Truthy(usage["total_tokens"]) ==> r == Some(0)
    ensures "total_tokens" in usage && usage["total_tokens"].JInt? ==> r == Some(usage["total_tokens"].i)
  {
    var v := Get(usage, "total_tokens", JInt(0));
    IntOf(if Truthy(v) then v else JInt(0))
  }

  /**
   * `_parse_litellm_response`: the (coerced) answer and the tokens used.
   * A response that is not a dictionary gives (None, 0); a Failure is an
   * exception reading the usage or the choices.
   */
  function ParseResponse(ffi: Ffi, response: Json, struct: Option<Struct>): (r: Result<(Option<Loaded>, int)>)
    ensures !response.JObj? ==> r == Success((None, 0))
    ensures response.JObj? && "usage" !in response.fields && struct.None? ==> r == Success((Some(Dict(response.fields)), 0))
    ensures r.Success? && response.JObj? ==>
              && Get(response.fields, "usage", JObj(map[])).JObj?
              && Some(r.value.1) == TotalTokens(Get(response.fields, "usage", JObj(map[])).fields)
    ensures r.Success? && response.JObj? && struct.Some? ==>
              ExtractContent(response).Success? && r.value.0 == Coerce(ffi, Plain(ExtractContent(response).value), struct.value)
  {
    if !response.JObj? then Success((None, 0))
    else
      var usage := Get(response.fields, "usage", JObj(map[]));
      if !usage.JObj? then Failure("AttributeError: usage has no get")
      else match TotalTokens(usage.fields)
        case None => Failure("ValueError: total_tokens is not an integer")
        case Some(total) =>
          if struct.None? then Success((Some(Dict(response.fields)), total))
          else match ExtractContent(response)
            case Failure(e) => Failure(e)
            case Success(content) => Success((Coerce(ffi, Plain(content), struct.value), total))
  }

  /** The shape of a completion: one choice whose message carries the content, and the usage. */
  function CompletionWith(content: Json, tokens: int): Json {
    JObj(map["choices" := JArr([JObj(map["message" := JObj(map["content" := content])])]),
             "usage" := JObj(map["total_tokens" := JInt(tokens)])])
  }

  /** A completion's content is what extraction finds. */
  lemma ExtractCompletion(content: Json, tokens: int)
    ensures ExtractContent(CompletionWith(content, tokens)) == Success(content)
  {
    var r := CompletionWith(content, tokens);
    assert Get(r.fields, "choices", JArr([])) == JArr([JObj(map["message" := JObj(map["content" := content])])]);
  }

  /**
   * A completion whose content is a dictionary written as JSON text comes
   * back as that dictionary, with the usage's token count.
   */
  lemma ParseDictCompletion(ffi: Ffi, fields: map<string, Json>, tokens: int)
    requires Lawful(ffi)
    requires tokens != 0
    ensures ParseResponse(ffi, CompletionWith(JStr(ffi.dumps(JObj(fields))), tokens), Some(DictStruct))
              == Success((Some(Dict(fields)), tokens))
  {
    var r := CompletionWith(JStr(ffi.dumps(JObj(fields))), tokens);
    ExtractCompletion(JStr(ffi.dumps(JObj(fields))), tokens);
    assert Get(r.fields, "usage", JObj(map[])) == JObj(map["total_tokens" := JInt(tokens)]);
    assert ffi.loads(ffi.dumps(JObj(fields))) == Some(JObj(fields));
  }

  /** When the message holds a parsed answer, it wins over the text content. */
  lemma ParsedPreferred(parsed: Json, content: Json)
    ensures ExtractContent(JObj(map["choices" := JArr([JObj(map["message" := JObj(map["parsed" := parsed, "content" := content])])])]))
              == Success(parsed)
  {
    var m := map["parsed" := parsed, "content" := content];
    var r := JObj(map["choices" := JArr([JObj(map["message" := JObj(m)])])]);
    assert Get(r.fields, "choices", JArr([])) == JArr([JObj(map["message" := JObj(m)])]);
  }

  // ----- batches -----

  /** The model's parsed answer to one prompt and the tokens it cost. */
  datatype Reply = Reply(response: Option<Loaded>, tokens: int)

  /** The prompts that go to the model: present, and not answered from the cache, in order. */
  function Pending(messages: seq<Option<string>>, cached: string -> Option<Loaded>): (r: seq<string>)
    ensures |r| <= |messages|
  {
    if messages == [] then []
    else
      var last := messages[|messages| - 1];
      Pending(messages[..|messages| - 1], cached)
        + (if last.Some? && cached(last.value).None? then [last.value] else [])
  }

  /** The tokens the model's answers to the prompts cost together. */
  function TokensOf(prompts: seq<string>, answer: string -> Reply): int {
    if prompts == [] then 0 else TokensOf(prompts[..|prompts| - 1], answer) + answer(prompts[|prompts| - 1]).tokens
  }

  /** The answer a slot ends up with: none for a hole, else the cache's, else the model's. */
  function SlotAnswer(message: Option<string>, cached: string -> Option<Loaded>, answer: string -> Reply): Option<Loaded> {
    if message.None? then None
    else if cached(message.value).Some? then cached(message.value)
    else answer(message.value).response
  }

  /** A slot the model must answer: a message the cache does not hold. */
  predicate Missed(message: Option<string>, cached: string -> Option<Loaded>) {
    message.Some? && cached(message.value).None?
  }

  /** What the first `i` messages leave behind. */
  predicate Gathered(messages: seq<Option<string>>, cached: string -> Option<Loaded>, i: nat,
                     responses: seq<Option<Loaded>>, indices: seq<nat>, pending: seq<string>)
  {
    && i <= |messages|
    && |responses| == |messages| && |indices| == |pending|
    && pending == Pending(messages[..i], cached)
    && (forall k :: 0 <= k < |indices| ==> indices[k] < i && messages[indices[k]] == Some(pending[k]))
    && (forall k, q :: 0 <= k < q < |indices| ==> indices[k] < indices[q])
    && (forall j :: 0 <= j < i ==> (Missed(messages[j], cached) <==> j in indices))
    && (forall j :: 0 <= j < |messages| ==>
          responses[j] == (if j < i && messages[j].Some? then cached(messages[j].value) else None))
  }

  /** The loop body of the first pass: message `i` is either a hit, a miss or absent. */
  method GatherOne(messages: seq<Option<string>>, cached: string -> Option<Loaded>, i: nat,
                   responses: seq<Option<Loaded>>, indices: seq<nat>, pending: seq<string>)
    returns (responses': seq<Option<Loaded>>, indices': seq<nat>, pending': seq<string>)
    requires i < |messages| && Gathered(messages, cached, i, responses, indices, pending)
    ensures Gathered(messages, cached, i + 1, responses', indices', pending')
  {
    PendingStep(messages, cached, i);
    var m := messages[i];
    responses', indices', pending' := responses, indices, pending;
    if m.Some? {
      var hit := cached(m.value);
      if hit.Some? {
        responses' := responses[i := hit];
        assert !Missed(m, cached) && i !in indices;
      } else {
        indices' := indices + [i];
        pending' := pending + [m.value];
        assert forall k :: 0 <= k < |indices| ==> indices'[k] == indices[k];
      }
    } else {
      assert i !in indices;
    }
  }

  /** The pending prompts of one more message. */
  lemma PendingStep(messages: seq<Option<string>>, cached: string -> Option<Loaded>, i: nat)
    requires i < |messages|
    ensures Pending(messages[..i + 1], cached)
              == Pending(messages[..i], cached) + (if Missed(messages[i], cached) then [messages[i].value] else [])
  {
    assert messages[..i + 1][..i] == messages[..i];
  }

  /**
   * The model's answers to the pending prompts, in order, and their total
   * cost; `ok` is false when handling some prompt raises.
   */
  method AnswerAll(pending: seq<string>, answer: string -> Reply, raises: string -> bool)
    returns (parsed: seq<Option<Loaded>>, total: int, ok: bool)
    ensures |parsed| == |pending|
    ensures forall q :: 0 <= q < |pending| ==> parsed[q] == answer(pending[q]).response
    ensures total == TokensOf(pending, answer)
    ensures ok <==> forall q :: 0 <= q < |pending| ==> !raises(pending[q])
  {
    parsed := [];
    total := 0;
    ok := true;
    var k := 0;
    while k < |pending|
      invariant 0 <= k <= |pending| && |parsed| == k
      invariant forall q :: 0 <= q < k ==> parsed[q] == answer(pending[q]).response
      invariant total == TokensOf(pending[..k], answer)
      invariant ok <==> forall q :: 0 <= q < k ==> !raises(pending[q])
    {
      assert pending[..k + 1][..k] == pending[..k];
      parsed := parsed + [answer(pending[k]).response];
      total := total + answer(pending[k]).tokens;
      if raises(pending[k]) {
        ok := false;
      }
      k := k + 1;
    }
    assert pending[..|pending|] == pending;
  }

  /** The last pass: each answer goes back to the slot its prompt came from. */
  method Scatter(gathered: seq<Option<Loaded>>, indices: seq<nat>, parsed: seq<Option<Loaded>>)
    returns (responses: seq<Option<Loaded>>)
    requires |indices| == |parsed|
    requires forall k :: 0 <= k < |indices| ==> indices[k] < |gathered|
    requires forall k, q :: 0 <= k < q < |indices| ==> indices[k] != indices[q]
    ensures |responses| == |gathered|
    ensures forall k :: 0 <= k < |indices| ==> responses[indices[k]] == parsed[k]
    ensures forall j :: 0 <= j < |gathered| && j !in indices ==> responses[j] == gathered[j]
  {
    responses := gathered;
    var k := 0;
    while k < |indices|
      invariant 0 <= k <= |indices| && |responses| == |gathered|
      invariant forall q :: 0 <= q < k ==> responses[indices[q]] == parsed[q]
      invariant forall j :: 0 <= j < |gathered| && j !in indices[..k] ==> responses[j] == gathered[j]
    {
      assert indices[..k + 1] == indices[..k] + [indices[k]];
      responses := responses[indices[k] := parsed[k]];
      k := k + 1;
    }
    assert indices[..|indices|] == indices;
  }

  /** Whether handling some prompt the cache does not answer raises. */
  predicate Raised(messages: seq<Option<string>>, cached: string -> Option<Loaded>, raises: string -> bool) {
    exists j :: 0 <= j < |messages| && Missed(messages[j], cached) && raises(messages[j].value)
  }

  /**
   * `ask_llm_multi`: one answer per slot, in the order of the messages.
   * `keyOk` is whether an API key is available, `cached` the cache lookup
   * (always a miss when loading is off), `answer` the model's reply to a
   * prompt, and `raises` whether handling a prompt raises: its completion
   * fails in the batch and again on its own, or storing its answer fails
   * with an exception. Only cache misses are sent, and only they cost
   * tokens; any exception empties every slot at zero cost.
   */
  method AskMulti(messages: seq<Option<string>>, keyOk: bool, cached: string -> Option<Loaded>,
                  answer: string -> Reply, raises: string -> bool) returns (responses: seq<Option<Loaded>>, total: int)
    ensures |responses| == |messages|
    ensures !keyOk ==> total == 0 && forall j :: 0 <= j < |messages| ==> responses[j].None?
    ensures keyOk && Raised(messages, cached, raises) ==>
              total == 0 && forall j :: 0 <= j < |messages| ==> responses[j].None?
    ensures keyOk && !Raised(messages, cached, raises) ==>
              && (forall j :: 0 <= j < |messages| ==> responses[j] == SlotAnswer(messages[j], cached, answer))
              && total == TokensOf(Pending(messages, cached), answer)
  {
    if !keyOk {
      return seq(|messages|, j => None), 0;
    }
    var gathered, indices, pending := Gather(messages, cached);
    RaisedAmongPending(messages, cached, raises, indices, pending);
    if pending == [] {
      return gathered, 0;
    }
    var parsed, ok;
    parsed, total, ok := AnswerAll(pending, answer, raises);
    if !ok {
      return seq(|messages|, j => None), 0;
    }
    responses := Fill(messages, cached, answer, gathered, indices, pending, parsed);
  }

  /** The slots after the last pass: holes, cache hits and the model's answers to the misses. */
  method Fill(messages: seq<Option<string>>, cached: string -> Option<Loaded>, answer: string -> Reply,
              gathered: seq<Option<Loaded>>, indices: seq<nat>, pending: seq<string>, parsed: seq<Option<Loaded>>)
    returns (responses: seq<Option<Loaded>>)
    requires |gathered| == |messages| && |indices| == |pending| == |parsed|
    requires forall k :: 0 <= k < |indices| ==> indices[k] < |messages| && messages[indices[k]] == Some(pending[k])
    requires forall k, q :: 0 <= k < q < |indices| ==> indices[k] < indices[q]
    requires forall j :: 0 <= j < |messages| ==> (Missed(messages[j], cached) <==> j in indices)
    requires forall j :: 0 <= j < |messages| ==>
               gathered[j] == (if messages[j].Some? then cached(messages[j].value) else None)
    requires forall q :: 0 <= q < |pending| ==> parsed[q] == answer(pending[q]).response
    ensures |responses| == |messages|
    ensures forall j :: 0 <= j < |messages| ==> responses[j] == SlotAnswer(messages[j], cached, answer)
  {
    responses := Scatter(gathered, indices, parsed);
    forall j | 0 <= j < |messages|
      ensures responses[j] == SlotAnswer(messages[j], cached, answer)
    {
      if j in indices {
        var k :| 0 <= k < |indices| && indices[k] == j;
      }
    }
  }

  /** Some prompt raises exactly when one of the pending prompts does. */
  lemma RaisedAmongPending(messages: seq<Option<string>>, cached: string -> Option<Loaded>, raises: string -> bool,
                           indices: seq<nat>, pending: seq<string>)
    requires |indices| == |pending|
    requires forall k :: 0 <= k < |indices| ==> indices[k] < |messages| && messages[indices[k]] == Some(pending[k])
    requires forall j :: 0 <= j < |messages| ==> (Missed(messages[j], cached) <==> j in indices)
    ensures Raised(messages, cached, raises) <==> exists q :: 0 <= q < |pending| && raises(pending[q])
  {
    if Raised(messages, cached, raises) {
      var j :| 0 <= j < |messages| && Missed(messages[j], cached) && raises(messages[j].value);
      var k :| 0 <= k < |indices| && indices[k] == j;
      assert raises(pending[k]);
    }
    if q :| 0 <= q < |pending| && raises(pending[q]) {
      assert Missed(messages[indices[q]], cached) && messages[indices[q]].value == pending[q];
    }
  }

  /**
   * The first pass of `ask_llm_multi`: cache hits go straight into their
   * slots, and the misses are listed with the index they came from.
   */
  method Gather(messages: seq<Option<string>>, cached: string -> Option<Loaded>)
    returns (responses: seq<Option<Loaded>>, indices: seq<nat>, pending: seq<string>)
    ensures |responses| == |messages| && |indices| == |pending|
    ensures pending == Pending(messages, cached)
    ensures forall k :: 0 <= k < |indices| ==> indices[k] < |messages| && messages[indices[k]] == Some(pending[k])
    ensures forall k, q :: 0 <= k < q < |indices| ==> indices[k] < indices[q]
    ensures forall j :: 0 <= j < |messages| ==> (Missed(messages[j], cached) <==> j in indices)
    ensures forall j :: 0 <= j < |messages| ==>
              responses[j] == (if messages[j].Some? then cached(messages[j].value) else None)
  {
    responses := seq(|messages|, j => None);
    indices := [];
    pending := [];
    var i := 0;
    while i < |messages|
      invariant i <= |messages|
      invariant Gathered(messages, cached, i, responses, indices, pending)
    {
      responses, indices, pending := GatherOne(messages, cached, i, responses, indices, pending);
      i := i + 1;
    }
    assert messages[..|messages|] == messages;
  }
}

=== FILE: orchestrator.dfy ===
/**
 * The orchestrator (`AIPlayerAgent`): looks up the advisor registered for a
 * handler, retries it, replaces failed or unacceptable answers by a safe
 * fallback, and logs a telemetry row.
 */
module Orchestrator {
  import opened Wrappers
  import opened Strs
  import opened JsonValues
  import opened AgentData
  import opened CommandValidator
  import opened DecisionTelemetry

  /** The settings `decide` reads; `max_retries` is taken as given. */
  datatype LlmConfig = LlmConfig(
    timeoutMs: int,
    maxRetries: int,
    maxTokensPerDecision: int,
    confidenceThreshold: real,
    telemetryEnabled: bool,
    telemetryPath: string)

  /** The advisors by handler name; `A` is the advisor. */
  datatype Registry<A> = Registry(agents: map<string, A>, config: LlmConfig)

  /** `register_agent`: binds the handler name, replacing an earlier advisor. */
  function RegisterAgent<A>(o: Registry<A>, handlerName: string, agent: A): (r: Registry<A>)
    ensures HasAgent(r, handlerName) && r.agents[handlerName] == agent
    ensures forall h :: h != handlerName ==> (HasAgent(r, h) <==> HasAgent(o, h))
    ensures forall h :: h != handlerName && HasAgent(o, h) ==> h in r.agents && r.agents[h] == o.agents[h]
    ensures r.config == o.config
  {
    o.(agents := o.agents[handlerName := agent])
  }

  /** `has_agent`. */
  predicate HasAgent<A>(o: Registry<A>, handlerName: string) {
    handlerName in o.agents
  }

  /** `_build_fallback_decision`: no command, no confidence, fallback, and the reason. */
  function Fallback(handlerName: string, explanation: string, reason: string): (r: AgentDecision)
    ensures r.proposedCommand.None? && r.confidence == 0.0 && r.fallbackRecommended
    ensures r.toolsUsed == [] && r.explanation == explanation
    ensures r.metadata.Keys == {"handler_name", "validation_error"}
    ensures r.metadata["handler_name"] == JStr(handlerName) && r.metadata["validation_error"] == JStr(reason)
  {
    AgentDecision(None, 0.0, explanation, [], true,
      map["handler_name" := JStr(handlerName), "validation_error" := JStr(reason)])
  }

  // ----- retries -----

  /** What one call of the advisor (under the timeout) came to. */
  datatype Attempt = Answered(decision: AgentDecision) | TimedOut | Raised(error: string)

  /** The loop's result: the decision, whether every attempt failed, and how many calls were made. */
  datatype Tried = Tried(decision: AgentDecision, failed: bool, calls: nat)

  /** `timeout_after_{timeout_ms}ms`. */
  function TimeoutText(timeoutMs: int): string {
    "timeout_after_" + IntToString(timeoutMs) + "ms"
  }

  /**
   * Attempts `k` to `n - 1` of the retry loop: the first answer ends it; a
   * failure on the last attempt gives the fallback for that failure.
   * `outcome(k)` is what attempt `k` comes to.
   */
  function Retry(handlerName: string, timeoutMs: int, outcome: nat -> Attempt, k: nat, n: nat): (r: Tried)
    requires k < n
    ensures k < r.calls <= n
    ensures !r.failed <==> outcome(r.calls - 1).Answered?
    ensures !r.failed ==> r.decision == outcome(r.calls - 1).decision
    ensures forall j :: k <= j < r.calls - 1 ==> !outcome(j).Answered?
    ensures r.failed ==> r.calls == n && r.decision.proposedCommand.None? && r.decision.fallbackRecommended
    decreases n - k
  {
    match outcome(k)
    case Answered(d) => Tried(d, false, k + 1)
    case TimedOut =>
      if k + 1 < n then Retry(handlerName, timeoutMs, outcome, k + 1, n)
      else
        var f := Fallback(handlerName, "agent_timeout", "timeout");
        Tried(f.(metadata := f.metadata["error" := JStr(TimeoutText(timeoutMs))]), true, k + 1)
    case Raised(e) =>
      if k + 1 < n then Retry(handlerName, timeoutMs, outcome, k + 1, n)
      else
        var f := Fallback(handlerName, "agent_error:" + e, "agent_error");
        Tried(f.(metadata := f.metadata["error" := JStr(e)]), true, k + 1)
  }

  /**
   * The retry loop of `decide`: `max_retries + 1` attempts; with none at all
   * the placeholder fallback stands, and is gated like an answer.
   */
  function Attempts(handlerName: string, config: LlmConfig, outcome: nat -> Attempt): (r: Tried)
    ensures config.maxRetries < 0 ==> r == Tried(Fallback(handlerName, "uninitialized", "internal_error"), false, 0)
    ensures config.maxRetries >= 0 ==> 0 < r.calls <= config.maxRetries + 1
    ensures r.failed ==> r.calls == config.maxRetries + 1 && r.decision.proposedCommand.None?
  {
    if config.maxRetries < 0 then Tried(Fallback(handlerName, "uninitialized", "internal_error"), false, 0)
    else Retry(handlerName, config.timeoutMs, outcome, 0, config.maxRetries + 1)
  }

  /** Every attempt failed: the fallback names the last failure. */
  lemma AllFailed(handlerName: string, config: LlmConfig, outcome: nat -> Attempt)
    requires config.maxRetries >= 0
    requires forall j :: 0 <= j <= config.maxRetries ==> !outcome(j).Answered?
    ensures var r := Attempts(handlerName, config, outcome);
            && r.failed
            && r.calls == config.maxRetries + 1
            && r.decision.proposedCommand.None? && r.decision.fallbackRecommended
            && "validation_error" in r.decision.metadata
            && r.decision.metadata["validation_error"] ==
                 JStr(if outcome(config.maxRetries).TimedOut? then "timeout" else "agent_error")
  {
    AllFailedFrom(handlerName, config.timeoutMs, outcome, 0, config.maxRetries);
  }

  /** `r` is the fallback for a run whose last attempt came to `last`. */
  predicate FailedWith(r: Tried, last: Attempt) {
    && r.failed
    && r.decision.proposedCommand.None? && r.decision.fallbackRecommended
    && "validation_error" in r.decision.metadata
    && r.decision.metadata["validation_error"] == JStr(if last.TimedOut? then "timeout" else "agent_error")
  }

  lemma {:induction false} AllFailedFrom(handlerName: string, timeoutMs: int, outcome: nat -> Attempt, k: nat, last: nat)
    requires k <= last
    requires forall j :: k <= j <= last ==> !outcome(j).Answered?
    ensures FailedWith(Retry(handlerName, timeoutMs, outcome, k, last + 1), outcome(last))
    decreases last - k
  {
    if k < last {
      RetryStep(handlerName, timeoutMs, outcome, k, last + 1);
      AllFailedFrom(handlerName, timeoutMs, outcome, k + 1, last);
    } else {
      LastAttemptFails(handlerName, timeoutMs, outcome, k);
    }
  }

  /** A failed attempt that is not the last moves on to the next. */
  lemma RetryStep(handlerName: string, timeoutMs: int, outcome: nat -> Attempt, k: nat, n: nat)
    requires k + 1 < n && !outcome(k).Answered?
    ensures Retry(handlerName, timeoutMs, outcome, k, n) == Retry(handlerName, timeoutMs, outcome, k + 1, n)
  {
  }

  /** A failed last attempt records why it failed under "validation_error". */
  lemma LastAttemptFails(handlerName: string, timeoutMs: int, outcome: nat -> Attempt, k: nat)
    requires !outcome(k).Answered?
    ensures FailedWith(Retry(handlerName, timeoutMs, outcome, k, k + 1), outcome(k))
  {
    var reason := if outcome(k).TimedOut? then "timeout" else "agent_error";
    var explanation := if outcome(k).TimedOut? then "agent_timeout" else "agent_error:" + outcome(k).error;
    var error := if outcome(k).TimedOut? then TimeoutText(timeoutMs) else outcome(k).error;
    var f := Fallback(handlerName, explanation, reason);
    assert Retry(handlerName, timeoutMs, outcome, k, k + 1) == Tried(f.(metadata := f.metadata["error" := JStr(error)]), true, k + 1);
    ErrorKeepsReason(f.metadata, JStr(error));
  }

  lemma ErrorKeepsReason(m: map<string, Json>, e: Json)
    requires "validation_error" in m
    ensures "validation_error" in m["error" := e] && m["error" := e]["validation_error"] == m["validation_error"]
  {
    assert "error" != "validation_error";
  }

  /** The first answer is taken, after exactly the failed attempts before it. */
  lemma FirstAnswerWins(handlerName: string, config: LlmConfig, outcome: nat -> Attempt, k: nat)
    requires k <= config.maxRetries
    requires outcome(k).Answered?
    requires forall j :: 0 <= j < k ==> !outcome(j).Answered?
    ensures Attempts(handlerName, config, outcome) == Tried(outcome(k).decision, false, k + 1)
  {
  }

  // ----- gating -----

  /** `int(metadata.get("token_total", 0) or 0)`; None is `int()` raising. */
  function TokenTotal(d: AgentDecision): Option<int> {
    var t := Get(d.metadata, "token_total", JInt(0));
    if Truthy(t) then IntOf(t) else Some(0)
  }

  /** An answer the confidence gate lets through: within the token budget and not below the threshold. */
  predicate Confident(config: LlmConfig, d: AgentDecision) {
    TokenTotal(d).Some? && TokenTotal(d).value <= config.maxTokensPerDecision
    && d.confidence >= config.confidenceThreshold
  }

  /** A confident answer whose command, if it has one, the validator accepts. */
  predicate Passes(config: LlmConfig, ctx: AgentContext, d: AgentDecision) {
    && Confident(config, d)
    && (d.proposedCommand.Some? ==>
          ValidateCommand(ctx, d.proposedCommand.value).Success?
          && ValidateCommand(ctx, d.proposedCommand.value).value.IsValid())
  }

  /** The first gate's outcome: an over-budget answer becomes a fallback recording its total. */
  predicate BudgetStep(config: LlmConfig, d: AgentDecision, r: Result<AgentDecision>) {
    TokenTotal(d).Some? && TokenTotal(d).value > config.maxTokensPerDecision ==>
      r.Success? && "validation_error" in r.value.metadata && "token_total" in r.value.metadata
      && r.value.metadata["validation_error"] == JStr("token_budget_exceeded")
      && r.value.metadata["token_total"] == JInt(TokenTotal(d).value)
  }

  /**
   * The third gate's outcome on a confident answer: no command, or one the
   * validator accepts, passes unchanged; a rejected command becomes a
   * fallback recording the validator's code and message; a validator that
   * raises makes the gate raise.
   */
  predicate ValidatorStep(config: LlmConfig, ctx: AgentContext, d: AgentDecision, r: Result<AgentDecision>) {
    && (Passes(config, ctx, d) ==> r == Success(d))
    && (Confident(config, d) && d.proposedCommand.Some? ==>
          match ValidateCommand(ctx, d.proposedCommand.value)
          case Failure(e) => r == Failure(e)
          case Success(v) =>
            !v.IsValid() ==>
              && r.Success? && r.value.proposedCommand.None? && r.value.fallbackRecommended
              && r.value.metadata.Keys == {"handler_name", "validation_error", "validation_message"}
              && r.value.metadata["validation_error"] == JStr(v.code.Text())
              && r.value.metadata["validation_message"] == JStr(v.message))
  }

  /**
   * The gates on an answered decision, in order: the token budget, the
   * confidence threshold, then the validator. Failure is an exception from
   * `int()` or from the validator, which `decide` does not catch. The
   * low-confidence fallback records the ANSWER's confidence.
   */
  function Gate(handlerName: string, config: LlmConfig, ctx: AgentContext, d: AgentDecision): (r: Result<AgentDecision>)
    ensures TokenTotal(d).None? ==> r.Failure?
    ensures BudgetStep(config, d, r)
    ensures TokenTotal(d).Some? && TokenTotal(d).value <= config.maxTokensPerDecision
            && d.confidence < config.confidenceThreshold ==>
              r.Success? && "validation_error" in r.value.metadata && "confidence" in r.value.metadata
              && r.value.metadata["validation_error"] == JStr("low_confidence")
              && r.value.metadata["confidence"] == JReal(d.confidence)
    ensures r.Success? && r.value != d ==>
              r.value.proposedCommand.None? && r.value.confidence == 0.0 && r.value.fallbackRecommended
    ensures r.Success? && r.value.proposedCommand.Some? ==> Accepts(ctx, r.value.proposedCommand.value)
    ensures ValidatorStep(config, ctx, d, r)
  {
    match TokenTotal(d)
    case None => Failure("ValueError: token_total")
    case Some(total) =>
      if total > config.maxTokensPerDecision then
        var f := Fallback(handlerName, "token_budget_exceeded", "token_budget_exceeded");
        Success(f.(metadata := f.metadata["token_total" := JInt(total)]))
      else if d.confidence < config.confidenceThreshold then
        var f := Fallback(handlerName, "confidence_below_threshold", "low_confidence");
        Success(f.(metadata := f.metadata["confidence" := JReal(d.confidence)]))
      else if d.proposedCommand.Some? then
        match ValidateCommand(ctx, d.proposedCommand.value)
        case Failure(e) => Failure(e)
        case Success(v) =>
          if v.IsValid() then Success(d)
          else
            var f := Fallback(handlerName, "validation_failed", v.code.Text());
            Success(f.(metadata := f.metadata["validation_message" := JStr(v.message)]))
      else Success(d)
  }

  /**
   * The gates as the orchestrator writes them: the low-confidence branch
   * reads the confidence after the decision was replaced by the fallback.
   */
  function GateAsWritten(handlerName: string, config: LlmConfig, ctx: AgentContext, d: AgentDecision): (r: Result<AgentDecision>)
    ensures TokenTotal(d).None? ==> r.Failure?
    ensures BudgetStep(config, d, r)
    ensures TokenTotal(d).Some? && TokenTotal(d).value <= config.maxTokensPerDecision
            && d.confidence < config.confidenceThreshold ==>
              r.Success? && "validation_error" in r.value.metadata && "confidence" in r.value.metadata
              && r.value.metadata["validation_error"] == JStr("low_confidence")
              && r.value.metadata["confidence"] == JReal(0.0)
    ensures r.Success? && r.value != d ==>
              r.value.proposedCommand.None? && r.value.confidence == 0.0 && r.value.fallbackRecommended
    ensures r.Success? && r.value.proposedCommand.Some? ==> Accepts(ctx, r.value.proposedCommand.value)
    ensures ValidatorStep(config, ctx, d, r)
  {
    match TokenTotal(d)
    case None => Failure("ValueError: token_total")
    case Some(total) =>
      if total > config.maxTokensPerDecision then
        var f := Fallback(handlerName, "token_budget_exceeded", "token_budget_exceeded");
        Success(f.(metadata := f.metadata["token_total" := JInt(total)]))
      else if d.confidence < config.confidenceThreshold then
        var f := Fallback(handlerName, "confidence_below_threshold", "low_confidence");
        Success(f.(metadata := f.metadata["confidence" := JReal(f.confidence)]))
      else if d.proposedCommand.Some? then
        match ValidateCommand(ctx, d.proposedCommand.value)
        case Failure(e) => Failure(e)
        case Success(v) =>
          if v.IsValid() then Success(d)
          else
            var f := Fallback(handlerName, "validation_failed", v.code.Text());
            Success(f.(metadata := f.metadata["validation_message" := JStr(v.message)]))
      else Success(d)
  }

  /** As written, every low-confidence fallback records a confidence of 0.0, whatever the advisor said. */
  lemma LowConfidenceRecordsZero(handlerName: string, config: LlmConfig, ctx: AgentContext, d: AgentDecision)
    requires TokenTotal(d).Some? && TokenTotal(d).value <= config.maxTokensPerDecision
    requires d.confidence < config.confidenceThreshold
    ensures GateAsWritten(handlerName, config, ctx, d).Success?
    ensures GateAsWritten(handlerName, config, ctx, d).value.metadata["confidence"] == JReal(0.0)
  {
  }

  /** A concrete case: an answer with confidence 0.3 under the default threshold 0.4 is logged as 0.0. */
  lemma LowConfidenceExample(handlerName: string, ctx: AgentContext)
    ensures var config := LlmConfig(1500, 0, 1200, 0.4, true, "logs/llm_decisions.jsonl");
            var d := AgentDecision(Some("proceed"), 0.3, "", [], false, map[]);
            && GateAsWritten(handlerName, config, ctx, d).value.metadata["confidence"] == JReal(0.0)
            && Gate(handlerName, config, ctx, d).value.metadata["confidence"] == JReal(0.3)
  {
  }

  /** Apart from that field the two gates agree. */
  lemma GatesAgree(handlerName: string, config: LlmConfig, ctx: AgentContext, d: AgentDecision)
    ensures var a := GateAsWritten(handlerName, config, ctx, d);
            var b := Gate(handlerName, config, ctx, d);
            && a.Success? == b.Success?
            && (a.Success? ==> a.value.(metadata := map[]) == b.value.(metadata := map[])
                               && a.value.metadata.Keys == b.value.metadata.Keys
                               && (forall k :: k in a.value.metadata && k != "confidence" ==>
                                     a.value.metadata[k] == b.value.metadata[k]))
  {
  }

  // ----- decide -----

  /**
   * What `decide` comes to: no advisor (handler disabled or none registered),
   * a decision with the telemetry row it logged (None when telemetry is off
   * or the write failed), or an exception it lets through.
   */
  datatype Outcome = NoAdvisor | Advised(decision: AgentDecision, logged: Option<Telemetry>) | Raises(error: string)

  /**
   * `decide`, as written. `enabled` is the configuration's verdict on the
   * handler, `outcome` what each attempt comes to, `latencyMs` and
   * `timestamp` the clock, `snapshotHash` the payload hash, and `writeOk`
   * whether appending the telemetry line succeeded.
   */
  function Decide<A>(ffi: Ffi, snapshotHash: Json -> string, o: Registry<A>, enabled: bool, handlerName: string,
                     ctx: AgentContext, outcome: nat -> Attempt, latencyMs: int, timestamp: string,
                     writeOk: bool): (r: Outcome)
    ensures r.NoAdvisor? <==> !enabled || !HasAgent(o, handlerName)
    ensures r.Advised? ==> (r.decision.proposedCommand.Some? ==> Accepts(ctx, r.decision.proposedCommand.value))
    ensures r.Advised? && r.logged.Some? ==> o.config.telemetryEnabled && writeOk
    ensures var tried := Attempts(handlerName, o.config, outcome);
            enabled && HasAgent(o, handlerName) && !tried.failed && Passes(o.config, ctx, tried.decision) ==>
              && (r.Advised? ==> r.decision == tried.decision)
              && (r.Raises? ==> o.config.telemetryEnabled)
              && (!o.config.telemetryEnabled ==> r == Advised(tried.decision, None))
  {
    if !enabled || handlerName !in o.agents then NoAdvisor
    else
      var tried := Attempts(handlerName, o.config, outcome);
      var gated := if tried.failed then Success(tried.decision) else GateAsWritten(handlerName, o.config, ctx, tried.decision);
      Logged(ffi, snapshotHash, o.config, ctx, gated, latencyMs, timestamp, writeOk)
  }

  /** `decide` with the corrected gate of `Gate`. */
  function DecideIntended<A>(ffi: Ffi, snapshotHash: Json -> string, o: Registry<A>, enabled: bool, handlerName: string,
                             ctx: AgentContext, outcome: nat -> Attempt, latencyMs: int, timestamp: string,
                             writeOk: bool): (r: Outcome)
    ensures r.NoAdvisor? <==> !enabled || !HasAgent(o, handlerName)
    ensures r.Advised? ==> (r.decision.proposedCommand.Some? ==> Accepts(ctx, r.decision.proposedCommand.value))
    ensures r.Advised? && r.logged.Some? ==> o.config.telemetryEnabled && writeOk
    ensures var tried := Attempts(handlerName, o.config, outcome);
            enabled && HasAgent(o, handlerName) && !tried.failed && Passes(o.config, ctx, tried.decision) ==>
              && (r.Advised? ==> r.decision == tried.decision)
              && (r.Raises? ==> o.config.telemetryEnabled)
              && (!o.config.telemetryEnabled ==> r == Advised(tried.decision, None))
  {
    if !enabled || handlerName !in o.agents then NoAdvisor
    else
      var tried := Attempts(handlerName, o.config, outcome);
      var gated := if tried.failed then Success(tried.decision) else Gate(handlerName, o.config, ctx, tried.decision);
      Logged(ffi, snapshotHash, o.config, ctx, gated, latencyMs, timestamp, writeOk)
  }

  /** The tail of `decide`: an exception passes through, then the telemetry row is built and appended. */
  function Logged(ffi: Ffi, snapshotHash: Json -> string, config: LlmConfig, ctx: AgentContext,
                  gated: Result<AgentDecision>, latencyMs: int, timestamp: string, writeOk: bool): (r: Outcome)
    ensures gated.Failure? ==> r == Raises(gated.error)
    ensures gated.Success? && r.Raises? ==> config.telemetryEnabled
    ensures r.Advised? ==> gated == Success(r.decision)
    ensures r.Advised? && r.logged.Some? ==> config.telemetryEnabled && writeOk
  {
    match gated
    case Failure(e) => Raises(e)
    case Success(decision) =>
      if !config.telemetryEnabled then Advised(decision, None)
      else
        match BuildTelemetry(ffi, snapshotHash, ctx, decision, latencyMs, timestamp)
        case None => Raises("ValueError: telemetry")
        case Some(row) => Advised(decision, if writeOk then Some(row) else None)
  }

  /**
   * The written `decide` and the corrected one reach the same kind of
   * outcome and, with telemetry off, the same decision up to its metadata.
   */
  lemma DecideAgreesWithIntended<A>(ffi: Ffi, snapshotHash: Json -> string, o: Registry<A>, enabled: bool,
                                    handlerName: string, ctx: AgentContext, outcome: nat -> Attempt,
                                    latencyMs: int, timestamp: string, writeOk: bool)
    requires !o.config.telemetryEnabled
    ensures var a := Decide(ffi, snapshotHash, o, enabled, handlerName, ctx, outcome, latencyMs, timestamp, writeOk);
            var b := DecideIntended(ffi, snapshotHash, o, enabled, handlerName, ctx, outcome, latencyMs, timestamp, writeOk);
            && a.NoAdvisor? == b.NoAdvisor? && a.Advised? == b.Advised? && a.Raises? == b.Raises?
            && (a.Advised? ==> a.decision.(metadata := map[]) == b.decision.(metadata := map[])
                               && a.decision.metadata.Keys == b.decision.metadata.Keys
                               && (forall k :: k in a.decision.metadata && k != "confidence" ==>
                                     a.decision.metadata[k] == b.decision.metadata[k]))
  {
    if enabled && handlerName in o.agents {
      var tried := Attempts(handlerName, o.config, outcome);
      if !tried.failed {
        GatesAgree(handlerName, o.config, ctx, tried.decision);
      }
    }
  }

  /**
   * A good first answer is what `decide` returns: when the advisor answers
   * at attempt k after k failures, within the budget, confidently and with
   * an accepted command or none, both pipelines hand that answer back.
   */
  lemma GoodAnswerReturned<A>(ffi: Ffi, snapshotHash: Json -> string, o: Registry<A>, handlerName: string,
                              ctx: AgentContext, outcome: nat -> Attempt, k: nat,
                              latencyMs: int, timestamp: string, writeOk: bool)
    requires HasAgent(o, handlerName) && !o.config.telemetryEnabled
    requires k <= o.config.maxRetries
    requires outcome(k).Answered? && forall j :: 0 <= j < k ==> !outcome(j).Answered?
    requires Passes(o.config, ctx, outcome(k).decision)
    ensures Decide(ffi, snapshotHash, o, true, handlerName, ctx, outcome, latencyMs, timestamp, writeOk)
              == Advised(outcome(k).decision, None)
    ensures DecideIntended(ffi, snapshotHash, o, true, handlerName, ctx, outcome, latencyMs, timestamp, writeOk)
              == Advised(outcome(k).decision, None)
  {
    FirstAnswerWins(handlerName, o.config, outcome, k);
  }

  /**
   * The row `decide` logs describes the decision it returns: its command,
   * confidence, fallback flag and validation code, which is "ok" only when
   * none was recorded.
   */
  lemma LoggedRowDescribesDecision<A>(ffi: Ffi, snapshotHash: Json -> string, o: Registry<A>, enabled: bool,
                                      handlerName: string, ctx: AgentContext, outcome: nat -> Attempt,
                                      latencyMs: int, timestamp: string, writeOk: bool)
    requires var r := Decide(ffi, snapshotHash, o, enabled, handlerName, ctx, outcome, latencyMs, timestamp, writeOk);
             r.Advised? && r.logged.Some?
    ensures var r := Decide(ffi, snapshotHash, o, enabled, handlerName, ctx, outcome, latencyMs, timestamp, writeOk);
            var row := r.logged.value;
            && row.proposedCommand == r.decision.proposedCommand
            && row.confidence == r.decision.confidence
            && row.fallbackUsed == r.decision.fallbackRecommended
            && row.handlerName == ctx.handlerName
            && row.latencyMs == latencyMs && row.timestampUtc == timestamp
            && row.validationResult == PyStr(ffi, Get(r.decision.metadata, "validation_error", JStr("ok")))
  {
  }

  /** A failed telemetry write never changes what `decide` returns. */
  lemma WriteErrorsSwallowed<A>(ffi: Ffi, snapshotHash: Json -> string, o: Registry<A>, enabled: bool,
                                handlerName: string, ctx: AgentContext, outcome: nat -> Attempt,
                                latencyMs: int, timestamp: string)
    ensures var ok := Decide(ffi, snapshotHash, o, enabled, handlerName, ctx, outcome, latencyMs, timestamp, true);
            var failed := Decide(ffi, snapshotHash, o, enabled, handlerName, ctx, outcome, latencyMs, timestamp, false);
            && ok.Advised? == failed.Advised?
            && (ok.Advised? ==> ok.decision == failed.decision && failed.logged.None?)
            && (!ok.Advised? ==> ok == failed)
  {
  }

  /** An advisor that always raises yields a fallback without a command. */
  lemma ExplodingAdvisor<A>(ffi: Ffi, snapshotHash: Json -> string, o: Registry<A>, handlerName: string,
                            ctx: AgentContext, e: string, latencyMs: int, timestamp: string, writeOk: bool)
    requires HasAgent(o, handlerName) && o.config.maxRetries >= 0 && !o.config.telemetryEnabled
    ensures var r := Decide(ffi, snapshotHash, o, true, handlerName, ctx, (k: nat) => Raised(e), latencyMs, timestamp, writeOk);
            && r.Advised?
            && r.decision.proposedCommand.None? && r.decision.fallbackRecommended
            && "validation_error" in r.decision.metadata
            && r.decision.metadata["validation_error"] == JStr("agent_error")
  {
    AllFailed(handlerName, o.config, (k: nat) => Raised(e));
  }
}

=== FILE: providers.dfy ===
/**
 * The model-backed proposal providers behind the event, card-reward and
 * shop-purchase advisors. All three ask the language model once for a
 * structured answer and normalise it the same way; they differ only in
 * the cache namespace and the explanation used when the model gives none.
 */
module LlmProviders {
  import opened Wrappers
  import opened Strs
  import opened JsonValues
  import opened AgentData

  /** The decision schema a provider asks for: command, confidence and explanation. */
  datatype Schema = Schema(proposedCommand: Option<string>, confidence: real, explanation: string)

  /** What `ask_llm_once` handed back: the schema itself, a dictionary, or anything else. */
  datatype Reply = Structured(schema: Schema) | Dict(fields: map<string, Json>) | Other(value: Json)

  /** A provider's proposal: the `*LlmProposal` dataclasses. */
  datatype Proposal = Proposal(proposedCommand: Option<string>, confidence: real, explanation: string,
                               metadata: map<string, Json>)

  /** What sets one provider apart from the other two. */
  datatype Policy = Policy(namespace: string, defaultExplanation: string)

  const EventPolicy := Policy("event_advisor_agent", "llm_event_policy")
  const CardRewardPolicy := Policy("card_reward_advisor_agent", "llm_card_reward_policy")
  const ShopPurchasePolicy := Policy("shop_purchase_advisor_agent", "llm_shop_purchase_policy")

  /**
   * `model_validate` of a dictionary into the schema: absent fields take
   * their defaults, a command is a string or null, a confidence a number,
   * an explanation a string. None is a validation error.
   */
  function ValidateSchema(d: map<string, Json>): (r: Option<Schema>)
    ensures r.Some? ==> Get(d, "explanation", JStr("")).JStr? && r.value.explanation == Get(d, "explanation", JStr("")).s
    ensures ("proposed_command" in d && !(d["proposed_command"].JNull? || d["proposed_command"].JStr?)) ==> r.None?
  {
    var command := Get(d, "proposed_command", JNull);
    var confidence := Get(d, "confidence", JReal(0.0));
    var explanation := Get(d, "explanation", JStr(""));
    if !(command.JNull? || command.JStr?) || !(confidence.JInt? || confidence.JReal? || confidence.JBool?)
       || !explanation.JStr? then None
    else
      Some(Schema(if command.JStr? then Some(command.s) else None,
                  FloatOf(confidence).value,
                  explanation.s))
  }

  /** The proposal every provider gives when the helper module cannot be imported. */
  function Unavailable(error: string): Proposal {
    Proposal(None, 0.0, "llm_utils_unavailable", map["provider_error" := JStr(error)])
  }

  /** The proposal every provider gives for an answer that is not the schema. */
  function NonSchema(tokenTotal: int): Proposal {
    Proposal(None, 0.0, "llm_non_schema_response", map["token_total" := JInt(tokenTotal)])
  }

  /** The schema an answer stands for, if any. */
  function SchemaOf(reply: Reply): Option<Schema> {
    match reply
    case Structured(s) => Some(s)
    case Dict(d) => ValidateSchema(d)
    case Other(_) => None
  }

  /** The command after trimming, with an empty one read as none. */
  function CleanCommand(c: Option<string>): (r: Option<string>)
    ensures r.Some? ==> r.value != [] && Trimmed(r.value)
    ensures r.None? <==> (c.None? || Strip(c.value) == [])
    ensures r.Some? ==> r.value == Strip(c.value)
  {
    match c
    case None => None
    case Some(s) =>
      var t := Strip(s);
      if t == [] then None else Some(t)
  }

  /**
   * `propose`: `imported` is whether `ask_llm_once` could be imported (and
   * `importError` the error's text when not); `reply` and `tokenTotal` are
   * what it returned for the prompt.
   */
  function Propose(policy: Policy, model: string, imported: bool, importError: string,
                   reply: Reply, tokenTotal: int): (r: Proposal)
    requires policy.defaultExplanation != []
    ensures 0.0 <= r.confidence <= 1.0
    ensures r.proposedCommand.Some? ==> r.proposedCommand.value != [] && Trimmed(r.proposedCommand.value)
    ensures !imported ==> r == Unavailable(importError)
    ensures imported && SchemaOf(reply).None? ==> r == NonSchema(tokenTotal)
    ensures imported && SchemaOf(reply).Some? ==>
              && r.proposedCommand == CleanCommand(SchemaOf(reply).value.proposedCommand)
              && r.confidence == Clamp(SchemaOf(reply).value.confidence)
              && r.explanation != []
              && (SchemaOf(reply).value.explanation != [] ==> r.explanation == SchemaOf(reply).value.explanation)
              && r.metadata.Keys == {"token_total", "provider", "model"}
              && r.metadata["token_total"] == JInt(tokenTotal)
              && r.metadata["model"] == JStr(model)
  {
    if !imported then Unavailable(importError)
    else match SchemaOf(reply)
      case None => NonSchema(tokenTotal)
      case Some(s) =>
        Proposal(CleanCommand(s.proposedCommand),
                 Clamp(s.confidence),
                 if s.explanation == [] then policy.defaultExplanation else s.explanation,
                 map["token_total" := JInt(tokenTotal),
                     "provider" := JStr("llm_utils.ask_llm_once"),
                     "model" := JStr(model)])
  }

  /** Trimming is idempotent. */
  lemma StripIdempotent(s: string)
    ensures Strip(Strip(s)) == Strip(s)
  {
    StripStripped(Strip(s));
  }

  /** The schema a proposal would be read back from. */
  function SchemaFor(p: Proposal): Schema {
    Schema(p.proposedCommand, p.confidence, p.explanation)
  }

  /**
   * A proposal is already normal: answering with the schema it was made
   * from gives the same command, confidence and explanation back.
   */
  lemma ProposeIdempotent(policy: Policy, model: string, reply: Reply, tokenTotal: int)
    requires policy.defaultExplanation != []
    requires SchemaOf(reply).Some?
    ensures var p := Propose(policy, model, true, "", reply, tokenTotal);
            Propose(policy, model, true, "", Structured(SchemaFor(p)), tokenTotal) == p
  {
    var p := Propose(policy, model, true, "", reply, tokenTotal);
    if p.proposedCommand.Some? {
      StripStripped(p.proposedCommand.value);
    }
    assert CleanCommand(p.proposedCommand) == p.proposedCommand;
    assert Clamp(p.confidence) == p.confidence;
  }

  /**
   * A clean answer is passed through unchanged: a trimmed non-empty
   * command, a confidence in range and a non-empty explanation.
   */
  lemma CleanAnswerKept(policy: Policy, model: string, command: string, confidence: real,
                        explanation: string, tokenTotal: int)
    requires policy.defaultExplanation != []
    requires command != [] && Trimmed(command)
    requires 0.0 <= confidence <= 1.0 && explanation != []
    ensures var p := Propose(policy, model, true, "", Structured(Schema(Some(command), confidence, explanation)), tokenTotal);
            p.proposedCommand == Some(command) && p.confidence == confidence && p.explanation == explanation
  {
    StripStripped(command);
  }

  /**
   * A dictionary answer is read like the schema it validates into; the
   * three well-typed fields give exactly that schema.
   */
  lemma DictAnswer(policy: Policy, model: string, command: string, confidence: real,
                   explanation: string, tokenTotal: int)
    requires policy.defaultExplanation != []
    ensures var d := map["proposed_command" := JStr(command), "confidence" := JReal(confidence),
                         "explanation" := JStr(explanation)];
            Propose(policy, model, true, "", Dict(d), tokenTotal)
              == Propose(policy, model, true, "", Structured(Schema(Some(command), confidence, explanation)), tokenTotal)
  {
    var d := map["proposed_command" := JStr(command), "confidence" := JReal(confidence),
                 "explanation" := JStr(explanation)];
    assert Get(d, "proposed_command", JNull) == JStr(command);
    assert Get(d, "confidence", JReal(0.0)) == JReal(confidence);
    assert Get(d, "explanation", JStr("")) == JStr(explanation);
  }

  /** A blank command, or no explanation, falls to none and the provider's default. */
  lemma BlankAnswer(policy: Policy, model: string, command: string, confidence: real, tokenTotal: int)
    requires policy.defaultExplanation != []
    requires forall i :: 0 <= i < |command| ==> IsSpace(command[i])
    ensures var p := Propose(policy, model, true, "", Structured(Schema(Some(command), confidence, "")), tokenTotal);
            p.proposedCommand.None? && p.explanation == policy.defaultExplanation
  {
    BlankStrips(command);
    assert CleanCommand(Some(command)) == None;
  }

  lemma {:induction false} BlankStrips(s: string)
    requires forall i :: 0 <= i < |s| ==> IsSpace(s[i])
    ensures Strip(s) == []
  {
    if s != [] {
      BlankStrips(s[1..]);
    }
  }

  // ----- the event provider's call, as written -----

  /** The error Python raises for the extra keyword the event provider passes. */
  const EventKeywordError := "TypeError: ask_llm_once() got an unexpected keyword argument 'two_layer_struct_convert'"

  /**
   * The event provider's `propose` as written: its call passes
   * `two_layer_struct_convert`, which `ask_llm_once` does not accept, so
   * once the import succeeds the call raises before the model is asked.
   * A Failure is that exception, which nothing in `propose` catches.
   */
  function EventProposeAsWritten(model: string, imported: bool, importError: string,
                                 reply: Reply, tokenTotal: int): (r: Result<Proposal>)
    ensures !imported ==> r == Success(Propose(EventPolicy, model, imported, importError, reply, tokenTotal))
    ensures imported ==> r.Failure?
  {
    if !imported then Success(Unavailable(importError))
    else Failure(EventKeywordError)
  }

  /**
   * The discrepancy: for a clean answer the corrected provider proposes the
   * model's command, while the provider as written raises whatever the
   * model would have said.
   */
  lemma EventKeywordRaises(model: string, command: string, tokenTotal: int)
    requires command != [] && Trimmed(command)
    ensures EventProposeAsWritten(model, true, "", Structured(Schema(Some(command), 1.0, "why")), tokenTotal).Failure?
    ensures Propose(EventPolicy, model, true, "", Structured(Schema(Some(command), 1.0, "why")), tokenTotal).proposedCommand
              == Some(command)
  {
    CleanAnswerKept(EventPolicy, model, command, 1.0, "why", tokenTotal);
  }
}

=== FILE: py_values.dfy ===
/**
 * What the cache types' serialisation hooks can tell about a Python value:
 * whether it has `model_dump()` (a pydantic model), `to_dict()` (a domain
 * record), is plain JSON data, or is some other object known only through
 * `str()`.
 */
module PyValues {
  import opened Wrappers
  import opened JsonValues

  datatype PyValue =
    | Model(className: string, dump: map<string, Json>)
    | Record(dict: map<string, Json>)
    | Plain(value: Json)
    | Object(shown: string)

  /**
   * A hook that hands its argument on unchanged: only plain JSON other than
   * None can be written; None makes `store` give up, and any other object
   * makes the JSON writer raise, which `store` reports the same way.
   */
  function Itself(v: PyValue): (r: Option<Json>)
    ensures r.Some? <==> v.Plain? && v.value != JNull
    ensures r.Some? ==> Plain(r.value) == v
  {
    if v.Plain? && v.value != JNull then Some(v.value) else None
  }

  /** `data.to_dict() if hasattr(data, 'to_dict') else data`. */
  function ToDictOrItself(v: PyValue): Option<Json> {
    if v.Record? then Some(JObj(v.dict)) else Itself(v)
  }

  /** `data.model_dump() if hasattr(data, 'model_dump') else data`. */
  function ModelDumpOrItself(v: PyValue): Option<Json> {
    if v.Model? then Some(JObj(v.dump)) else Itself(v)
  }

  /**
   * A `from_dict` reconstructor of a domain record: the record whose
   * `to_dict()` is the stored dictionary; anything else makes it raise.
   */
  function FromDict(j: Json): (r: Option<PyValue>)
    ensures r.Some? <==> j.JObj?
    ensures r.Some? ==> ToDictOrItself(r.value) == Some(j)
  {
    if j.JObj? then Some(Record(j.fields)) else None
  }
}

=== FILE: registry.dfy ===
/**
 * The process-wide registry of cache types: which class serves each type id
 * (in registration order), one lazily created instance per id, and the
 * configuration new instances are built with. Classes are uninterpreted values of
 * type `K`; an instance records its class, its configuration and a serial
 * number that stands for its identity.
 */
module CacheRegistry {
  import opened Wrappers
  import opened CacheConfig

  /** An insertion-ordered dict from type ids to classes. */
  type Classes<K> = seq<(string, K)>

  function Keys<K>(d: Classes<K>): (r: seq<string>)
    ensures |r| == |d|
    ensures forall i :: 0 <= i < |d| ==> r[i] == d[i].0
  {
    seq(|d|, i requires 0 <= i < |d| => d[i].0)
  }

  predicate Distinct(s: seq<string>) {
    forall i, j :: 0 <= i < j < |s| ==> s[i] != s[j]
  }

  predicate UniqueIds<K>(d: Classes<K>) {
    Distinct(Keys(d))
  }

  /** `d.get(k)`. */
  function Lookup<K>(d: Classes<K>, k: string): (r: Option<K>)
    ensures r.None? <==> k !in Keys(d)
  {
    if d == [] then None
    else if d[0].0 == k then Some(d[0].1)
    else
      assert Keys(d) == [d[0].0] + Keys(d[1..]);
      Lookup(d[1..], k)
  }

  /** With distinct ids, `get` finds the class each pair binds. */
  lemma {:induction false} LookupFinds<K>(d: Classes<K>, i: nat)
    requires UniqueIds(d) && i < |d|
    ensures Lookup(d, d[i].0) == Some(d[i].1)
  {
    if i > 0 {
      assert Keys(d)[0] != Keys(d)[i];
      assert Keys(d[1..]) == Keys(d)[1..];
      LookupFinds(d[1..], i - 1);
    }
  }

  /** `d[k] = v`: a new id goes last, an existing one keeps its place and gets the new class. */
  function Put<K>(d: Classes<K>, k: string, v: K): (r: Classes<K>)
    ensures k in Keys(d) ==> Keys(r) == Keys(d)
    ensures k !in Keys(d) ==> Keys(r) == Keys(d) + [k]
  {
    if d == [] then [(k, v)]
    else if d[0].0 == k then
      KeysPrepend((k, v), d[1..]);
      KeysCons(d);
      [(k, v)] + d[1..]
    else
      var rest := Put(d[1..], k, v);
      KeysCons(d);
      KeysPrepend(d[0], rest);
      [d[0]] + rest
  }

  lemma KeysPrepend<K>(x: (string, K), rest: Classes<K>)
    ensures Keys([x] + rest) == [x.0] + Keys(rest)
  {
  }

  /** After `d[k] = v`, `k` gives `v`, every other id what it gave before, and ids stay distinct. */
  lemma {:induction false} PutLookup<K>(d: Classes<K>, k: string, v: K)
    ensures Lookup(Put(d, k, v), k) == Some(v)
    ensures forall k' :: k' != k ==> Lookup(Put(d, k, v), k') == Lookup(d, k')
    ensures UniqueIds(d) ==> UniqueIds(Put(d, k, v))
  {
    PutFinds(d, k, v);
    PutKeepsOthers(d, k, v);
    if UniqueIds(d) {
      PutKeepsDistinct(d, k, v);
    }
  }

  lemma {:induction false} PutFinds<K>(d: Classes<K>, k: string, v: K)
    ensures Lookup(Put(d, k, v), k) == Some(v)
  {
    if d != [] && d[0].0 != k {
      PutFinds(d[1..], k, v);
      assert ([d[0]] + Put(d[1..], k, v))[1..] == Put(d[1..], k, v);
    }
  }

  lemma {:induction false} PutKeepsOthers<K>(d: Classes<K>, k: string, v: K)
    ensures forall k' :: k' != k ==> Lookup(Put(d, k, v), k') == Lookup(d, k')
  {
    if d != [] && d[0].0 != k {
      PutKeepsOthers(d[1..], k, v);
      assert ([d[0]] + Put(d[1..], k, v))[1..] == Put(d[1..], k, v);
    } else if d != [] {
      assert ([(k, v)] + d[1..])[1..] == d[1..];
    }
  }

  lemma PutKeepsDistinct<K>(d: Classes<K>, k: string, v: K)
    requires UniqueIds(d)
    ensures UniqueIds(Put(d, k, v))
  {
  }

  /** An instance of a cache class, built with a configuration; `serial` tells instances apart. */
  datatype Instance<K> = Instance(cls: K, config: Config, serial: nat)

  /**
   * The registry's class-level state. `created` counts the instances built
   * so far and gives the next one its serial number.
   */
  datatype Registry<K> = Registry(
    caches: map<string, Instance<K>>,
    classes: Classes<K>,
    config: Option<Config>,
    initialized: bool,
    created: nat)

  /** Every instance ever handed out has a serial below `created`. */
  predicate Valid<K>(reg: Registry<K>) {
    && UniqueIds(reg.classes)
    && forall t :: t in reg.caches ==> reg.caches[t].serial < reg.created
  }

  /** The state at import time, before any registration. */
  function Fresh<K>(): (reg: Registry<K>)
    ensures Valid(reg) && !IsInitialized(reg) && GetAllTypes(reg) == []
  {
    Registry(map[], [], None, false, 0)
  }

  /** `initialize`: sets the configuration and drops every instance built so far. */
  function Initialize<K>(reg: Registry<K>, config: Config): (r: Registry<K>)
    requires Valid(reg)
    ensures Valid(r)
    ensures IsInitialized(r) && GetConfig(r) == Some(config)
    ensures r.caches == map[] && r.classes == reg.classes
  {
    reg.(config := Some(config), caches := map[], initialized := true)
  }

  /** `register`: binds the id to the class, replacing an earlier binding; built instances stay. */
  function Register<K>(reg: Registry<K>, cacheType: string, cls: K): (r: Registry<K>)
    requires Valid(reg)
    ensures Valid(r)
    ensures Lookup(r.classes, cacheType) == Some(cls)
    ensures forall t :: t != cacheType ==> Lookup(r.classes, t) == Lookup(reg.classes, t)
    ensures cacheType in GetAllTypes(reg) ==> GetAllTypes(r) == GetAllTypes(reg)
    ensures cacheType !in GetAllTypes(reg) ==> GetAllTypes(r) == GetAllTypes(reg) + [cacheType]
    ensures r.caches == reg.caches && r.config == reg.config && r.initialized == reg.initialized
  {
    PutLookup(reg.classes, cacheType, cls);
    reg.(classes := Put(reg.classes, cacheType, cls))
  }

  /** What `get` returns, or the exception it raises. */
  datatype Got<K> =
    | Got(reg: Registry<K>, instance: Instance<K>)
    | NotInitialized
    | UnknownType(available: seq<string>)

  /**
   * `get`: the memoised instance of the id, or a new one built from its
   * class with the current configuration; raises when uninitialised or
   * when the id was never registered.
   */
  function Get<K>(reg: Registry<K>, cacheType: string): (r: Got<K>)
    requires Valid(reg)
    ensures !IsInitialized(reg) ==> r == NotInitialized
    ensures IsInitialized(reg) && cacheType !in reg.caches && Lookup(reg.classes, cacheType).None? ==>
              r == UnknownType(GetAllTypes(reg))
    ensures IsInitialized(reg) && cacheType in reg.caches ==> r == Got(reg, reg.caches[cacheType])
    ensures r.Got? ==> Valid(r.reg) && cacheType in r.reg.caches && r.reg.caches[cacheType] == r.instance && r.reg.classes == reg.classes
    ensures r.Got? && cacheType !in reg.caches ==>
              && Lookup(reg.classes, cacheType) == Some(r.instance.cls)
              && Some(r.instance.config) == reg.config
              && forall t :: t in reg.caches ==> reg.caches[t].serial != r.instance.serial
  {
    if !IsInitialized(reg) then NotInitialized
    else if cacheType in reg.caches then Got(reg, reg.caches[cacheType])
    else match Lookup(reg.classes, cacheType)
      case None => UnknownType(GetAllTypes(reg))
      case Some(cls) =>
        var inst := Instance(cls, reg.config.value, reg.created);
        Got(reg.(caches := reg.caches[cacheType := inst], created := reg.created + 1), inst)
  }

  /** `get_all_types`: the registered ids in registration order. */
  function GetAllTypes<K>(reg: Registry<K>): seq<string> {
    Keys(reg.classes)
  }

  /** `is_initialized`. */
  predicate IsInitialized<K>(reg: Registry<K>) {
    reg.initialized && reg.config.Some?
  }

  /** `get_config`. */
  function GetConfig<K>(reg: Registry<K>): Option<Config> {
    reg.config
  }

  /** `clear`: drops the built instances; registrations and configuration stay. */
  function Clear<K>(reg: Registry<K>): (r: Registry<K>)
    requires Valid(reg)
    ensures Valid(r) && r.caches == map[]
    ensures GetAllTypes(r) == GetAllTypes(reg) && GetConfig(r) == GetConfig(reg) && IsInitialized(r) == IsInitialized(reg)
  {
    reg.(caches := map[])
  }

  /** `reset`: back to the import-time state (the serial counter goes on). */
  function Reset<K>(reg: Registry<K>): (r: Registry<K>)
    requires Valid(reg)
    ensures Valid(r) && !IsInitialized(r) && GetAllTypes(r) == [] && GetConfig(r).None? && r.caches == map[]
  {
    Registry(map[], [], None, false, reg.created)
  }

  /** Registering each `(cache_type, class)` pair in order. */
  function RegisterAll<K>(reg: Registry<K>, builtins: Classes<K>): (r: Registry<K>)
    requires Valid(reg)
    ensures Valid(r)
    ensures r.caches == reg.caches && r.config == reg.config && r.initialized == reg.initialized
    ensures forall t :: t !in Keys(builtins) ==> Lookup(r.classes, t) == Lookup(reg.classes, t)
    decreases |builtins|
  {
    if builtins == [] then reg
    else
      assert Keys(builtins) == [builtins[0].0] + Keys(builtins[1..]);
      RegisterAll(Register(reg, builtins[0].0, builtins[0].1), builtins[1..])
  }

  /**
   * `_auto_register`: the built-in classes registered under their ids, or
   * nothing at all when one of their modules fails to import (`None`).
   */
  function AutoRegister<K>(reg: Registry<K>, builtins: Option<Classes<K>>): (r: Registry<K>)
    requires Valid(reg)
    ensures Valid(r)
    ensures builtins.None? ==> r == reg
  {
    if builtins.None? then reg else RegisterAll(reg, builtins.value)
  }

  // ----- properties -----

  /** A second `get` of the same id hands out the same instance and changes nothing. */
  lemma GetMemoises<K>(reg: Registry<K>, cacheType: string)
    requires Valid(reg)
    requires Get(reg, cacheType).Got?
    ensures var first := Get(reg, cacheType);
            Get(first.reg, cacheType) == Got(first.reg, first.instance)
  {
  }

  /** After `initialize`, a registered id is served by a new instance built with the new configuration. */
  lemma InitializeRebuilds<K>(reg: Registry<K>, config: Config, cacheType: string, cls: K)
    requires Valid(reg)
    requires Lookup(reg.classes, cacheType) == Some(cls)
    ensures var r := Get(Initialize(reg, config), cacheType);
            && r.Got? && r.instance.cls == cls && r.instance.config == config
            && forall t :: t in reg.caches ==> reg.caches[t] != r.instance
  {
  }

  /**
   * `register` does not drop a built instance: an id rebound to another
   * class is still served by the instance built from the old one until the
   * registry is cleared.
   */
  lemma RegisterKeepsInstance<K>(reg: Registry<K>, cacheType: string, cls: K)
    requires Valid(reg) && IsInitialized(reg)
    requires cacheType in reg.caches
    ensures var r := Get(Register(reg, cacheType, cls), cacheType);
            r.Got? && r.instance == reg.caches[cacheType]
    ensures var r := Get(Clear(Register(reg, cacheType, cls)), cacheType);
            r.Got? && r.instance.cls == cls
  {
  }

  /** After `reset` every `get` raises until the registry is initialized again. */
  lemma ResetForgets<K>(reg: Registry<K>, cacheType: string)
    requires Valid(reg)
    ensures Get(Reset(reg), cacheType) == NotInitialized
    ensures Get(Initialize(Reset(reg), Default()), cacheType) == UnknownType([])
  {
  }

  /** Registering pairs with distinct ids binds each id to its own class. */
  lemma {:induction false} RegisterAllBindsEach<K>(reg: Registry<K>, builtins: Classes<K>)
    requires Valid(reg)
    requires UniqueIds(builtins)
    ensures var r := RegisterAll(reg, builtins);
            forall i :: 0 <= i < |builtins| ==> Lookup(r.classes, builtins[i].0) == Some(builtins[i].1)
    decreases |builtins|
  {
    if builtins != [] {
      var next := Register(reg, builtins[0].0, builtins[0].1);
      RegisterAllBindsEach(next, builtins[1..]);
      var r := RegisterAll(next, builtins[1..]);
      assert Keys(builtins) == [builtins[0].0] + Keys(builtins[1..]);
      forall i | 0 <= i < |builtins|
        ensures Lookup(r.classes, builtins[i].0) == Some(builtins[i].1)
      {
        if i == 0 {
          assert builtins[0].0 !in Keys(builtins[1..]) by {
            forall j | 0 <= j < |builtins[1..]| ensures Keys(builtins[1..])[j] != builtins[0].0 {
              assert builtins[1..][j] == builtins[j + 1];
            }
          }
        } else {
          assert builtins[1..][i - 1] == builtins[i];
        }
      }
    }
  }

  /** Registering into an empty registry lists the ids in the order given. */
  lemma {:induction false} RegisterAllOrder<K>(reg: Registry<K>, builtins: Classes<K>)
    requires Valid(reg)
    requires UniqueIds(builtins)
    requires forall i :: 0 <= i < |builtins| ==> builtins[i].0 !in Keys(reg.classes)
    ensures GetAllTypes(RegisterAll(reg, builtins)) == Keys(reg.classes) + Keys(builtins)
    decreases |builtins|
  {
    if builtins != [] {
      var next := Register(reg, builtins[0].0, builtins[0].1);
      OrderStep(reg, builtins);
      RegisterAllOrder(next, builtins[1..]);
    }
  }

  /** One registration moves the first id from the pairs to the end of the registry's ids. */
  lemma {:induction false} OrderStep<K>(reg: Registry<K>, builtins: Classes<K>)
    requires Valid(reg) && builtins != []
    requires UniqueIds(builtins)
    requires forall i :: 0 <= i < |builtins| ==> builtins[i].0 !in Keys(reg.classes)
    ensures var next := Register(reg, builtins[0].0, builtins[0].1);
            && RegisterAll(reg, builtins) == RegisterAll(next, builtins[1..])
            && UniqueIds(builtins[1..])
            && (forall i :: 0 <= i < |builtins[1..]| ==> builtins[1..][i].0 !in Keys(next.classes))
            && Keys(reg.classes) + Keys(builtins) == Keys(next.classes) + Keys(builtins[1..])
  {
    RestStaysNew(reg, builtins);
    OrderKeys(reg, builtins);
  }

  lemma OrderKeys<K>(reg: Registry<K>, builtins: Classes<K>)
    requires Valid(reg) && builtins != [] && builtins[0].0 !in Keys(reg.classes)
    ensures Keys(reg.classes) + Keys(builtins)
              == Keys(Register(reg, builtins[0].0, builtins[0].1).classes) + Keys(builtins[1..])
  {
    var a := Keys(reg.classes);
    var id := builtins[0].0;
    assert GetAllTypes(Register(reg, id, builtins[0].1)) == a + [id];
    KeysCons(builtins);
    AppendShift(a, id, Keys(builtins[1..]));
  }

  lemma AppendShift(a: seq<string>, x: string, b: seq<string>)
    ensures a + ([x] + b) == a + [x] + b
  {
  }

  lemma KeysCons<K>(d: Classes<K>)
    requires d != []
    ensures Keys(d) == [d[0].0] + Keys(d[1..])
  {
  }

  /** After the first pair is registered, the others are still distinct and still new. */
  lemma {:induction false} RestStaysNew<K>(reg: Registry<K>, builtins: Classes<K>)
    requires Valid(reg) && builtins != []
    requires UniqueIds(builtins)
    requires forall i :: 0 <= i < |builtins| ==> builtins[i].0 !in Keys(reg.classes)
    ensures var next := Register(reg, builtins[0].0, builtins[0].1);
            && UniqueIds(builtins[1..])
            && forall i :: 0 <= i < |builtins[1..]| ==> builtins[1..][i].0 !in Keys(next.classes)
  {
    var next := Register(reg, builtins[0].0, builtins[0].1);
    var rest := builtins[1..];
    assert Keys(next.classes) == Keys(reg.classes) + [builtins[0].0];
    assert Keys(rest) == Keys(builtins)[1..];
    forall i | 0 <= i < |rest| ensures rest[i].0 !in Keys(next.classes) {
      assert rest[i] == builtins[i + 1];
      assert Keys(builtins)[0] != Keys(builtins)[i + 1];
    }
  }

  /** The ids of the built-in types whose classes are part of this model, in registration order. */
  const ModelledBuiltinIds: seq<string> := [
    "file_change", "out_of_func_change",
    "agent_check_result", "branch_tag", "di_agent_state", "ro_agent_state", "fpc_agent_state",
    "decompile_result", "ida_index", "ida_database",
    "llm_query", "git_api", "web_handler"]

  /** No two of these built-in types share an id, so none replaces another. */
  lemma ModelledBuiltinIdsDistinct()
    ensures forall i, j :: 0 <= i < j < |ModelledBuiltinIds| ==> ModelledBuiltinIds[i] != ModelledBuiltinIds[j]
  {
  }
}

=== FILE: seqs.dfy ===
/**
 * Collection helpers: insertion-ordered tallies (what Python's
 * `counts[k] = counts.get(k, 0) + 1` builds) and the code-point order on
 * strings with a sort that `sorted()` on strings is modelled by.
 */
module Seqs {
  /** An insertion-ordered dict from keys to counts. */
  type Tally<K> = seq<(K, nat)>

  predicate UniqueKeys<K(==,!new), V>(t: seq<(K, V)>) {
    forall i, j :: 0 <= i < j < |t| ==> t[i].0 != t[j].0
  }

  /** `counts.get(k, 0)`. */
  function Lookup<K(==,!new)>(t: Tally<K>, k: K): nat {
    if t == [] then 0 else if t[0].0 == k then t[0].1 else Lookup(t[1..], k)
  }

  /** The sum of all counts. */
  function Total<K>(t: Tally<K>): nat {
    if t == [] then 0 else t[0].1 + Total(t[1..])
  }

  /** `counts[k] = counts.get(k, 0) + 1`. */
  function Bump<K(==,!new)>(t: Tally<K>, k: K): (r: Tally<K>)
    requires UniqueKeys(t)
    ensures UniqueKeys(r)
    ensures Lookup(r, k) == Lookup(t, k) + 1
    ensures forall k' :: k' != k ==> Lookup(r, k') == Lookup(t, k')
    ensures Total(r) == Total(t) + 1
    ensures forall i :: 0 <= i < |r| ==> (exists j :: 0 <= j < |t| && r[i].0 == t[j].0) || r[i].0 == k
  {
    if t == [] then [(k, 1)]
    else if t[0].0 == k then [(k, t[0].1 + 1)] + t[1..]
    else
      var rest := Bump(t[1..], k);
      var r := [t[0]] + rest;
      assert forall i :: 1 <= i < |r| ==> r[i] == rest[i - 1];
      BumpKeepsHeadKey(t, k, rest);
      r
  }

  /** The keys bumped into the tail never repeat the head's key. */
  lemma BumpKeepsHeadKey<K(!new)>(t: Tally<K>, k: K, rest: Tally<K>)
    requires UniqueKeys(t) && t != [] && t[0].0 != k
    requires forall i :: 0 <= i < |rest| ==> (exists j :: 0 <= j < |t[1..]| && rest[i].0 == t[1..][j].0) || rest[i].0 == k
    ensures forall i :: 0 <= i < |rest| ==> rest[i].0 != t[0].0
  {
    forall i | 0 <= i < |rest|
      ensures rest[i].0 != t[0].0
    {
      var e := rest[i].0;
      if e != k {
        var j :| 0 <= j < |t[1..]| && e == t[1..][j].0;
        assert e == t[j + 1].0;
      }
    }
  }

  /** Counting each key of `ks`, keys in order of first occurrence. */
  function Count<K(==,!new)>(ks: seq<K>): (r: Tally<K>)
    ensures UniqueKeys(r)
    ensures forall k :: Lookup(r, k) == multiset(ks)[k]
    ensures Total(r) == |ks|
  {
    if ks == [] then []
    else
      var prefix := ks[..|ks| - 1];
      assert ks == prefix + [ks[|ks| - 1]];
      Bump(Count(prefix), ks[|ks| - 1])
  }

  // ----- the code-point order on strings -----

  /** `a <= b` on Python strings. */
  predicate StrLe(a: string, b: string) {
    a == [] || (b != [] && (a[0] < b[0] || (a[0] == b[0] && StrLe(a[1..], b[1..]))))
  }

  lemma {:induction false} StrLeTotal(a: string, b: string)
    ensures StrLe(a, b) || StrLe(b, a)
  {
    if a != [] && b != [] && a[0] == b[0] {
      StrLeTotal(a[1..], b[1..]);
    }
  }

  lemma {:induction false} StrLeAntisymmetric(a: string, b: string)
    requires StrLe(a, b) && StrLe(b, a)
    ensures a == b
  {
    if a != [] {
      StrLeAntisymmetric(a[1..], b[1..]);
      assert a == [a[0]] + a[1..] && b == [b[0]] + b[1..];
    }
  }

  lemma {:induction false} StrLeTransitive(a: string, b: string, c: string)
    requires StrLe(a, b) && StrLe(b, c)
    ensures StrLe(a, c)
  {
    if a != [] && a[0] == b[0] && b[0] == c[0] {
      StrLeTransitive(a[1..], b[1..], c[1..]);
    }
  }

  predicate Sorted(s: seq<string>) {
    forall i, j :: 0 <= i < j < |s| ==> StrLe(s[i], s[j])
  }

  /** Inserting into a sorted sequence. */
  function Insert(x: string, s: seq<string>): (r: seq<string>)
    requires Sorted(s)
    ensures Sorted(r)
    ensures multiset(r) == multiset(s) + multiset{x}
  {
    if s == [] then [x]
    else if StrLe(x, s[0]) then
      SortedFront(x, s);
      [x] + s
    else
      StrLeTotal(x, s[0]);
      var rest := Insert(x, s[1..]);
      SortedBehind(x, s, rest);
      [s[0]] + rest
  }

  /** A string no greater than the head of a sorted sequence can go in front. */
  lemma SortedFront(x: string, s: seq<string>)
    requires Sorted(s) && s != [] && StrLe(x, s[0])
    ensures Sorted([x] + s)
  {
    forall j | 0 <= j < |s| ensures StrLe(x, s[j]) {
      if j > 0 { StrLeTransitive(x, s[0], s[j]); }
    }
    var r := [x] + s;
    assert forall i :: 1 <= i < |r| ==> r[i] == s[i - 1];
  }

  /** The head stays in front of the tail with `x` inserted when it is no greater than `x`. */
  lemma SortedBehind(x: string, s: seq<string>, rest: seq<string>)
    requires Sorted(s) && s != [] && StrLe(s[0], x)
    requires Sorted(rest) && multiset(rest) == multiset(s[1..]) + multiset{x}
    ensures Sorted([s[0]] + rest)
    ensures multiset([s[0]] + rest) == multiset(s) + multiset{x}
  {
    HeadBelowInserted(x, s, rest);
    ConsSorted(s[0], rest);
    assert s == [s[0]] + s[1..];
  }

  /** A string no greater than every element of a sorted sequence can go in front of it. */
  lemma ConsSorted(h: string, rest: seq<string>)
    requires Sorted(rest) && forall e :: e in rest ==> StrLe(h, e)
    ensures Sorted([h] + rest)
  {
    var r := [h] + rest;
    assert forall i :: 1 <= i < |r| ==> r[i] == rest[i - 1] && r[i] in rest;
  }

  lemma HeadBelowInserted(x: string, s: seq<string>, rest: seq<string>)
    requires Sorted(s) && s != [] && StrLe(s[0], x)
    requires multiset(rest) == multiset(s[1..]) + multiset{x}
    ensures forall e :: e in rest ==> StrLe(s[0], e)
  {
    forall e | e in rest ensures StrLe(s[0], e) {
      assert e in multiset(rest);
      if e != x {
        assert e in multiset(s[1..]);
        var j :| 0 <= j < |s[1..]| && s[1..][j] == e;
        assert s[j + 1] == e;
      }
    }
  }

  /** `sorted(xs)` on strings. */
  function Sort(xs: seq<string>): (r: seq<string>)
    ensures Sorted(r)
    ensures multiset(r) == multiset(xs)
  {
    if xs == [] then []
    else
      assert xs == [xs[0]] + xs[1..];
      Insert(xs[0], Sort(xs[1..]))
  }

  lemma SortedHeadIsLeast(s: seq<string>, e: string)
    requires Sorted(s) && e in multiset(s)
    ensures s != [] && StrLe(s[0], e)
  {
    assert e in s;
    var i :| 0 <= i < |s| && s[i] == e;
    if i == 0 {
      StrLeReflexive(e);
    }
  }

  lemma {:induction false} StrLeReflexive(a: string)
    ensures StrLe(a, a)
  {
    if a != [] {
      StrLeReflexive(a[1..]);
    }
  }

  /** Two sorted arrangements of the same strings are the same sequence. */
  lemma {:induction false} SortedUnique(a: seq<string>, b: seq<string>)
    requires Sorted(a) && Sorted(b)
    requires multiset(a) == multiset(b)
    ensures a == b
  {
    if a != [] {
      SameHead(a, b);
      SameTails(a, b);
      SortedUnique(a[1..], b[1..]);
      assert a == [a[0]] + a[1..] && b == [b[0]] + b[1..];
    } else {
      assert |multiset(b)| == 0;
    }
  }

  /** Sorted arrangements of the same strings start with the same string. */
  lemma SameHead(a: seq<string>, b: seq<string>)
    requires Sorted(a) && Sorted(b) && a != []
    requires multiset(a) == multiset(b)
    ensures b != [] && a[0] == b[0]
  {
    assert a[0] in multiset(a);
    SortedHeadIsLeast(b, a[0]);
    SortedHeadIsLeast(a, b[0]);
    StrLeAntisymmetric(a[0], b[0]);
  }

  /** With the same head, the tails are sorted arrangements of the same strings. */
  lemma SameTails(a: seq<string>, b: seq<string>)
    requires Sorted(a) && Sorted(b) && a != [] && b != [] && a[0] == b[0]
    requires multiset(a) == multiset(b)
    ensures Sorted(a[1..]) && Sorted(b[1..])
    ensures multiset(a[1..]) == multiset(b[1..])
  {
    assert a == [a[0]] + a[1..];
    assert b == [b[0]] + b[1..];
    assert multiset(a[1..]) == multiset(a) - multiset{a[0]};
    assert multiset(b[1..]) == multiset(b) - multiset{b[0]};
  }

  /** `sorted` ignores the order of its input. */
  lemma SortIgnoresOrder(xs: seq<string>, ys: seq<string>)
    requires multiset(xs) == multiset(ys)
    ensures Sort(xs) == Sort(ys)
  {
    SortedUnique(Sort(xs), Sort(ys));
  }
}

=== FILE: strings.dfy ===
/**
 * String primitives with Python's semantics, restricted to ASCII where Python
 * consults Unicode tables (whitespace, letter case, alphanumerics).
 */
module Strs {
  import opened Wrappers

  /** `str.isspace()` on ASCII characters. */
  predicate IsSpace(c: char) {
    c == ' ' || c == '\t' || c == '\n' || c == '\r' || c == '\U{000B}' || c == '\U{000C}'
    || ('\U{001C}' <= c <= '\U{001F}')
  }

  /** The characters at which `str.splitlines()` ends a line. */
  predicate IsLineBreak(c: char) {
    c == '\n' || c == '\r' || c == '\U{000B}' || c == '\U{000C}' || c == '\U{001C}' || c == '\U{001D}'
    || c == '\U{001E}' || c == '\U{0085}' || c == '\U{2028}' || c == '\U{2029}'
  }

  predicate NoLineBreak(s: string) {
    forall i :: 0 <= i < |s| ==> !IsLineBreak(s[i])
  }

  predicate IsDigit(c: char) { '0' <= c <= '9' }
  predicate IsUpper(c: char) { 'A' <= c <= 'Z' }
  predicate IsLower(c: char) { 'a' <= c <= 'z' }
  /** `str.isalnum()` on ASCII characters. */
  predicate IsAlnum(c: char) { IsDigit(c) || IsUpper(c) || IsLower(c) }

  /** `str.lstrip()`: drops leading whitespace. */
  function LStrip(s: string): (r: string)
    ensures |r| <= |s|
    ensures r == [] || !IsSpace(r[0])
    ensures forall i :: 0 <= i < |s| - |r| ==> IsSpace(s[i])
  {
    if s != [] && IsSpace(s[0]) then LStrip(s[1..]) else s
  }

  /** What `lstrip` keeps is the tail of the text after the whitespace it drops. */
  lemma {:induction false} LStripSuffix(s: string)
    ensures LStrip(s) == s[|s| - |LStrip(s)|..]
  {
    if s != [] && IsSpace(s[0]) {
      LStripSuffix(s[1..]);
      assert s[1..][|s| - 1 - |LStrip(s)|..] == s[|s| - |LStrip(s)|..];
    }
  }

  /** `str.rstrip()`: drops trailing whitespace. */
  function RStrip(s: string): (r: string)
    ensures |r| <= |s| && r == s[..|r|]
    ensures r == [] || !IsSpace(r[|r| - 1])
    ensures forall i :: |r| <= i < |s| ==> IsSpace(s[i])
  {
    if s != [] && IsSpace(s[|s| - 1]) then RStrip(s[..|s| - 1]) else s
  }

  /** `str.strip()`. */
  function Strip(s: string): (r: string)
    ensures |r| <= |s|
    ensures r == [] || (!IsSpace(r[0]) && !IsSpace(r[|r| - 1]))
  {
    RStrip(LStrip(s))
  }

  /** No whitespace at either end. */
  predicate Trimmed(s: string) {
    s == [] || (!IsSpace(s[0]) && !IsSpace(s[|s| - 1]))
  }

  /** `rstrip` drops a trailing space. */
  lemma RStripSpace(l: string)
    ensures RStrip(l + " ") == RStrip(l)
  {
    assert (l + " ")[..|l + " "| - 1] == l;
  }

  lemma LStripSpace(l: string)
    ensures LStrip(" " + l) == LStrip(l)
  {
    assert (" " + l)[1..] == l;
  }

  /** A trimmed text trims to itself. */
  lemma StripStripped(t: string)
    requires Trimmed(t)
    ensures Strip(t) == t
  {
    assert LStrip(t) == t;
  }

  /** `str.strip(c)` for a single character `c`. */
  function StripChar(s: string, c: char): (r: string)
    ensures |r| <= |s|
    ensures r == [] || (r[0] != c && r[|r| - 1] != c)
  {
    if s != [] && s[0] == c then StripChar(s[1..], c)
    else if s != [] && s[|s| - 1] == c then StripChar(s[..|s| - 1], c)
    else s
  }

  function LowerChar(c: char): (r: char)
    ensures !IsUpper(r)
    ensures !IsUpper(c) ==> r == c
  {
    if IsUpper(c) then (c as int + 32) as char else c
  }

  /** `str.lower()`. */
  function Lower(s: string): (r: string)
    ensures |r| == |s|
    ensures forall i :: 0 <= i < |s| ==> r[i] == LowerChar(s[i])
  {
    seq(|s|, i requires 0 <= i < |s| => LowerChar(s[i]))
  }

  /** `str.replace(c, "")` for a single character. */
  function RemoveChar(s: string, c: char): (r: string)
    ensures |r| <= |s|
    ensures forall i :: 0 <= i < |r| ==> r[i] != c
    ensures c !in s ==> r == s
  {
    if s == [] then [] else (if s[0] == c then [] else [s[0]]) + RemoveChar(s[1..], c)
  }

  /** `str.replace(a, b)` for single characters. */
  function ReplaceChar(s: string, a: char, b: char): (r: string)
    ensures |r| == |s|
    ensures forall i :: 0 <= i < |s| ==> r[i] == (if s[i] == a then b else s[i])
  {
    seq(|s|, i requires 0 <= i < |s| => if s[i] == a then b else s[i])
  }

  predicate StartsWith(s: string, prefix: string) { prefix <= s }

  predicate EndsWith(s: string, suffix: string) {
    |suffix| <= |s| && s[|s| - |suffix|..] == suffix
  }

  /** `str.find(sub)`: the first index at which `sub` occurs. */
  function Find(s: string, sub: string): (r: Option<nat>)
    ensures r.Some? ==> r.value + |sub| <= |s| && s[r.value..r.value + |sub|] == sub
    ensures r.Some? ==> forall k :: 0 <= k < r.value ==> !(sub <= s[k..])
    ensures r.None? ==> forall k :: 0 <= k <= |s| ==> !(sub <= s[k..])
  {
    if sub <= s then Some(0)
    else if s == [] then None
    else
      match Find(s[1..], sub)
      case None =>
        FindTailNone(s, sub);
        None
      case Some(k) =>
        FindTailSome(s, sub, k);
        Some(k + 1)
  }

  /** No occurrence at the head nor in the tail is no occurrence at all. */
  lemma FindTailNone(s: string, sub: string)
    requires s != [] && !(sub <= s)
    requires forall k :: 0 <= k <= |s[1..]| ==> !(sub <= s[1..][k..])
    ensures forall k :: 0 <= k <= |s| ==> !(sub <= s[k..])
  {
    forall k | 0 <= k <= |s|
      ensures !(sub <= s[k..])
    {
      if k > 0 {
        assert s[k..] == s[1..][k - 1..];
      }
    }
  }

  /** The first occurrence in the tail, one further on, is the first in the whole. */
  lemma FindTailSome(s: string, sub: string, k: nat)
    requires s != [] && !(sub <= s)
    requires k + |sub| <= |s[1..]| && s[1..][k..k + |sub|] == sub
    requires forall j :: 0 <= j < k ==> !(sub <= s[1..][j..])
    ensures k + 1 + |sub| <= |s| && s[k + 1..k + 1 + |sub|] == sub
    ensures forall j :: 0 <= j < k + 1 ==> !(sub <= s[j..])
  {
    assert s[k + 1..k + 1 + |sub|] == s[1..][k..k + |sub|];
    forall j | 0 <= j < k + 1
      ensures !(sub <= s[j..])
    {
      if j > 0 {
        assert s[j..] == s[1..][j - 1..];
      }
    }
  }

  /** Python's `sub in s`. */
  predicate Contains(s: string, sub: string) { Find(s, sub).Some? }

  /** The length of the leading run of non-whitespace characters. */
  function TokenLen(s: string): (k: nat)
    ensures k <= |s|
    ensures forall i :: 0 <= i < k ==> !IsSpace(s[i])
    ensures k < |s| ==> IsSpace(s[k])
  {
    if s == [] || IsSpace(s[0]) then 0 else 1 + TokenLen(s[1..])
  }

  predicate IsToken(t: string) {
    t != [] && forall i :: 0 <= i < |t| ==> !IsSpace(t[i])
  }

  /** `str.split()` with no separator: the maximal runs of non-whitespace. */
  function SplitWs(s: string): (r: seq<string>)
    ensures forall i :: 0 <= i < |r| ==> IsToken(r[i])
    ensures s != [] && !IsSpace(s[0]) ==> r != []
  {
    SplitStripped(LStrip(s))
  }

  /** The words of a string that starts with a non-space, or is empty. */
  function SplitStripped(t: string): (r: seq<string>)
    requires t == [] || !IsSpace(t[0])
    ensures forall i :: 0 <= i < |r| ==> IsToken(r[i])
    ensures t != [] ==> r != []
    decreases |t|
  {
    if t == [] then []
    else
      var k := TokenLen(t);
      TokenPrefix(t);
      var tok := t[..k];
      var rest := SplitStripped(LStrip(t[k..]));
      TokensCons(tok, rest);
      [tok] + rest
  }

  /** A string that starts with a non-space starts with a token. */
  lemma TokenPrefix(s: string)
    requires s != [] && !IsSpace(s[0])
    ensures 0 < TokenLen(s) && IsToken(s[..TokenLen(s)])
  {
    var k := TokenLen(s);
    assert forall i :: 0 <= i < k ==> s[..k][i] == s[i];
  }

  lemma TokensCons(tok: string, rest: seq<string>)
    requires IsToken(tok) && forall i :: 0 <= i < |rest| ==> IsToken(rest[i])
    ensures forall i :: 0 <= i < |[tok] + rest| ==> IsToken(([tok] + rest)[i])
  {
  }

  /** `sep.join(xs)`. */
  function Join(sep: string, xs: seq<string>): (r: string)
    ensures xs == [] ==> r == []
    ensures |xs| == 1 ==> r == xs[0]
  {
    if xs == [] then [] else if |xs| == 1 then xs[0] else xs[0] + sep + Join(sep, xs[1..])
  }

  lemma {:induction false} JoinedWordsTrimmed(words: seq<string>)
    requires words != [] && forall i :: 0 <= i < |words| ==> IsToken(words[i])
    ensures Join(" ", words) != [] && !IsSpace(Join(" ", words)[0]) && !IsSpace(Join(" ", words)[|Join(" ", words)| - 1])
    ensures Join(" ", words)[..|words[0]|] == words[0]
  {
    if |words| > 1 {
      JoinedWordsTrimmed(words[1..]);
      var rest := Join(" ", words[1..]);
      assert Join(" ", words) == words[0] + " " + rest;
    }
  }

  /** Splitting words joined by spaces gives the words back. */
  lemma {:induction false} SplitJoinedWords(words: seq<string>)
    requires forall i :: 0 <= i < |words| ==> IsToken(words[i])
    ensures SplitWs(Join(" ", words)) == words
  {
    if words == [] {
    } else if |words| == 1 {
      var w := words[0];
      assert Join(" ", words) == w + [];
      SplitToken(w, []);
    } else {
      var w := words[0];
      var rest := Join(" ", words[1..]);
      assert Join(" ", words) == w + (" " + rest);
      SplitToken(w, " " + rest);
      SplitAfterSpace(rest);
      SplitJoinedWords(words[1..]);
    }
  }

  /** A token followed by whitespace (or nothing) is split off first. */
  lemma {:induction false} SplitToken(w: string, tail: string)
    requires IsToken(w)
    requires tail == [] || IsSpace(tail[0])
    ensures SplitWs(w + tail) == [w] + SplitWs(tail)
  {
    var s := w + tail;
    assert LStrip(s) == s;
    TokenRun(w, tail);
    assert s[..|w|] == w;
    assert s[|w|..] == tail;
  }

  lemma {:induction false} TokenRun(w: string, tail: string)
    requires IsToken(w)
    requires tail == [] || IsSpace(tail[0])
    ensures TokenLen(w + tail) == |w|
    decreases |w|
  {
    if |w| > 1 {
      assert (w + tail)[1..] == w[1..] + tail;
      TokenRun(w[1..], tail);
    } else {
      assert (w + tail)[1..] == tail;
    }
  }

  lemma {:induction false} SplitAfterSpace(rest: string)
    ensures SplitWs(" " + rest) == SplitWs(rest)
  {
    var s := " " + rest;
    assert s != [] && IsSpace(s[0]) && s[1..] == rest;
    assert LStrip(s) == LStrip(rest);
  }

  /** The index of the first line break in `s`, or `|s|`. */
  function FirstBreak(s: string): (k: nat)
    ensures k <= |s|
    ensures forall i :: 0 <= i < k ==> !IsLineBreak(s[i])
    ensures k < |s| ==> IsLineBreak(s[k])
  {
    if s == [] || IsLineBreak(s[0]) then 0 else 1 + FirstBreak(s[1..])
  }

  /** `str.splitlines()`: `\r\n` ends one line; a final line break adds no empty line. */
  function SplitLines(s: string): (r: seq<string>)
    ensures forall i :: 0 <= i < |r| ==> NoLineBreak(r[i])
    ensures s == [] <==> r == []
    decreases |s|
  {
    if s == [] then []
    else
      var k := FirstBreak(s);
      if k == |s| then [s]
      else
        var skip := if s[k] == '\r' && k + 1 < |s| && s[k + 1] == '\n' then 2 else 1;
        [s[..k]] + SplitLines(s[k + skip..])
  }

  /** Lines each followed by `"\n"`: what `"\n".join(lines) + "\n"` writes. */
  function Terminated(lines: seq<string>): (r: string)
    ensures lines != [] ==> r == Join("\n", lines) + "\n"
  {
    if lines == [] then [] else lines[0] + "\n" + Terminated(lines[1..])
  }

  lemma SplitLinesCons(line: string, tail: string)
    requires NoLineBreak(line)
    ensures SplitLines(line + "\n" + tail) == [line] + SplitLines(tail)
  {
    var s := line + "\n" + tail;
    FirstBreakAt(line, tail);
    assert s[|line| + 1..] == tail;
    assert s[..|line|] == line;
  }

  lemma FirstBreakAt(line: string, tail: string)
    requires NoLineBreak(line)
    ensures FirstBreak(line + "\n" + tail) == |line|
  {
    var s := line + "\n" + tail;
    assert forall i :: 0 <= i < |line| ==> s[i] == line[i];
    assert IsLineBreak(s[|line|]);
  }

  /** Splitting what `Terminated` wrote gives back the lines. */
  lemma {:induction false} SplitTerminated(lines: seq<string>)
    requires forall i :: 0 <= i < |lines| ==> NoLineBreak(lines[i])
    ensures SplitLines(Terminated(lines)) == lines
  {
    if lines != [] {
      SplitTerminated(lines[1..]);
      SplitLinesCons(lines[0], Terminated(lines[1..]));
    }
  }

  lemma SplitSingle(line: string)
    requires line != [] && NoLineBreak(line)
    ensures SplitLines(line) == [line]
  {
  }

  /** Splitting `sep.join(lines)` with a line-break separator gives back non-empty lines. */
  lemma {:induction false} SplitJoined(lines: seq<string>)
    requires forall i :: 0 <= i < |lines| ==> lines[i] != [] && NoLineBreak(lines[i])
    ensures SplitLines(Join("\n", lines)) == lines
  {
    if |lines| == 1 {
      SplitSingle(lines[0]);
    } else if |lines| > 1 {
      SplitJoined(lines[1..]);
      SplitLinesCons(lines[0], Join("\n", lines[1..]));
    }
  }

  // ----- integers -----

  function DigitChar(d: nat): (c: char)
    requires d < 10
    ensures IsDigit(c)
  {
    ('0' as int + d) as char
  }

  function DigitValue(c: char): (d: nat)
    requires IsDigit(c)
    ensures d < 10 && DigitChar(d) == c
  {
    c as int - '0' as int
  }

  predicate IsDigits(s: string) {
    s != [] && forall i :: 0 <= i < |s| ==> IsDigit(s[i])
  }

  /** The value of a run of decimal digits. */
  function DigitsValue(s: string): nat
    requires forall i :: 0 <= i < |s| ==> IsDigit(s[i])
  {
    if s == [] then 0 else DigitsValue(s[..|s| - 1]) * 10 + DigitValue(s[|s| - 1])
  }

  /** `str(n)` for a natural number. */
  function NatToString(n: nat): (r: string)
    ensures IsDigits(r)
  {
    if n < 10 then [DigitChar(n)] else NatToString(n / 10) + [DigitChar(n % 10)]
  }

  /** `str(i)` for an integer. */
  function IntToString(i: int): (r: string)
    ensures r != []
  {
    if i < 0 then "-" + NatToString(-i) else NatToString(i)
  }

  /** An optional sign followed by at least one ASCII digit, and nothing else. */
  function SignedDigits(t: string): (r: Option<int>)
    ensures r.Some? ==> t != []
  {
    if t != [] && (t[0] == '-' || t[0] == '+') && IsDigits(t[1..]) then
      var v: int := DigitsValue(t[1..]);
      Some(if t[0] == '-' then -v else v)
    else if IsDigits(t) then Some(DigitsValue(t))
    else None
  }

  /**
   * `int(s)` on a string: surrounding whitespace, an optional sign and at least
   * one ASCII digit; anything else raises (here: None).
   */
  function ParseInt(s: string): (r: Option<int>)
    ensures r.Some? ==> Strip(s) != []
  {
    SignedDigits(Strip(s))
  }

  /** The check behind `int(x)` succeeding. */
  predicate IsIntString(s: string) { ParseInt(s).Some? }

  lemma {:induction false} DigitsOfNat(n: nat)
    ensures DigitsValue(NatToString(n)) == n
    decreases n
  {
    var s := NatToString(n);
    if n >= 10 {
      DigitsOfNat(n / 10);
      assert s[..|s| - 1] == NatToString(n / 10);
    }
  }

  lemma StripDigits(s: string)
    requires IsDigits(s)
    ensures Strip(s) == s
  {
    assert !IsSpace(s[0]);
    assert !IsSpace(s[|s| - 1]);
  }

  /** `int(str(i)) == i`. */
  lemma ParseShownInt(i: int)
    ensures ParseInt(IntToString(i)) == Some(i)
  {
    if i < 0 {
      ParseShownNegative(i);
    } else {
      ParseNatural(i);
    }
  }

  lemma ParseShownNegative(i: int)
    requires i < 0
    ensures ParseInt(IntToString(i)) == Some(i)
  {
    var n: nat := -i;
    assert IntToString(i) == "-" + NatToString(n);
    ParseNegative(n);
  }

  lemma ParseNatural(n: nat)
    ensures ParseInt(NatToString(n)) == Some(n)
  {
    var d := NatToString(n);
    DigitsOfNat(n);
    StripDigits(d);
    assert IsDigit(d[0]);
  }

  lemma ParseNegative(n: nat)
    ensures ParseInt("-" + NatToString(n)) == Some(-(n as int))
  {
    var d := NatToString(n);
    var t := "-" + d;
    DigitsOfNat(n);
    assert t[1..] == d;
    assert Strip(t) == t by {
      assert !IsSpace(t[0]) && !IsSpace(t[|t| - 1]);
    }
  }

  // ----- decimal numbers -----

  /** The first index holding one of `cs`. */
  function IndexIn(s: string, cs: set<char>): (r: Option<nat>)
    ensures r.Some? ==> r.value < |s| && s[r.value] in cs
    ensures r.Some? ==> forall i :: 0 <= i < r.value ==> s[i] !in cs
    ensures r.None? ==> forall i :: 0 <= i < |s| ==> s[i] !in cs
  {
    if s == [] then None
    else if s[0] in cs then Some(0)
    else
      match IndexIn(s[1..], cs)
      case None => None
      case Some(k) => Some(k + 1)
  }

  /** A possibly empty run of digits. */
  predicate AllDigits(s: string) {
    forall i :: 0 <= i < |s| ==> IsDigit(s[i])
  }

  function Pow10(n: nat): (r: nat)
    ensures r >= 1
  {
    if n == 0 then 1 else 10 * Pow10(n - 1)
  }

  /** The value of the digits `whole`, a point, then the digits `frac`. */
  function PointValue(whole: string, frac: string): real
    requires AllDigits(whole) && AllDigits(frac)
  {
    DigitsValue(whole) as real + DigitsValue(frac) as real / Pow10(|frac|) as real
  }

  /** Digits with an optional decimal point, and a digit on at least one side of it. */
  function Mantissa(m: string): Option<real> {
    match IndexIn(m, {'.'})
    case None => if IsDigits(m) then Some(DigitsValue(m) as real) else None
    case Some(p) =>
      var whole, frac := m[..p], m[p + 1..];
      if AllDigits(whole) && AllDigits(frac) && (whole != [] || frac != []) then
        Some(PointValue(whole, frac))
      else None
  }

  /** `v` times ten to the power `e`. */
  function Scale(v: real, e: int): real {
    if e >= 0 then v * Pow10(e) as real else v / Pow10(-e) as real
  }

  /** An unsigned decimal: a mantissa, then an optional signed exponent after 'e' or 'E'. */
  function Unsigned(t: string): Option<real> {
    match IndexIn(t, {'e', 'E'})
    case None => Mantissa(t)
    case Some(k) =>
      match (Mantissa(t[..k]), SignedDigits(t[k + 1..]))
      case (Some(v), Some(e)) => Some(Scale(v, e))
      case _ => None
  }

  /**
   * `float(s)` on a string, for the finite decimal forms: surrounding
   * whitespace, an optional sign, digits with an optional point and an
   * optional exponent; anything else raises (here: None).
   */
  function ParseFloat(s: string): (r: Option<real>)
    ensures r.Some? ==> Strip(s) != []
  {
    var t := Strip(s);
    if t != [] && (t[0] == '-' || t[0] == '+') then
      match Unsigned(t[1..])
      case None => None
      case Some(v) => Some(if t[0] == '-' then -v else v)
    else Unsigned(t)
  }

  /** Digits contain neither a point nor an exponent marker. */
  lemma DigitsPlain(d: string, cs: set<char>)
    requires AllDigits(d)
    requires forall c :: c in cs ==> !IsDigit(c)
    ensures IndexIn(d, cs).None?
  {
  }

  /** The first index holding one of `cs` is found. */
  lemma {:induction false} IndexInAt(s: string, cs: set<char>, k: nat)
    requires k < |s| && s[k] in cs
    requires forall i :: 0 <= i < k ==> s[i] !in cs
    ensures IndexIn(s, cs) == Some(k)
  {
    if k > 0 {
      IndexInAt(s[1..], cs, k - 1);
    }
  }

  /** `float()` accepts every string `int()` accepts, with the same value. */
  lemma FloatReadsInts(s: string)
    requires ParseInt(s).Some?
    ensures ParseFloat(s) == Some(ParseInt(s).value as real)
  {
    var t := Strip(s);
    if t[0] == '-' || t[0] == '+' {
      DigitsPlain(t[1..], {'e', 'E'});
      DigitsPlain(t[1..], {'.'});
    } else {
      DigitsPlain(t, {'e', 'E'});
      DigitsPlain(t, {'.'});
    }
  }

  /** `float("w.f")` is the whole part plus the fraction's digits over a power of ten. */
  lemma FloatReadsDecimals(w: string, f: string)
    requires IsDigits(w) && AllDigits(f)
    ensures ParseFloat(w + "." + f) == Some(PointValue(w, f))
  {
    var t := w + "." + f;
    var x := PointValue(w, f);
    assert Strip(t) == t by {
      StripTrimmed(t);
    }
    assert t[0] != '-' && t[0] != '+' by {
      assert t[0] == w[0];
    }
    assert Unsigned(t) == Some(x) by {
      DecimalPlain(w, f);
      DecimalMantissa(w, f);
    }
  }

  /** The mantissa "w.f" splits at its point. */
  lemma DecimalMantissa(w: string, f: string)
    requires AllDigits(w) && AllDigits(f) && w != []
    ensures Mantissa(w + "." + f) == Some(PointValue(w, f))
  {
    var t := w + "." + f;
    IndexInAt(t, {'.'}, |w|);
    assert t[..|w|] == w && t[|w| + 1..] == f;
  }

  /** Stripping text without surrounding whitespace changes nothing. */
  lemma StripTrimmed(t: string)
    requires t != [] && IsDigit(t[0]) && (IsDigit(t[|t| - 1]) || t[|t| - 1] == '.')
    ensures Strip(t) == t
  {
  }

  /** "w.f" holds no exponent marker. */
  lemma DecimalPlain(w: string, f: string)
    requires AllDigits(w) && AllDigits(f)
    ensures IndexIn(w + "." + f, {'e', 'E'}).None?
  {
    var t := w + "." + f;
    forall i | 0 <= i < |t| ensures t[i] !in {'e', 'E'} {
      if i < |w| { assert t[i] == w[i]; } else if i > |w| { assert t[i] == f[i - |w| - 1]; }
    }
  }

  /** The decimal string a model might give as its confidence. */
  lemma FloatReadsConfidence()
    ensures ParseFloat("0.85") == Some(0.85)
  {
    var w, f := "0", "85";
    assert IsDigits(w) && AllDigits(f);
    assert DigitsValue(w) == 0 by {
      assert w[..0] == [];
    }
    assert DigitsValue(f) == 85 by {
      assert f[..1] == "8" && f[..1][..0] == [];
    }
    assert Pow10(|f|) == 100;
    FloatReadsDecimals(w, f);
    assert w + "." + f == "0.85";
  }
}

=== FILE: telemetry.dfy ===
/**
 * Decision telemetry: the row the orchestrator appends to its JSON-lines log
 * for every decision it hands back.
 */
module DecisionTelemetry {
  import opened Wrappers
  import opened JsonValues
  import opened AgentData
  import Strs

  /** `DecisionTelemetry`. */
  datatype Telemetry = Telemetry(
    timestampUtc: string,
    stateSnapshotHash: string,
    handlerName: string,
    screenType: string,
    toolCallsUsed: seq<Json>,
    proposedCommand: Option<string>,
    validationResult: string,
    fallbackUsed: bool,
    latencyMs: int,
    estimatedCostUsd: Option<real>,
    tokenIn: Option<int>,
    tokenOut: Option<int>,
    confidence: real,
    metadata: map<string, Json>)

  function Strings(xs: seq<string>): (r: seq<Json>)
    ensures |r| == |xs| && forall i :: 0 <= i < |xs| ==> r[i] == JStr(xs[i])
  {
    seq(|xs|, i requires 0 <= i < |xs| => JStr(xs[i]))
  }

  /** The state payload `compute_state_snapshot_hash` hashes. */
  function SnapshotPayload(ctx: AgentContext): Json {
    JObj(map[
      "handler_name" := JStr(ctx.handlerName),
      "screen_type" := JStr(ctx.screenType),
      "available_commands" := JArr(Strings(ctx.availableCommands)),
      "choice_list" := JArr(Strings(ctx.choiceList)),
      "game_state" := JObj(ctx.gameState),
      "extras" := JObj(ctx.extras)])
  }

  /** The keys `build_decision_telemetry` pops out of the copied metadata. */
  const Popped: set<string> := {"token_in", "token_out", "estimated_cost_usd"}

  /** `metadata.pop(key, None)`: the value, with an absent key read as None. */
  function PopValue(m: map<string, Json>, key: string): Json {
    Get(m, key, JNull)
  }

  /** `int(x) if x is not None else None`; the outer None is `int()` raising. */
  function OptInt(j: Json): (r: Option<Option<int>>)
    ensures j == JNull ==> r == Some(None)
    ensures j != JNull ==> (r.Some? <==> IntOf(j).Some?)
    ensures j != JNull && r.Some? ==> r.value == Some(IntOf(j).value)
  {
    if j == JNull then Some(None)
    else match IntOf(j)
      case None => None
      case Some(i) => Some(Some(i))
  }

  /** `float(x) if x is not None else None`; the outer None is `float()` raising. */
  function OptReal(j: Json): (r: Option<Option<real>>)
    ensures j == JNull ==> r == Some(None)
    ensures j != JNull ==> (r.Some? <==> FloatOf(j).Some?)
    ensures j != JNull && r.Some? ==> r.value == Some(FloatOf(j).value)
  {
    if j == JNull then Some(None)
    else match FloatOf(j)
      case None => None
      case Some(x) => Some(Some(x))
  }

  /**
   * `build_decision_telemetry`: the decision's fields, the token and cost
   * figures taken out of a copy of its metadata, and the validation code
   * (`ok` when none was recorded). `snapshotHash` is
   * `sha256_from_json_payload`; None is a conversion raising.
   */
  function BuildTelemetry(ffi: Ffi, snapshotHash: Json -> string, ctx: AgentContext, d: AgentDecision,
                          latencyMs: int, timestamp: string): (r: Option<Telemetry>)
    ensures r.Some? <==>
              OptInt(PopValue(d.metadata, "token_in")).Some? && OptInt(PopValue(d.metadata, "token_out")).Some?
              && OptReal(PopValue(d.metadata, "estimated_cost_usd")).Some?
    ensures r.Some? ==>
              && r.value.metadata.Keys == d.metadata.Keys - Popped
              && (forall k :: k in r.value.metadata ==> r.value.metadata[k] == d.metadata[k])
              && r.value.validationResult == PyStr(ffi, Get(d.metadata, "validation_error", JStr("ok")))
              && r.value.fallbackUsed == d.fallbackRecommended
              && r.value.toolCallsUsed == d.toolsUsed
              && r.value.proposedCommand == d.proposedCommand
              && r.value.confidence == d.confidence
              && r.value.handlerName == ctx.handlerName
              && r.value.stateSnapshotHash == snapshotHash(SnapshotPayload(ctx))
              && (r.value.tokenIn.None? <==> PopValue(d.metadata, "token_in") == JNull)
              && (r.value.tokenOut.None? <==> PopValue(d.metadata, "token_out") == JNull)
              && (r.value.estimatedCostUsd.None? <==> PopValue(d.metadata, "estimated_cost_usd") == JNull)
  {
    var tokenIn := OptInt(PopValue(d.metadata, "token_in"));
    var tokenOut := OptInt(PopValue(d.metadata, "token_out"));
    var cost := OptReal(PopValue(d.metadata, "estimated_cost_usd"));
    if tokenIn.None? || tokenOut.None? || cost.None? then None
    else
      Some(Telemetry(
        timestamp,
        snapshotHash(SnapshotPayload(ctx)),
        ctx.handlerName,
        ctx.screenType,
        d.toolsUsed,
        d.proposedCommand,
        PyStr(ffi, Get(d.metadata, "validation_error", JStr("ok"))),
        d.fallbackRecommended,
        latencyMs,
        cost.value,
        tokenIn.value,
        tokenOut.value,
        d.confidence,
        d.metadata - Popped))
  }

  /**
   * The validation code survives in the row's metadata too: only the token
   * and cost figures are taken out.
   */
  lemma ValidationErrorKept(ffi: Ffi, snapshotHash: Json -> string, ctx: AgentContext, d: AgentDecision,
                            latencyMs: int, timestamp: string)
    requires BuildTelemetry(ffi, snapshotHash, ctx, d, latencyMs, timestamp).Some?
    requires "validation_error" in d.metadata
    ensures var t := BuildTelemetry(ffi, snapshotHash, ctx, d, latencyMs, timestamp).value;
            "validation_error" in t.metadata && t.metadata["validation_error"] == d.metadata["validation_error"]
            && t.validationResult == PyStr(ffi, d.metadata["validation_error"])
  {
    assert "validation_error" !in Popped;
  }

  /** A cost given as a decimal string is read as `float()` reads it. */
  lemma DecimalCostRead()
    ensures OptReal(JStr("0.85")) == Some(Some(0.85))
  {
    Strs.FloatReadsConfidence();
  }

  /** Token and cost figures as the pipeline records them: integers and a float. */
  predicate PlainFigures(m: map<string, Json>) {
    && ("token_in" in m ==> m["token_in"].JInt?)
    && ("token_out" in m ==> m["token_out"].JInt?)
    && ("estimated_cost_usd" in m ==> m["estimated_cost_usd"].JReal?)
  }

  /** The row's metadata with the figures taken out of it put back. */
  function Restored(t: Telemetry): map<string, Json> {
    var m := t.metadata;
    var m := if t.tokenIn.Some? then m["token_in" := JInt(t.tokenIn.value)] else m;
    var m := if t.tokenOut.Some? then m["token_out" := JInt(t.tokenOut.value)] else m;
    if t.estimatedCostUsd.Some? then m["estimated_cost_usd" := JReal(t.estimatedCostUsd.value)] else m
  }

  /**
   * A decision with plainly recorded figures always gets a row, and the row
   * gives back everything the decision held apart from its explanation: the
   * command, confidence, tools, fallback flag and, with the figures put
   * back, the whole metadata.
   */
  lemma RowRecordsDecision(ffi: Ffi, snapshotHash: Json -> string, ctx: AgentContext, d: AgentDecision,
                           latencyMs: int, timestamp: string)
    requires PlainFigures(d.metadata)
    ensures BuildTelemetry(ffi, snapshotHash, ctx, d, latencyMs, timestamp).Some?
    ensures var t := BuildTelemetry(ffi, snapshotHash, ctx, d, latencyMs, timestamp).value;
            && t.proposedCommand == d.proposedCommand && t.confidence == d.confidence
            && t.toolCallsUsed == d.toolsUsed && t.fallbackUsed == d.fallbackRecommended
            && Restored(t) == d.metadata
  {
    var t := BuildTelemetry(ffi, snapshotHash, ctx, d, latencyMs, timestamp).value;
    var m := Restored(t);
    assert m.Keys == d.metadata.Keys;
    forall k | k in m ensures m[k] == d.metadata[k] {
      if k == "token_in" {
        assert PopValue(d.metadata, k) == d.metadata[k];
      } else if k == "token_out" {
        assert PopValue(d.metadata, k) == d.metadata[k];
      } else if k == "estimated_cost_usd" {
        assert PopValue(d.metadata, k) == d.metadata[k];
      }
    }
  }
}

=== FILE: validator.dfy ===
/**
 * The command validator: checks an advisor's proposed command against the
 * commands the game currently offers and against each command's syntax.
 */
module CommandValidator {
  import opened Wrappers
  import opened Strs
  import opened JsonValues
  import opened AgentData

  /** The codes the validator hands out. */
  datatype Code =
    | Ok
    | EmptyCommand
    | CommandNotAvailable
    | BadSyntax
    | IndexOutOfRange
    | ChoiceNotFound
    | UnknownCommand
  {
    /** The code as written into decision metadata. */
    function Text(): string {
      match this
      case Ok => "ok"
      case EmptyCommand => "empty_command"
      case CommandNotAvailable => "command_not_available"
      case BadSyntax => "bad_syntax"
      case IndexOutOfRange => "index_out_of_range"
      case ChoiceNotFound => "choice_not_found"
      case UnknownCommand => "unknown_command"
    }
  }

  /** `ValidationResult`; every constructor call in the validator pairs validity with the `ok` code. */
  datatype ValidationResult = ValidationResult(code: Code, message: string) {
    predicate IsValid() { code == Ok }
  }

  /** The codes a command's own syntax check can give. */
  predicate SyntaxCode(c: Code) {
    c == Ok || c == BadSyntax || c == IndexOutOfRange || c == ChoiceNotFound
  }

  function Valid(): ValidationResult { ValidationResult(Ok, "valid") }
  function Invalid(code: Code, message: string): ValidationResult
    requires code != Ok
  {
    ValidationResult(code, message)
  }

  /** The commands that take no arguments. */
  const BareCommands: set<string> := {"end", "skip", "confirm", "proceed", "return", "leave", "cancel"}

  /** The offered commands any one of which makes `name` available. */
  function Required(name: string): (r: set<string>)
    ensures name == "return" ==> r == {"leave", "cancel"}
    ensures name == "proceed" ==> r == {"proceed", "confirm"}
    ensures name != "return" && name != "proceed" ==> r == {name}
  {
    if name == "return" then {"leave", "cancel"}
    else if name == "proceed" then {"proceed", "confirm"}
    else {name}
  }

  predicate Available(name: string, offered: seq<string>) {
    exists req :: req in Required(name) && req in offered
  }

  /** `int(context.extras.get(key, 0))`; None where `int()` raises. */
  function ExtraInt(extras: map<string, Json>, key: string): Option<int> {
    IntOf(Get(extras, key, JInt(0)))
  }

  function IntArg(s: string): int
    requires IsIntString(s)
  {
    ParseInt(s).value
  }

  /** `_validate_choose`: one argument, an index into the choices or one of their labels. */
  function ValidateChoose(args: seq<string>, choices: seq<string>): (r: ValidationResult)
    ensures SyntaxCode(r.code)
    ensures r.code == BadSyntax <==> |args| != 1
    ensures r.code == IndexOutOfRange <==>
              |args| == 1 && IsIntString(args[0]) && !(0 <= IntArg(args[0]) < |choices|)
    ensures r.code == ChoiceNotFound <==> |args| == 1 && !IsIntString(args[0]) && args[0] !in choices
  {
    if |args| != 1 then Invalid(BadSyntax, "choose requires exactly one argument")
    else if IsIntString(args[0]) then
      var idx := IntArg(args[0]);
      if idx < 0 || idx >= |choices| then Invalid(IndexOutOfRange, "choose index out of range")
      else Valid()
    else if args[0] !in choices then Invalid(ChoiceNotFound, "choose option not found in choice_list")
    else Valid()
  }

  /** `_validate_wait`: one non-negative integer. */
  function ValidateWait(args: seq<string>): (r: ValidationResult)
    ensures SyntaxCode(r.code)
    ensures r.IsValid() <==> |args| == 1 && IsIntString(args[0]) && IntArg(args[0]) >= 0
    ensures !r.IsValid() ==> r.code == BadSyntax
  {
    if |args| != 1 || !IsIntString(args[0]) then Invalid(BadSyntax, "wait requires integer duration")
    else if IntArg(args[0]) < 0 then Invalid(BadSyntax, "wait duration must be non-negative")
    else Valid()
  }

  /** What an accepted `play` command satisfies. */
  predicate PlayAccepted(args: seq<string>, extras: map<string, Json>) {
    && 1 <= |args| <= 2
    && IsIntString(args[0])
    && ExtraInt(extras, "hand_size").Some?
    && (var hand := ExtraInt(extras, "hand_size").value;
        hand <= 0 || 0 <= IntArg(args[0]) <= hand)
    && (|args| == 2 ==> TargetAccepted(args[1], extras))
  }

  /** What an accepted target index satisfies. */
  predicate TargetAccepted(arg: string, extras: map<string, Json>) {
    && IsIntString(arg)
    && ExtraInt(extras, "alive_monster_count").Some?
    && var alive := ExtraInt(extras, "alive_monster_count").value;
       alive <= 0 || 0 <= IntArg(arg) < alive
  }

  /**
   * `_validate_play`: a card index, bounded only when the hand size is known
   * to be positive (and then allowed to equal it), and an optional target
   * index below the count of living monsters when that is positive. Failure
   * is `int()` raising on an extras value.
   */
  function ValidatePlay(args: seq<string>, extras: map<string, Json>): (r: Result<ValidationResult>)
    ensures r.Success? ==> SyntaxCode(r.value.code)
    ensures r.Failure? ==> 1 <= |args| <= 2 && IsIntString(args[0])
    ensures r.Success? && r.value.IsValid() <==> PlayAccepted(args, extras)
  {
    if |args| != 1 && |args| != 2 then
      Success(Invalid(BadSyntax, "play requires card index and optional target index"))
    else if !IsIntString(args[0]) then Success(Invalid(BadSyntax, "play card index must be integer"))
    else
      match ExtraInt(extras, "hand_size")
      case None => Failure("ValueError: hand_size")
      case Some(hand) =>
        var card := IntArg(args[0]);
        if hand > 0 && (card < 0 || card > hand) then
          Success(Invalid(IndexOutOfRange, "play card index out of hand bounds"))
        else if |args| == 2 then ValidateTarget(args[1], extras)
        else Success(Valid())
  }

  /** The target half of `_validate_play`. */
  function ValidateTarget(arg: string, extras: map<string, Json>): (r: Result<ValidationResult>)
    ensures r.Success? ==> SyntaxCode(r.value.code)
    ensures r.Failure? ==> IsIntString(arg)
    ensures r.Success? && r.value.IsValid() <==> TargetAccepted(arg, extras)
  {
    if !IsIntString(arg) then Success(Invalid(BadSyntax, "play target index must be integer"))
    else
      match ExtraInt(extras, "alive_monster_count")
      case None => Failure("ValueError: alive_monster_count")
      case Some(alive) =>
        var target := IntArg(arg);
        if alive > 0 && (target < 0 || target >= alive) then
          Success(Invalid(IndexOutOfRange, "play target index out of bounds"))
        else Success(Valid())
  }

  predicate PotionAction(a: string) { a == "use" || a == "discard" }

  /** What an accepted `potion` command satisfies. */
  predicate PotionAccepted(args: seq<string>, extras: map<string, Json>) {
    && 2 <= |args| <= 3
    && PotionAction(args[0])
    && IsIntString(args[1])
    && (|args| == 3 ==> IsIntString(args[2]))
    && ExtraInt(extras, "potion_slots").Some?
    && (var slots := ExtraInt(extras, "potion_slots").value;
        slots <= 0 || 0 <= IntArg(args[1]) < slots)
  }

  /**
   * `_validate_potion`: `use` or `discard`, a slot index bounded by the slot
   * count when that is positive, and an optional integer target.
   */
  function ValidatePotion(args: seq<string>, extras: map<string, Json>): (r: Result<ValidationResult>)
    ensures r.Success? ==> SyntaxCode(r.value.code)
    ensures r.Failure? ==> 2 <= |args| <= 3 && PotionAction(args[0]) && IsIntString(args[1])
    ensures r.Success? && r.value.IsValid() <==> PotionAccepted(args, extras)
  {
    if |args| != 2 && |args| != 3 then
      Success(Invalid(BadSyntax, "potion command must be 'potion use|discard <idx> [target]' "))
    else if !PotionAction(args[0]) then
      Success(Invalid(BadSyntax, "potion action must be use or discard"))
    else if !IsIntString(args[1]) then Success(Invalid(BadSyntax, "potion index must be integer"))
    else
      match ExtraInt(extras, "potion_slots")
      case None => Failure("ValueError: potion_slots")
      case Some(slots) =>
        var idx := IntArg(args[1]);
        if slots > 0 && (idx < 0 || idx >= slots) then
          Success(Invalid(IndexOutOfRange, "potion index out of range"))
        else if |args| == 3 && !IsIntString(args[2]) then
          Success(Invalid(BadSyntax, "potion target index must be integer"))
        else Success(Valid())
  }

  /** Which syntax check a command name gets. */
  datatype Kind = Bare | Choose | Wait | Play | Potion | Unknown

  function KindOf(name: string): (k: Kind)
    ensures k == Bare <==> name in BareCommands
    ensures k == Unknown <==> name !in BareCommands + {"choose", "wait", "play", "potion"}
  {
    if name in BareCommands then Bare
    else if name == "choose" then Choose
    else if name == "wait" then Wait
    else if name == "play" then Play
    else if name == "potion" then Potion
    else Unknown
  }

  /** The command's name and arguments: `command.strip().split()`. */
  function Tokens(command: string): (r: seq<string>)
    ensures r == [] <==> Strip(command) == []
  {
    SplitWs(Strip(command))
  }

  /**
   * `validate_command`: empty commands first, then the named command's
   * availability and syntax. Failure is an exception from `int()` on an
   * extras value.
   */
  function ValidateCommand(ctx: AgentContext, command: string): (r: Result<ValidationResult>)
    ensures Strip(command) == [] <==> r.Success? && r.value.code == EmptyCommand
  {
    if Strip(command) == [] then Success(Invalid(EmptyCommand, "command is empty"))
    else ValidateTokens(ctx, Tokens(command))
  }

  /**
   * The rest of `validate_command` once the command has a name: availability
   * (with the `return` and `proceed` aliases) before any syntax check.
   */
  function ValidateTokens(ctx: AgentContext, tokens: seq<string>): (r: Result<ValidationResult>)
    requires tokens != []
    ensures r.Success? ==> r.value.code != EmptyCommand
    ensures !Available(tokens[0], ctx.availableCommands) <==> r.Success? && r.value.code == CommandNotAvailable
    ensures r.Failure? ==> KindOf(tokens[0]) == Play || KindOf(tokens[0]) == Potion
  {
    var name := tokens[0];
    var args := tokens[1..];
    if !Available(name, ctx.availableCommands) then
      Success(Invalid(CommandNotAvailable, name + " is not in available_commands"))
    else
      match KindOf(name)
      case Bare =>
        if args != [] then Success(Invalid(BadSyntax, name + " does not accept arguments"))
        else Success(Valid())
      case Choose => Success(ValidateChoose(args, ctx.choiceList))
      case Wait => Success(ValidateWait(args))
      case Play => ValidatePlay(args, ctx.extras)
      case Potion => ValidatePotion(args, ctx.extras)
      case Unknown => Success(Invalid(UnknownCommand, "unknown command syntax: " + name))
  }

  /** `is_valid`: the validator accepted the command. */
  predicate Accepts(ctx: AgentContext, command: string) {
    ValidateCommand(ctx, command).Success? && ValidateCommand(ctx, command).value.IsValid()
  }

  // ----- commands built from words -----

  /** A command as the advisors write it: words joined by single spaces. */
  function Command(words: seq<string>): string {
    Join(" ", words)
  }

  /** Validating a command built from words sees exactly those words. */
  lemma TokensOfCommand(words: seq<string>)
    requires words != [] && forall i :: 0 <= i < |words| ==> IsToken(words[i])
    ensures Tokens(Command(words)) == words
  {
    JoinedWordsTrimmed(words);
    var c := Command(words);
    assert LStrip(c) == c;
    assert RStrip(c) == c;
    SplitJoinedWords(words);
  }

  lemma IntWordIsToken(i: int)
    ensures IsToken(IntToString(i))
  {
    var s := IntToString(i);
    if i >= 0 {
      assert forall k :: 0 <= k < |s| ==> IsDigit(s[k]);
    } else {
      var d := NatToString(-i);
      assert s == "-" + d;
      assert forall k :: 1 <= k < |s| ==> s[k] == d[k - 1] && IsDigit(s[k]);
    }
  }

  lemma IntWordValue(i: int)
    ensures IsIntString(IntToString(i)) && IntArg(IntToString(i)) == i
  {
    ParseShownInt(i);
  }

  lemma ValidateWords(ctx: AgentContext, words: seq<string>)
    requires words != [] && forall i :: 0 <= i < |words| ==> IsToken(words[i])
    ensures ValidateCommand(ctx, Command(words)) == ValidateTokens(ctx, words)
  {
    TokensOfCommand(words);
  }

  // ----- what the validator promises -----

  /** Availability is decided before syntax: an offered-nowhere command is never malformed, only unavailable. */
  lemma AvailabilityFirst(ctx: AgentContext, words: seq<string>)
    requires words != [] && forall i :: 0 <= i < |words| ==> IsToken(words[i])
    requires !Available(words[0], ctx.availableCommands)
    ensures ValidateCommand(ctx, Command(words)) ==
              Success(Invalid(CommandNotAvailable, words[0] + " is not in available_commands"))
  {
    ValidateWords(ctx, words);
  }

  /** `return` stands for `leave` or `cancel`, `proceed` for `proceed` or `confirm`; other names for themselves. */
  lemma Aliases(name: string, offered: seq<string>)
    ensures name == "return" ==> (Available(name, offered) <==> "leave" in offered || "cancel" in offered)
    ensures name == "proceed" ==> (Available(name, offered) <==> "proceed" in offered || "confirm" in offered)
    ensures name != "return" && name != "proceed" ==> (Available(name, offered) <==> name in offered)
  {
    if name == "return" {
      if "leave" in offered { assert "leave" in Required(name); }
      if "cancel" in offered { assert "cancel" in Required(name); }
    } else if name == "proceed" {
      if "proceed" in offered { assert "proceed" in Required(name); }
      if "confirm" in offered { assert "confirm" in Required(name); }
    } else if name in offered {
      assert name in Required(name);
    }
  }

  /** The argument-less commands are accepted alone and rejected with any argument. */
  lemma BareCommand(ctx: AgentContext, words: seq<string>)
    requires words != [] && forall i :: 0 <= i < |words| ==> IsToken(words[i])
    requires words[0] in BareCommands && Available(words[0], ctx.availableCommands)
    ensures Accepts(ctx, Command(words)) <==> |words| == 1
    ensures |words| > 1 ==>
              ValidateCommand(ctx, Command(words)) == Success(Invalid(BadSyntax, words[0] + " does not accept arguments"))
  {
    ValidateWords(ctx, words);
    assert KindOf(words[0]) == Bare;
    assert ValidateTokens(ctx, words) ==
             if |words| > 1 then Success(Invalid(BadSyntax, words[0] + " does not accept arguments"))
             else Success(Valid());
  }

  /** A command built from words is accepted exactly when its words are. */
  lemma AcceptsWords(ctx: AgentContext, words: seq<string>)
    requires words != [] && forall i :: 0 <= i < |words| ==> IsToken(words[i])
    ensures Accepts(ctx, Command(words)) <==> ValidateTokens(ctx, words).Success? && ValidateTokens(ctx, words).value.IsValid()
  {
    ValidateWords(ctx, words);
  }

  /** The same, once the words' validation is known. */
  lemma AcceptedWhen(ctx: AgentContext, words: seq<string>, v: ValidationResult)
    requires words != [] && forall i :: 0 <= i < |words| ==> IsToken(words[i])
    requires ValidateTokens(ctx, words) == Success(v)
    ensures Accepts(ctx, Command(words)) <==> v.IsValid()
  {
    AcceptsWords(ctx, words);
  }

  lemma ChooseTokens(ctx: AgentContext, args: seq<string>)
    requires Available("choose", ctx.availableCommands)
    ensures ValidateTokens(ctx, ["choose"] + args) == Success(ValidateChoose(args, ctx.choiceList))
  {
    assert KindOf("choose") == Choose;
    assert (["choose"] + args)[1..] == args;
  }

  lemma WaitTokens(ctx: AgentContext, args: seq<string>)
    requires Available("wait", ctx.availableCommands)
    ensures ValidateTokens(ctx, ["wait"] + args) == Success(ValidateWait(args))
  {
    assert KindOf("wait") == Wait;
    assert (["wait"] + args)[1..] == args;
  }

  lemma PlayTokens(ctx: AgentContext, args: seq<string>)
    requires Available("play", ctx.availableCommands)
    ensures ValidateTokens(ctx, ["play"] + args) == ValidatePlay(args, ctx.extras)
  {
    assert KindOf("play") == Play;
    assert (["play"] + args)[1..] == args;
  }

  lemma PotionTokens(ctx: AgentContext, args: seq<string>)
    requires Available("potion", ctx.availableCommands)
    ensures ValidateTokens(ctx, ["potion"] + args) == ValidatePotion(args, ctx.extras)
  {
    assert KindOf("potion") == Potion;
    assert (["potion"] + args)[1..] == args;
  }

  /** `choose <i>` is accepted exactly for the indices of the choice list. */
  lemma ChooseIndex(ctx: AgentContext, i: int)
    requires Available("choose", ctx.availableCommands)
    ensures Accepts(ctx, Command(["choose", IntToString(i)])) <==> 0 <= i < |ctx.choiceList|
  {
    var w := IntToString(i);
    IntWordIsToken(i);
    IntWordValue(i);
    ChooseInt(w, ctx.choiceList, i);
    ChooseWord(ctx, w);
  }

  lemma ChooseInt(w: string, choices: seq<string>, i: int)
    requires IsIntString(w) && IntArg(w) == i
    ensures ValidateChoose([w], choices).IsValid() <==> 0 <= i < |choices|
  {
  }

  /** `choose <label>` with a non-numeric label is accepted exactly for the labels on offer. */
  lemma ChooseLabel(ctx: AgentContext, word: string)
    requires Available("choose", ctx.availableCommands)
    requires IsToken(word) && !IsIntString(word)
    ensures Accepts(ctx, Command(["choose", word])) <==> word in ctx.choiceList
  {
    ChooseOne(word, ctx.choiceList);
    ChooseWord(ctx, word);
  }

  /** A one-word `choose` is accepted exactly when the choice check passes. */
  lemma ChooseWord(ctx: AgentContext, word: string)
    requires Available("choose", ctx.availableCommands) && IsToken(word)
    ensures Accepts(ctx, Command(["choose", word])) <==> ValidateChoose([word], ctx.choiceList).IsValid()
  {
    var v := ValidateChoose([word], ctx.choiceList);
    ChooseTokens(ctx, [word]);
    assert IsToken("choose");
    AcceptedPair(ctx, "choose", word, v);
  }

  /** A two-word command is accepted exactly when its validation result says so. */
  lemma AcceptedPair(ctx: AgentContext, head: string, arg: string, v: ValidationResult)
    requires IsToken(head) && IsToken(arg)
    requires ValidateTokens(ctx, [head] + [arg]) == Success(v)
    ensures Accepts(ctx, Command([head, arg])) <==> v.IsValid()
  {
    var words := [head, arg];
    assert words == [head] + [arg];
    assert forall i :: 0 <= i < |words| ==> IsToken(words[i]);
    AcceptedWhen(ctx, words, v);
  }

  lemma ChooseOne(word: string, choices: seq<string>)
    requires !IsIntString(word)
    ensures ValidateChoose([word], choices).IsValid() <==> word in choices
  {
  }

  /** `wait <n>` is accepted exactly for non-negative durations. */
  lemma WaitDuration(ctx: AgentContext, n: int)
    requires Available("wait", ctx.availableCommands)
    ensures Accepts(ctx, Command(["wait", IntToString(n)])) <==> n >= 0
  {
    var w := IntToString(n);
    IntWordIsToken(n);
    IntWordValue(n);
    assert ["wait", w] == ["wait"] + [w];
    WaitTokens(ctx, [w]);
    AcceptedWhen(ctx, ["wait", w], ValidateWait([w]));
  }

  /**
   * `play <c>` with a known hand size `h`: any card when `h <= 0`, otherwise
   * `0 <= c <= h` (the hand size itself passes).
   */
  lemma PlayCard(ctx: AgentContext, c: int, h: int)
    requires Available("play", ctx.availableCommands)
    requires "hand_size" in ctx.extras && ctx.extras["hand_size"] == JInt(h)
    ensures Accepts(ctx, Command(["play", IntToString(c)])) <==> h <= 0 || 0 <= c <= h
  {
    var w := IntToString(c);
    IntWordIsToken(c);
    AcceptsWords(ctx, ["play", w]);
    assert ["play", w] == ["play"] + [w];
    PlayTokens(ctx, [w]);
    IntWordValue(c);
    PlayOne(w, ctx.extras, c, h);
  }

  lemma PlayOne(w: string, extras: map<string, Json>, c: int, h: int)
    requires IsIntString(w) && IntArg(w) == c
    requires "hand_size" in extras && extras["hand_size"] == JInt(h)
    ensures ValidatePlay([w], extras).Success?
    ensures ValidatePlay([w], extras).value.IsValid() <==> h <= 0 || 0 <= c <= h
  {
    assert ExtraInt(extras, "hand_size") == Some(h);
  }

  /** `play <c> <t>` on a playable card: the target must be below a positive count of living monsters. */
  lemma PlayTarget(ctx: AgentContext, c: int, t: int, alive: int)
    requires Available("play", ctx.availableCommands)
    requires "hand_size" !in ctx.extras
    requires "alive_monster_count" in ctx.extras && ctx.extras["alive_monster_count"] == JInt(alive)
    ensures Accepts(ctx, Command(["play", IntToString(c), IntToString(t)])) <==> alive <= 0 || 0 <= t < alive
  {
    var w := IntToString(c);
    var v := IntToString(t);
    IntWordIsToken(c);
    IntWordIsToken(t);
    AcceptsWords(ctx, ["play", w, v]);
    assert ["play", w, v] == ["play"] + [w, v];
    PlayTokens(ctx, [w, v]);
    IntWordValue(c);
    IntWordValue(t);
    PlayTwo(w, v, ctx.extras, t, alive);
  }

  lemma PlayTwo(w: string, v: string, extras: map<string, Json>, t: int, alive: int)
    requires IsIntString(w) && IsIntString(v) && IntArg(v) == t
    requires "hand_size" !in extras
    requires "alive_monster_count" in extras && extras["alive_monster_count"] == JInt(alive)
    ensures ValidatePlay([w, v], extras) == ValidateTarget(v, extras)
    ensures ValidateTarget(v, extras).Success?
    ensures ValidateTarget(v, extras).value.IsValid() <==> alive <= 0 || 0 <= t < alive
  {
    assert ExtraInt(extras, "hand_size") == Some(0);
    assert ExtraInt(extras, "alive_monster_count") == Some(alive);
  }

  /** `potion use|discard <i>` with `s` slots: any index when `s <= 0`, otherwise `0 <= i < s`. */
  lemma PotionSlot(ctx: AgentContext, action: string, i: int, s: int)
    requires Available("potion", ctx.availableCommands)
    requires action == "use" || action == "discard"
    requires "potion_slots" in ctx.extras && ctx.extras["potion_slots"] == JInt(s)
    ensures Accepts(ctx, Command(["potion", action, IntToString(i)])) <==> s <= 0 || 0 <= i < s
  {
    var w := IntToString(i);
    IntWordIsToken(i);
    assert IsToken(action);
    AcceptsWords(ctx, ["potion", action, w]);
    assert ["potion", action, w] == ["potion"] + [action, w];
    PotionTokens(ctx, [action, w]);
    IntWordValue(i);
    PotionOne(action, w, ctx.extras, i, s);
  }

  lemma PotionOne(action: string, w: string, extras: map<string, Json>, i: int, s: int)
    requires PotionAction(action)
    requires IsIntString(w) && IntArg(w) == i
    requires "potion_slots" in extras && extras["potion_slots"] == JInt(s)
    ensures ValidatePotion([action, w], extras).Success?
    ensures ValidatePotion([action, w], extras).value.IsValid() <==> s <= 0 || 0 <= i < s
  {
    assert ExtraInt(extras, "potion_slots") == Some(s);
  }

  /** A `play` command of any shape is accepted exactly when its arguments are. */
  lemma PlayAcceptedExactly(ctx: AgentContext, words: seq<string>)
    requires words != [] && forall i :: 0 <= i < |words| ==> IsToken(words[i])
    requires words[0] == "play" && Available("play", ctx.availableCommands)
    ensures Accepts(ctx, Command(words)) <==> PlayAccepted(words[1..], ctx.extras)
  {
    var args := words[1..];
    var r := ValidatePlay(args, ctx.extras);
    assert words == ["play"] + args;
    PlayTokens(ctx, args);
    AcceptsWords(ctx, words);
    assert Accepts(ctx, Command(words)) <==> r.Success? && r.value.IsValid();
  }

  /** A `potion` command of any shape is accepted exactly when its arguments are. */
  lemma PotionAcceptedExactly(ctx: AgentContext, words: seq<string>)
    requires words != [] && forall i :: 0 <= i < |words| ==> IsToken(words[i])
    requires words[0] == "potion" && Available("potion", ctx.availableCommands)
    ensures Accepts(ctx, Command(words)) <==> PotionAccepted(words[1..], ctx.extras)
  {
    var args := words[1..];
    var r := ValidatePotion(args, ctx.extras);
    assert words == ["potion"] + args;
    PotionTokens(ctx, args);
    AcceptsWords(ctx, words);
    assert Accepts(ctx, Command(words)) <==> r.Success? && r.value.IsValid();
  }

  /** An offered name the validator has no syntax for is never accepted. */
  lemma UnknownName(ctx: AgentContext, words: seq<string>)
    requires words != [] && forall i :: 0 <= i < |words| ==> IsToken(words[i])
    requires Available(words[0], ctx.availableCommands)
    requires words[0] !in BareCommands + {"choose", "wait", "play", "potion"}
    ensures ValidateCommand(ctx, Command(words)) ==
              Success(Invalid(UnknownCommand, "unknown command syntax: " + words[0]))
  {
    assert KindOf(words[0]) == Unknown;
    UnknownTokens(ctx, words);
    ValidateWords(ctx, words);
  }

  lemma UnknownTokens(ctx: AgentContext, tokens: seq<string>)
    requires tokens != [] && Available(tokens[0], ctx.availableCommands) && KindOf(tokens[0]) == Unknown
    ensures ValidateTokens(ctx, tokens) == Success(Invalid(UnknownCommand, "unknown command syntax: " + tokens[0]))
  {
  }
}

=== FILE: wrappers.dfy ===
/** Optional values and fallible results shared by every module of the model. */
module Wrappers {
  /** A value that may be missing (Python's `None`). */
  datatype Option<T> = None | Some(value: T) {
    function GetOr(default: T): (r: T)
      ensures Some? ==> r == value
      ensures None? ==> r == default
    {
      match this
      case None => default
      case Some(v) => v
    }
  }

  /** The outcome of a Python call that either returns a value or raises. */
  datatype Result<T> = Success(value: T) | Failure(error: string)
}
